=== FILE: README.md ===
# JBossXB and JBoss common utilities: a Dafny model of the core

This project models the core of the JBossXB unmarshaller and of a set of
JBoss common utility classes as pure Dafny functions, lemmas and small
methods, and proves what the Java code promises about them.

The unmarshaller part:

- **Content model** (`ContentModel`, `CopyOnWrite`, `ChoiceBinding`). Model
  groups live in an arena keyed by group identity, so a group that contains
  itself can be written down. A cursor records the group it walks, its
  position, its occurrence count and the element it matched; the groups
  passed on the way are a parameter of each call.
- **Choice cursor, old revision** (`ChoiceCursor`). This is
  `ChoiceBinding.newCursor` and `ModelGroupBinding.getElement` from the
  `src/main/org` tree: `startElement`, `getElement`, `endElement`,
  `getCurrentParticle` and `getCurrentElement`.
- **Choice cursor, new revision** (`ChoiceNext`). This is `ChoiceBinding`
  from the `src/main/java` tree. On choices whose alternatives are all
  elements, it is proved to agree with the old revision for a fresh cursor.
- **SAX handler** (`SundayHandler`). This is the `startElement`, `endElement`
  and `characters` path of `SundayContentHandler`: the stack of element and
  cursor frames, interceptors, nil handling and the text buffer.
- **Element types** (`ElementType`). This is `ElementTypeImpl`'s chain of
  element handlers.
- **Object model builder** (`ObjectModel`). This is `ObjectModelBuilder`:
  prefix mappings, factory lookup and the `all`/`accepted` stacks.
- **Value lists** (`ValueList`). This is `ValueListInitializer`: the
  numbering of required bindings and the initialization checksum.

The utilities:

- the `TimeoutFactory` heap (`TimeoutQueue`);
- `StringArrayEditor` and `CollectionEditor`, with `String.trim` and
  `StringTokenizer` in `Text`;
- `XmlHelper`;
- `PropertyGroup`;
- `UID` (`Uid`);
- `AutoResetObjectOutputStream` (`AutoResetStream`);
- `MarshalledValue`;
- `TCLStack` (`TclStack`);
- the namespace and attribute bookkeeping of `XsMarshaller`;
- `DavURLLister.getFilePartFromUrl`;
- `JarArchiveBrowser`.

Modelling conventions:

- **Values and state.** Java objects are immutable datatypes and each
  mutating method returns the new state.
- **Null and exceptions.** `null` is `None`. A thrown exception is an `Err`
  carrying the exception's kind.
- **Integer widths.** `int` and `long` are subset types of the unbounded
  integers, and arithmetic that can overflow wraps explicitly through
  `JavaNum.Wrap32` and `JavaNum.Wrap64`.
- **Outside calls.** Calls into code outside the modelled classes are
  parameters of the model. These include the type handlers, interceptors,
  object model factories, the system clock, the thread context class
  loader and the bytes of a serialized object.

## Model

| member | source | states |
|---|---|---|
| TclStack.Push | src/main/org/jboss/util/TCLStack.java:59-76 | the old TCL goes on top of the stack, everything below stays, and the new TCL is `cl` unless `cl` is null, which leaves the TCL unchanged |
| TclStack.Pop | src/main/org/jboss/util/TCLStack.java:85-108 | on an empty stack nothing changes and null is returned; otherwise the top of the stack becomes the TCL, is removed, and the previous TCL is returned |
| TclStack.Size | src/main/org/jboss/util/TCLStack.java:113-116 | the number of saved class loaders |
| TclStack.Get | src/main/org/jboss/util/TCLStack.java:129-132 | the loader at `index` counted from the bottom; an index outside the stack throws `ArrayIndexOutOfBoundsException` |
| TclStack.PushThenPop | src/main/org/jboss/util/TCLStack.java:59-108 | a pop right after a push restores TCL and stack and returns the TCL the push set |
| TclStack.PushKeepsBelow | src/main/org/jboss/util/TCLStack.java:59-76 | a push leaves every saved loader at its index and puts the old TCL at the new top index |
| TclStack.RunKeepsBottom | src/main/org/jboss/util/TCLStack.java:59-108 | while pops never outnumber pushes, the original stack stays at the bottom, the depth counts pushes minus pops, and the original TCL sits just above it or is current again |
| TclStack.BalancedRestores | src/main/org/jboss/util/TCLStack.java:59-108 | any balanced bracketing of pushes and pops restores both the stack and the thread's context class loader |
| Uid.NewUid | src/main/org/jboss/util/id/UID.java:56-68 | the getters return the time and counter value it was made from |
| Uid.CopyUid | src/main/org/jboss/util/id/UID.java:73-76 | the copy equals the original in both directions and has the same time and id |
| Uid.DigitChar | src/main/org/jboss/util/id/UID.java:101-106 | the base-36 digit character of a value below 36 reads back as that value |
| Uid.Digits | src/main/org/jboss/util/id/UID.java:101-106 | the base-36 text of a magnitude is non-empty and made of digits only |
| Uid.LongToString | src/main/org/jboss/util/id/UID.java:101-106 | `Long.toString(x, 36)` starts with a minus sign exactly for negative `x` and is digits otherwise |
| Uid.DigitsRoundTrip | src/main/org/jboss/util/id/UID.java:101-106 | reading the base-36 digits back gives the number |
| Uid.LongRoundTrip | src/main/org/jboss/util/id/UID.java:101-106 | parsing `Long.toString(x, 36)` in radix 36 gives `x` back, sign included |
| Uid.ToString | src/main/org/jboss/util/id/UID.java:101-106 | the text has at least three characters, and the first dash after the first character separates the time from the id |
| Uid.FirstDashFrom | src/main/org/jboss/util/id/UID.java:101-106 | the first dash at or after a position, with no dash before it |
| Uid.DashAfterLong | src/main/org/jboss/util/id/UID.java:101-106 | in `time + "-" + id` the separator is the first dash after the first character, whatever the sign of the time |
| Uid.ToStringRoundTrip | src/main/org/jboss/util/id/UID.java:101-106 | the text form determines the time and the id: reading it back gives both |
| Uid.HashCode | src/main/org/jboss/util/id/UID.java:113-115 | the hash is the upper half of `time ^ id`, so an identifier whose time equals its id hashes to 0 |
| Uid.EqualsMeaning | src/main/org/jboss/util/id/UID.java:113-135 | `equals` is reflexive, symmetric and transitive, is false for null, holds exactly for the same class and the same text form, and equal identifiers hash alike |
| Uid.NewFactory | src/main/org/jboss/util/id/UID.java:156-160 | a factory's counter starts at zero |
| Uid.Create | src/main/org/jboss/util/id/UID.java:165-168 | the new identifier is stamped with the clock value and carries the incremented counter, which wraps from the largest `long` to the smallest |
| Uid.CreateNumbers | src/main/org/jboss/util/id/UID.java:156-168 | short of overflow, successive calls number their identifiers one after another from the counter, so no two of them are equal |
| AutoResetStream.SetResetAfter | src/main/org/jboss/util/stream/AutoResetObjectOutputStream.java:72-77 | a non-positive interval throws `IllegalArgumentException` and changes nothing; otherwise only the interval changes |
| AutoResetStream.NewStream | src/main/org/jboss/util/stream/AutoResetObjectOutputStream.java:56-62 | the constructor fails exactly for a non-positive interval; otherwise it yields a stream with no writes counted and no resets |
| AutoResetStream.Reset | src/main/org/jboss/util/stream/AutoResetObjectOutputStream.java:120-123 | a reset zeroes the count, keeps the interval, and is one more reset of the underlying stream |
| AutoResetStream.Write | src/main/org/jboss/util/stream/AutoResetObjectOutputStream.java:106-113 | a write counts one more object and resets the stream exactly when the count reaches the interval, so the count stays below the interval |
| AutoResetStream.WriteMany | src/main/org/jboss/util/stream/AutoResetObjectOutputStream.java:106-113 | any number of writes keeps the count below the interval |
| AutoResetStream.WriteManyCounts | src/main/org/jboss/util/stream/AutoResetObjectOutputStream.java:106-123 | after `n` writes, the count plus one interval per reset equals the old count plus `n` |
| AutoResetStream.LowerIntervalThenWrite | src/main/org/jboss/util/stream/AutoResetObjectOutputStream.java:72-113 | an interval lowered to the current count or below makes the next write reset the stream |
| MarshalledValue.NewEmpty | src/main/org/jboss/interception/MarshalledValue.java:52-55 | the no-argument constructor has no serialized form, no buffer, and no hash computed |
| MarshalledValue.NewOfAsWritten | src/main/org/jboss/interception/MarshalledValue.java:57-65 | the constructor as written fills the buffer with the object's bytes but leaves the serialized form null |
| MarshalledValue.NewOf | src/main/org/jboss/interception/MarshalledValue.java:57-65 | the corrected constructor keeps the bytes both as the buffer and as the serialized form |
| MarshalledValue.Get | src/main/org/jboss/interception/MarshalledValue.java:67-75 | no serialized form gives null; otherwise the outcome is the deserializer's on the form, failing exactly when it fails |
| MarshalledValue.Size | src/main/org/jboss/interception/MarshalledValue.java:82-86 | the length of the serialized form, and 0 exactly when there is none or it is empty |
| MarshalledValue.HashCode | src/main/org/jboss/interception/MarshalledValue.java:93-109 | a hash not yet computed is the wrapped `31 * h + b` polynomial over the form's signed bytes, and a null form throws `NullPointerException`; the value itself is left as it was, because the flag is never set |
| MarshalledValue.EqualsMeaning | src/main/org/jboss/interception/MarshalledValue.java:93-130 | `equals` is reflexive, symmetric and transitive and false for null, means both forms are null or equal byte for byte, and equal values hash alike |
| MarshalledValue.ReadExternal | src/main/org/jboss/interception/MarshalledValue.java:145-155 | a positive length reads that many bytes as the new form and fails when the input is shorter; a length of zero or less leaves no form; the hash is marked stale |
| MarshalledValue.WriteExternal | src/main/org/jboss/interception/MarshalledValue.java:173-177 | the buffer's length is written, then its bytes; with no buffer it throws `NullPointerException` |
| MarshalledValue.TransferRoundTrip | src/main/org/jboss/interception/MarshalledValue.java:57-177 | with the corrected constructor, writing a value out and reading it back gives an equal value with the same hash |
| MarshalledValue.AsWrittenForgetsForm | src/main/org/jboss/interception/MarshalledValue.java:57-130 | with the constructor as written, a value differs from its own transferred copy, any two constructed values are equal, and `get` answers null |
| TimeoutQueue.NewFactory | src/main/org/jboss/util/timeout/TimeoutFactory.java:252-258 | a new factory holds no timeouts in a 16-slot array, satisfies the `checkTree` and `checkFreeList` invariants, and is not cancelled |
| TimeoutQueue.RootIsEarliest | src/main/org/jboss/util/timeout/TimeoutFactory.java:361-382 | in a tree that passes `checkTree`, slot 1 fires no later than any queued timeout |
| TimeoutQueue.Swap | src/main/org/jboss/util/timeout/TimeoutFactory.java:397-410 | two slots trade places, and each timeout's recorded index follows it |
| TimeoutQueue.SwapContents | src/main/org/jboss/util/timeout/TimeoutFactory.java:397-410 | a swap keeps the multiset of queued timeouts |
| TimeoutQueue.NormalizeUp | src/main/org/jboss/util/timeout/TimeoutFactory.java:420-441 | reports whether the node moved, which happens exactly when it fires before its parent; when it moved the heap order holds again; timeouts off the heap keep their index |
| TimeoutQueue.EarlierChild | src/main/org/jboss/util/timeout/TimeoutFactory.java:475-502 | the child of `n` chosen by the sift-down fires no later than any child of `n` |
| TimeoutQueue.SiftDown | src/main/org/jboss/util/timeout/TimeoutFactory.java:467-504 | moving a node down until no child fires before it restores the heap order and keeps the queued multiset |
| TimeoutQueue.RemoveNode | src/main/org/jboss/util/timeout/TimeoutFactory.java:448-506 | returns the timeout that was at slot `k`; the rest stay queued in heap order, the queue is one shorter, and the removed timeout is no longer indexed on the heap |
| TimeoutQueue.Grown | src/main/org/jboss/util/timeout/TimeoutFactory.java:515-520 | a full array doubles and keeps its prefix; the new slots are empty |
| TimeoutQueue.NewTimeout | src/main/org/jboss/util/timeout/TimeoutFactory.java:511-541 | the timeout is added to the queued multiset at a slot its index names, taking its id from the head of the free list when there is one, and the invariants still hold |
| TimeoutQueue.Schedule | src/main/org/jboss/util/timeout/TimeoutFactory.java:285-295 | a cancelled factory throws `IllegalStateException`, and a non-positive time or a null target throws `IllegalArgumentException`; otherwise the timeout is queued as by `newTimeout` |
| TimeoutQueue.Cancel | src/main/org/jboss/util/timeout/TimeoutFactory.java:314-327 | only the cancelled flag changes, and the invariants still hold |
| TimeoutQueue.DropTimeout | src/main/org/jboss/util/timeout/TimeoutFactory.java:546-572 | a timeout that is not queued is left alone; a queued one leaves the multiset, is marked done and goes to the front of the free list, and the invariants still hold |
| TimeoutQueue.DropKeeps | src/main/org/jboss/util/timeout/TimeoutFactory.java:546-572 | after `removeNode`, marking the timeout done and freeing its id keeps both invariants |
| TimeoutQueue.ScheduleThenDrop | src/main/org/jboss/util/timeout/TimeoutFactory.java:285-295 | cancelling a timeout right after scheduling it gives back the same queued multiset and a valid heap of the same size |
| JavaNum.Wrap32 | src/main/org/jboss/interception/MarshalledValue.java:101-104 | Java `int` arithmetic: the result agrees with the exact value modulo 2^32, and equals it when it fits |
| JavaNum.Wrap64 | src/main/org/jboss/util/id/UID.java:165-168 | Java `long` arithmetic: the result agrees with the exact value modulo 2^64, and equals it when it fits |
| JavaNum.Hash31IsPoly | src/main/org/jboss/interception/MarshalledValue.java:99-105 | the `h = 31 * h + b` loop in `int` arithmetic is the polynomial over the bytes reduced once at the end |
| JavaNum.Hash31Snoc | src/main/org/jboss/interception/MarshalledValue.java:99-105 | one more byte is one more step of the loop |
| JavaNum.CharCodes | src/main/org/jboss/xb/binding/group/ValueListInitializer.java:44 | the text `QName.hashCode` hashes is the name's UTF-16 code units: every unit fits in 16 bits, there are between one and two per character, and a text within the Basic Multilingual Plane has exactly its characters' codes |
| JavaNum.CharCodesRoundTrip | src/main/org/jboss/xb/binding/group/ValueListInitializer.java:44 | the code units determine the text: decoding them, surrogate pairs included, gives the text back |
| JavaNum.SupplementaryHashesAsPair | src/main/org/jboss/xb/binding/group/ValueListInitializer.java:44 | a character above U+FFFF is hashed as its two surrogates: U+1F600 hashes to 31 * 0xD83D + 0xDE00 |
| Text.TrimStart | src/main/org/jboss/util/propertyeditor/CollectionEditor.java:40 | `String.trim`, leading part: a suffix of the text, with only characters up to `' '` removed and a kept first character above `' '` |
| Text.TrimEnd | src/main/org/jboss/util/propertyeditor/CollectionEditor.java:40 | `String.trim`, trailing part: a prefix of the text, with only characters up to `' '` removed and a kept last character above `' '` |
| Text.Trim | src/main/org/jboss/util/propertyeditor/CollectionEditor.java:40 | `String.trim`: a slice of the text that leaves out only characters up to `' '` on either side and neither starts nor ends with one |
| Text.TrimIsIdempotent | src/main/org/jboss/util/propertyeditor/CollectionEditor.java:40 | trimming twice is trimming once |
| Text.Tokens | src/main/org/jboss/util/propertyeditor/CollectionEditor.java:35-41 | `StringTokenizer`: every token is non-empty and holds no delimiter |
| Text.TokensOfJoin | src/main/org/jboss/util/propertyeditor/CollectionEditor.java:35-41 | tokenizing non-empty, delimiter-free strings joined by a delimiter gives those strings back |
| StringArrayEditor.ParseListAsWritten | src/main/org/jboss/util/propertyeditor/StringArrayEditor.java:32-67 | `parseList` as written: it throws `StringIndexOutOfBoundsException` exactly when the text ends in a backslash, and otherwise agrees with `ParseList` |
| StringArrayEditor.TrailingBackslashFails | src/main/org/jboss/util/propertyeditor/StringArrayEditor.java:41-47 | `"a\"` makes the code as written throw, while the corrected parse returns the element `a\` |
| StringArrayEditor.ParseList | src/main/org/jboss/util/propertyeditor/StringArrayEditor.java:32-67 | the corrected `parseList`: never fails, and every element is non-empty and free of line breaks |
| StringArrayEditor.ScanAsWritten | src/main/org/jboss/util/propertyeditor/StringArrayEditor.java:36-60 | the scan as written fails exactly when the rest of the text ends in a backslash, and otherwise agrees with the corrected scan |
| StringArrayEditor.GetAsText | src/main/org/jboss/util/propertyeditor/StringArrayEditor.java:82-99 | a null value is the empty text; otherwise the elements are joined by commas, with an element that is just a comma escaped as `\,` |
| StringArrayEditor.GetAsTextJoins | src/main/org/jboss/util/propertyeditor/StringArrayEditor.java:85-98 | writing a comma after each element and then dropping the last character is the comma-joined list |
| StringArrayEditor.ParseListOfGetAsText | src/main/org/jboss/util/propertyeditor/StringArrayEditor.java:32-99 | `setAsText(getAsText(v))` gives `v` back when every element is `","` or non-empty without separators and backslashes |
| StringArrayEditor.ScanJoin | src/main/org/jboss/util/propertyeditor/StringArrayEditor.java:36-62 | scanning the escaped, comma-joined elements appends exactly those elements |
| CollectionEditor.CreateCollection | src/main/org/jboss/util/propertyeditor/CollectionEditor.java:27-30 | the new collection is empty |
| CollectionEditor.SetAsText | src/main/org/jboss/util/propertyeditor/CollectionEditor.java:32-44 | one element per comma-separated token, each trimmed, in order; no element holds a comma or has blanks at its ends |
| CollectionEditor.SetAsTextOfJoin | src/main/org/jboss/util/propertyeditor/CollectionEditor.java:32-44 | the comma-joined text of non-empty, comma-free, trimmed strings reads back as those strings |
| XmlHelper.Tagged | src/main/org/jboss/util/xml/XmlHelper.java:48-57 | the kept children are element children with the tag, and every such child is kept |
| XmlHelper.TaggedAppend | src/main/org/jboss/util/xml/XmlHelper.java:48-57 | the filter keeps document order: filtering two runs of children is filtering each and concatenating |
| XmlHelper.GetChildrenByTagName | src/main/org/jboss/util/xml/XmlHelper.java:41-58 | null exactly for a null element; otherwise the direct children with the tag |
| XmlHelper.GetUniqueChild | src/main/org/jboss/util/xml/XmlHelper.java:71-87 | succeeds exactly when one child matches and returns it; none or two or more throw |
| XmlHelper.GetOptionalChild | src/main/org/jboss/util/xml/XmlHelper.java:115-132 | no match gives the default, one match gives that child, and more than one throws |
| XmlHelper.TextOfAppend | src/main/org/jboss/util/xml/XmlHelper.java:159-172 | the content of two runs of children is the concatenation of their contents |
| XmlHelper.TextOfIgnores | src/main/org/jboss/util/xml/XmlHelper.java:161-172 | a comment or any other non-text child adds nothing to the content |
| XmlHelper.GetElementContent | src/main/org/jboss/util/xml/XmlHelper.java:153-174 | the default for a null element; otherwise the trimmed concatenation of the element's text and CDATA children |
| XmlHelper.ContentIsTrimmed | src/main/org/jboss/util/xml/XmlHelper.java:153-174 | the content of an element is always present and has no blanks at its ends left to trim: trimming it again leaves it unchanged |
| XmlHelper.ContentIgnoresNonText | src/main/org/jboss/util/xml/XmlHelper.java:153-174 | a comment or other non-text child, wherever it is inserted, leaves the element's content unchanged |
| XmlHelper.ContentOfSplit | src/main/org/jboss/util/xml/XmlHelper.java:153-174 | the content of an element is the trimmed join of the text of its first children and of the rest |
| XmlHelper.GetUniqueChildContent | src/main/org/jboss/util/xml/XmlHelper.java:183-188 | the trimmed text content of the only matching child; throws unless exactly one child matches |
| XmlHelper.GetOptionalChildContent | src/main/org/jboss/util/xml/XmlHelper.java:197-202 | null when nothing matches, the trimmed content of the one matching child, and an exception for more than one |
| XmlHelper.Lower | src/main/org/jboss/util/xml/XmlHelper.java:209 | lower-casing keeps the length and maps each character on its own |
| XmlHelper.GetOptionalChildBooleanContent | src/main/org/jboss/util/xml/XmlHelper.java:204-214 | true exactly when one child matches and its trimmed content is "true" or "yes" in any mix of case; two matches throw |
| XmlHelper.IsYesMeansLowered | src/main/org/jboss/util/xml/XmlHelper.java:209-210 | comparing the lower-cased text with "true" and "yes" is the same as a case-blind comparison |
| XmlHelper.LowerMatches | src/main/org/jboss/util/xml/XmlHelper.java:209-210 | a lower-cased text equals a lower-case word exactly when it spells that word in any case |
| PropertyGroup.NewGroup | src/main/org/jboss/util/property/PropertyGroup.java:60-68 | a null base name throws `NullArgumentException`; otherwise the group has that base name over the given properties |
| PropertyGroup.MakePropertyName | src/main/org/jboss/util/property/PropertyGroup.java:85-98 | the full name starts with the base name and ends with the suffix |
| PropertyGroup.MakePropertyNameInjective | src/main/org/jboss/util/property/PropertyGroup.java:85-98 | different suffixes name different properties |
| PropertyGroup.ContainsKey | src/main/org/jboss/util/property/PropertyGroup.java:106-112 | a null name throws; otherwise whether the full name is a property |
| PropertyGroup.Get | src/main/org/jboss/util/property/PropertyGroup.java:135-141 | a null name throws; otherwise the value stored under the full name, null when there is none |
| PropertyGroup.Put | src/main/org/jboss/util/property/PropertyGroup.java:121-127 | a null name throws; otherwise the full name maps to the value, the previous value is returned, and nothing else changes |
| PropertyGroup.Remove | src/main/org/jboss/util/property/PropertyGroup.java:149-155 | a null name throws; otherwise the full name is removed and its previous value returned, and the base name, separator and bound listeners stay |
| PropertyGroup.PutThenGet | src/main/org/jboss/util/property/PropertyGroup.java:121-141 | after a put, `get` and `containsKey` see the value under that name, and every other name reads as before |
| PropertyGroup.RemoveThenGet | src/main/org/jboss/util/property/PropertyGroup.java:135-155 | after a remove the name reads null, and every other name reads as before |
| PropertyGroup.GroupKeys | src/main/org/jboss/util/property/PropertyGroup.java:170-174 | the entry set holds exactly the keys that start with the base name |
| PropertyGroup.EntrySetSize | src/main/org/jboss/util/property/PropertyGroup.java:176-190 | the counting loop returns the number of keys in the group |
| PropertyGroup.EntrySetHasSiblings | src/main/org/jboss/util/property/PropertyGroup.java:170-174 | every property of the group is in its entry set, and so is any key that merely starts with the base name |
| PropertyGroup.NewEntryIter | src/main/org/jboss/util/property/PropertyGroup.java:194-198 | a new iterator has nothing pending and all keys ahead |
| PropertyGroup.HasNext | src/main/org/jboss/util/property/PropertyGroup.java:200-223 | true exactly when an entry is pending or a group key lies ahead; a pending entry stops the scan, and otherwise the scan sets the next group key aside |
| PropertyGroup.Next | src/main/org/jboss/util/property/PropertyGroup.java:225-234 | returns and clears the pending entry; with none pending it throws `NoSuchElementException` |
| PropertyGroup.NextNeedsHasNext | src/main/org/jboss/util/property/PropertyGroup.java:200-234 | `next` on a fresh iterator throws, and after `hasNext` answers true it returns the first group key |
| PropertyGroup.AddPropertyListener | src/main/org/jboss/util/property/PropertyGroup.java:253-275 | the listener ends up in the property's list; it is appended and told it is bound exactly when it was not there; other lists and the properties are unchanged; no list gains a duplicate |
| PropertyGroup.RemoveFirst | src/main/org/jboss/util/property/PropertyGroup.java:296 | `List.remove` takes out one occurrence when there is one and keeps every other element |
| PropertyGroup.RemovePropertyListener | src/main/org/jboss/util/property/PropertyGroup.java:286-304 | answers whether the listener was in the property's list, and removes one occurrence; other lists are unchanged |
| PropertyGroup.AddThenRemove | src/main/org/jboss/util/property/PropertyGroup.java:253-304 | removing a listener right after adding it always reports removed and leaves it out of the list |
| ValueList.NewInitializer | src/main/org/jboss/xb/binding/group/ValueListInitializer.java:25-28 | a new initializer requires nothing and indexes no name |
| ValueList.AddRequiredAttribute | src/main/org/jboss/xb/binding/group/ValueListInitializer.java:30-45 | the attribute name gets the next index in the required list, the binding goes at that index, and the expected state grows by the name's absolute hash in `int` arithmetic; the index stays consistent |
| ValueList.AddRequiredElement | src/main/org/jboss/xb/binding/group/ValueListInitializer.java:47-62 | the element name gets the next index in the required list, the binding goes at that index, and the expected state grows by the name's absolute hash in `int` arithmetic; the index stays consistent |
| ValueList.DenseIndices | src/main/org/jboss/xb/binding/group/ValueListInitializer.java:47-62 | registering distinct element names one after another numbers them consecutively from the current size, keeps the earlier bindings, and puts each binding at its name's index |
| ValueList.BindingsAppended | src/main/org/jboss/xb/binding/group/ValueListInitializer.java:47-62 | registering a run of elements appends their bindings in order |
| ValueList.DenseAt | src/main/org/jboss/xb/binding/group/ValueListInitializer.java:47-62 | the `i`-th of distinct registered names ends up at index size plus `i` |
| ValueList.RegisteredStays | src/main/org/jboss/xb/binding/group/ValueListInitializer.java:47-62 | registering other names leaves an earlier name's index alone |
| ValueList.NothingRequiredIsInitialized | src/main/org/jboss/xb/binding/group/ValueListInitializer.java:103-106 | a value list that requires nothing counts as initialized whatever its state |
| ValueList.AddValue | src/main/org/jboss/xb/binding/group/ValueListInitializer.java:69-101 | an unindexed name is set as a non-required value; an indexed one fails with a binding exception exactly when the list is already initialized, and otherwise sets the required value at its index with the name's hash |
| ValueList.AddAttributeValue | src/main/org/jboss/xb/binding/group/ValueListInitializer.java:69-84 | as `AddValue` over the attribute index, and a required value lands on an attribute binding |
| ValueList.AddElementValue | src/main/org/jboss/xb/binding/group/ValueListInitializer.java:86-101 | as `AddValue` over the element index, and a required value lands on an element binding |
| ValueList.Lookup | src/main/org/jboss/xb/binding/group/ValueListInitializer.java:108-136 | a name reads from its required slot when it is indexed, and by name otherwise |
| ValueList.GetAttributeValue | src/main/org/jboss/xb/binding/group/ValueListInitializer.java:108-121 | attribute values are read through the attribute index, and a required slot is inside the required list |
| ValueList.GetElementValue | src/main/org/jboss/xb/binding/group/ValueListInitializer.java:123-136 | element values are read through the element index, and a required slot is inside the required list |
| ValueList.SetAndGetAgree | src/main/org/jboss/xb/binding/group/ValueListInitializer.java:86-136 | a value added for an element is read back from the same place: the same required index, or the same name |
| ElementType.NewElementType | src/main/org/jboss/xml/binding/sunday/unmarshalling/impl/ElementTypeImpl.java:30 | a new element type has no handlers |
| ElementType.PushElementHandler | src/main/org/jboss/xml/binding/sunday/unmarshalling/impl/ElementTypeImpl.java:32-45 | the handler goes after the others, whichever list shape held them |
| ElementType.GetLastHandler | src/main/org/jboss/xml/binding/sunday/unmarshalling/impl/ElementTypeImpl.java:145-158 | returns the last handler; with no handlers it first pushes the default handler, which is then the only one |
| ElementType.Chain | src/main/org/jboss/xml/binding/sunday/unmarshalling/impl/ElementTypeImpl.java:94-113 | the objects the handlers build start with the first handler's result on the parent and stop at the first null |
| ElementType.ChainLinks | src/main/org/jboss/xml/binding/sunday/unmarshalling/impl/ElementTypeImpl.java:94-113 | each built object comes from the next handler applied to the object before it, and the handler after the last built object returned null |
| ElementType.Start | src/main/org/jboss/xml/binding/sunday/unmarshalling/impl/ElementTypeImpl.java:87-115 | no handlers throw `IllegalStateException`; otherwise the built objects are pushed in order and the index advances by their number |
| ElementType.End | src/main/org/jboss/xml/binding/sunday/unmarshalling/impl/ElementTypeImpl.java:117-141 | a range of zero or less returns null and touches nothing; otherwise the range's objects are popped and each handler's `end` is called from the innermost out, with the first popped object returned; too short a stack or handler list throws |
| ElementType.StartThenEnd | src/main/org/jboss/xml/binding/sunday/unmarshalling/impl/ElementTypeImpl.java:87-141 | ending what `start` began restores the stack, returns the first built object, and ends each built object with the handler that built it, innermost first |
| ObjectModel.NewBuilder | src/main/org/jboss/xml/binding/ObjectModelBuilder.java:41-73 | a new builder has no root, empty stacks and buffer, made no factory calls, and resolves no prefix |
| ObjectModel.MapFactory | src/main/org/jboss/xml/binding/ObjectModelBuilder.java:77-84 | the namespace now selects the factory, and every other namespace selects what it did before |
| ObjectModel.GetFactory | src/main/org/jboss/xml/binding/ObjectModelBuilder.java:271-279 | a mapped namespace selects its factory; any other selects the default |
| ObjectModel.UnmappedUsesDefault | src/main/org/jboss/xml/binding/ObjectModelBuilder.java:271-279 | a namespace never mapped selects the default factory |
| ObjectModel.ResolvePrefix | src/main/org/jboss/xml/binding/ObjectModelBuilder.java:117-130 | a prefix resolves exactly when its stack of bindings is non-empty, and then to the innermost binding |
| ObjectModel.StartPrefixMapping | src/main/org/jboss/xml/binding/ObjectModelBuilder.java:164-173 | the prefix now resolves to the new namespace, the other prefixes resolve as before, and nothing else changes |
| ObjectModel.EndPrefixMapping | src/main/org/jboss/xml/binding/ObjectModelBuilder.java:175-182 | an unknown prefix is ignored; an emptied stack throws `NoSuchElementException`; otherwise the innermost binding is dropped and other prefixes are unaffected |
| ObjectModel.PrefixMappingNests | src/main/org/jboss/xml/binding/ObjectModelBuilder.java:164-182 | ending a prefix mapping right after starting it leaves every prefix resolving as before |
| ObjectModel.ResolveQName | src/main/org/jboss/xml/binding/ObjectModelBuilder.java:137-155 | one colon-separated token is a local name without namespace; two tokens are a prefix, resolved to its namespace or to none, and a local name; any other count throws `IllegalArgumentException` |
| ObjectModel.ResolvePrefixedName | src/main/org/jboss/xml/binding/ObjectModelBuilder.java:137-173 | inside a mapping for `p`, the name `p:local` resolves to the mapped namespace and `local` |
| ObjectModel.ResolveLocalName | src/main/org/jboss/xml/binding/ObjectModelBuilder.java:137-143 | a name without a colon is a local name in no namespace |
| ObjectModel.StartElement | src/main/org/jboss/xml/binding/ObjectModelBuilder.java:184-223 | the factory for the namespace builds the root while there is none, else a child of the innermost accepted object; null pushes the ignore marker, an object is pushed on both stacks; nothing else changes |
| ObjectModel.Characters | src/main/org/jboss/xml/binding/ObjectModelBuilder.java:264-267 | the text is appended to the buffer and nothing else changes |
| ObjectModel.FlushValue | src/main/org/jboss/xml/binding/ObjectModelBuilder.java:229-244 | pending text is passed trimmed to `setValue` on the innermost accepted object and the buffer is emptied; with nothing accepted it throws `NoSuchElementException` |
| ObjectModel.EndElement | src/main/org/jboss/xml/binding/ObjectModelBuilder.java:225-262 | pops the entry of the element; an accepted object also leaves the accepted stack; an empty stack throws `NoSuchElementException` |
| ObjectModel.KeptOfPush | src/main/org/jboss/xml/binding/ObjectModelBuilder.java:204-222 | the accepted objects after a push are those before plus the pushed object unless it is the ignore marker |
| ObjectModel.StartKeepsConsistent | src/main/org/jboss/xml/binding/ObjectModelBuilder.java:184-223 | the accepted stack stays the `all` stack without its ignore markers after a start tag |
| ObjectModel.EndKeepsConsistent | src/main/org/jboss/xml/binding/ObjectModelBuilder.java:225-262 | an end tag fails exactly on an empty stack or on text with nothing accepted, and otherwise keeps the accepted stack the `all` stack without its ignore markers |
| ObjectModel.KeptOfPop | src/main/org/jboss/xml/binding/ObjectModelBuilder.java:246-261 | popping an entry removes the last accepted object exactly when the entry was not the ignore marker |
| ObjectModel.StartThenEnd | src/main/org/jboss/xml/binding/ObjectModelBuilder.java:184-262 | an empty element restores both stacks, and its object is added to the parent by `addChild` exactly when it was accepted under an accepted parent |
| ObjectModel.Step | src/main/org/jboss/xml/binding/ObjectModelBuilder.java:164-267 | only a start tag can set the root, and only tags move the stacks |
| ObjectModel.StepKeepsConsistent | src/main/org/jboss/xml/binding/ObjectModelBuilder.java:164-267 | every SAX event keeps the accepted stack the `all` stack without its ignore markers |
| ObjectModel.RunKeepsConsistent | src/main/org/jboss/xml/binding/ObjectModelBuilder.java:164-267 | any successful run of events keeps the two stacks consistent |
| ObjectModel.Build | src/main/org/jboss/xml/binding/ObjectModelBuilder.java:86-113 | returns the root the run settled on; without a given root the stacks end consistent |
| ObjectModel.BuildOneElement | src/main/org/jboss/xml/binding/ObjectModelBuilder.java:86-267 | a document of one text-only element yields the object the default factory built, with the trimmed text set on it and both stacks empty |
| ObjectModel.OneElement | src/main/org/jboss/xml/binding/ObjectModelBuilder.java:184-267 | a start tag, text and end tag on a fresh builder leave the new root with its trimmed text set and empty stacks |
| CopyOnWrite.AddItem | src/main/org/jboss/xb/binding/sunday/unmarshalling/ModelGroupBinding.java:192-205 | the size-switched append always yields the old items plus the new one, and yields the singleton shape exactly when the list was empty |
| CopyOnWrite.AddAllAppends | src/main/org/jboss/xb/binding/sunday/unmarshalling/ModelGroupBinding.java:192-205 | appending items one at a time gives the old items followed by the new ones, in order |
| CopyOnWrite.AddMember | src/main/org/jboss/xb/binding/sunday/unmarshalling/ChoiceBinding.java:206-215 | the size-switched insertion into the passed set adds exactly the new member |
| ContentModel.NewCursor | src/main/org/jboss/xb/binding/sunday/unmarshalling/ChoiceBinding.java:75-81 | a new cursor is unpositioned, has no occurrence and no element, and has not finished an element |
| ContentModel.ChoiceMayStartWith | src/main/org/jboss/xb/binding/sunday/unmarshalling/ChoiceBinding.java:282-329 | true only when some alternative is an element named `q` or an unpassed group that may start with `q`; false only when no alternative is a wildcard, none is an element named `q`, and every unpassed group says no; an error only from a wildcard alternative or a failing nested group |
| ChoiceBinding.NewChoice | src/main/org/jboss/xb/binding/sunday/unmarshalling/ChoiceBinding.java:42 | a new choice has no alternatives |
| ChoiceBinding.AddParticle | src/main/org/jboss/xb/binding/sunday/unmarshalling/ChoiceBinding.java:54-68 | the alternative goes after the existing ones, and the list takes the singleton shape exactly when it was empty |
| ChoiceBinding.AddParticlesInOrder | src/main/org/jboss/xb/binding/sunday/unmarshalling/ChoiceBinding.java:54-73 | `getParticles` returns the alternatives in the order they were added |
| ChoiceBinding.AsModelGroup | src/main/org/jboss/xb/binding/sunday/unmarshalling/ChoiceBinding.java:70-73 | the cursors see a choice over exactly the added alternatives |
| ChoiceBinding.BuiltChoice | src/main/org/jboss/xb/binding/sunday/unmarshalling/ChoiceBinding.java:54-73 | a choice built from a list of particles offers exactly that list |
| ChoiceCursor.ScanStart | src/main/org/jboss/xb/binding/sunday/unmarshalling/ChoiceBinding.java:159-169 | the scan starts at the current alternative when it may repeat, after it otherwise, and at 0 for an unpositioned cursor; it is never past the end |
| ChoiceCursor.GroupGetElement | src/main/org/jboss/xb/binding/sunday/unmarshalling/ModelGroupBinding.java:127-190 | the corrected lookup over a choice only ever yields an element named `q`, and answers as the loop over all its alternatives does, starting with the passed set it was given |
| ChoiceCursor.GetElementFrom | src/main/org/jboss/xb/binding/sunday/unmarshalling/ModelGroupBinding.java:127-190 | the loop's answer: an element from the first alternative that yields one, with every earlier alternative yielding nothing; null when all yield nothing; otherwise the failure of the first alternative that fails. A group alternative yields nothing exactly when it is already passed or its own lookup, with this group recorded as passed, answers null; it yields what that lookup yields, and a lookup yielding another name is a binding error. Each alternative is judged with the passed set the loop holds on reaching it, which gains this group once a nested group was asked |
| ChoiceCursor.GetElementGroup | src/main/org/jboss/xb/binding/sunday/unmarshalling/ModelGroupBinding.java:142-171 | the same answer for a loop that stands at a group alternative: the group is asked only when it is not already passed, with the enclosing group recorded as passed, and a name mismatch is an error |
| ChoiceCursor.GroupGetElementAsWritten | src/main/org/jboss/xb/binding/sunday/unmarshalling/ModelGroupBinding.java:127-190 | the lookup as written, where the passed set receives the cursor instead of the group; whatever it yields is named `q` |
| ChoiceCursor.GetElementFromAsWritten | src/main/org/jboss/xb/binding/sunday/unmarshalling/ModelGroupBinding.java:127-190 | the loop as written yields only elements named `q` |
| ChoiceCursor.CursorStart | src/main/org/jboss/xb/binding/sunday/unmarshalling/ChoiceBinding.java:125-273 | the group stack only grows. On no match nothing is pushed, the position is kept, and every alternative from the scan start on declined. On a match the cursor is pushed last, at an alternative no earlier than the scan start, counting a repeat or a first occurrence, with every alternative between the scan start and it declining; an element alternative matches only its own name and becomes the current element. A group alternative declines exactly when it is already passed or its nested start, with this choice recorded as passed, pushes nothing; when it matches, the stack holds what that nested start pushed with the cursor on top |
| ChoiceCursor.Nested | src/main/org/jboss/xb/binding/sunday/unmarshalling/ChoiceBinding.java:201-237 | a nested group's cursor only appends to the group stack |
| ChoiceCursor.StartScan | src/main/org/jboss/xb/binding/sunday/unmarshalling/ChoiceBinding.java:173-258 | the scan from alternative `j`: either a match at the first alternative from `j` on that accepts, with every earlier one declining (a group declining exactly when passed or when its nested start pushes nothing) and the stack holding what the match pushed, or no change when every alternative declines. Each alternative is judged with the passed set the scan holds on reaching it |
| ChoiceCursor.ScanGroup | src/main/org/jboss/xb/binding/sunday/unmarshalling/ChoiceBinding.java:201-237 | the same answer for a scan that stands at a group alternative: a group not yet passed is started with the enclosing group added to the passed set, a growing group stack counts as a match with the cursor pushed on top of what the nested start pushed, and otherwise the scan goes on with the enclosing group passed |
| ChoiceCursor.StartKeepsValid | src/main/org/jboss/xb/binding/sunday/unmarshalling/ChoiceBinding.java:125-273 | `startElement` keeps every cursor on the group stack positioned inside its group |
| ChoiceCursor.CursorStartAsWritten | src/main/org/jboss/xb/binding/sunday/unmarshalling/ChoiceBinding.java:125-273 | `startElement` as written, where the passed set never grows; when it returns, the group stack has only grown |
| ChoiceCursor.StartScanAsWritten | src/main/org/jboss/xb/binding/sunday/unmarshalling/ChoiceBinding.java:173-258 | the scan as written only appends to the group stack |
| ChoiceCursor.CurrentParticle | src/main/org/jboss/xb/binding/sunday/unmarshalling/ChoiceBinding.java:83-92 | an unpositioned cursor throws; otherwise the alternative is one of the group's |
| ChoiceCursor.CurrentElement | src/main/org/jboss/xb/binding/sunday/unmarshalling/ChoiceBinding.java:94-103 | an unpositioned cursor throws; otherwise the element last matched, possibly null |
| ChoiceCursor.EndElement | src/main/org/jboss/xb/binding/sunday/unmarshalling/ChoiceBinding.java:105-118 | succeeds exactly when the current element is named `q`, and throws otherwise |
| ChoiceCursor.StartAgreesWithLookahead | src/main/org/jboss/xb/binding/sunday/unmarshalling/ChoiceBinding.java:125-329 | on a choice of elements, a fresh cursor accepts `q` exactly when `mayStartWith(q)` says yes |
| ChoiceCursor.ElementScanPushesItself | src/main/org/jboss/xb/binding/sunday/unmarshalling/ChoiceBinding.java:173-200 | on a choice of elements, a match pushes exactly the cursor itself |
| ChoiceCursor.FreshElementChoiceStart | src/main/org/jboss/xb/binding/sunday/unmarshalling/ModelGroupBinding.java:105-108 | `startElement(qName, attrs)` on a fresh cursor over a choice of elements returns a one-cursor stack positioned on an alternative, or the empty stack |
| ChoiceCursor.StartAgreesWithGetElement | src/main/org/jboss/xb/binding/sunday/unmarshalling/ChoiceBinding.java:125-278 | on a choice of elements, the lookup succeeds, and `startElement` accepts exactly when `getElement` finds an element, making it the current element |
| ChoiceCursor.RepeatStaysOnElement | src/main/org/jboss/xb/binding/sunday/unmarshalling/ChoiceBinding.java:159-198 | a cursor on an element named `q` that may occur again stays on it, counts one more occurrence, and pushes itself |
| ChoiceCursor.GetElementIgnoresPassed | src/main/org/jboss/xb/binding/sunday/unmarshalling/ModelGroupBinding.java:142-171 | a group in the passed set is never looked into: replacing it changes no lookup |
| ChoiceCursor.GetElementFromIgnoresPassed | src/main/org/jboss/xb/binding/sunday/unmarshalling/ModelGroupBinding.java:142-171 | the same for the loop over the alternatives |
| ChoiceCursor.ReplaceKeepsClosed | src/main/org/jboss/xb/binding/sunday/unmarshalling/ModelGroupBinding.java:142-171 | replacing a group with one whose nested groups exist keeps every group reference resolvable |
| ChoiceCursor.SelfChoice | src/main/org/jboss/xb/binding/sunday/unmarshalling/ChoiceBinding.java:54-68 | a choice that contains itself as its only alternative can be built |
| ChoiceCursor.SelfChoiceGetElementOverflows | src/main/org/jboss/xb/binding/sunday/unmarshalling/ModelGroupBinding.java:147-158 | the lookup as written on a self-containing choice runs out of any finite depth, which is a `StackOverflowError`; the corrected lookup answers null |
| ChoiceCursor.SelfChoiceStartOverflows | src/main/org/jboss/xb/binding/sunday/unmarshalling/ChoiceBinding.java:204-220 | `startElement` as written on a self-containing choice runs out of any finite depth; the corrected one declines and leaves the stack alone |
| ChoiceNext.NewNextCursor | src/main/java/org/jboss/xb/binding/sunday/unmarshalling/ChoiceBinding.java:75-78 | a new cursor has no current particle, no occurrence and no nested cursor |
| ChoiceNext.Start | src/main/java/org/jboss/xb/binding/sunday/unmarshalling/ChoiceBinding.java:79-149 | the result stays on the same choice. A positioned cursor clears `next` and returns itself, as `repeatTerm` left it, exactly when `repeatTerm` says yes. A fresh cursor takes the first alternative that accepts `q`, at occurrence 1, and returns null when every alternative declines. A group alternative accepts exactly when it is not passed and its nested cursor, started with this choice recorded as passed, is not null; that cursor is kept as `next`. An element or wildcard match leaves `next` null |
| ChoiceNext.PositionedIgnoresAlternatives | src/main/java/org/jboss/xb/binding/sunday/unmarshalling/ChoiceBinding.java:88-95 | a positioned cursor answers the same whatever its choice's alternatives and the passed groups are |
| ChoiceNext.NestedStart | src/main/java/org/jboss/xb/binding/sunday/unmarshalling/ChoiceBinding.java:109-128 | the cursor of a nested choice that accepts belongs to that choice |
| ChoiceNext.Scan | src/main/java/org/jboss/xb/binding/sunday/unmarshalling/ChoiceBinding.java:98-148 | the loop from alternative `i`, entered with `next` cleared: the first alternative from `i` on that accepts, with all earlier ones declining, or null when none accepts; only a group match keeps a nested cursor as `next`. Each alternative is judged with the passed set the loop holds on reaching it, which gains this choice once a nested group was tried |
| ChoiceNext.ScanNested | src/main/java/org/jboss/xb/binding/sunday/unmarshalling/ChoiceBinding.java:109-128 | the same answer for a loop that stands at a group alternative: the group is entered only when not passed, with this choice recorded as passed and `required` false at the first occurrence; a non-null nested cursor is kept as `next` |
| ChoiceNext.RevisionsAgree | src/main/java/org/jboss/xb/binding/sunday/unmarshalling/ChoiceBinding.java:79-149 | on a choice of elements, both revisions accept the same start tag with a fresh cursor and choose the same alternative |
| ChoiceNext.NestedGroupTakesTag | src/main/java/org/jboss/xb/binding/sunday/unmarshalling/ChoiceBinding.java:109-137 | on a choice whose first alternative is a nested choice holding `e` and whose second is `e` itself, a fresh cursor takes the nested group, the earlier alternative, and keeps the nested cursor positioned on `e` as `next` |
| ChoiceNext.OnlyGroupsKeepNext | src/main/java/org/jboss/xb/binding/sunday/unmarshalling/ChoiceBinding.java:88-137 | a fresh cursor that accepts is positioned, and keeps a nested cursor as `next` exactly when the alternative it took is a group |
| ChoiceNext.SelfChoiceDeclines | src/main/java/org/jboss/xb/binding/sunday/unmarshalling/ChoiceBinding.java:111-127 | in this revision the guard works: a self-containing choice declines instead of recursing |
| SundayHandler.Push | src/main/org/jboss/xb/binding/sunday/unmarshalling/SundayContentHandler.java:652-655 | the pushed item goes on top and the items below stay |
| SundayHandler.Pop | src/main/org/jboss/xb/binding/sunday/unmarshalling/SundayContentHandler.java:657-660 | an empty stack throws `NoSuchElementException`; otherwise the top item is removed and returned, and pushing it back restores the stack |
| SundayHandler.Peek | src/main/org/jboss/xb/binding/sunday/unmarshalling/SundayContentHandler.java:662-665 | an empty stack throws `NoSuchElementException`; otherwise the item `pop` would remove |
| SundayHandler.PeekAt | src/main/org/jboss/xb/binding/sunday/unmarshalling/SundayContentHandler.java:667-670 | `peek(i)` reads `i` items below the top, and a position outside the stack throws |
| SundayHandler.StackIsLifo | src/main/org/jboss/xb/binding/sunday/unmarshalling/SundayContentHandler.java:643-680 | a pop right after a push returns the pushed item and the old stack; a peek sees it; deeper peeks see the old stack one further down |
| SundayHandler.AsElement | src/main/org/jboss/xb/binding/sunday/unmarshalling/SundayContentHandler.java:77 | the cast of a particle's term to an element binding succeeds exactly for element terms and throws `ClassCastException` otherwise |
| SundayHandler.TypeGroup | src/main/org/jboss/xb/binding/sunday/unmarshalling/SundayContentHandler.java:153-162 | the model group of an element's type; a type without a particle throws "should be of a complex type" |
| SundayHandler.CurrentParticleOf | src/main/org/jboss/xb/binding/sunday/unmarshalling/SundayContentHandler.java:186 | for a choice cursor, the alternative it is positioned on, and an error when it is not positioned |
| SundayHandler.Characters | src/main/org/jboss/xb/binding/sunday/unmarshalling/SundayContentHandler.java:59-66 | text is appended to the buffer exactly when the top frame is an element frame; an empty stack throws; the stack is unchanged |
| SundayHandler.EndParticle | src/main/org/jboss/xb/binding/sunday/unmarshalling/SundayContentHandler.java:336-360 | closing a group frame ends its particle and then every enclosing choice frame; the frame left on top is not a choice frame, and only choice frames were removed |
| SundayHandler.InterceptorsStart | src/main/org/jboss/xb/binding/sunday/unmarshalling/SundayContentHandler.java:389-396 | each interceptor pushes one element frame for the particle, in order |
| SundayHandler.StartBound | src/main/org/jboss/xb/binding/sunday/unmarshalling/SundayContentHandler.java:383-410 | a bound element pushes one frame per interceptor; with `xsi:nil` set to "1" or "true" the object is the nil marker, otherwise the type handler's `startParticle` on the last interceptor's object |
| SundayHandler.InterceptorCalls | src/main/org/jboss/xb/binding/sunday/unmarshalling/SundayContentHandler.java:493-500 | one call per interceptor, innermost first, failing only when the stack is shorter than the interceptor list |
| SundayHandler.EndText | src/main/org/jboss/xb/binding/sunday/unmarshalling/SundayContentHandler.java:425-501 | text under a type without a simple type throws under a strict schema, and otherwise becomes the element's object when it has none (after property replacement when the schema asks for it); the buffer is emptied |
| SundayHandler.ParentElementParticle | src/main/org/jboss/xb/binding/sunday/unmarshalling/SundayContentHandler.java:530-539 | the first element particle from the top of the stack down, or none when no frame has one |
| SundayHandler.Promote | src/main/org/jboss/xb/binding/sunday/unmarshalling/SundayContentHandler.java:553-564 | the child's value goes to every frame from the top down to the first element frame, and no frame below it changes |
| SundayHandler.InterceptorsAdd | src/main/org/jboss/xb/binding/sunday/unmarshalling/SundayContentHandler.java:574-580 | each interceptor pops its frame and adds the child to it; a stack that runs out throws |
| SundayHandler.SettleText | src/main/org/jboss/xb/binding/sunday/unmarshalling/SundayContentHandler.java:419-506 | a nil element drops its object and keeps the buffer; otherwise the text is settled and the buffer emptied, with a strict schema rejecting text the type cannot take |
| SundayHandler.GiveToParent | src/main/org/jboss/xb/binding/sunday/unmarshalling/SundayContentHandler.java:526-571 | handing the object to its parent changes only the objects held by frames, never their kinds or cursors |
| SundayHandler.EndBound | src/main/org/jboss/xb/binding/sunday/unmarshalling/SundayContentHandler.java:412-587 | the private `endElement`: a non-element term fails the cast; the interceptor frames are popped, every other frame keeps its kind and cursor; the buffer is emptied unless the element is nil; the object that empties the stack becomes the root |
| SundayHandler.HandOver | src/main/org/jboss/xb/binding/sunday/unmarshalling/SundayContentHandler.java:572-581 | with no interceptors the object stays; otherwise each interceptor frame is popped, failing only when the stack runs out |
| SundayHandler.PushCursors | src/main/org/jboss/xb/binding/sunday/unmarshalling/SundayContentHandler.java:176-185 | the new cursors are pushed as group frames, outermost first, so the innermost ends on top |
| SundayHandler.EnterElement | src/main/org/jboss/xb/binding/sunday/unmarshalling/SundayContentHandler.java:150-187 | under an element frame, a fresh cursor of the element's type group takes the tag; a type without a model group or a tag the cursor declines throws; only group frames are pushed |
| SundayHandler.Reenter | src/main/org/jboss/xb/binding/sunday/unmarshalling/SundayContentHandler.java:252-261 | a cursor whose occurrence grew ends its particle and starts it again under a fresh frame; one that did not grow leaves the stack alone |
| SundayHandler.SeekParticle | src/main/org/jboss/xb/binding/sunday/unmarshalling/SundayContentHandler.java:191-278 | walks down from the top to the frame whose cursor takes the tag, ending the group frames that decline; under an element frame it is `EnterElement` |
| SundayHandler.TakeTag | src/main/org/jboss/xb/binding/sunday/unmarshalling/SundayContentHandler.java:250-276 | when a group cursor takes the tag, the cursors it returned are pushed and the innermost ends on top |
| SundayHandler.LocateParticle | src/main/org/jboss/xb/binding/sunday/unmarshalling/SundayContentHandler.java:124-280 | at the document root the schema's global element is used, and with no schema and no resolver it throws; below the root it is `SeekParticle` |
| SundayHandler.ResolveWildcard | src/main/org/jboss/xb/binding/sunday/unmarshalling/SundayContentHandler.java:286-298 | a wildcard particle is replaced by the element it resolves, occurring once, and a wildcard that resolves nothing throws |
| SundayHandler.StartElement | src/main/org/jboss/xb/binding/sunday/unmarshalling/SundayContentHandler.java:118-334 | every start tag pushes one element frame; no schema and no resolver, or a parent whose type has no model group, throws; under a strict schema an unbound global element throws |
| SundayHandler.PushBound | src/main/org/jboss/xb/binding/sunday/unmarshalling/SundayContentHandler.java:283-301 | a bound element adds its frames on top of the stack and ends with its own element frame |
| SundayHandler.PushUnbound | src/main/org/jboss/xb/binding/sunday/unmarshalling/SundayContentHandler.java:302-333 | an unbound element is pushed with no particle, unless the schema in force is strict, which throws |
| SundayHandler.UnwindToElement | src/main/org/jboss/xb/binding/sunday/unmarshalling/SundayContentHandler.java:72-93 | the end tag pops group frames, ending their particles, until an element frame or the bottom is reached; the stack is cut back to a prefix |
| SundayHandler.EndElement | src/main/org/jboss/xb/binding/sunday/unmarshalling/SundayContentHandler.java:68-116 | an empty stack throws; the end tag closes an element frame of the same name with only group frames above it, and throws when the name differs |
| SundayHandler.CloseElement | src/main/org/jboss/xb/binding/sunday/unmarshalling/SundayContentHandler.java:95-115 | a frame that is not a bound element, or one with another name, throws; otherwise the element is ended, and an enclosing choice with it |
| SundayHandler.EnterPlainChoice | src/main/org/jboss/xb/binding/sunday/unmarshalling/SundayContentHandler.java:150-187 | under an element whose type is a choice of plain elements, a tag the choice declines throws, and a tag it takes pushes exactly one group frame positioned on that alternative |
| SundayHandler.PushPlainElement | src/main/org/jboss/xb/binding/sunday/unmarshalling/SundayContentHandler.java:383-410 | an element without interceptors pushes exactly one frame, holding the nil marker or the type handler's object |
| SundayHandler.StartUnderElement | src/main/org/jboss/xb/binding/sunday/unmarshalling/SundayContentHandler.java:118-187 | under an element frame, `startElement` fails as entering the type fails, and otherwise pushes the bound element |
| SundayHandler.StartInPlainChoice | src/main/org/jboss/xb/binding/sunday/unmarshalling/SundayContentHandler.java:118-334 | under an element whose type is a choice of plain elements, a start tag pushes the choice's frame and then the child's frame, or fails when the choice declines |
| SundayHandler.StartPlainChild | src/main/org/jboss/xb/binding/sunday/unmarshalling/SundayContentHandler.java:118-334 | once the type's cursor takes the tag, a child without interceptors is pushed as one element frame |
| SundayHandler.ChoiceChildStart | src/main/org/jboss/xb/binding/sunday/unmarshalling/SundayContentHandler.java:118-334 | under such an element, the start tag is accepted exactly when the choice's `mayStartWith` says yes, and then pushes a cursor on an alternative named like the tag |
| SundayHandler.EndPlainElement | src/main/org/jboss/xb/binding/sunday/unmarshalling/SundayContentHandler.java:412-587 | ending an element with no interceptors, no simple type and no text keeps the stack's shape and the root |
| SundayHandler.EndParticleUnderElement | src/main/org/jboss/xb/binding/sunday/unmarshalling/SundayContentHandler.java:336-360 | ending a group whose parent frame is an element frame leaves the stack as it was |
| SundayHandler.CloseChoiceChild | src/main/org/jboss/xb/binding/sunday/unmarshalling/SundayContentHandler.java:95-115 | closing a child of a choice also closes the choice's frame, leaving the parent element frame on top |
| SundayHandler.ChoiceChildEnd | src/main/org/jboss/xb/binding/sunday/unmarshalling/SundayContentHandler.java:68-116 | the end tag of a plain child of a choice pops both the child's and the choice's frames |
| SundayHandler.ChoiceChildRoundTrip | src/main/org/jboss/xb/binding/sunday/unmarshalling/SundayContentHandler.java:68-334 | a start tag and its end tag for a plain child of a choice bring the stack back to its shape, with an empty buffer and the root unchanged |
| XsMarshaller.NewMarshaller | src/main/org/jboss/xml/binding/XsMarshaller.java:56-58 | a new marshaller has declared no namespace and added no attribute |
| XsMarshaller.GetQName | src/main/org/jboss/xml/binding/XsMarshaller.java:674-677 | without a prefix (null or empty) the local name alone; otherwise the prefix, one colon, then the local name |
| XsMarshaller.QNameRoundTrip | src/main/org/jboss/xml/binding/XsMarshaller.java:674-677 | for names without colons, splitting the qualified name at its first colon gives back the prefix (none when empty) and the local name, so `getQName` is injective there |
| XsMarshaller.DeclareNamespace | src/main/org/jboss/xml/binding/XsMarshaller.java:128-139 | the URI is recorded under the name, or under "xmlns" for a null or empty name; an attribute is added only when no URI was recorded before, and nothing else changes |
| XsMarshaller.DeclarationQName | src/main/org/jboss/xml/binding/XsMarshaller.java:130-138 | a first declaration adds the attribute "xmlns:name", or "xmlns" for the default namespace, carrying the URI |
| XsMarshaller.RedeclareAddsNothing | src/main/org/jboss/xml/binding/XsMarshaller.java:134-139 | declaring a name a second time only replaces its URI and adds no attribute |
| XsMarshaller.AddAttributeAsWritten | src/main/org/jboss/xml/binding/XsMarshaller.java:152-169 | the source's `addAttribute`: the same errors as the corrected one, and the same attribute except that its local name is the prefix |
| XsMarshaller.AddAttribute | src/main/org/jboss/xml/binding/XsMarshaller.java:152-169 | an undeclared non-empty prefix throws `IllegalStateException`; otherwise exactly one attribute is appended, with the prefix's URI (none without a prefix), the local name, the qualified name `prefix:localName` (the local name alone without a prefix) that splits back into the two, and the given type and value; the namespaces stay |
| XsMarshaller.AsWrittenLosesLocalName | src/main/org/jboss/xml/binding/XsMarshaller.java:168-169 | with "p" declared, adding "p:x" as written records the local name "p" where the corrected one records "x" |
| XsMarshaller.AddAttributeDeclaringAsWritten | src/main/org/jboss/xml/binding/XsMarshaller.java:128-185 | the source's five-argument `addAttribute`, calling the four-argument one as written: it throws only when a non-empty prefix is given a null URI, and then the declaration it made stays; otherwise the prefix maps to the URI, one or two attributes are appended, and the last holds the URI, the prefix in the local-name slot, the qualified name, type and value |
| XsMarshaller.AddAttributeDeclaring | src/main/org/jboss/xml/binding/XsMarshaller.java:128-185 | the same with the corrected four-argument call: the same throw and partial declaration; otherwise one or two attributes are appended after the old ones, and the last holds the URI, the local name, the qualified name, type and value |
| XsMarshaller.DeclaringAsWrittenDiffers | src/main/org/jboss/xml/binding/XsMarshaller.java:181-185 | the two five-argument versions throw alike and leave the same namespaces; they differ only in the local name of the appended attribute |
| DavUrlLister.GetFilePartFromUrlAsWritten | src/main/org/jboss/net/protocol/http/DavURLLister.java:88-102 | the source as written: it fails exactly where the corrected one does, and after a trailing '/' it returns one character less |
| DavUrlLister.GetFilePartFromUrl | src/main/org/jboss/net/protocol/http/DavURLLister.java:88-102 | an empty name or one without a '/' (before a trailing one) throws `IndexOutOfBoundsException`; otherwise the result starts at a '/' and holds no other '/' |
| DavUrlLister.PartOfSegment | src/main/org/jboss/net/protocol/http/DavURLLister.java:92-101 | for a last path segment without '/', the result is '/' and that segment, with or without a trailing '/' |
| DavUrlLister.AsWrittenDropsLast | src/main/org/jboss/net/protocol/http/DavURLLister.java:94-95 | "/a/bcd/" gives "/bc" as written and "/bcd" corrected |
| JarArchiveBrowser.Accepted | src/main/org/jboss/util/file/JarArchiveBrowser.java:50-66 | every entry handed out is a file the filter accepts |
| JarArchiveBrowser.SetNext | src/main/org/jboss/util/file/JarArchiveBrowser.java:50-66 | the scan finds the next accepted file, advances past it, and the entries still to hand out are it followed by the rest; no file found means the enumeration is exhausted |
| JarArchiveBrowser.NewBrowser | src/main/org/jboss/util/file/JarArchiveBrowser.java:30-43 | a new browser will hand out exactly the accepted files, in enumeration order |
| JarArchiveBrowser.HasNext | src/main/org/jboss/util/file/JarArchiveBrowser.java:45-48 | there is a next entry exactly when one is pending; an exhausted browser has nothing left |
| JarArchiveBrowser.Next | src/main/org/jboss/util/file/JarArchiveBrowser.java:68-81 | returns the pending entry and moves to the following accepted one, leaving the rest of the iteration unchanged; with nothing pending it fails with a null pointer |
| JarArchiveBrowser.Remove | src/main/org/jboss/util/file/JarArchiveBrowser.java:83-86 | always throws |
| JarArchiveBrowser.Drain | src/main/org/jboss/util/file/JarArchiveBrowser.java:45-81 | iterating to the end yields exactly the accepted files in enumeration order |

## Left out

- The timeout factory's worker thread (`doWork`, the wait/notify hand-off, the thread pool, `TimeoutWorker`, the singleton and `cleanup`): this is concurrency and wall-clock time. Only the heap and the free list are modelled, as sequential operations.
- TimeoutQueue: heap indices are unbounded integers, so the `int` overflow of a heap beyond 2^31 slots is not modelled.
- TimeoutQueue: `checkTree` is modelled as the heap invariant it checks. Its logging of a broken heap is not modelled.
- Logging and tracing throughout: these only report and do not affect results.
- Serialization and I/O: the object streams of `MarshalledValue` and `AutoResetObjectOutputStream`, the WebDAV listing of `DavURLLister.listMembers`, opening zip streams in `JarArchiveBrowser`, and `XmlHelper.write`. Bytes that a stream would produce are parameters.
- MarshalledValue.Get: the decoder is a parameter, so only the null case is stated.
- `MarshalledValue.toByteArray`: it returns the stored form and has nothing to state beyond it.
- AutoResetStream.Write: writing the object to the nested stream is not modelled; only the counters are.
- XsMarshaller: `marshal` and the `process*` and `handleChildren*` walk over the schema are left out. That walk is driven by the JaxMe XS library, which is not part of this model.
- CollectionEditor.SetAsText, StringArrayEditor.ParseList, StringArrayEditor.ParseListAsWritten: the text is a string, so a null text is not modelled. The source throws `NullPointerException` for it, from the `StringTokenizer` constructor and from `parseList`.
- DavUrlLister: only `getFilePartFromUrl` is modelled.
- JarArchiveBrowser.Next: the result is the entry itself and not the stream opened on it. An `IOException` from opening the stream cannot arise in the model.
- Text: `String.toLowerCase` and `String.trim` are modelled on the character codes of `char`. Lower-casing folds A to Z only; locale-specific and non-ASCII case mappings are not modelled.
- Uid: the shared static `LongCounter` is replaced by the counter value passed to the constructor, and the system clock by the time passed to it. `UID.asString` only combines these with `toString`.
- PropertyGroup: the behaviour of the underlying `PropertyMap` (defaults, its own listeners, the separator constant) is not part of this model. The map is a plain map of full property names, and the separator is a field of the group.
- PropertyGroup.Next: the iterator's `remove` and the `Map.Entry` objects it wraps are not modelled.
- TclStack: only one thread's stack is modelled. The stack's iterator and the thread-locality of the state are not.
- ChoiceNext.Start: the body of `repeatTerm` belongs to the superclass `Cursor`, which is not part of this model. It is a parameter that returns the cursor as the call leaves it, or nothing for false; what it changes in the cursor is not stated.
- ChoiceNext: `getGroupType` in the second revision returns the constant "choice"; it is not modelled because nothing beyond the constant can be stated.
- ChoiceBinding.AddParticle: the call to the superclass's `addParticle` in the second revision only records the particle in the base class, so it is not modelled.
- ChoiceCursor: in the src/main/org tree, ModelGroupBinding.java:127 declares only the four-argument list `getElement`, while ChoiceBinding.java:275-277 calls a five-argument one with `ignoreWildcards`. The model follows the four-argument version, which always consults wildcards.
- ChoiceCursor: Java shares the `passedGroups` set between nested calls and grows it in place. The model uses value semantics, in which each nested call receives its own extended copy.
- ChoiceNext.Start, ChoiceNext.Scan, ChoiceNext.ScanNested: in the second revision's `startElement`, `case 1` copies the passed set and falls through into `default:`, which adds the choice to the set. Once the set holds two or more groups, that add grows the caller's own `HashSet` in place, and the nested `startElement` receives the same set and may grow it too. So from the third level of nesting on, later sibling alternatives skip groups already explored beneath an earlier one. The model passes `passed + {g}` by value, so a sibling may explore such a group again.
- ContentModel.ChoiceMayStartWith: from the third level of nesting on, the `default:` branch of `mayStartWith` adds the choice to the caller's own `HashSet`, so later sibling alternatives skip groups already explored further down. The model passes the set by value, so a sibling may explore such a group again.
- ChoiceCursor.GroupGetElementAsWritten, ChoiceCursor.CursorStartAsWritten: a recursion budget (`fuel`) stands in for the Java call stack. Exhausting it is reported as a stack overflow, and the stack depth at which Java overflows is not modelled.
- ContentModel: the cursors of sequence and `all` groups, wildcard resolution and `ParticleBinding.isRequired` are not part of this model. They are parameters.
- SundayHandler: type and particle handlers, interceptors, simple-type unmarshalling, property replacement, the schema resolver and `WildcardBinding.getElement` are parameters. Calls made only for their effect are recorded as events.
- SundayHandler: `startPrefixMapping` and `endPrefixMapping` only forward to the namespace registry, which is not part of this model. `getRoot` reads the recorded root.
- ObjectModel: object model factories are parameters. `setValue` and `addChild` calls are recorded as a trace.
- ElementType: handlers are parameters. The delegating `add*` and `push*` methods act on the handler that `GetLastHandler` returns; their effect on that handler is outside the model.
- ValueList: the value list the initializer writes to is a parameter, and its effect is the call made on it.
- XsMarshaller.DeclareNamespace: the Java map is a `HashMap`, whose `put` returns null for a key mapped to null. The model treats a URI recorded as null like a missing one, which matches.

## Findings

| source | as written | input that shows it | evidently intended | confidence | as-written member | corrected member |
|---|---|---|---|---|---|---|
| src/main/org/jboss/xb/binding/sunday/unmarshalling/ChoiceBinding.java:206-215 | the nested call's `passedGroups` receives `Collections.singleton(this)` inside the anonymous cursor, so `this` is the cursor and not the choice; the `contains` test on groups never succeeds | a choice whose only alternative is the choice itself: every recursion budget is exhausted | record the choice group, as the second revision does, so a group is never re-entered | high, not executed | ChoiceCursor.CursorStartAsWritten (ChoiceCursor.SelfChoiceStartOverflows) | ChoiceCursor.CursorStart |
| src/main/org/jboss/xb/binding/sunday/unmarshalling/ModelGroupBinding.java:147-156 | the same `Collections.singleton(this)` in `getElement` | the same self-containing choice: `getElement` recurses without end | record the group | high, not executed | ChoiceCursor.GroupGetElementAsWritten (ChoiceCursor.SelfChoiceGetElementOverflows) | ChoiceCursor.GroupGetElement |
| src/main/org/jboss/util/propertyeditor/StringArrayEditor.java:43 | after a backslash the next character is read whenever `n < length`, which is always true, so a text ending in a backslash reads past its end | `"a\"` (the characters a and backslash) throws `StringIndexOutOfBoundsException` | guard with `n + 1 < length`, keeping a trailing backslash as an ordinary character | high, not executed | StringArrayEditor.ParseListAsWritten (StringArrayEditor.TrailingBackslashFails) | StringArrayEditor.ParseList (StringArrayEditor.ParseListOfGetAsText) |
| src/main/org/jboss/net/protocol/http/DavURLLister.java:95 | with a trailing '/', the part is `substring(start, length - 2)`, which drops the segment's last character | "/a/bcd/" gives "/bc" | `substring(start, length - 1)`, giving "/bcd" as without the trailing '/' | high, not executed | DavUrlLister.GetFilePartFromUrlAsWritten (DavUrlLister.AsWrittenDropsLast) | DavUrlLister.GetFilePartFromUrl (DavUrlLister.PartOfSegment) |
| src/main/org/jboss/interception/MarshalledValue.java:57-65 | the constructor writes the object into a byte buffer but never sets the serialized form | any object: `get` answers null, the value equals every other such value, and it differs from its own externalized copy, which holds the bytes | set the serialized form to the buffer's bytes | high, not executed | MarshalledValue.NewOfAsWritten (MarshalledValue.AsWrittenForgetsForm) | MarshalledValue.NewOf (MarshalledValue.TransferRoundTrip) |
| src/main/org/jboss/xml/binding/XsMarshaller.java:169 | the attribute is added as `(uri, prefix, qName, type, value)`, where `declareNamespace` at line 138 passes the local name in the second position | with "p" declared, adding attribute "x" under "p" records the local name "p" | pass `localName` in the second position | medium, not executed | XsMarshaller.AddAttributeAsWritten (XsMarshaller.AsWrittenLosesLocalName), XsMarshaller.AddAttributeDeclaringAsWritten (XsMarshaller.DeclaringAsWrittenDiffers) | XsMarshaller.AddAttribute, XsMarshaller.AddAttributeDeclaring |

=== FILE: auto_reset_stream.dfy ===
/** The object output stream that resets itself after every `after`
    objects.  Only the counters are modelled: writing an object to the
    nested stream is left out, and resetting the nested stream is counted
    in `resets`.
 */
module AutoResetStream {
  import opened Wrappers
  import opened JavaNum

  datatype Stream = Stream(after: int32, count: int32, resets: nat)

  /** Both counters are in range: a positive reset interval and a count
      below it. */
  predicate Valid(s: Stream) {
    0 < s.after && 0 <= s.count < s.after
  }

  /** `setResetAfter(after)`: a non-positive interval throws and changes
      nothing. */
  function SetResetAfter(s: Stream, after: int32): (r: Result<Stream>)
    ensures r.Err? <==> after <= 0
    ensures r.Err? ==> r.error == IllegalArgument
    ensures r.Ok? ==> r.value.after == after && r.value.count == s.count && r.value.resets == s.resets
  {
    if after <= 0 then Err(IllegalArgument) else Ok(s.(after := after))
  }

  /** The constructor: a new stream with count zero and the interval set;
      the interval must be positive. */
  function NewStream(after: int32): (r: Result<Stream>)
    ensures r.Err? <==> after <= 0
    ensures r.Ok? ==> Valid(r.value) && r.value.count == 0 && r.value.resets == 0
  {
    SetResetAfter(Stream(0, 0, 0), after)
  }

  /** `reset()`: the nested stream is reset and the count starts over. */
  function Reset(s: Stream): (r: Stream)
    ensures r.count == 0 && r.after == s.after && r.resets == s.resets + 1
    ensures 0 < s.after ==> Valid(r)
  {
    s.(count := 0, resets := s.resets + 1)
  }

  /** `writeObjectOverride(obj)`: counts the object, and resets once the
      count reaches the interval. */
  function Write(s: Stream): (r: Stream)
    requires 0 < s.after && 0 <= s.count < TWO_31 - 1
    ensures Valid(r) && r.after == s.after
    ensures s.count + 1 < s.after ==> r.count == s.count + 1 && r.resets == s.resets
    ensures s.count + 1 >= s.after ==> r.count == 0 && r.resets == s.resets + 1
  {
    var counted := s.(count := s.count + 1);
    if counted.count >= counted.after then Reset(counted) else counted
  }

  /** `n` writes in a row. */
  function WriteMany(s: Stream, n: nat): (r: Stream)
    requires Valid(s)
    ensures Valid(r) && r.after == s.after
    decreases n
  {
    if n == 0 then s else WriteMany(Write(s), n - 1)
  }

  /** Counting from `count`, the stream resets once every `after` objects:
      after `n` more writes, the resets added, times the interval, plus the
      new count make up the objects counted.  With the new count below the
      interval, these are the quotient and the remainder. */
  lemma {:induction false} WriteManyCounts(s: Stream, n: nat)
    requires Valid(s)
    ensures var r := WriteMany(s, n);
            && r.resets >= s.resets
            && r.count + (r.resets - s.resets) * s.after == s.count + n
    decreases n
  {
    if n > 0 {
      var t := Write(s);
      var r := WriteMany(t, n - 1);
      WriteManyCounts(t, n - 1);
      if s.count + 1 >= s.after {
        var k := r.resets - t.resets;
        assert r.count + k * s.after == n - 1;
        assert (k + 1) * s.after == k * s.after + s.after;
      }
    }
  }

  /** Lowering the interval below the count does not break the range: the
      next write resets. */
  lemma LowerIntervalThenWrite(s: Stream, after: int32)
    requires Valid(s) && 0 < after <= s.count
    ensures var t := SetResetAfter(s, after).value;
            Write(t).count == 0 && Write(t).resets == s.resets + 1
  {
  }
}

=== FILE: choice_binding.dfy ===
/** A choice model group as it is built: alternatives are added one at a
    time, growing the list through the shared copy-on-write shapes, and the
    finished group takes its place in the arena the cursors read.
 */
module ChoiceBinding {
  import opened CopyOnWrite
  import opened ContentModel

  datatype ChoiceGroup = ChoiceGroup(choices: CowList<Particle>)

  /** A new choice: the shared empty list. */
  function NewChoice(): (g: ChoiceGroup)
    ensures GetParticles(g) == []
  {
    ChoiceGroup(EmptyList)
  }

  /** `addParticle(particle)`: the alternative goes after the others. */
  function AddParticle(g: ChoiceGroup, p: Particle): (r: ChoiceGroup)
    ensures GetParticles(r) == GetParticles(g) + [p]
    ensures r.choices.SingletonList? <==> |GetParticles(g)| == 0
  {
    ChoiceGroup(AddItem(g.choices, p))
  }

  /** `getParticles()`: the alternatives, in the order they were added. */
  function GetParticles(g: ChoiceGroup): seq<Particle> {
    Items(g.choices)
  }

  /** Alternatives added one by one. */
  function AddParticles(g: ChoiceGroup, ps: seq<Particle>): (r: ChoiceGroup)
    decreases |ps|
  {
    if |ps| == 0 then g else AddParticles(AddParticle(g, ps[0]), ps[1..])
  }

  /** The alternatives come back in insertion order. */
  lemma {:induction false} AddParticlesInOrder(g: ChoiceGroup, ps: seq<Particle>)
    ensures GetParticles(AddParticles(g, ps)) == GetParticles(g) + ps
    decreases |ps|
  {
    if |ps| > 0 {
      AddParticlesInOrder(AddParticle(g, ps[0]), ps[1..]);
      assert GetParticles(g) + [ps[0]] + ps[1..] == GetParticles(g) + ps;
    }
  }

  /** The group the cursors see: a choice over the added alternatives. */
  function AsModelGroup(g: ChoiceGroup): (m: ModelGroup)
    ensures m.kind == Choice && m.particles == GetParticles(g)
  {
    ModelGroup(Choice, GetParticles(g))
  }

  /** A choice built from `ps` offers exactly `ps` to its cursors. */
  lemma BuiltChoice(ps: seq<Particle>)
    ensures AsModelGroup(AddParticles(NewChoice(), ps)) == ModelGroup(Choice, ps)
  {
    AddParticlesInOrder(NewChoice(), ps);
  }
}

=== FILE: choice_cursor.dfy ===
/** The cursor of a choice model group, first revision of the unmarshaller.

    A cursor walks the alternatives of one choice group.  `startElement`
    looks for the first alternative that can begin with the element being
    started, descending into nested groups, and reports a match by appending
    the cursors it positioned to the group stack (innermost first, itself
    last).  Nested groups are entered with the choice recorded in a set of
    passed groups, so that a group that contains itself is not re-entered.

    In the code as written the recorded object is the cursor rather than its
    group, so the guard never fires; the `AsWritten` functions model that code
    (with a recursion budget standing in for the call stack) and the other
    functions model the evidently intended behaviour, which the second
    revision of the code implements.
 */
module ChoiceCursor {
  import opened Wrappers
  import opened ContentModel

  /** Another occurrence of particle `p` is allowed after `occ` of them; the
      cursor then stays on its current alternative. */
  predicate Repeatable(p: Particle, occ: nat) {
    p.unbounded || occ < p.minOccurs || occ < p.maxOccurs
  }

  /** The first alternative index the next `startElement` examines. */
  function ScanStart(arena: Arena, c: Cursor): (i: nat)
    requires ValidCursor(arena, c) && arena[c.group].kind == Choice
    ensures i <= |arena[c.group].particles|
  {
    if c.pos >= 0 && Repeatable(arena[c.group].particles[c.pos], c.occurrence) then c.pos else c.pos + 1
  }

  /** The cursor after a match at alternative `j`. */
  function Advance(c: Cursor, j: nat, el: Option<ElementBinding>): Cursor {
    c.(pos := j, occurrence := if c.pos == j then c.occurrence + 1 else 1, element := el)
  }

  /** `longer` is `stack` with cursors appended. */
  predicate Extends(stack: seq<Cursor>, longer: seq<Cursor>) {
    |stack| <= |longer| && longer[..|stack|] == stack
  }

  /** Alternative `p` neither is an element named `q` nor is a wildcard that
      resolves `q`. */
  predicate Declines(env: Env, p: Particle, q: QName, atts: Attrs) {
    && !ElementNamed(p, q)
    && (p.term.WildcardTerm? ==> env.wildcardElement(p.term.wildcard, q, atts) == None)
  }

  /** Alternative `m` of `g` is a group that a loop holding the passed set
      `cur` enters. */
  predicate Enters(arena: Arena, g: GroupId, cur: set<GroupId>, m: nat)
    requires g in arena && m < |arena[g].particles|
  {
    arena[g].particles[m].term.GroupTerm? && arena[g].particles[m].term.group !in cur
  }

  /** The passed set a loop over the alternatives of `g`, started at `j`
      with set `cur`, holds on reaching alternative `k`: `g` joins it as soon
      as a nested group has been entered. */
  ghost function CurAt(arena: Arena, g: GroupId, passed: set<GroupId>, cur: set<GroupId>, j: nat, k: nat): (s: set<GroupId>)
    requires g in arena && passed <= cur <= passed + {g}
    ensures passed <= s <= passed + {g}
  {
    if exists m | j <= m < k && m < |arena[g].particles| :: Enters(arena, g, cur, m) then passed + {g} else cur
  }

  /** The set the loop holds after alternative `j`. */
  function CurAfter(arena: Arena, g: GroupId, passed: set<GroupId>, cur: set<GroupId>, j: nat): set<GroupId>
    requires g in arena && j < |arena[g].particles|
  {
    if Enters(arena, g, cur, j) then passed + {g} else cur
  }

  /** One step of the loop moves the start of `CurAt` by one. */
  lemma CurAtStep(arena: Arena, g: GroupId, passed: set<GroupId>, cur: set<GroupId>, j: nat)
    requires g in arena && passed <= cur <= passed + {g} && j < |arena[g].particles|
    ensures CurAt(arena, g, passed, cur, j, j) == cur
    ensures forall k | j < k :: CurAt(arena, g, passed, cur, j, k)
                             == CurAt(arena, g, passed, CurAfter(arena, g, passed, cur, j), j + 1, k)
  {
    forall k | j < k
      ensures CurAt(arena, g, passed, cur, j, k) == CurAt(arena, g, passed, CurAfter(arena, g, passed, cur, j), j + 1, k)
    {
      if !Enters(arena, g, cur, j) {
        if exists m | j <= m < k && m < |arena[g].particles| :: Enters(arena, g, cur, m) {
          var m :| j <= m < k && m < |arena[g].particles| && Enters(arena, g, cur, m);
          assert m != j;
        }
      }
    }
  }

  /** How the alternative a cursor is positioned on matched `q`: an element
      of that name becomes the current element, a nested group that had not
      been passed leaves no current element, a wildcard leaves the element it
      resolved. */
  ghost predicate MatchedBy(env: Env, arena: Arena, c: Cursor, q: QName, atts: Attrs, passed: set<GroupId>)
    requires ValidCursor(arena, c) && arena[c.group].kind == Choice && c.pos >= 0
  {
    var p := arena[c.group].particles[c.pos];
    match p.term
    case ElementTerm(e) => e.name == q && c.element == Some(e)
    case GroupTerm(child) => c.element == None && child !in passed
    case WildcardTerm(w) => c.element.Some? && c.element == env.wildcardElement(w, q, atts)
  }

  // ---------------------------------------------------------------------------
  // getElement

  /** `Cursor.getElement(qName, attrs, passed)` for a cursor of group `g`: the
      element its alternatives yield for `q` (`None` for null).  A choice
      looks through its alternatives; the cursors of the other group kinds
      are outside the model. */
  function GroupGetElement(env: Env, arena: Arena, g: GroupId, q: QName, atts: Attrs,
                           passed: set<GroupId>): (r: Result<Option<ElementBinding>>)
    requires Closed(arena) && g in arena
    decreases arena.Keys - passed, if g in passed then 1 else 0, 1, 0, 0
    ensures arena[g].kind == Choice && r.Ok? && r.value.Some? ==> r.value.value.name == q
    ensures arena[g].kind == Choice ==> LookedUp(env, arena, g, q, atts, passed, passed, 0, r)
  {
    if arena[g].kind == Choice then GetElementFrom(env, arena, g, q, atts, passed, passed, 0)
    else env.otherGetElement(g, q, atts, passed)
  }

  /** Alternative `k` of `g`, reached while the lookup holds the passed set
      `s`, yields nothing for `q`: it is neither an element named `q` nor a
      wildcard resolving `q`, and a group is either in `s` or answers null
      when asked with `g` recorded as passed. */
  ghost predicate LookupDeclines(env: Env, arena: Arena, g: GroupId, q: QName, atts: Attrs,
                                 passed: set<GroupId>, s: set<GroupId>, k: nat)
    requires Closed(arena) && g in arena && passed <= s && k < |arena[g].particles|
    decreases arena.Keys - passed, if g in passed then 1 else 0, 0, 0, 0
  {
    var p := arena[g].particles[k];
    && Declines(env, p, q, atts)
    && (p.term.GroupTerm? ==>
          p.term.group in s || GroupGetElement(env, arena, p.term.group, q, atts, passed + {g}) == Ok(None))
  }

  /** Every alternative of `g` from `i` up to `k` yields nothing, each with
      the passed set the lookup from `i`, holding `cur`, has on reaching it. */
  ghost predicate DeclinesBefore(env: Env, arena: Arena, g: GroupId, q: QName, atts: Attrs, passed: set<GroupId>,
                                 cur: set<GroupId>, i: nat, k: nat)
    requires Closed(arena) && g in arena && passed <= cur <= passed + {g} && k <= |arena[g].particles|
    decreases arena.Keys - passed, if g in passed then 1 else 0, 0, 0, 1
  {
    forall j | i <= j < k :: LookupDeclines(env, arena, g, q, atts, passed, CurAt(arena, g, passed, cur, i, j), j)
  }

  /** Alternative `k`, reached with the passed set `s`, yields the element
      `r` holds: an element of that name, a wildcard resolving to it, or a
      group not in `s` whose own lookup answers `r`. */
  ghost predicate YieldsAt(env: Env, arena: Arena, g: GroupId, q: QName, atts: Attrs, passed: set<GroupId>,
                           s: set<GroupId>, k: nat, r: Result<Option<ElementBinding>>)
    requires Closed(arena) && g in arena && passed <= s && k < |arena[g].particles|
    requires r.Ok? && r.value.Some?
    decreases arena.Keys - passed, if g in passed then 1 else 0, 0, 0, 0
  {
    var p := arena[g].particles[k];
    || (ElementNamed(p, q) && p.term.element == r.value.value)
    || WildcardYields(env, p, q, atts, r.value.value)
    || (p.term.GroupTerm? && p.term.group !in s &&
        GroupGetElement(env, arena, p.term.group, q, atts, passed + {g}) == r)
  }

  /** Alternative `k`, reached with the passed set `s`, fails with `r`: a
      wildcard resolving to another name is a binding error, and so is a
      group not in `s` whose lookup yields another name; a failing nested
      lookup passes its failure on. */
  ghost predicate FailsAt(env: Env, arena: Arena, g: GroupId, q: QName, atts: Attrs, passed: set<GroupId>,
                          s: set<GroupId>, k: nat, r: Result<Option<ElementBinding>>)
    requires Closed(arena) && g in arena && passed <= s && k < |arena[g].particles|
    decreases arena.Keys - passed, if g in passed then 1 else 0, 0, 0, 0
  {
    var p := arena[g].particles[k];
    || (r == Err(Binding) && exists e :: WildcardYields(env, p, q, atts, e) && e.name != q)
    || (p.term.GroupTerm? && p.term.group !in s &&
        var nested := GroupGetElement(env, arena, p.term.group, q, atts, passed + {g});
        || (nested.Err? && r == nested)
        || (nested.Ok? && nested.value.Some? && nested.value.value.name != q && r == Err(Binding)))
  }

  /** What the lookup over the alternatives of `g` from index `i` on, holding
      the passed set `cur`, answers: only elements named `q`; an element from
      the first alternative, in order, that yields one; nothing when every
      alternative yields nothing; and otherwise the failure of the first
      alternative that fails. */
  ghost predicate LookedUp(env: Env, arena: Arena, g: GroupId, q: QName, atts: Attrs, passed: set<GroupId>,
                           cur: set<GroupId>, i: nat, r: Result<Option<ElementBinding>>)
    requires Closed(arena) && g in arena && passed <= cur <= passed + {g}
    decreases arena.Keys - passed, if g in passed then 1 else 0, 0, 0, 2
  {
    var n := |arena[g].particles|;
    && (r.Ok? && r.value.Some? ==> r.value.value.name == q)
    && (r.Ok? && r.value.Some? ==>
          exists k | i <= k < n ::
            YieldsAt(env, arena, g, q, atts, passed, CurAt(arena, g, passed, cur, i, k), k, r)
            && DeclinesBefore(env, arena, g, q, atts, passed, cur, i, k))
    && (r == Ok(None) ==> i <= n ==> DeclinesBefore(env, arena, g, q, atts, passed, cur, i, n))
    && (r.Err? ==>
          exists k | i <= k < n ::
            FailsAt(env, arena, g, q, atts, passed, CurAt(arena, g, passed, cur, i, k), k, r)
            && DeclinesBefore(env, arena, g, q, atts, passed, cur, i, k))
  }

  /** An alternative `i` that yields nothing joins the answer of the lookup
      from `i + 1`. */
  lemma {:induction false} LookupSkip(env: Env, arena: Arena, g: GroupId, q: QName, atts: Attrs, passed: set<GroupId>,
                                      cur: set<GroupId>, i: nat, r: Result<Option<ElementBinding>>)
    requires Closed(arena) && g in arena && passed <= cur <= passed + {g} && i < |arena[g].particles|
    requires LookupDeclines(env, arena, g, q, atts, passed, cur, i)
    requires LookedUp(env, arena, g, q, atts, passed, CurAfter(arena, g, passed, cur, i), i + 1, r)
    ensures LookedUp(env, arena, g, q, atts, passed, cur, i, r)
    decreases arena.Keys - passed, if g in passed then 1 else 0, 0, |arena[g].particles| - i, 0
  {
    var n := |arena[g].particles|;
    var cur' := CurAfter(arena, g, passed, cur, i);
    CurAtStep(arena, g, passed, cur, i);
    forall k | i < k <= n
      ensures DeclinesBefore(env, arena, g, q, atts, passed, cur', i + 1, k) ==>
              DeclinesBefore(env, arena, g, q, atts, passed, cur, i, k)
    {
    }
    if r.Ok? && r.value.Some? {
      var k :| i + 1 <= k < n &&
               YieldsAt(env, arena, g, q, atts, passed, CurAt(arena, g, passed, cur', i + 1, k), k, r)
               && DeclinesBefore(env, arena, g, q, atts, passed, cur', i + 1, k);
      assert YieldsAt(env, arena, g, q, atts, passed, CurAt(arena, g, passed, cur, i, k), k, r);
    }
    if r.Err? {
      var k :| i + 1 <= k < n &&
               FailsAt(env, arena, g, q, atts, passed, CurAt(arena, g, passed, cur', i + 1, k), k, r)
               && DeclinesBefore(env, arena, g, q, atts, passed, cur', i + 1, k);
      assert FailsAt(env, arena, g, q, atts, passed, CurAt(arena, g, passed, cur, i, k), k, r);
    }
  }

  /** An alternative `i` that yields or fails decides the lookup from `i`. */
  lemma LookupStops(env: Env, arena: Arena, g: GroupId, q: QName, atts: Attrs, passed: set<GroupId>,
                    cur: set<GroupId>, i: nat, r: Result<Option<ElementBinding>>)
    requires Closed(arena) && g in arena && passed <= cur <= passed + {g} && i < |arena[g].particles|
    requires r.Ok? && r.value.Some? ==> r.value.value.name == q && YieldsAt(env, arena, g, q, atts, passed, cur, i, r)
    requires r.Ok? ==> r.value.Some?
    requires r.Err? ==> FailsAt(env, arena, g, q, atts, passed, cur, i, r)
    ensures LookedUp(env, arena, g, q, atts, passed, cur, i, r)
    decreases arena.Keys - passed, if g in passed then 1 else 0, 0, |arena[g].particles| - i, 0
  {
    CurAtStep(arena, g, passed, cur, i);
    assert DeclinesBefore(env, arena, g, q, atts, passed, cur, i, i);
  }

  /** The list lookup `Cursor.getElement(List, ...)` over the alternatives of
      `g` from index `i` on; `cur` is the passed set as the loop has grown it:
      `passed`, plus `g` once a nested group has been entered. */
  function GetElementFrom(env: Env, arena: Arena, g: GroupId, q: QName, atts: Attrs,
                          passed: set<GroupId>, cur: set<GroupId>, i: nat): (r: Result<Option<ElementBinding>>)
    requires Closed(arena) && g in arena && i <= |arena[g].particles|
    requires passed <= cur <= passed + {g}
    decreases arena.Keys - passed, if g in passed then 1 else 0, 0, |arena[g].particles| - i, 4
    ensures LookedUp(env, arena, g, q, atts, passed, cur, i, r)
  {
    var ps := arena[g].particles;
    if i == |ps| then Ok(None)
    else
      match ps[i].term
      case ElementTerm(e) =>
        if e.name == q then
          LookupStops(env, arena, g, q, atts, passed, cur, i, Ok(Some(e)));
          Ok(Some(e))
        else
          var r := GetElementFrom(env, arena, g, q, atts, passed, cur, i + 1);
          LookupSkip(env, arena, g, q, atts, passed, cur, i, r);
          r
      case GroupTerm(c) => GetElementGroup(env, arena, g, q, atts, passed, cur, i)
      case WildcardTerm(w) =>
        match env.wildcardElement(w, q, atts)
        case None =>
          var r := GetElementFrom(env, arena, g, q, atts, passed, cur, i + 1);
          LookupSkip(env, arena, g, q, atts, passed, cur, i, r);
          r
        case Some(e) =>
          var r := if e.name != q then Err(Binding) else Ok(Some(e));
          LookupStops(env, arena, g, q, atts, passed, cur, i, r);
          r
  }

  /** The lookup at a group alternative: a group not passed yet is asked
      through a cursor of its own, with `g` recorded as passed. */
  function GetElementGroup(env: Env, arena: Arena, g: GroupId, q: QName, atts: Attrs,
                           passed: set<GroupId>, cur: set<GroupId>, i: nat): (r: Result<Option<ElementBinding>>)
    requires Closed(arena) && g in arena && i < |arena[g].particles| && arena[g].particles[i].term.GroupTerm?
    requires passed <= cur <= passed + {g}
    decreases arena.Keys - passed, if g in passed then 1 else 0, 0, |arena[g].particles| - i, 3
    ensures LookedUp(env, arena, g, q, atts, passed, cur, i, r)
  {
    var c := arena[g].particles[i].term.group;
    if c in cur then
      var r := GetElementFrom(env, arena, g, q, atts, passed, cur, i + 1);
      LookupSkip(env, arena, g, q, atts, passed, cur, i, r);
      r
    else
      var nested := GroupGetElement(env, arena, c, q, atts, passed + {g});
      if nested.Err? || nested.value.Some? then
        var r := if nested.Ok? && nested.value.value.name != q then Err(Binding) else nested;
        LookupStops(env, arena, g, q, atts, passed, cur, i, r);
        r
      else
        var r := GetElementFrom(env, arena, g, q, atts, passed, passed + {g}, i + 1);
        LookupSkip(env, arena, g, q, atts, passed, cur, i, r);
        r
  }

  /** The wildcard alternative `p` resolves `q` to element `e`. */
  predicate WildcardYields(env: Env, p: Particle, q: QName, atts: Attrs, e: ElementBinding) {
    p.term.WildcardTerm? && env.wildcardElement(p.term.wildcard, q, atts) == Some(e)
  }

  /** `getElement` as written: the passed set receives the cursor, which no
      group equals, so the set of groups it holds never grows.  `fuel` bounds
      the depth of nested calls. */
  function GroupGetElementAsWritten(env: Env, arena: Arena, g: GroupId, q: QName, atts: Attrs,
                                    passed: set<GroupId>, fuel: nat): (r: Result<Option<ElementBinding>>)
    requires Closed(arena) && g in arena
    decreases fuel, 0, 0
    ensures arena[g].kind == Choice && r.Ok? && r.value.Some? ==> r.value.value.name == q
  {
    if arena[g].kind != Choice then env.otherGetElement(g, q, atts, passed)
    else if fuel == 0 then Err(StackOverflow)
    else GetElementFromAsWritten(env, arena, g, q, atts, passed, fuel - 1, 0)
  }

  function GetElementFromAsWritten(env: Env, arena: Arena, g: GroupId, q: QName, atts: Attrs,
                                   passed: set<GroupId>, fuel: nat, i: nat): (r: Result<Option<ElementBinding>>)
    requires Closed(arena) && g in arena && i <= |arena[g].particles|
    decreases fuel, 1, |arena[g].particles| - i
    ensures r.Ok? && r.value.Some? ==> r.value.value.name == q
  {
    var ps := arena[g].particles;
    if i == |ps| then Ok(None)
    else
      match ps[i].term
      case ElementTerm(e) =>
        if e.name == q then Ok(Some(e)) else GetElementFromAsWritten(env, arena, g, q, atts, passed, fuel, i + 1)
      case GroupTerm(c) =>
        if c in passed then GetElementFromAsWritten(env, arena, g, q, atts, passed, fuel, i + 1)
        else
          var nested := GroupGetElementAsWritten(env, arena, c, q, atts, passed, fuel);
          if nested.Err? then nested
          else if nested.value.Some? then
            if nested.value.value.name != q then Err(Binding) else nested
          else GetElementFromAsWritten(env, arena, g, q, atts, passed, fuel, i + 1)
      case WildcardTerm(w) =>
        match env.wildcardElement(w, q, atts)
        case None => GetElementFromAsWritten(env, arena, g, q, atts, passed, fuel, i + 1)
        case Some(e) => if e.name != q then Err(Binding) else Ok(Some(e))
  }

  // ---------------------------------------------------------------------------
  // startElement

  /** `Cursor.startElement(qName, atts, passed, groupStack, required)`: the
      cursor's new state and the group stack after the call.  A choice cursor
      ignores `required`; the cursors of the other group kinds are outside the
      model and append the cursors `env.otherStart` names. */
  function CursorStart(env: Env, arena: Arena, c: Cursor, q: QName, atts: Attrs, passed: set<GroupId>,
                       stack: seq<Cursor>, required: bool): (r: (Cursor, seq<Cursor>))
    requires Closed(arena) && ValidCursor(arena, c)
    decreases arena.Keys - passed, if c.group in passed then 1 else 0, 1, 0, 0
    ensures Extends(stack, r.1)
    ensures arena[c.group].kind == Choice ==> r.0.group == c.group && ValidCursor(arena, r.0)
    // no match: nothing is pushed and the position is kept
    ensures arena[c.group].kind == Choice && |r.1| == |stack| ==>
      r.0.pos == c.pos && r.0.occurrence == c.occurrence
    // a match: the cursor is pushed last, at an alternative no earlier than the scan start
    ensures arena[c.group].kind == Choice && |r.1| > |stack| ==>
      && r.1[|r.1| - 1] == r.0
      && ScanStart(arena, c) <= r.0.pos
      && r.0.occurrence == (if r.0.pos == c.pos then c.occurrence + 1 else 1)
    // an element alternative matches only its own name, and becomes the current element
    ensures arena[c.group].kind == Choice && |r.1| > |stack| &&
            arena[c.group].particles[r.0.pos].term.ElementTerm? ==>
      && ElementNamed(arena[c.group].particles[r.0.pos], q)
      && r.0.element == Some(arena[c.group].particles[r.0.pos].term.element)
    // the scan from the start index: the first alternative that does not decline, or none
    ensures arena[c.group].kind == Choice ==> Scanned(env, arena, c, q, atts, passed, passed, stack, ScanStart(arena, c), r)
  {
    if arena[c.group].kind == Choice then
      StartScan(env, arena, c, q, atts, passed, passed, stack, ScanStart(arena, c))
    else
      var (c', pushed) := env.otherStart(c, q, atts, passed, required);
      (c', stack + pushed)
  }

  /** The nested call on alternative `p` (a group) of a cursor at occurrence `occ`. */
  function Nested(env: Env, arena: Arena, p: Particle, occ: nat, q: QName, atts: Attrs, passed: set<GroupId>,
                  stack: seq<Cursor>): (r: (Cursor, seq<Cursor>))
    requires Closed(arena) && p.term.GroupTerm? && p.term.group in arena
    decreases arena.Keys - passed, if p.term.group in passed then 1 else 0, 2, 0, 0
    ensures Extends(stack, r.1)
  {
    CursorStart(env, arena, NewCursor(p.term.group), q, atts, passed, stack, env.isRequired(p, occ))
  }

  /** Alternative `k` of choice `g`, reached while the scan holds the passed
      set `s`, declines `q` for a cursor at occurrence `occ`: it is neither an
      element named `q` nor a wildcard resolving `q`, and a group is either in
      `s` or its nested start, with `g` recorded as passed, pushes nothing. */
  ghost predicate ScanDeclines(env: Env, arena: Arena, g: GroupId, occ: nat, q: QName, atts: Attrs,
                               passed: set<GroupId>, s: set<GroupId>, stack: seq<Cursor>, k: nat)
    requires Closed(arena) && g in arena && passed <= s && k < |arena[g].particles|
    decreases arena.Keys - passed, if g in passed then 1 else 0, 0, 0, 0
  {
    var p := arena[g].particles[k];
    && Declines(env, p, q, atts)
    && (p.term.GroupTerm? ==>
          p.term.group in s || |Nested(env, arena, p, occ, q, atts, passed + {g}, stack).1| == |stack|)
  }

  /** Every alternative of `g` from `j` up to `k` declines, each with the
      passed set the scan from `j`, holding `cur`, has on reaching it. */
  ghost predicate ScanDeclinesBefore(env: Env, arena: Arena, g: GroupId, occ: nat, q: QName, atts: Attrs,
                                     passed: set<GroupId>, cur: set<GroupId>, stack: seq<Cursor>, j: nat, k: nat)
    requires Closed(arena) && g in arena && passed <= cur <= passed + {g} && k <= |arena[g].particles|
    decreases arena.Keys - passed, if g in passed then 1 else 0, 0, 0, 1
  {
    forall m | j <= m < k ::
      ScanDeclines(env, arena, g, occ, q, atts, passed, CurAt(arena, g, passed, cur, j, m), stack, m)
  }

  /** The stack a match at alternative `k`, reached with the passed set `s`,
      leaves: a group not in `s` has pushed the cursors of its nested start
      (with `g` recorded as passed), and the matching cursor `c` goes on top;
      an element or wildcard pushes only `c`. */
  ghost predicate PushedAt(env: Env, arena: Arena, g: GroupId, occ: nat, q: QName, atts: Attrs,
                           passed: set<GroupId>, s: set<GroupId>, stack: seq<Cursor>, k: nat,
                           c: Cursor, pushed: seq<Cursor>)
    requires Closed(arena) && g in arena && passed <= s && k < |arena[g].particles|
    decreases arena.Keys - passed, if g in passed then 1 else 0, 0, 0, 0
  {
    var p := arena[g].particles[k];
    if p.term.GroupTerm? then
      && p.term.group !in s
      && var nested := Nested(env, arena, p, occ, q, atts, passed + {g}, stack).1;
         |nested| > |stack| && pushed == nested + [c]
    else pushed == stack + [c]
  }

  /** What the scan from alternative `j`, holding the passed set `cur`,
      leaves: the group stack extended and the cursor valid.  Without a match
      every alternative from `j` on declined, and the stack and position are
      as they were.  With a match every alternative before it declined, the
      cursor is positioned no earlier than `j` with its occurrence counted,
      its alternative matched the tag, and the stack holds what that
      alternative pushed with the cursor on top. */
  ghost predicate Scanned(env: Env, arena: Arena, c: Cursor, q: QName, atts: Attrs, passed: set<GroupId>,
                          cur: set<GroupId>, stack: seq<Cursor>, j: nat, r: (Cursor, seq<Cursor>))
    requires Closed(arena) && ValidCursor(arena, c) && arena[c.group].kind == Choice
    requires passed <= cur <= passed + {c.group}
    decreases arena.Keys - passed, if c.group in passed then 1 else 0, 0, 0, 2
  {
    var g := c.group;
    var n := |arena[g].particles|;
    && Extends(stack, r.1)
    && r.0.group == g && ValidCursor(arena, r.0)
    && (|r.1| == |stack| ==>
          && r.1 == stack && r.0.pos == c.pos && r.0.occurrence == c.occurrence
          && (j <= n ==> ScanDeclinesBefore(env, arena, g, c.occurrence, q, atts, passed, cur, stack, j, n)))
    && (|r.1| > |stack| ==>
          && j <= r.0.pos
          && r.1[|r.1| - 1] == r.0
          && r.0.occurrence == (if r.0.pos == c.pos then c.occurrence + 1 else 1)
          && MatchedBy(env, arena, r.0, q, atts, passed)
          && ScanDeclinesBefore(env, arena, g, c.occurrence, q, atts, passed, cur, stack, j, r.0.pos)
          && PushedAt(env, arena, g, c.occurrence, q, atts, passed, CurAt(arena, g, passed, cur, j, r.0.pos),
                      stack, r.0.pos, r.0, r.1))
  }

  /** A declining alternative `j` joins what the scan from `j + 1` left;
      `c1` is `c` with at most its element changed. */
  lemma {:induction false} ScanSkip(env: Env, arena: Arena, c: Cursor, c1: Cursor, q: QName, atts: Attrs,
                                    passed: set<GroupId>, cur: set<GroupId>, stack: seq<Cursor>, j: nat,
                                    r: (Cursor, seq<Cursor>))
    requires Closed(arena) && ValidCursor(arena, c) && arena[c.group].kind == Choice
    requires c1 == c.(element := c1.element)
    requires passed <= cur <= passed + {c.group} && j < |arena[c.group].particles|
    requires ScanDeclines(env, arena, c.group, c.occurrence, q, atts, passed, cur, stack, j)
    requires Scanned(env, arena, c1, q, atts, passed, CurAfter(arena, c.group, passed, cur, j), stack, j + 1, r)
    ensures Scanned(env, arena, c, q, atts, passed, cur, stack, j, r)
    decreases arena.Keys - passed, if c.group in passed then 1 else 0, 0, |arena[c.group].particles| - j, 0
  {
    var g := c.group;
    var n := |arena[g].particles|;
    var cur' := CurAfter(arena, g, passed, cur, j);
    CurAtStep(arena, g, passed, cur, j);
    forall k | j < k <= n
      ensures ScanDeclinesBefore(env, arena, g, c.occurrence, q, atts, passed, cur', stack, j + 1, k) ==>
              ScanDeclinesBefore(env, arena, g, c.occurrence, q, atts, passed, cur, stack, j, k)
    {
    }
    if |r.1| > |stack| {
      assert CurAt(arena, g, passed, cur, j, r.0.pos) == CurAt(arena, g, passed, cur', j + 1, r.0.pos);
    }
  }

  /** A match at alternative `j` decides the scan from `j`. */
  lemma ScanStops(env: Env, arena: Arena, c: Cursor, q: QName, atts: Attrs,
                  passed: set<GroupId>, cur: set<GroupId>, stack: seq<Cursor>, j: nat, r: (Cursor, seq<Cursor>))
    requires Closed(arena) && ValidCursor(arena, c) && arena[c.group].kind == Choice
    requires passed <= cur <= passed + {c.group} && j < |arena[c.group].particles|
    requires r.0 == Advance(c, j, r.0.element)
    requires MatchedBy(env, arena, r.0, q, atts, passed)
    requires PushedAt(env, arena, c.group, c.occurrence, q, atts, passed, cur, stack, j, r.0, r.1)
    ensures Scanned(env, arena, c, q, atts, passed, cur, stack, j, r)
    decreases arena.Keys - passed, if c.group in passed then 1 else 0, 0, |arena[c.group].particles| - j, 0
  {
    CurAtStep(arena, c.group, passed, cur, j);
    assert ScanDeclinesBefore(env, arena, c.group, c.occurrence, q, atts, passed, cur, stack, j, j);
  }

  /** The loop of the choice cursor's `startElement` from alternative `j` on.
      `c` carries the `element` field, which a declining wildcard resets. */
  function StartScan(env: Env, arena: Arena, c: Cursor, q: QName, atts: Attrs,
                     passed: set<GroupId>, cur: set<GroupId>, stack: seq<Cursor>, j: nat): (r: (Cursor, seq<Cursor>))
    requires Closed(arena) && ValidCursor(arena, c) && arena[c.group].kind == Choice
    requires j <= |arena[c.group].particles|
    requires passed <= cur <= passed + {c.group}
    decreases arena.Keys - passed, if c.group in passed then 1 else 0, 0, |arena[c.group].particles| - j, 4
    ensures Scanned(env, arena, c, q, atts, passed, cur, stack, j, r)
  {
    var ps := arena[c.group].particles;
    if j == |ps| then (c, stack)
    else
      match ps[j].term
      case ElementTerm(e) =>
        if e.name == q then
          var c' := Advance(c, j, Some(e));
          ScanStops(env, arena, c, q, atts, passed, cur, stack, j, (c', stack + [c']));
          (c', stack + [c'])
        else
          var r := StartScan(env, arena, c, q, atts, passed, cur, stack, j + 1);
          ScanSkip(env, arena, c, c, q, atts, passed, cur, stack, j, r);
          r
      case GroupTerm(child) => ScanGroup(env, arena, c, q, atts, passed, cur, stack, j)
      case WildcardTerm(w) =>
        var el := env.wildcardElement(w, q, atts);
        if el.Some? then
          var c' := Advance(c, j, el);
          ScanStops(env, arena, c, q, atts, passed, cur, stack, j, (c', stack + [c']));
          (c', stack + [c'])
        else
          var r := StartScan(env, arena, c.(element := el), q, atts, passed, cur, stack, j + 1);
          ScanSkip(env, arena, c, c.(element := el), q, atts, passed, cur, stack, j, r);
          r
  }

  /** The scan at a group alternative: a group not passed yet is entered
      through a cursor of its own, with this choice recorded as passed. */
  function ScanGroup(env: Env, arena: Arena, c: Cursor, q: QName, atts: Attrs,
                     passed: set<GroupId>, cur: set<GroupId>, stack: seq<Cursor>, j: nat): (r: (Cursor, seq<Cursor>))
    requires Closed(arena) && ValidCursor(arena, c) && arena[c.group].kind == Choice
    requires j < |arena[c.group].particles| && arena[c.group].particles[j].term.GroupTerm?
    requires passed <= cur <= passed + {c.group}
    decreases arena.Keys - passed, if c.group in passed then 1 else 0, 0, |arena[c.group].particles| - j, 3
    ensures Scanned(env, arena, c, q, atts, passed, cur, stack, j, r)
  {
    var g := c.group;
    var p := arena[g].particles[j];
    if p.term.group in cur then
      var r := StartScan(env, arena, c, q, atts, passed, cur, stack, j + 1);
      ScanSkip(env, arena, c, c, q, atts, passed, cur, stack, j, r);
      r
    else
      var (_, stack') := Nested(env, arena, p, c.occurrence, q, atts, passed + {g}, stack);
      if |stack'| != |stack| then
        var c' := Advance(c, j, None);
        ScanStops(env, arena, c, q, atts, passed, cur, stack, j, (c', stack' + [c']));
        (c', stack' + [c'])
      else
        var r := StartScan(env, arena, c, q, atts, passed, passed + {g}, stack, j + 1);
        ScanSkip(env, arena, c, c, q, atts, passed, cur, stack, j, r);
        r
  }

  /** With sound sequence and all cursors, `startElement` keeps every cursor
      on the group stack valid. */
  lemma {:induction false} StartKeepsValid(env: Env, arena: Arena, c: Cursor, q: QName, atts: Attrs,
                                          passed: set<GroupId>, stack: seq<Cursor>, required: bool)
    requires Closed(arena) && ValidCursor(arena, c) && SoundEnv(env, arena) && AllValid(arena, stack)
    ensures var r := CursorStart(env, arena, c, q, atts, passed, stack, required);
            ValidCursor(arena, r.0) && AllValid(arena, r.1)
    decreases arena.Keys - passed, if c.group in passed then 1 else 0, 1, 0, 0
  {
    if arena[c.group].kind == Choice {
      ScanKeepsValid(env, arena, c, q, atts, passed, passed, stack, ScanStart(arena, c));
    }
  }

  lemma {:induction false} ScanKeepsValid(env: Env, arena: Arena, c: Cursor, q: QName, atts: Attrs,
                                         passed: set<GroupId>, cur: set<GroupId>, stack: seq<Cursor>, j: nat)
    requires Closed(arena) && ValidCursor(arena, c) && arena[c.group].kind == Choice
    requires j <= |arena[c.group].particles|
    requires passed <= cur <= passed + {c.group}
    requires SoundEnv(env, arena) && AllValid(arena, stack)
    ensures AllValid(arena, StartScan(env, arena, c, q, atts, passed, cur, stack, j).1)
    decreases arena.Keys - passed, if c.group in passed then 1 else 0, 0, |arena[c.group].particles| - j, 1
  {
    var g := c.group;
    var ps := arena[g].particles;
    if j < |ps| {
      match ps[j].term
      case ElementTerm(e) =>
        if e.name != q {
          ScanKeepsValid(env, arena, c, q, atts, passed, cur, stack, j + 1);
        }
      case GroupTerm(child) =>
        assert StartScan(env, arena, c, q, atts, passed, cur, stack, j) == ScanGroup(env, arena, c, q, atts, passed, cur, stack, j);
        GroupKeepsValid(env, arena, c, q, atts, passed, cur, stack, j);
      case WildcardTerm(w) =>
        ScanKeepsValid(env, arena, c.(element := env.wildcardElement(w, q, atts)), q, atts, passed, cur, stack, j + 1);
    }
  }

  lemma {:induction false} GroupKeepsValid(env: Env, arena: Arena, c: Cursor, q: QName, atts: Attrs,
                                          passed: set<GroupId>, cur: set<GroupId>, stack: seq<Cursor>, j: nat)
    requires Closed(arena) && ValidCursor(arena, c) && arena[c.group].kind == Choice
    requires j < |arena[c.group].particles| && arena[c.group].particles[j].term.GroupTerm?
    requires passed <= cur <= passed + {c.group}
    requires SoundEnv(env, arena) && AllValid(arena, stack)
    ensures AllValid(arena, ScanGroup(env, arena, c, q, atts, passed, cur, stack, j).1)
    decreases arena.Keys - passed, if c.group in passed then 1 else 0, 0, |arena[c.group].particles| - j, 0
  {
    var g := c.group;
    var p := arena[g].particles[j];
    if p.term.group in cur {
      ScanKeepsValid(env, arena, c, q, atts, passed, cur, stack, j + 1);
    } else {
      StartKeepsValid(env, arena, NewCursor(p.term.group), q, atts, passed + {g}, stack, env.isRequired(p, c.occurrence));
      ScanKeepsValid(env, arena, c, q, atts, passed, passed + {g}, stack, j + 1);
    }
  }

  /** `startElement` as written: the passed set never gains a group; `fuel`
      bounds the depth of nested calls. */
  function CursorStartAsWritten(env: Env, arena: Arena, c: Cursor, q: QName, atts: Attrs, passed: set<GroupId>,
                                stack: seq<Cursor>, required: bool, fuel: nat): (r: Result<(Cursor, seq<Cursor>)>)
    requires Closed(arena) && ValidCursor(arena, c)
    decreases fuel, 0, 0
    ensures r.Ok? ==> Extends(stack, r.value.1)
  {
    if arena[c.group].kind != Choice then
      var (c', pushed) := env.otherStart(c, q, atts, passed, required);
      Ok((c', stack + pushed))
    else if fuel == 0 then Err(StackOverflow)
    else StartScanAsWritten(env, arena, c, q, atts, passed, stack, ScanStart(arena, c), fuel - 1)
  }

  function StartScanAsWritten(env: Env, arena: Arena, c: Cursor, q: QName, atts: Attrs,
                              passed: set<GroupId>, stack: seq<Cursor>, j: nat, fuel: nat): (r: Result<(Cursor, seq<Cursor>)>)
    requires Closed(arena) && ValidCursor(arena, c) && arena[c.group].kind == Choice
    requires j <= |arena[c.group].particles|
    decreases fuel, 1, |arena[c.group].particles| - j
    ensures r.Ok? ==> Extends(stack, r.value.1)
  {
    var ps := arena[c.group].particles;
    if j == |ps| then Ok((c, stack))
    else
      match ps[j].term
      case ElementTerm(e) =>
        if e.name == q then
          var c' := Advance(c, j, Some(e));
          Ok((c', stack + [c']))
        else StartScanAsWritten(env, arena, c, q, atts, passed, stack, j + 1, fuel)
      case GroupTerm(child) =>
        if child in passed then StartScanAsWritten(env, arena, c, q, atts, passed, stack, j + 1, fuel)
        else
          var nested :- CursorStartAsWritten(env, arena, NewCursor(child), q, atts, passed, stack,
                                             env.isRequired(ps[j], c.occurrence), fuel);
          if |nested.1| != |stack| then
            var c' := Advance(c, j, None);
            Ok((c', nested.1 + [c']))
          else StartScanAsWritten(env, arena, c, q, atts, passed, stack, j + 1, fuel)
      case WildcardTerm(w) =>
        var el := env.wildcardElement(w, q, atts);
        if el.Some? then
          var c' := Advance(c, j, el);
          Ok((c', stack + [c']))
        else StartScanAsWritten(env, arena, c.(element := el), q, atts, passed, stack, j + 1, fuel)
  }

  // ---------------------------------------------------------------------------
  // Accessors

  /** `getCurrentParticle`: the alternative the cursor is positioned on. */
  function CurrentParticle(arena: Arena, c: Cursor): (r: Result<Particle>)
    requires ValidCursor(arena, c) && arena[c.group].kind == Choice
    ensures r.Ok? <==> c.pos >= 0
    ensures r.Ok? ==> r.value in arena[c.group].particles
    ensures r.Err? ==> r.error == Binding
  {
    if c.pos < 0 then Err(Binding) else Ok(arena[c.group].particles[c.pos])
  }

  /** `getElement()`: the element last matched, `None` for null. */
  function CurrentElement(c: Cursor): (r: Result<Option<ElementBinding>>)
    ensures r.Ok? <==> c.pos >= 0
    ensures r.Ok? ==> r.value == c.element
  {
    if c.pos < 0 then Err(Binding) else Ok(c.element)
  }

  /** `endElement(qName)`: succeeds exactly when the current element is named `q`. */
  function EndElement(c: Cursor, q: QName): (r: Result<()>)
    ensures r.Ok? <==> c.element.Some? && c.element.value.name == q
    ensures r.Err? ==> r.error == Binding
  {
    if c.element.None? || c.element.value.name != q then Err(Binding) else Ok(())
  }

  // ---------------------------------------------------------------------------
  // Properties

  /** Every alternative of `g` is an element. */
  ghost predicate ElementsOnly(arena: Arena, g: GroupId)
    requires g in arena
  {
    forall k | 0 <= k < |arena[g].particles| :: arena[g].particles[k].term.ElementTerm?
  }

  /** On a choice of elements, an alternative declines in the scan exactly
      when it is not an element named `q`. */
  lemma ElementsScanDecline(env: Env, arena: Arena, g: GroupId, occ: nat, q: QName, atts: Attrs,
                            passed: set<GroupId>, cur: set<GroupId>, stack: seq<Cursor>, j: nat)
    requires Closed(arena) && g in arena && ElementsOnly(arena, g) && passed <= cur <= passed + {g}
    ensures forall k: nat | k <= |arena[g].particles| ::
              ScanDeclinesBefore(env, arena, g, occ, q, atts, passed, cur, stack, j, k) <==>
              forall m | j <= m < k :: !ElementNamed(arena[g].particles[m], q)
  {
    var ps := arena[g].particles;
    forall m | j <= m < |ps|
      ensures ScanDeclines(env, arena, g, occ, q, atts, passed, CurAt(arena, g, passed, cur, j, m), stack, m)
              <==> !ElementNamed(ps[m], q)
    {
      assert ps[m].term.ElementTerm?;
    }
  }

  /** On a choice of elements, an alternative yields nothing in the lookup
      exactly when it is not an element named `q`, yields that element
      otherwise, and never fails. */
  lemma ElementsLookup(env: Env, arena: Arena, g: GroupId, q: QName, atts: Attrs,
                       passed: set<GroupId>, cur: set<GroupId>, i: nat)
    requires Closed(arena) && g in arena && ElementsOnly(arena, g) && passed <= cur <= passed + {g}
    ensures forall k: nat | k <= |arena[g].particles| ::
              DeclinesBefore(env, arena, g, q, atts, passed, cur, i, k) <==>
              forall m | i <= m < k :: !ElementNamed(arena[g].particles[m], q)
    ensures forall s: set<GroupId>, k: nat, r: Result<Option<ElementBinding>>
              | passed <= s && k < |arena[g].particles| && r.Ok? && r.value.Some? ::
              YieldsAt(env, arena, g, q, atts, passed, s, k, r) <==>
              ElementNamed(arena[g].particles[k], q) && arena[g].particles[k].term.element == r.value.value
    ensures forall s: set<GroupId>, k: nat, r: Result<Option<ElementBinding>>
              | passed <= s && k < |arena[g].particles| :: !FailsAt(env, arena, g, q, atts, passed, s, k, r)
  {
    var ps := arena[g].particles;
    forall m | i <= m < |ps|
      ensures LookupDeclines(env, arena, g, q, atts, passed, CurAt(arena, g, passed, cur, i, m), m)
              <==> !ElementNamed(ps[m], q)
    {
      assert ps[m].term.ElementTerm?;
    }
    forall s: set<GroupId>, k: nat, r: Result<Option<ElementBinding>>
      | passed <= s && k < |ps| && r.Ok? && r.value.Some?
      ensures YieldsAt(env, arena, g, q, atts, passed, s, k, r) <==>
              ElementNamed(ps[k], q) && ps[k].term.element == r.value.value
    {
      assert ps[k].term.ElementTerm?;
    }
    forall s: set<GroupId>, k: nat, r: Result<Option<ElementBinding>> | passed <= s && k < |ps|
      ensures !FailsAt(env, arena, g, q, atts, passed, s, k, r)
    {
      assert ps[k].term.ElementTerm?;
    }
  }

  /** On a choice of elements, a fresh cursor accepts `q` exactly when the
      group's lookahead says that its content may start with `q`. */
  lemma StartAgreesWithLookahead(env: Env, arena: Arena, g: GroupId, q: QName, atts: Attrs,
                                 stack: seq<Cursor>, required: bool)
    requires Closed(arena) && g in arena && arena[g].kind == Choice && ElementsOnly(arena, g)
    ensures var r := CursorStart(env, arena, NewCursor(g), q, atts, {}, stack, required);
            |r.1| > |stack| <==> MayStartWith(env, arena, g, q) == Ok(true)
  {
    var c := NewCursor(g);
    var ps := arena[g].particles;
    var r := StartScan(env, arena, c, q, atts, {}, {}, stack, 0);
    assert CursorStart(env, arena, c, q, atts, {}, stack, required) == r;
    var m := ChoiceMayStartWith(env, arena, g, q, {}, {}, 0);
    assert MayStartWith(env, arena, g, q) == m;
    ElementsScanDecline(env, arena, g, 0, q, atts, {}, {}, stack, 0);
    assert Scanned(env, arena, c, q, atts, {}, {}, stack, 0, r);
    if |r.1| > |stack| {
      assert ElementNamed(ps[r.0.pos], q);
      assert m.Ok? && m.value;
    } else {
      assert ScanDeclinesBefore(env, arena, g, 0, q, atts, {}, {}, stack, 0, |ps|);
      assert forall k | 0 <= k < |ps| :: !ElementNamed(ps[k], q);
    }
  }

  /** On a choice of elements, a match pushes the choice's own cursor and
      nothing else. */
  lemma {:induction false} ElementScanPushesItself(env: Env, arena: Arena, c: Cursor, q: QName, atts: Attrs,
                                                  passed: set<GroupId>, cur: set<GroupId>, stack: seq<Cursor>, j: nat)
    requires Closed(arena) && ValidCursor(arena, c) && arena[c.group].kind == Choice && ElementsOnly(arena, c.group)
    requires j <= |arena[c.group].particles|
    requires passed <= cur <= passed + {c.group}
    ensures var r := StartScan(env, arena, c, q, atts, passed, cur, stack, j);
            |r.1| > |stack| ==> r.1 == stack + [r.0]
    decreases |arena[c.group].particles| - j
  {
    var ps := arena[c.group].particles;
    if j < |ps| {
      assert ps[j].term.ElementTerm?;
      if ps[j].term.element.name != q {
        ElementScanPushesItself(env, arena, c, q, atts, passed, cur, stack, j + 1);
      }
    }
  }

  /** On a choice of elements, a fresh cursor that takes the tag is the only
      cursor pushed, and is positioned on an alternative. */
  lemma FreshElementChoiceStart(env: Env, arena: Arena, g: GroupId, q: QName, atts: Attrs)
    requires Closed(arena) && g in arena && arena[g].kind == Choice && ElementsOnly(arena, g)
    ensures var r := CursorStart(env, arena, NewCursor(g), q, atts, {}, [], true);
            |r.1| > 0 ==> r.1 == [r.0] && r.0.group == g && 0 <= r.0.pos < |arena[g].particles|
  {
    var c := NewCursor(g);
    assert CursorStart(env, arena, c, q, atts, {}, [], true) == StartScan(env, arena, c, q, atts, {}, {}, [], 0);
    ElementScanPushesItself(env, arena, c, q, atts, {}, {}, [], 0);
  }

  /** On a choice of elements, `startElement` positions a fresh cursor on
      exactly the element `getElement` looks up. */
  lemma StartAgreesWithGetElement(env: Env, arena: Arena, g: GroupId, q: QName, atts: Attrs,
                                  stack: seq<Cursor>, required: bool)
    requires Closed(arena) && g in arena && arena[g].kind == Choice && ElementsOnly(arena, g)
    ensures GroupGetElement(env, arena, g, q, atts, {}).Ok?
    ensures var r := CursorStart(env, arena, NewCursor(g), q, atts, {}, stack, required);
            var e := GroupGetElement(env, arena, g, q, atts, {}).value;
            && (|r.1| > |stack| <==> e.Some?)
            && (|r.1| > |stack| ==> r.0.element == e)
  {
    var c := NewCursor(g);
    var ps := arena[g].particles;
    var r := StartScan(env, arena, c, q, atts, {}, {}, stack, 0);
    assert CursorStart(env, arena, c, q, atts, {}, stack, required) == r;
    var ge := GetElementFrom(env, arena, g, q, atts, {}, {}, 0);
    assert GroupGetElement(env, arena, g, q, atts, {}) == ge;
    ElementsScanDecline(env, arena, g, 0, q, atts, {}, {}, stack, 0);
    ElementsLookup(env, arena, g, q, atts, {}, {}, 0);
    assert Scanned(env, arena, c, q, atts, {}, {}, stack, 0, r);
    assert LookedUp(env, arena, g, q, atts, {}, {}, 0, ge);
    assert ge.Ok?;
    if |r.1| > |stack| {
      var pos := r.0.pos;
      assert ElementNamed(ps[pos], q);
      assert ScanDeclinesBefore(env, arena, g, 0, q, atts, {}, {}, stack, 0, pos);
      assert !DeclinesBefore(env, arena, g, q, atts, {}, {}, 0, |ps|);
      assert ge.value.Some?;
      var k :| 0 <= k < |ps| && YieldsAt(env, arena, g, q, atts, {}, CurAt(arena, g, {}, {}, 0, k), k, ge)
               && DeclinesBefore(env, arena, g, q, atts, {}, {}, 0, k);
      assert ElementNamed(ps[k], q);
      assert !(k < pos) && !(pos < k);
    } else {
      assert ScanDeclinesBefore(env, arena, g, 0, q, atts, {}, {}, stack, 0, |ps|);
      assert forall k | 0 <= k < |ps| :: !ElementNamed(ps[k], q);
    }
  }

  /** An element alternative that may occur again keeps the cursor on it: a
      repeated start tag counts one occurrence more. */
  lemma RepeatStaysOnElement(env: Env, arena: Arena, c: Cursor, q: QName, atts: Attrs, passed: set<GroupId>,
                             stack: seq<Cursor>, required: bool)
    requires Closed(arena) && ValidCursor(arena, c) && arena[c.group].kind == Choice && c.pos >= 0
    requires ElementNamed(arena[c.group].particles[c.pos], q)
    requires Repeatable(arena[c.group].particles[c.pos], c.occurrence)
    ensures var r := CursorStart(env, arena, c, q, atts, passed, stack, required);
            && r.1 == stack + [r.0]
            && r.0.pos == c.pos && r.0.occurrence == c.occurrence + 1
  {
  }

  /** A group in the passed set is never consulted: replacing it changes no
      lookup that starts elsewhere. */
  lemma {:induction false} GetElementIgnoresPassed(env: Env, arena: Arena, g: GroupId, q: QName, atts: Attrs,
                                                  passed: set<GroupId>, d: GroupId, other: ModelGroup)
    requires Closed(arena) && g in arena && d in arena && d in passed && d != g
    requires forall k | 0 <= k < |other.particles| :: other.particles[k].term.GroupTerm? ==> other.particles[k].term.group in arena
    ensures Closed(arena[d := other])
    ensures GroupGetElement(env, arena[d := other], g, q, atts, passed) == GroupGetElement(env, arena, g, q, atts, passed)
    decreases arena.Keys - passed, if g in passed then 1 else 0, 1, 0
  {
    ReplaceKeepsClosed(arena, d, other);
    if arena[g].kind == Choice {
      GetElementFromIgnoresPassed(env, arena, g, q, atts, passed, passed, 0, d, other);
    }
  }

  lemma {:induction false} GetElementFromIgnoresPassed(env: Env, arena: Arena, g: GroupId, q: QName, atts: Attrs,
                                                      passed: set<GroupId>, cur: set<GroupId>, i: nat,
                                                      d: GroupId, other: ModelGroup)
    requires Closed(arena) && g in arena && d in arena && d in passed && d != g
    requires forall k | 0 <= k < |other.particles| :: other.particles[k].term.GroupTerm? ==> other.particles[k].term.group in arena
    requires i <= |arena[g].particles| && passed <= cur <= passed + {g}
    ensures Closed(arena[d := other])
    ensures GetElementFrom(env, arena[d := other], g, q, atts, passed, cur, i)
         == GetElementFrom(env, arena, g, q, atts, passed, cur, i)
    decreases arena.Keys - passed, if g in passed then 1 else 0, 0, |arena[g].particles| - i
  {
    ReplaceKeepsClosed(arena, d, other);
    var ps := arena[g].particles;
    if i < |ps| {
      match ps[i].term
      case ElementTerm(e) =>
        GetElementFromIgnoresPassed(env, arena, g, q, atts, passed, cur, i + 1, d, other);
      case GroupTerm(c) =>
        if c in cur {
          GetElementFromIgnoresPassed(env, arena, g, q, atts, passed, cur, i + 1, d, other);
        } else {
          GetElementIgnoresPassed(env, arena, c, q, atts, passed + {g}, d, other);
          GetElementFromIgnoresPassed(env, arena, g, q, atts, passed, passed + {g}, i + 1, d, other);
        }
      case WildcardTerm(w) =>
        GetElementFromIgnoresPassed(env, arena, g, q, atts, passed, cur, i + 1, d, other);
    }
  }

  lemma ReplaceKeepsClosed(arena: Arena, d: GroupId, other: ModelGroup)
    requires Closed(arena) && d in arena
    requires forall k | 0 <= k < |other.particles| :: other.particles[k].term.GroupTerm? ==> other.particles[k].term.group in arena
    ensures Closed(arena[d := other]) && arena[d := other].Keys == arena.Keys
  {
    assert arena[d := other].Keys == arena.Keys;
  }

  /** A choice whose one alternative is the choice itself. */
  function SelfChoice(): (arena: Arena)
    ensures Closed(arena) && 0 in arena && arena[0].kind == Choice
  {
    map[0 := ModelGroup(Choice, [Particle(GroupTerm(0), 1, 1, false)])]
  }

  /** As written, looking up any name in a choice that contains itself
      exhausts every recursion budget; with the guard working it finds nothing. */
  lemma {:induction false} SelfChoiceGetElementOverflows(env: Env, q: QName, atts: Attrs, fuel: nat)
    ensures GroupGetElementAsWritten(env, SelfChoice(), 0, q, atts, {}, fuel) == Err(StackOverflow)
    ensures GroupGetElement(env, SelfChoice(), 0, q, atts, {}) == Ok(None)
    decreases fuel
  {
    var arena := SelfChoice();
    if fuel > 0 {
      SelfChoiceGetElementOverflows(env, q, atts, fuel - 1);
      assert GetElementFromAsWritten(env, arena, 0, q, atts, {}, fuel - 1, 0) == Err(StackOverflow);
    }
    assert GetElementFrom(env, arena, 0, q, atts, {0}, {0}, 0) == Ok(None);
    assert GroupGetElement(env, arena, 0, q, atts, {0}) == Ok(None);
    assert GetElementFrom(env, arena, 0, q, atts, {}, {0}, 1) == Ok(None);
    assert {} + {0} == {0};
    assert GetElementGroup(env, arena, 0, q, atts, {}, {}, 0) == Ok(None);
  }

  /** As written, starting any element in a choice that contains itself
      exhausts every recursion budget; with the guard working nothing matches
      and the group stack is left alone. */
  lemma {:induction false} SelfChoiceStartOverflows(env: Env, q: QName, atts: Attrs, stack: seq<Cursor>,
                                                    required: bool, fuel: nat)
    ensures CursorStartAsWritten(env, SelfChoice(), NewCursor(0), q, atts, {}, stack, required, fuel) == Err(StackOverflow)
    ensures CursorStart(env, SelfChoice(), NewCursor(0), q, atts, {}, stack, required).1 == stack
    decreases fuel
  {
    var arena := SelfChoice();
    var c := NewCursor(0);
    assert ScanStart(arena, c) == 0;
    if fuel > 0 {
      SelfChoiceStartOverflows(env, q, atts, stack, env.isRequired(arena[0].particles[0], 0), fuel - 1);
      assert StartScanAsWritten(env, arena, c, q, atts, {}, stack, 0, fuel - 1) == Err(StackOverflow);
    }
    assert StartScan(env, arena, c, q, atts, {0}, {0}, stack, 0) == (c, stack);
  }
}

=== FILE: choice_next.dfy ===
/** The cursor of a choice model group, second revision of the unmarshaller.

    Here `startElement` returns the cursor itself when it accepts the element
    and null otherwise.  A cursor that is already positioned does not look at
    the other alternatives again: it only asks whether its current term may
    repeat.  A fresh cursor takes the first alternative that accepts the
    element; a nested group is entered through a cursor of its own, kept as
    `next`, with the choice itself recorded in the passed set.
 */
module ChoiceNext {
  import opened Wrappers
  import opened ContentModel
  import ChoiceCursor

  /** The cursor state: the alternative chosen, its occurrence count, the
      cursor of a nested group that accepted the element, and the element a
      wildcard resolved. */
  datatype NextCursor = NextCursor(
    group: GroupId,
    current: Option<Particle>,
    occurrence: nat,
    next: Option<NextCursor>,
    wildcardContent: Option<ElementBinding>)

  function NewNextCursor(g: GroupId): (c: NextCursor)
    ensures c.group == g && c.current == None && c.occurrence == 0 && c.next == None
  {
    NextCursor(g, None, 0, None, None)
  }

  /** Code outside the model that the second revision calls. */
  datatype NextEnv = NextEnv(
    base: Env,
    /** `repeatTerm(qName, atts)` of a positioned cursor: the cursor as the
        call leaves it when the answer is true, `None` when it is false. */
    repeatTerm: (NextCursor, QName, Attrs) -> Option<NextCursor>,
    /** `newCursor(particle).startElement(qName, atts, passed, required)` of a
        sequence or all group: the cursor, `None` for null. */
    otherStart: (GroupId, Particle, QName, Attrs, set<GroupId>, bool) -> Option<NextCursor>)

  /** The cursor after alternative `p` accepted the element. */
  function Found(c: NextCursor, p: Particle): NextCursor {
    c.(occurrence := 1, current := Some(p))
  }

  /** `startElement(qName, atts, passed, required)` of a choice cursor: the
      cursor when it accepts `q`, `None` for null. */
  function Start(env: NextEnv, arena: Arena, c: NextCursor, q: QName, atts: Attrs,
                 passed: set<GroupId>): (r: Option<NextCursor>)
    requires Closed(arena) && c.group in arena && arena[c.group].kind == Choice
    decreases arena.Keys - passed, if c.group in passed then 1 else 0, 1, 0, 0
    ensures r.Some? ==> r.value.group == c.group
    // a positioned cursor asks only whether its term may repeat, with `next` cleared
    ensures c.current.Some? ==>
      var repeated := env.repeatTerm(c.(next := None), q, atts);
      && (r.Some? <==> repeated.Some?)
      && (r.Some? ==> r.value == repeated.value.(group := c.group))
    // a fresh choice takes the first alternative that accepts q, counting its first occurrence
    ensures c.current.None? && r.Some? ==>
      r.value.current.Some? && ChosenFrom(env, arena, c.group, c.occurrence, r.value, q, atts, passed, passed, 0)
    ensures c.current.None? && r.None? ==>
      NextDeclinesBefore(env, arena, c.group, c.occurrence, q, atts, passed, passed, 0, |arena[c.group].particles|)
  {
    var c0 := c.(next := None);
    if c.current.Some? then
      // the cursor returned is `this`, whose enclosing choice cannot change
      match env.repeatTerm(c0, q, atts)
      case Some(c1) => Some(c1.(group := c.group))
      case None => None
    else
      var r := Scan(env, arena, c0, q, atts, passed, passed, 0);
      assert ScanAnswer(env, arena, c0, q, atts, passed, passed, 0, r);
      if r.Some? then ChosenIsPositioned(env, arena, c.group, c.occurrence, r.value, q, atts, passed, 0); r
      else r
  }

  /** A positioned cursor answers the same whatever the alternatives of its
      choice and whatever groups were passed: it never scans them again. */
  lemma PositionedIgnoresAlternatives(env: NextEnv, arena1: Arena, arena2: Arena, c: NextCursor, q: QName, atts: Attrs,
                                      passed1: set<GroupId>, passed2: set<GroupId>)
    requires Closed(arena1) && c.group in arena1 && arena1[c.group].kind == Choice
    requires Closed(arena2) && c.group in arena2 && arena2[c.group].kind == Choice
    requires c.current.Some?
    ensures Start(env, arena1, c, q, atts, passed1) == Start(env, arena2, c, q, atts, passed2)
  {
  }

  /** The `required` flag a nested group is started with: a choice at its
      first occurrence never requires it. */
  function NestedRequired(env: NextEnv, p: Particle, occ: nat): bool {
    if occ == 0 then false else env.base.isRequired(p, occ)
  }

  /** Alternative `k` of choice `g`, reached while the loop holds the passed
      set `s`, declines `q` for a cursor at occurrence `occ`: it is neither an
      element named `q` nor a wildcard resolving `q`, and a group is either in
      `s` or its nested cursor, started with `g` recorded as passed, is null. */
  ghost predicate NextDeclines(env: NextEnv, arena: Arena, g: GroupId, occ: nat, q: QName, atts: Attrs,
                               passed: set<GroupId>, s: set<GroupId>, k: nat)
    requires Closed(arena) && g in arena && passed <= s && k < |arena[g].particles|
    decreases arena.Keys - passed, if g in passed then 1 else 0, 0, 0, 0
  {
    var p := arena[g].particles[k];
    && ChoiceCursor.Declines(env.base, p, q, atts)
    && (p.term.GroupTerm? ==>
          p.term.group in s || NestedStart(env, arena, p, q, atts, passed + {g}, NestedRequired(env, p, occ)).None?)
  }

  /** Every alternative of `g` from `i` up to `k` declines, each with the
      passed set the loop from `i`, holding `cur`, has on reaching it. */
  ghost predicate NextDeclinesBefore(env: NextEnv, arena: Arena, g: GroupId, occ: nat, q: QName, atts: Attrs,
                                     passed: set<GroupId>, cur: set<GroupId>, i: nat, k: nat)
    requires Closed(arena) && g in arena && passed <= cur <= passed + {g} && k <= |arena[g].particles|
    decreases arena.Keys - passed, if g in passed then 1 else 0, 0, 0, 1
  {
    forall j | i <= j < k ::
      NextDeclines(env, arena, g, occ, q, atts, passed, ChoiceCursor.CurAt(arena, g, passed, cur, i, j), j)
  }

  /** How alternative `k` of `g`, reached with the passed set `s`, accepted
      `q` for cursor `c`: an element by name; a group not in `s` through the
      nested cursor started with `g` recorded as passed, kept as `next`; a
      wildcard by resolving, kept as the wildcard content.  Only a group
      leaves a nested cursor: `startElement` clears `next` before the loop. */
  ghost predicate Accepts(env: NextEnv, arena: Arena, g: GroupId, occ: nat, c: NextCursor, q: QName, atts: Attrs,
                          passed: set<GroupId>, s: set<GroupId>, k: nat)
    requires Closed(arena) && g in arena && passed <= s && k < |arena[g].particles|
    decreases arena.Keys - passed, if g in passed then 1 else 0, 0, 0, 0
  {
    var p := arena[g].particles[k];
    match p.term
    case ElementTerm(e) => e.name == q && c.next == None
    case GroupTerm(child) =>
      && child !in s
      && c.next.Some?
      && c.next == NestedStart(env, arena, p, q, atts, passed + {g}, NestedRequired(env, p, occ))
    case WildcardTerm(w) =>
      c.next == None && c.wildcardContent.Some? && c.wildcardContent == env.base.wildcardElement(w, q, atts)
  }

  /** Cursor `c` is positioned, at its first occurrence, on the first
      alternative of `g` from index `i` on that accepts `q`, each alternative
      judged with the passed set the loop from `i`, holding `cur`, has on
      reaching it. */
  ghost predicate ChosenFrom(env: NextEnv, arena: Arena, g: GroupId, occ: nat, c: NextCursor, q: QName, atts: Attrs,
                             passed: set<GroupId>, cur: set<GroupId>, i: nat)
    requires Closed(arena) && g in arena && passed <= cur <= passed + {g}
    decreases arena.Keys - passed, if g in passed then 1 else 0, 0, 0, 2
  {
    var ps := arena[g].particles;
    exists k | i <= k < |ps| ::
      && c.current == Some(ps[k])
      && c.occurrence == 1
      && Accepts(env, arena, g, occ, c, q, atts, passed, ChoiceCursor.CurAt(arena, g, passed, cur, i, k), k)
      && NextDeclinesBefore(env, arena, g, occ, q, atts, passed, cur, i, k)
  }

  /** A chosen cursor is positioned. */
  lemma ChosenIsPositioned(env: NextEnv, arena: Arena, g: GroupId, occ: nat, c: NextCursor, q: QName, atts: Attrs,
                           passed: set<GroupId>, i: nat)
    requires Closed(arena) && g in arena
    requires ChosenFrom(env, arena, g, occ, c, q, atts, passed, passed, i)
    ensures c.current.Some? && c.occurrence == 1
    decreases arena.Keys - passed, if g in passed then 1 else 0, 0, 0, 3
  {
  }

  /** `newCursor(particle).startElement(...)` on a nested group. */
  function NestedStart(env: NextEnv, arena: Arena, p: Particle, q: QName, atts: Attrs,
                       passed: set<GroupId>, required: bool): (r: Option<NextCursor>)
    requires Closed(arena) && p.term.GroupTerm? && p.term.group in arena
    decreases arena.Keys - passed, if p.term.group in passed then 1 else 0, 2, 0, 0
    ensures r.Some? && arena[p.term.group].kind == Choice ==> r.value.group == p.term.group
  {
    var child := p.term.group;
    if arena[child].kind == Choice then Start(env, arena, NewNextCursor(child), q, atts, passed)
    else env.otherStart(child, p, q, atts, passed, required)
  }

  /** What the loop from index `i`, holding the passed set `cur`, answers
      for cursor `c`: a cursor of the same group on the first alternative
      that accepts `q`, or null when every alternative from `i` on declines. */
  ghost predicate ScanAnswer(env: NextEnv, arena: Arena, c: NextCursor, q: QName, atts: Attrs,
                             passed: set<GroupId>, cur: set<GroupId>, i: nat, r: Option<NextCursor>)
    requires Closed(arena) && c.group in arena && passed <= cur <= passed + {c.group}
    decreases arena.Keys - passed, if c.group in passed then 1 else 0, 0, 0, 3
  {
    var g := c.group;
    && (r.Some? ==> r.value.group == g && ChosenFrom(env, arena, g, c.occurrence, r.value, q, atts, passed, cur, i))
    && (r.None? ==>
          i <= |arena[g].particles| ==>
            NextDeclinesBefore(env, arena, g, c.occurrence, q, atts, passed, cur, i, |arena[g].particles|))
  }

  /** A declining alternative `i` joins what the loop from `i + 1` answered;
      `c1` is `c` with at most its `next` and wildcard content changed. */
  lemma {:induction false} NextSkip(env: NextEnv, arena: Arena, c: NextCursor, c1: NextCursor, q: QName, atts: Attrs,
                                    passed: set<GroupId>, cur: set<GroupId>, i: nat, r: Option<NextCursor>)
    requires Closed(arena) && c.group in arena && arena[c.group].kind == Choice
    requires c1.group == c.group && c1.occurrence == c.occurrence
    requires passed <= cur <= passed + {c.group} && i < |arena[c.group].particles|
    requires NextDeclines(env, arena, c.group, c.occurrence, q, atts, passed, cur, i)
    requires ScanAnswer(env, arena, c1, q, atts, passed, ChoiceCursor.CurAfter(arena, c.group, passed, cur, i), i + 1, r)
    ensures ScanAnswer(env, arena, c, q, atts, passed, cur, i, r)
    decreases arena.Keys - passed, if c.group in passed then 1 else 0, 0, |arena[c.group].particles| - i, 0
  {
    var g := c.group;
    var n := |arena[g].particles|;
    var cur' := ChoiceCursor.CurAfter(arena, g, passed, cur, i);
    ChoiceCursor.CurAtStep(arena, g, passed, cur, i);
    forall k | i < k <= n
      ensures NextDeclinesBefore(env, arena, g, c.occurrence, q, atts, passed, cur', i + 1, k) ==>
              NextDeclinesBefore(env, arena, g, c.occurrence, q, atts, passed, cur, i, k)
    {
    }
  }

  /** An accepting alternative `i` decides the loop from `i`. */
  lemma NextStops(env: NextEnv, arena: Arena, c: NextCursor, q: QName, atts: Attrs,
                  passed: set<GroupId>, cur: set<GroupId>, i: nat, r: Option<NextCursor>)
    requires Closed(arena) && c.group in arena && arena[c.group].kind == Choice
    requires passed <= cur <= passed + {c.group} && i < |arena[c.group].particles|
    requires r.Some? && r.value.group == c.group && r.value.occurrence == 1
    requires r.value.current == Some(arena[c.group].particles[i])
    requires Accepts(env, arena, c.group, c.occurrence, r.value, q, atts, passed, cur, i)
    ensures ScanAnswer(env, arena, c, q, atts, passed, cur, i, r)
    decreases arena.Keys - passed, if c.group in passed then 1 else 0, 0, |arena[c.group].particles| - i, 0
  {
    ChoiceCursor.CurAtStep(arena, c.group, passed, cur, i);
  }

  /** The loop over the alternatives from index `i` on. */
  function Scan(env: NextEnv, arena: Arena, c: NextCursor, q: QName, atts: Attrs,
                passed: set<GroupId>, cur: set<GroupId>, i: nat): (r: Option<NextCursor>)
    requires Closed(arena) && c.group in arena && arena[c.group].kind == Choice
    requires c.next == None
    requires i <= |arena[c.group].particles|
    requires passed <= cur <= passed + {c.group}
    decreases arena.Keys - passed, if c.group in passed then 1 else 0, 0, |arena[c.group].particles| - i, 4
    ensures ScanAnswer(env, arena, c, q, atts, passed, cur, i, r)
  {
    var ps := arena[c.group].particles;
    if i == |ps| then None
    else
      match ps[i].term
      case ElementTerm(e) =>
        if e.name == q then
          var r := Some(Found(c, ps[i]));
          NextStops(env, arena, c, q, atts, passed, cur, i, r);
          r
        else
          var r := Scan(env, arena, c, q, atts, passed, cur, i + 1);
          NextSkip(env, arena, c, c, q, atts, passed, cur, i, r);
          r
      case GroupTerm(child) => ScanNested(env, arena, c, q, atts, passed, cur, i)
      case WildcardTerm(w) =>
        var c1 := c.(wildcardContent := env.base.wildcardElement(w, q, atts));
        if c1.wildcardContent.Some? then
          var r := Some(Found(c1, ps[i]));
          NextStops(env, arena, c, q, atts, passed, cur, i, r);
          r
        else
          var r := Scan(env, arena, c1, q, atts, passed, cur, i + 1);
          NextSkip(env, arena, c, c1, q, atts, passed, cur, i, r);
          r
  }

  /** The loop at a group alternative: a group not passed yet is tried
      through a nested cursor, kept as `next`, with the choice recorded as
      passed; the first occurrence of the choice never requires it. */
  function ScanNested(env: NextEnv, arena: Arena, c: NextCursor, q: QName, atts: Attrs,
                      passed: set<GroupId>, cur: set<GroupId>, i: nat): (r: Option<NextCursor>)
    requires Closed(arena) && c.group in arena && arena[c.group].kind == Choice
    requires c.next == None
    requires i < |arena[c.group].particles| && arena[c.group].particles[i].term.GroupTerm?
    requires passed <= cur <= passed + {c.group}
    decreases arena.Keys - passed, if c.group in passed then 1 else 0, 0, |arena[c.group].particles| - i, 3
    ensures ScanAnswer(env, arena, c, q, atts, passed, cur, i, r)
  {
    var g := c.group;
    var p := arena[g].particles[i];
    if p.term.group in cur then
      var r := Scan(env, arena, c, q, atts, passed, cur, i + 1);
      NextSkip(env, arena, c, c, q, atts, passed, cur, i, r);
      r
    else
      var n := NestedStart(env, arena, p, q, atts, passed + {g}, NestedRequired(env, p, c.occurrence));
      var c1 := c.(next := n);
      if n.Some? then
        var r := Some(Found(c1, p));
        NextStops(env, arena, c, q, atts, passed, cur, i, r);
        r
      else
        var r := Scan(env, arena, c1, q, atts, passed, passed + {g}, i + 1);
        NextSkip(env, arena, c, c1, q, atts, passed, cur, i, r);
        r
  }

  /** A fresh cursor that takes an element or a wildcard keeps no nested
      cursor; one that takes a group keeps the nested cursor of that group. */
  lemma OnlyGroupsKeepNext(env: NextEnv, arena: Arena, c: NextCursor, q: QName, atts: Attrs, passed: set<GroupId>)
    requires Closed(arena) && c.group in arena && arena[c.group].kind == Choice && c.current.None?
    ensures var r := Start(env, arena, c, q, atts, passed);
            r.Some? ==>
              && r.value.current.Some?
              && (r.value.current.value.term.GroupTerm? <==> r.value.next.Some?)
  {
    var g := c.group;
    var ps := arena[g].particles;
    var r := Start(env, arena, c, q, atts, passed);
    if r.Some? {
      var k :| 0 <= k < |ps|
               && r.value.current == Some(ps[k])
               && r.value.occurrence == 1
               && Accepts(env, arena, g, c.occurrence, r.value, q, atts, passed, ChoiceCursor.CurAt(arena, g, passed, passed, 0, k), k)
               && NextDeclinesBefore(env, arena, g, c.occurrence, q, atts, passed, passed, 0, k);
    }
  }

  /** On a choice of elements, an alternative declines in the loop exactly
      when it is not an element named `q`, and accepts exactly when it is,
      with no nested cursor kept. */
  lemma ElementsNextDecline(env: NextEnv, arena: Arena, g: GroupId, occ: nat, q: QName, atts: Attrs,
                            passed: set<GroupId>, cur: set<GroupId>)
    requires Closed(arena) && g in arena && ChoiceCursor.ElementsOnly(arena, g) && passed <= cur <= passed + {g}
    ensures forall k: nat | k < |arena[g].particles| ::
              NextDeclines(env, arena, g, occ, q, atts, passed, ChoiceCursor.CurAt(arena, g, passed, cur, 0, k), k)
              <==> !ElementNamed(arena[g].particles[k], q)
    ensures forall c: NextCursor, s: set<GroupId>, k: nat | passed <= s && k < |arena[g].particles| ::
              Accepts(env, arena, g, occ, c, q, atts, passed, s, k) <==> ElementNamed(arena[g].particles[k], q) && c.next == None
  {
    var ps := arena[g].particles;
    forall k: nat | k < |ps|
      ensures NextDeclines(env, arena, g, occ, q, atts, passed, ChoiceCursor.CurAt(arena, g, passed, cur, 0, k), k)
              <==> !ElementNamed(ps[k], q)
    {
      assert ps[k].term.ElementTerm?;
    }
    forall c: NextCursor, s: set<GroupId>, k: nat | passed <= s && k < |ps|
      ensures Accepts(env, arena, g, occ, c, q, atts, passed, s, k) <==> ElementNamed(ps[k], q) && c.next == None
    {
      assert ps[k].term.ElementTerm?;
    }
  }

  /** On a choice of elements, both revisions accept the same start tags with
      a fresh cursor, and position it on the same alternative. */
  lemma RevisionsAgree(env: NextEnv, arena: Arena, g: GroupId, q: QName, atts: Attrs,
                       stack: seq<Cursor>, required: bool)
    requires Closed(arena) && g in arena && arena[g].kind == Choice && ChoiceCursor.ElementsOnly(arena, g)
    ensures var old_ := ChoiceCursor.CursorStart(env.base, arena, NewCursor(g), q, atts, {}, stack, required);
            var new_ := Start(env, arena, NewNextCursor(g), q, atts, {});
            && (new_.Some? <==> |old_.1| > |stack|)
            && (new_.Some? ==> new_.value.current == Some(arena[g].particles[old_.0.pos]))
  {
    var ps := arena[g].particles;
    var c := NewCursor(g);
    var o := ChoiceCursor.StartScan(env.base, arena, c, q, atts, {}, {}, stack, 0);
    assert ChoiceCursor.CursorStart(env.base, arena, c, q, atts, {}, stack, required) == o;
    assert ChoiceCursor.Scanned(env.base, arena, c, q, atts, {}, {}, stack, 0, o);
    ChoiceCursor.ElementsScanDecline(env.base, arena, g, 0, q, atts, {}, {}, stack, 0);
    ElementsNextDecline(env, arena, g, 0, q, atts, {}, {});
    var n := Start(env, arena, NewNextCursor(g), q, atts, {});
    if n.Some? {
      assert ChosenFrom(env, arena, g, 0, n.value, q, atts, {}, {}, 0);
      var k :| 0 <= k < |ps|
               && n.value.current == Some(ps[k])
               && Accepts(env, arena, g, 0, n.value, q, atts, {}, ChoiceCursor.CurAt(arena, g, {}, {}, 0, k), k)
               && NextDeclinesBefore(env, arena, g, 0, q, atts, {}, {}, 0, k);
      assert ElementNamed(ps[k], q);
      assert !ChoiceCursor.ScanDeclinesBefore(env.base, arena, g, 0, q, atts, {}, {}, stack, 0, |ps|);
      assert |o.1| > |stack|;
      var pos := o.0.pos;
      assert ElementNamed(ps[pos], q);
      assert ChoiceCursor.ScanDeclinesBefore(env.base, arena, g, 0, q, atts, {}, {}, stack, 0, pos);
      assert forall m | 0 <= m < pos :: !ElementNamed(ps[m], q);
      assert !(k < pos) && !(pos < k);
    } else {
      assert NextDeclinesBefore(env, arena, g, 0, q, atts, {}, {}, 0, |ps|);
      assert forall m | 0 <= m < |ps| :: !ElementNamed(ps[m], q);
      assert ChoiceCursor.ScanDeclinesBefore(env.base, arena, g, 0, q, atts, {}, {}, stack, 0, |ps|);
    }
  }

  /** A choice whose first alternative is a nested choice holding `e`, and
      whose second alternative is `e` itself. */
  function GroupThenElement(e: ElementBinding): (arena: Arena)
    ensures Closed(arena) && 0 in arena && arena[0].kind == Choice
  {
    var pe := Particle(ElementTerm(e), 1, 1, false);
    map[0 := ModelGroup(Choice, [Particle(GroupTerm(1), 1, 1, false), pe]), 1 := ModelGroup(Choice, [pe])]
  }

  /** A fresh cursor takes the nested group, the earlier alternative, and
      keeps the nested cursor positioned on `e` as `next`. */
  lemma NestedGroupTakesTag(env: NextEnv, e: ElementBinding, atts: Attrs)
    ensures var arena := GroupThenElement(e);
            var r := Start(env, arena, NewNextCursor(0), e.name, atts, {});
            && r.Some?
            && r.value.current == Some(arena[0].particles[0])
            && r.value.next.Some? && r.value.next.value.current == Some(arena[1].particles[0])
  {
    var arena := GroupThenElement(e);
    var q := e.name;
    var ps := arena[0].particles;
    var inner := NewNextCursor(1);
    var found := Some(Found(inner, arena[1].particles[0]));
    assert Scan(env, arena, inner, q, atts, {0}, {0}, 0) == found;
    assert Start(env, arena, inner, q, atts, {0}) == found;
    assert {} + {0} == {0};
    assert NestedStart(env, arena, ps[0], q, atts, {} + {0}, NestedRequired(env, ps[0], 0)) == found;
    var outer := Some(Found(NewNextCursor(0).(next := found), ps[0]));
    assert ScanNested(env, arena, NewNextCursor(0), q, atts, {}, {}, 0) == outer;
    assert Start(env, arena, NewNextCursor(0), q, atts, {}) == outer;
  }

  /** The guard works in this revision: a choice that contains itself accepts
      nothing, after one level of nesting. */
  lemma SelfChoiceDeclines(env: NextEnv, q: QName, atts: Attrs)
    ensures Start(env, ChoiceCursor.SelfChoice(), NewNextCursor(0), q, atts, {}) == None
  {
    var arena := ChoiceCursor.SelfChoice();
    assert Scan(env, arena, NewNextCursor(0), q, atts, {0}, {0}, 0) == None;
    assert {} + {0} == {0};
    assert NestedStart(env, arena, arena[0].particles[0], q, atts, {0}, false) == None;
  }
}

=== FILE: collection_editor.dfy ===
/** The property editor for collections: the text is split at commas and
    each piece is trimmed, in order, into a new linked list. */
module CollectionEditor {
  import Text

  /** The `String.trim` of every item. */
  function TrimAll(xs: seq<string>): (r: seq<string>)
    ensures |r| == |xs| && forall k | 0 <= k < |xs| :: r[k] == Text.Trim(xs[k])
  {
    seq(|xs|, k requires 0 <= k < |xs| => Text.Trim(xs[k]))
  }

  /** `createCollection()`: a new, empty list. */
  function CreateCollection(): (r: seq<string>)
    ensures |r| == 0
  {
    []
  }

  /** `setAsText(text)`: the comma-separated tokens, trimmed, appended to a
      new collection in order. */
  function SetAsText(text: string): (r: seq<string>)
    ensures |r| == |Text.Tokens(text, {','})|
    ensures forall k | 0 <= k < |r| :: r[k] == Text.Trim(Text.Tokens(text, {','})[k])
    ensures forall k, i | 0 <= k < |r| && 0 <= i < |r[k]| :: r[k][i] != ','
    ensures forall k | 0 <= k < |r| :: Text.Trim(r[k]) == r[k]
  {
    var tokens := Text.Tokens(text, {','});
    TrimmedTokens(tokens);
    assert CreateCollection() + TrimAll(tokens) == TrimAll(tokens);
    CreateCollection() + TrimAll(tokens)
  }

  lemma TrimmedTokens(tokens: seq<string>)
    requires forall k, i | 0 <= k < |tokens| && 0 <= i < |tokens[k]| :: tokens[k][i] != ','
    ensures var r := TrimAll(tokens);
            && (forall k, i | 0 <= k < |r| && 0 <= i < |r[k]| :: r[k][i] != ',')
            && (forall k | 0 <= k < |r| :: Text.Trim(r[k]) == r[k])
  {
    forall k | 0 <= k < |tokens|
      ensures Text.Trim(Text.Trim(tokens[k])) == Text.Trim(tokens[k])
      ensures forall i | 0 <= i < |Text.Trim(tokens[k])| :: Text.Trim(tokens[k])[i] != ','
    {
      Text.TrimIsIdempotent(tokens[k]);
      TrimKeepsOut(tokens[k], ',');
    }
  }

  /** Trimming adds no character. */
  lemma TrimKeepsOut(s: string, c: char)
    requires forall i | 0 <= i < |s| :: s[i] != c
    ensures forall i | 0 <= i < |Text.Trim(s)| :: Text.Trim(s)[i] != c
  {
    var i, j :| 0 <= i <= j <= |s| && Text.Trim(s) == s[i..j];
    forall k | 0 <= k < j - i
      ensures s[i..j][k] != c
    {
      assert s[i..j][k] == s[i + k];
    }
  }

  /** Items that are already trimmed, non-empty and free of commas come back
      from their comma-joined text. */
  lemma SetAsTextOfJoin(xs: seq<string>)
    requires forall k | 0 <= k < |xs| :: |xs[k]| > 0 && Text.Trim(xs[k]) == xs[k]
    requires forall k, i | 0 <= k < |xs| && 0 <= i < |xs[k]| :: xs[k][i] != ','
    ensures SetAsText(Text.Join(xs, ',')) == xs
  {
    Text.TokensOfJoin(xs, ',', {','});
  }
}

=== FILE: content_model.dfy ===
/** The compiled content model consumed by the schema-driven unmarshaller.

    A particle pairs a term with occurrence bounds; a term is an element, a
    model group or a wildcard (the three kinds of term of XML Schema 1.0
    Part 1, sections 3.8 to 3.10).  Model groups are kept in an arena indexed
    by `GroupId`, so a group may refer to itself directly or through other
    groups, which is exactly the situation the `passedGroups` sets of the
    cursors guard against.

    Code that the content model calls but that is not part of this model
    (wildcard resolution, the cursors of sequence and all groups, the
    `isRequired` test of a particle) is supplied through an `Env` of total
    functions.
 */
module ContentModel {
  import opened Wrappers

  datatype QName = QName(ns: string, local: string)

  type GroupId = nat
  type WildcardId = nat
  type InterceptorId = nat

  /** Attributes of a start tag, by qualified attribute name. */
  type Attrs = map<string, string>

  datatype GroupKind = Sequence | Choice | All

  /** The two schema-wide switches the unmarshaller consults. */
  datatype SchemaFlags = SchemaFlags(strict: bool, replacePropertyRefs: bool)

  /** A type binding: its content-model particle (complex content), whether it has a
      simple-type (text) binding, and whether its content model contains a wildcard. */
  datatype TypeBinding = TypeBinding(particle: Option<Particle>, hasSimpleType: bool, hasWildcard: bool)

  datatype ElementBinding = ElementBinding(
    name: QName,
    typ: TypeBinding,
    interceptors: seq<InterceptorId>,
    schema: Option<SchemaFlags>)

  datatype Term =
    | ElementTerm(element: ElementBinding)
    | GroupTerm(group: GroupId)
    | WildcardTerm(wildcard: WildcardId)

  datatype Particle = Particle(term: Term, minOccurs: nat, maxOccurs: nat, unbounded: bool)

  datatype ModelGroup = ModelGroup(kind: GroupKind, particles: seq<Particle>)

  type Arena = map<GroupId, ModelGroup>

  /** Every group reference in the arena denotes a group of the arena (a Java
      reference to a group object can never dangle). */
  ghost predicate Closed(arena: Arena) {
    forall g, i | g in arena && 0 <= i < |arena[g].particles| ::
      arena[g].particles[i].term.GroupTerm? ==> arena[g].particles[i].term.group in arena
  }

  /** The particle is an element particle with name `q`. */
  predicate ElementNamed(p: Particle, q: QName) {
    p.term.ElementTerm? && p.term.element.name == q
  }

  /** The element status bits of a cursor. */
  const ELEMENT_STATUS_STARTED: bv8 := 1
  const ELEMENT_STATUS_FINISHED: bv8 := 2
  const ELEMENT_STATUS_UNINITIALIZED: bv8 := 4

  /** The traversal state of one entry into a model group: the index of the
      current alternative (`-1` before the first match), how often it has
      occurred, and the element it matched last. */
  datatype Cursor = Cursor(group: GroupId, pos: int, occurrence: nat, element: Option<ElementBinding>, status: bv8)

  function NewCursor(g: GroupId): (c: Cursor)
    ensures c.pos < 0 && c.occurrence == 0 && c.element == None
    ensures !IsElementFinished(c)
  {
    Cursor(g, -1, 0, None, ELEMENT_STATUS_UNINITIALIZED)
  }

  predicate IsElementFinished(c: Cursor) {
    c.status & ELEMENT_STATUS_FINISHED != 0
  }

  /** The cursor's group is in the arena, and a choice cursor's position is
      either unset or an index of its alternatives. */
  ghost predicate ValidCursor(arena: Arena, c: Cursor) {
    c.group in arena && (arena[c.group].kind == Choice ==> -1 <= c.pos < |arena[c.group].particles|)
  }

  ghost predicate AllValid(arena: Arena, cs: seq<Cursor>) {
    forall i | 0 <= i < |cs| :: ValidCursor(arena, cs[i])
  }

  /** Code outside the model that the content model calls. */
  datatype Env = Env(
    /** `WildcardBinding.getElement(qName, attrs)`, `None` for null. */
    wildcardElement: (WildcardId, QName, Attrs) -> Option<ElementBinding>,
    /** `ParticleBinding.isRequired(occurrence)`. */
    isRequired: (Particle, nat) -> bool,
    /** `mayStartWith(qName, passed)` of a sequence or all group. */
    otherMayStartWith: (GroupId, QName, set<GroupId>) -> Result<bool>,
    /** `Cursor.getElement(qName, attrs, passed)` of a sequence or all cursor. */
    otherGetElement: (GroupId, QName, Attrs, set<GroupId>) -> Result<Option<ElementBinding>>,
    /** `Cursor.startElement` of a sequence or all cursor: its new state and
        the cursors it appends to the group stack (none: no match). */
    otherStart: (Cursor, QName, Attrs, set<GroupId>, bool) -> (Cursor, seq<Cursor>))

  /** The lookahead of a model group: could its content begin with `q`?
      `passed` holds the groups already on the path and is not re-entered. */
  function MayStartWith(env: Env, arena: Arena, g: GroupId, q: QName): Result<bool>
    requires Closed(arena) && g in arena
  {
    GroupMayStartWith(env, arena, g, q, {})
  }

  function GroupMayStartWith(env: Env, arena: Arena, g: GroupId, q: QName, passed: set<GroupId>): Result<bool>
    requires Closed(arena) && g in arena
    decreases arena.Keys - passed, if g in passed then 1 else 0, 1, 0
  {
    if arena[g].kind == Choice then ChoiceMayStartWith(env, arena, g, q, passed, passed, 0)
    else env.otherMayStartWith(g, q, passed)
  }

  /** `passed + {g}` lies strictly deeper in the measure than `passed` when g is new. */
  lemma GrowPassed(arena: Arena, g: GroupId, passed: set<GroupId>)
    requires g in arena
    ensures g !in passed ==> |arena.Keys - (passed + {g})| < |arena.Keys - passed|
    ensures g in passed ==> passed + {g} == passed
  {
    if g !in passed {
      assert arena.Keys - passed == (arena.Keys - (passed + {g})) + {g};
    }
  }

  /** The alternatives of choice group `g` from index `i` on.  `cur` is the
      passed set as the loop has grown it so far: `passed`, plus `g` once a
      nested group has been entered. */
  function ChoiceMayStartWith(env: Env, arena: Arena, g: GroupId, q: QName,
                              passed: set<GroupId>, cur: set<GroupId>, i: nat): (r: Result<bool>)
    requires Closed(arena) && g in arena && i <= |arena[g].particles|
    requires passed <= cur <= passed + {g}
    decreases arena.Keys - passed, if g in passed then 1 else 0, 0, |arena[g].particles| - i
    ensures r == Ok(true) ==>
      exists k | i <= k < |arena[g].particles| ::
        || ElementNamed(arena[g].particles[k], q)
        || (arena[g].particles[k].term.GroupTerm? && arena[g].particles[k].term.group !in passed &&
            GroupMayStartWith(env, arena, arena[g].particles[k].term.group, q, passed + {g}) == Ok(true))
    ensures r == Ok(false) ==>
      forall k | i <= k < |arena[g].particles| ::
        && !arena[g].particles[k].term.WildcardTerm?
        && (arena[g].particles[k].term.ElementTerm? ==> arena[g].particles[k].term.element.name != q)
        && (arena[g].particles[k].term.GroupTerm? && arena[g].particles[k].term.group !in passed + {g} ==>
              GroupMayStartWith(env, arena, arena[g].particles[k].term.group, q, passed + {g}) == Ok(false))
    ensures r.Err? ==>
      exists k | i <= k < |arena[g].particles| ::
        || arena[g].particles[k].term.WildcardTerm?
        || (arena[g].particles[k].term.GroupTerm? && arena[g].particles[k].term.group !in passed &&
            GroupMayStartWith(env, arena, arena[g].particles[k].term.group, q, passed + {g}).Err?)
  {
    var ps := arena[g].particles;
    if i == |ps| then Ok(false)
    else
      match ps[i].term
      case ElementTerm(e) =>
        if e.name == q then Ok(true) else ChoiceMayStartWith(env, arena, g, q, passed, cur, i + 1)
      case GroupTerm(c) =>
        if c in cur then ChoiceMayStartWith(env, arena, g, q, passed, cur, i + 1)
        else
          GrowPassed(arena, g, passed);
          var nested := GroupMayStartWith(env, arena, c, q, passed + {g});
          if nested.Err? then nested
          else if nested.value then Ok(true)
          else ChoiceMayStartWith(env, arena, g, q, passed, passed + {g}, i + 1)
      case WildcardTerm(_) => Err(Binding)
  }

  /** The cursors of sequence and all groups, which are outside the model,
      stay on groups of the arena and push only such cursors. */
  ghost predicate SoundEnv(env: Env, arena: Arena) {
    forall c: Cursor, q: QName, atts: Attrs, passed: set<GroupId>, required: bool ::
      ValidCursor(arena, c) ==>
        ValidCursor(arena, env.otherStart(c, q, atts, passed, required).0) &&
        AllValid(arena, env.otherStart(c, q, atts, passed, required).1)
  }
}

=== FILE: copy_on_write.dfy ===
/** The allocation-avoiding collection growth used throughout the binding code.

    A list (or set) starts as the shared empty constant, becomes an immutable
    singleton on the first add, is copied into a growable collection on the
    second add and is appended to in place from then on.  The switch is on the
    collection's size, not on its concrete class.  The model keeps the three
    shapes so that the growth step can be shown to behave like a plain append.
 */
module CopyOnWrite {

  /** The shapes a growing list takes: the empty constant, a singleton, a growable list. */
  datatype CowList<T> = EmptyList | SingletonList(only: T) | GrowableList(items: seq<T>)

  /** The elements of a list, in order. */
  function Items<T>(l: CowList<T>): seq<T> {
    match l
    case EmptyList => []
    case SingletonList(x) => [x]
    case GrowableList(xs) => xs
  }

  /** The size-switched append: singleton on size 0, copy then add on size 1,
      add in place otherwise. */
  function AddItem<T>(l: CowList<T>, o: T): (r: CowList<T>)
    ensures Items(r) == Items(l) + [o]
    ensures |Items(l)| == 0 <==> r.SingletonList?
  {
    match |Items(l)|
    case 0 => SingletonList(o)
    case _ => GrowableList(Items(l) + [o])
  }

  /** Appending the items of `os` one by one from the empty list lists them in order. */
  function AddAll<T>(l: CowList<T>, os: seq<T>): CowList<T>
    decreases |os|
  {
    if |os| == 0 then l else AddAll(AddItem(l, os[0]), os[1..])
  }

  lemma {:induction false} AddAllAppends<T>(l: CowList<T>, os: seq<T>)
    ensures Items(AddAll(l, os)) == Items(l) + os
    decreases |os|
  {
    if |os| != 0 {
      AddAllAppends(AddItem(l, os[0]), os[1..]);
      assert Items(l) + [os[0]] + os[1..] == Items(l) + os;
    }
  }

  /** The shapes a growing set takes (the `passedGroups` sets of the content model). */
  datatype CowSet<T> = EmptySet | SingletonSet(member: T) | GrowableSet(members: set<T>)

  function Members<T>(s: CowSet<T>): set<T> {
    match s
    case EmptySet => {}
    case SingletonSet(x) => {x}
    case GrowableSet(xs) => xs
  }

  /** The size-switched insertion of the content-model cursors. */
  function AddMember<T>(s: CowSet<T>, x: T): (r: CowSet<T>)
    ensures Members(r) == Members(s) + {x}
  {
    if Members(s) == {} then SingletonSet(x) else GrowableSet(Members(s) + {x})
  }
}

=== FILE: dav_url_lister.dfy ===
/** The last path segment of a WebDAV member's path, as the URL lister of
    the WebDAV protocol extracts it to decide whether a sub-collection is
    "dotted".  The segment is returned with its leading slash. */
module DavUrlLister {
  import opened Wrappers

  /** `s.lastIndexOf(c, from)`: the last position at or before `from` that
      holds `c`, or -1. */
  function LastIndexAtMost(s: string, c: char, from: int): (r: int)
    decreases if from < 0 then 0 else from + 1
    ensures -1 <= r < |s| && (r == -1 || r <= from)
    ensures r >= 0 ==> s[r] == c
    ensures forall k | r < k <= from && k < |s| :: s[k] != c
  {
    if from < 0 then -1
    else if from >= |s| then LastIndexAtMost(s, c, |s| - 1)
    else if s[from] == c then from
    else LastIndexAtMost(s, c, from - 1)
  }

  /** `getFilePartFromUrl(name)` as the source writes it: with a trailing
      slash the part ends two characters before the end, so the segment
      loses its last character. */
  function GetFilePartFromUrlAsWritten(name: string): (r: Result<string>)
    ensures r.Err? <==> GetFilePartFromUrl(name).Err?
    ensures r.Err? ==> r.error == IndexOutOfBounds
    ensures r.Ok? ==> var c := GetFilePartFromUrl(name).value;
                      r.value == if name[|name| - 1] == '/' then c[..|c| - 1] else c
  {
    var length := |name|;
    if length == 0 then Err(IndexOutOfBounds)
    else if name[length - 1] == '/' then
      var start := LastIndexAtMost(name, '/', length - 2);
      if start < 0 then Err(IndexOutOfBounds) else Ok(name[start..length - 2])
    else
      var start := LastIndexAtMost(name, '/', length - 1);
      if start < 0 then Err(IndexOutOfBounds) else Ok(name[start..])
  }

  /** `getFilePartFromUrl(name)` with the part ending before the trailing
      slash. */
  function GetFilePartFromUrl(name: string): (r: Result<string>)
    ensures r.Err? ==> r.error == IndexOutOfBounds
    ensures r.Err? <==> |name| == 0 || Segment(name) < 0
    ensures r.Ok? ==> |r.value| > 0 && r.value[0] == '/'
    ensures r.Ok? ==> forall k | 0 < k < |r.value| :: r.value[k] != '/'
  {
    var length := |name|;
    if length == 0 then Err(IndexOutOfBounds)
    else if name[length - 1] == '/' then
      var start := LastIndexAtMost(name, '/', length - 2);
      if start < 0 then Err(IndexOutOfBounds) else Ok(name[start..length - 1])
    else
      var start := LastIndexAtMost(name, '/', length - 1);
      if start < 0 then Err(IndexOutOfBounds) else Ok(name[start..])
  }

  /** Where the last segment starts: the last slash that is not the final
      character. */
  function Segment(name: string): int
    requires |name| > 0
  {
    LastIndexAtMost(name, '/', if name[|name| - 1] == '/' then |name| - 2 else |name| - 1)
  }

  /** The segment of a path is its text after the last inner slash; a
      trailing slash makes no difference. */
  lemma PartOfSegment(p: string, seg: string)
    requires |seg| > 0 && forall k | 0 <= k < |seg| :: seg[k] != '/'
    ensures GetFilePartFromUrl(p + "/" + seg) == Ok("/" + seg)
    ensures GetFilePartFromUrl(p + "/" + seg + "/") == Ok("/" + seg)
  {
    var a := p + "/" + seg;
    var b := a + "/";
    assert a[|p|] == '/';
    assert a[|a| - 1] == seg[|seg| - 1];
    assert LastIndexAtMost(a, '/', |a| - 1) == |p| by {
      NoSlashAfter(a, |p|, |a| - 1);
    }
    assert a[|p|..] == "/" + seg;
    assert b[|p|] == '/' && b[|b| - 1] == '/';
    assert LastIndexAtMost(b, '/', |b| - 2) == |p| by {
      NoSlashAfter(b, |p|, |b| - 2);
    }
    assert b[|p|..|b| - 1] == "/" + seg;
  }

  /** The search stops at the first slash it meets going backwards. */
  lemma {:induction false} NoSlashAfter(s: string, i: nat, from: int)
    requires i <= from < |s| && s[i] == '/'
    requires forall k | i < k <= from :: s[k] != '/'
    ensures LastIndexAtMost(s, '/', from) == i
    decreases from - i
  {
    if from > i {
      NoSlashAfter(s, i, from - 1);
    }
  }

  /** The two differ only with a trailing slash, where the source's part is
      one character short. */
  lemma AsWrittenDropsLast()
    ensures GetFilePartFromUrlAsWritten("/a/bcd/") == Ok("/bc")
    ensures GetFilePartFromUrl("/a/bcd/") == Ok("/bcd")
  {
    var s := "/a/bcd/";
    assert s[2] == '/' && s[3] != '/' && s[4] != '/' && s[5] != '/';
    NoSlashAfter(s, 2, 5);
    assert s[2..5] == "/bc" && s[2..6] == "/bcd";
  }
}

=== FILE: element_type.dfy ===
/** An element type of the handler-chain unmarshaller.

    An element type holds a chain of element handlers.  On a start tag each
    handler in turn builds an object from the one before it, and every
    object built goes on the shared object-model stack; the chain stops at
    the first handler that returns null.  On the end tag the same number of
    objects comes off the stack again and each handler's `end` receives its
    object together with the object below it.

    The handlers are outside the model: `start` is a function of its
    arguments, and the `end` calls are recorded in order.
 */
module ElementType {
  import opened Wrappers
  import opened CopyOnWrite
  import opened ContentModel

  /** An object of the object model. */
  type Obj = nat

  /** An element handler, by identity. */
  type HandlerId = nat

  /** `ElementHandler.start(parent, name, attrs)`, `None` for null. */
  type StartFn = (HandlerId, Option<Obj>, QName, Attrs) -> Option<Obj>

  /** A call `handler.end(parent, child, name, dataContent)`. */
  datatype EndCall = EndCall(handler: HandlerId, parent: Option<Obj>, child: Obj, name: QName, data: string)

  /** The element type: its handler list, in the list's growth shapes. */
  datatype ElementTypeImpl = ElementTypeImpl(handlers: CowList<HandlerId>)

  function NewElementType(): (t: ElementTypeImpl)
    ensures Items(t.handlers) == []
  {
    ElementTypeImpl(EmptyList)
  }

  /** `pushElementHandler(handler)`: appends the handler to the chain. */
  function PushElementHandler(t: ElementTypeImpl, h: HandlerId): (r: ElementTypeImpl)
    ensures Items(r.handlers) == Items(t.handlers) + [h]
  {
    ElementTypeImpl(AddItem(t.handlers, h))
  }

  /** `getLastHandler()`: the last handler of the chain, after installing
      `default` (a new `ElementHandlerImpl`) into an empty chain.  Every
      `addAttribute`, `addElement`, `pushAttributeHandler`,
      `setTextContentBinding` and `pushTextContentHandler` delegates to it. */
  function GetLastHandler(t: ElementTypeImpl, default: HandlerId): (r: (ElementTypeImpl, HandlerId))
    ensures |Items(r.0.handlers)| > 0 && r.1 == Items(r.0.handlers)[|Items(r.0.handlers)| - 1]
    ensures |Items(t.handlers)| > 0 ==> r.0 == t
    ensures |Items(t.handlers)| == 0 ==> Items(r.0.handlers) == [default] && r.1 == default
  {
    var t1 := if |Items(t.handlers)| == 0 then PushElementHandler(t, default) else t;
    (t1, Items(t1.handlers)[|Items(t1.handlers)| - 1])
  }

  /** The objects the chain from handler `i` on builds from `parent`, up to
      the first null. */
  function Chain(start: StartFn, hs: seq<HandlerId>, i: nat, parent: Option<Obj>, name: QName, attrs: Attrs): (r: seq<Obj>)
    requires i <= |hs|
    decreases |hs| - i
    ensures |r| <= |hs| - i
    ensures |r| == 0 <==> i == |hs| || start(hs[i], parent, name, attrs).None?
    ensures |r| > 0 ==> Some(r[0]) == start(hs[i], parent, name, attrs)
  {
    if i == |hs| then []
    else match start(hs[i], parent, name, attrs)
      case None => []
      case Some(c) => [c] + Chain(start, hs, i + 1, Some(c), name, attrs)
  }

  /** Each built object is what the next handler received, and the chain
      stops at a null or at the end of the handlers. */
  lemma {:induction false} ChainLinks(start: StartFn, hs: seq<HandlerId>, i: nat, parent: Option<Obj>, name: QName, attrs: Attrs)
    requires i <= |hs|
    decreases |hs| - i
    ensures var r := Chain(start, hs, i, parent, name, attrs);
            && (forall k | 0 < k < |r| :: start(hs[i + k], Some(r[k - 1]), name, attrs) == Some(r[k]))
            && (0 < |r| && i + |r| < |hs| ==> start(hs[i + |r|], Some(r[|r| - 1]), name, attrs).None?)
  {
    var r := Chain(start, hs, i, parent, name, attrs);
    if |r| > 0 {
      var c := r[0];
      ChainLinks(start, hs, i + 1, Some(c), name, attrs);
      var r1 := Chain(start, hs, i + 1, Some(c), name, attrs);
      assert r == [c] + r1;
      forall k | 0 < k < |r|
        ensures start(hs[i + k], Some(r[k - 1]), name, attrs) == Some(r[k])
      {
        if k > 1 {
          assert r[k] == r1[k - 1] && r[k - 1] == r1[k - 2];
        }
      }
    }
  }

  /** `start(parent, name, attrs, stack, startIndex)`: runs the chain, pushes
      every object it builds, and returns `startIndex` plus their number. */
  method Start(start: StartFn, t: ElementTypeImpl, parent: Option<Obj>, name: QName, attrs: Attrs,
               stack: seq<Obj>, startIndex: int) returns (r: Result<(seq<Obj>, int)>)
    ensures r.Err? <==> |Items(t.handlers)| == 0
    ensures r.Err? ==> r.error == IllegalState
    ensures r.Ok? ==> var built := Chain(start, Items(t.handlers), 0, parent, name, attrs);
                      r.value.0 == stack + built && r.value.1 == startIndex + |built|
  {
    var hs := Items(t.handlers);
    if |hs| == 0 {
      return Err(IllegalState);
    }
    ghost var built := Chain(start, hs, 0, parent, name, attrs);
    var child := start(hs[0], parent, name, attrs);
    var i := 0;
    var st := stack;
    if child.Some? {
      st := st + [child.value];
      i := 1;
      while i < |hs|
        invariant 1 <= i <= |hs| && child.Some?
        invariant |st| == |stack| + i
        invariant st + Chain(start, hs, i, child, name, attrs) == stack + built
        decreases |hs| - i
      {
        var next := start(hs[i], child, name, attrs);
        if next.None? {
          break;
        }
        assert Chain(start, hs, i, child, name, attrs) == [next.value] + Chain(start, hs, i + 1, next, name, attrs);
        child := next;
        st := st + [child.value];
        i := i + 1;
      }
      assert Chain(start, hs, i, child, name, attrs) == [];
    }
    assert st == stack + built;
    return Ok((st, startIndex + i));
  }

  /** The `end` call the unwinding makes `j`-th, for the objects `popped`
      (bottom first): handler k > 0 gets object k with object k - 1 as its
      parent, handler 0 gets object 0 with the element's parent, innermost
      first. */
  function EndCallAt(hs: seq<HandlerId>, parent: Option<Obj>, popped: seq<Obj>, name: QName, data: string, j: nat): EndCall
    requires j < |popped| <= |hs|
  {
    var k := |popped| - 1 - j;
    if k > 0 then EndCall(hs[k], Some(popped[k - 1]), popped[k], name, data)
    else EndCall(hs[0], parent, popped[0], name, data)
  }

  /** `end(parent, name, stack, startIndex, endIndex, dataContent)`: pops the
      `endIndex - startIndex` objects the start pushed, calls each handler's
      `end` from the innermost outwards, and returns the outermost object
      (null when nothing was pushed).  Popping an empty stack or reaching
      past the last handler throws. */
  method End(t: ElementTypeImpl, parent: Option<Obj>, name: QName, stack: seq<Obj>,
             startIndex: int, endIndex: int, data: string) returns (r: Result<(seq<Obj>, Option<Obj>, seq<EndCall>)>)
    ensures var n := endIndex - startIndex;
            r.Ok? <==> n <= 0 || (n <= |stack| && n <= |Items(t.handlers)|)
    ensures endIndex - startIndex <= 0 ==> r == Ok((stack, None, []))
    ensures var n := endIndex - startIndex;
            r.Err? ==> (r.error == NoSuchElement <==> n > |stack| && (n == 1 || |stack| < 2 || n <= |Items(t.handlers)|))
    ensures r.Err? ==> r.error in {NoSuchElement, IndexOutOfBounds}
    ensures var n := endIndex - startIndex; var hs := Items(t.handlers);
            r.Ok? && n > 0 ==>
              var popped := stack[|stack| - n..];
              && r.value.0 == stack[..|stack| - n]
              && r.value.1 == Some(popped[0])
              && |r.value.2| == n
              && forall j | 0 <= j < n :: r.value.2[j] == EndCallAt(hs, parent, popped, name, data, j)
  {
    var hs := Items(t.handlers);
    var n := endIndex - startIndex;
    if n <= 0 {
      return Ok((stack, None, []));
    }
    if |stack| == 0 {
      return Err(NoSuchElement);
    }
    var st := stack[..|stack| - 1];
    var child := stack[|stack| - 1];
    var calls: seq<EndCall> := [];
    var i := n - 1;
    while i > 0
      invariant 0 <= i <= n - 1
      invariant |st| == |stack| - (n - i) && st == stack[..|st|]
      invariant child == stack[|st|]
      invariant i < n - 1 ==> n <= |hs|
      invariant |calls| == n - 1 - i
      invariant forall j | 0 <= j < |calls| ::
                  calls[j] == EndCall(hs[n - 1 - j], Some(stack[|stack| - n + (n - 2 - j)]), stack[|stack| - n + (n - 1 - j)], name, data)
      decreases i
    {
      if |st| == 0 {
        return Err(NoSuchElement);
      }
      var localParent := st[|st| - 1];
      st := st[..|st| - 1];
      if i >= |hs| {
        return Err(IndexOutOfBounds);
      }
      calls := calls + [EndCall(hs[i], Some(localParent), child, name, data)];
      child := localParent;
      i := i - 1;
    }
    if |hs| == 0 {
      return Err(IndexOutOfBounds);
    }
    calls := calls + [EndCall(hs[0], parent, child, name, data)];
    ghost var popped := stack[|stack| - n..];
    assert forall j | 0 <= j < n :: calls[j] == EndCallAt(hs, parent, popped, name, data, j);
    return Ok((st, Some(child), calls));
  }

  /** The end tag undoes the start tag: it pops exactly the objects the chain
      pushed, returns the first of them, and gives each handler the object
      it built. */
  method StartThenEnd(start: StartFn, t: ElementTypeImpl, parent: Option<Obj>, name: QName, attrs: Attrs,
                      stack: seq<Obj>, startIndex: int, data: string)
    returns (pushed: seq<Obj>, popped: seq<Obj>, child: Option<Obj>, calls: seq<EndCall>)
    requires |Items(t.handlers)| > 0
    ensures popped == stack
    ensures var built := Chain(start, Items(t.handlers), 0, parent, name, attrs);
            && pushed == stack + built
            && child == (if |built| == 0 then None else Some(built[0]))
            && |calls| == |built|
            && forall j | 0 <= j < |calls| ::
                 calls[j].handler == Items(t.handlers)[|built| - 1 - j] && calls[j].child == built[|built| - 1 - j]
  {
    var s := Start(start, t, parent, name, attrs, stack, startIndex);
    pushed := s.value.0;
    var e := End(t, parent, name, pushed, startIndex, s.value.1, data);
    ghost var built := Chain(start, Items(t.handlers), 0, parent, name, attrs);
    assert pushed[..|pushed| - |built|] == stack;
    assert pushed[|pushed| - |built|..] == built;
    popped, child, calls := e.value.0, e.value.1, e.value.2;
  }
}

=== FILE: jar_archive_browser.dfy ===
/** The iterator over the files of a jar archive that a filter accepts.

    The archive's entries are a sequence read in enumeration order; the
    iterator keeps the position of the enumeration and the entry it will
    hand out next.  Opening the entry's stream is left to the caller: `next`
    returns the entry itself.
 */
module JarArchiveBrowser {
  import opened Wrappers

  /** A zip entry: its name, and whether it is a directory. */
  datatype Entry = Entry(name: string, isDirectory: bool)

  /** `ArchiveBrowser.Filter.accept(name)`. */
  type Filter = string -> bool

  datatype Browser = Browser(entries: seq<Entry>, pos: nat, next: Option<Entry>, filter: Filter)

  /** An entry the iteration hands out. */
  predicate Wanted(filter: Filter, e: Entry) {
    !e.isDirectory && filter(e.name)
  }

  /** The entries the iteration hands out, in enumeration order. */
  function Accepted(filter: Filter, es: seq<Entry>): (r: seq<Entry>)
    decreases |es|
    ensures forall k | 0 <= k < |r| :: Wanted(filter, r[k])
  {
    if |es| == 0 then []
    else if Wanted(filter, es[0]) then [es[0]] + Accepted(filter, es[1..])
    else Accepted(filter, es[1..])
  }

  /** `setNext()`: reads entries, skipping directories and entries the
      filter refuses, until it holds an accepted one or the enumeration
      ends. */
  method SetNext(entries: seq<Entry>, pos: nat, filter: Filter) returns (next: Option<Entry>, pos': nat)
    requires pos <= |entries|
    ensures pos <= pos' <= |entries|
    ensures next.Some? ==> Wanted(filter, next.value)
    ensures Accepted(filter, entries[pos..]) ==
              (if next.Some? then [next.value] else []) + Accepted(filter, entries[pos'..])
    ensures next.None? ==> pos' == |entries|
    ensures next.Some? ==> pos' > pos
  {
    next := None;
    pos' := pos;
    while pos' < |entries| && next.None?
      invariant pos <= pos' <= |entries|
      invariant next.Some? ==> Wanted(filter, next.value)
      invariant Accepted(filter, entries[pos..]) ==
                  (if next.Some? then [next.value] else []) + Accepted(filter, entries[pos'..])
      decreases |entries| - pos', if next.None? then 1 else 0
    {
      var e := entries[pos'];
      SkipOne(filter, entries, pos');
      pos' := pos' + 1;
      while pos' < |entries| && e.isDirectory
        invariant pos <= pos' <= |entries| && next.None?
        invariant Accepted(filter, entries[pos..]) ==
                    (if Wanted(filter, e) then [e] else []) + Accepted(filter, entries[pos'..])
        decreases |entries| - pos'
      {
        e := entries[pos'];
        SkipOne(filter, entries, pos');
        pos' := pos' + 1;
      }
      next := if e.isDirectory then None else Some(e);
      if next.Some? && !filter(next.value.name) {
        next := None;
      }
    }
  }

  /** Reading one entry splits the accepted entries accordingly. */
  lemma SkipOne(filter: Filter, es: seq<Entry>, i: nat)
    requires i < |es|
    ensures Accepted(filter, es[i..]) ==
              (if Wanted(filter, es[i]) then [es[i]] else []) + Accepted(filter, es[i + 1..])
  {
    assert es[i..][1..] == es[i + 1..];
  }

  /** The constructor: the enumeration from the start, advanced to the
      first accepted entry. */
  method NewBrowser(entries: seq<Entry>, filter: Filter) returns (b: Browser)
    ensures b.entries == entries && b.filter == filter && b.pos <= |entries|
    ensures Accepted(filter, entries) == Pending(b)
    ensures b.next.Some? ==> Wanted(filter, b.next.value)
    ensures b.next.None? ==> b.pos == |entries|
  {
    var next, pos := SetNext(entries, 0, filter);
    assert entries[0..] == entries;
    b := Browser(entries, pos, next, filter);
  }

  /** What the iterator has yet to hand out. */
  function Pending(b: Browser): seq<Entry>
    requires b.pos <= |b.entries|
  {
    (if b.next.Some? then [b.next.value] else []) + Accepted(b.filter, b.entries[b.pos..])
  }

  /** `hasNext()`. */
  function HasNext(b: Browser): (r: bool)
    requires b.pos <= |b.entries|
    ensures r <==> b.next.Some?
    ensures b.next.None? && b.pos == |b.entries| ==> Pending(b) == []
  {
    b.next.Some?
  }

  /** `next()`: hands out the pending entry and advances; without one the
      stream cannot be opened. */
  method Next(b: Browser) returns (r: Result<Entry>, b': Browser)
    requires b.pos <= |b.entries|
    requires b.next.Some? ==> Wanted(b.filter, b.next.value)
    ensures b'.entries == b.entries && b'.filter == b.filter && b'.pos <= |b'.entries|
    ensures b.next.Some? ==> r == Ok(b.next.value) && Pending(b) == [b.next.value] + Pending(b')
    ensures b.next.None? ==> r == Err(NullPointer) && Pending(b') == Pending(b)
    ensures b'.next.None? ==> b'.pos == |b'.entries|
    ensures b'.next.Some? ==> Wanted(b'.filter, b'.next.value) && b'.pos > b.pos
    ensures b'.pos >= b.pos
  {
    var next, pos := SetNext(b.entries, b.pos, b.filter);
    b' := b.(pos := pos, next := next);
    r := if b.next.Some? then Ok(b.next.value) else Err(NullPointer);
  }

  /** `remove()`: not supported. */
  function Remove(b: Browser): (r: Result<Browser>)
    ensures r == Err(Runtime)
  {
    Err(Runtime)
  }

  /** Iterating while `hasNext` hands out exactly the accepted entries, in
      order. */
  method Drain(entries: seq<Entry>, filter: Filter) returns (out: seq<Entry>)
    ensures out == Accepted(filter, entries)
  {
    var b := NewBrowser(entries, filter);
    out := [];
    while HasNext(b)
      invariant b.entries == entries && b.filter == filter && b.pos <= |entries|
      invariant b.next.Some? ==> Wanted(filter, b.next.value)
      invariant out + Pending(b) == Accepted(filter, entries)
      invariant b.next.None? ==> b.pos == |entries|
      decreases |entries| - b.pos, if b.next.Some? then 1 else 0
    {
      var r;
      ghost var before := b;
      r, b := Next(b);
      assert Pending(before) == [r.value] + Pending(b);
      out := out + [r.value];
    }
  }
}

=== FILE: java_num.dfy ===
/** Java's fixed-width integer arithmetic over Dafny's unbounded integers.

    `int` and `long` values are the integers of their two's-complement
    ranges; every arithmetic result is wrapped back into range, as the Java
    Language Specification (section 15.17) prescribes.  The bit operations
    go through the 32- and 64-bit vectors.
 */
module JavaNum {
  import opened Wrappers

  const TWO_31: int := 0x8000_0000
  const TWO_32: int := 0x1_0000_0000
  const TWO_63: int := 0x8000_0000_0000_0000
  const TWO_64: int := 0x1_0000_0000_0000_0000

  /** A Java `int`. */
  type int32 = x: int | -0x8000_0000 <= x < 0x8000_0000

  /** A Java `long`. */
  type int64 = x: int | -0x8000_0000_0000_0000 <= x < 0x8000_0000_0000_0000

  /** The `int` congruent to `x` modulo 2^32. */
  function Wrap32(x: int): (r: int32)
    ensures (x - r) % TWO_32 == 0
    ensures -TWO_31 <= x < TWO_31 ==> r == x
  {
    var m := x % TWO_32;
    if m >= TWO_31 then m - TWO_32 else m
  }

  /** The `long` congruent to `x` modulo 2^64. */
  function Wrap64(x: int): (r: int64)
    ensures (x - r) % TWO_64 == 0
    ensures -TWO_63 <= x < TWO_63 ==> r == x
  {
    var m := x % TWO_64;
    if m >= TWO_63 then m - TWO_64 else m
  }

  /** Congruent integers wrap to the same `int`. */
  lemma Wrap32Congruent(a: int, b: int)
    requires (a - b) % TWO_32 == 0
    ensures Wrap32(a) == Wrap32(b)
  {
    var k := (a - b) / TWO_32;
    assert a == b + k * TWO_32;
    assert a % TWO_32 == b % TWO_32;
  }

  lemma MultipleScales(a: int, c: int)
    requires a % TWO_32 == 0
    ensures (c * a) % TWO_32 == 0
  {
    var k := a / TWO_32;
    assert a == k * TWO_32;
    assert c * a == (c * k) * TWO_32;
  }

  /** `Math.abs` on an `int`: the magnitude, except that the least `int` is
      its own absolute value. */
  function Abs32(x: int32): (r: int32)
    ensures x != -TWO_31 ==> r >= 0 && (r == x || r + x == 0)
    ensures x == -TWO_31 ==> r == x
  {
    Wrap32(if x < 0 then -(x as int) else x as int)
  }

  /** The two's-complement bits of an `int`. */
  function Bits32(x: int32): bv32 {
    (if x < 0 then x + TWO_32 else x) as bv32
  }

  function FromBits32(b: bv32): int32 {
    var u := b as int;
    if u >= TWO_31 then u - TWO_32 else u
  }

  /** The two's-complement bits of a `long`. */
  function Bits64(x: int64): bv64 {
    (if x < 0 then x + TWO_64 else x) as bv64
  }

  function FromBits64(b: bv64): int64 {
    var u := b as int;
    if u >= TWO_63 then u - TWO_64 else u
  }

  /** `a ^ b` on `int`s. */
  function Xor32(a: int32, b: int32): int32 {
    FromBits32(Bits32(a) ^ Bits32(b))
  }

  /** `(int) ((a ^ b) >> 32)` on `long`s: the upper half of the exclusive or,
      read as an `int`. */
  function HighXor64(a: int64, b: int64): (r: int32)
    ensures a == b ==> r == 0
  {
    FromBits32(((Bits64(a) ^ Bits64(b)) >> 32) as bv32)
  }

  /** The `int` hash `h = 31 * h + x` over `xs`, from the left, as
      `String.hashCode` and the array hashes compute it. */
  function Hash31(xs: seq<int>): int32
    decreases |xs|
  {
    if |xs| == 0 then 0 else Wrap32(31 * Hash31(xs[..|xs| - 1]) + xs[|xs| - 1])
  }

  /** The same polynomial over the unbounded integers: sum of
      xs[i] * 31^(n - 1 - i). */
  function Poly31(xs: seq<int>): int
    decreases |xs|
  {
    if |xs| == 0 then 0 else 31 * Poly31(xs[..|xs| - 1]) + xs[|xs| - 1]
  }

  /** Wrapping at every step gives the wrapped polynomial. */
  lemma {:induction false} Hash31IsPoly(xs: seq<int>)
    ensures Hash31(xs) == Wrap32(Poly31(xs))
    decreases |xs|
  {
    if |xs| > 0 {
      var p := xs[..|xs| - 1];
      var x := xs[|xs| - 1];
      Hash31IsPoly(p);
      WrapStep(Poly31(p), Hash31(p), x);
    }
  }

  /** One step of the hash: congruent running values stay congruent. */
  lemma WrapStep(p: int, h: int, x: int)
    requires (p - h) % TWO_32 == 0
    ensures Wrap32(31 * h + x) == Wrap32(31 * p + x)
  {
    MultipleScales(p - h, 31);
    assert (31 * p + x) - (31 * h + x) == 31 * (p - h);
    Wrap32Congruent(31 * h + x, 31 * p + x);
  }

  /** The hash of a text is the hash of one more character. */
  lemma Hash31Snoc(xs: seq<int>, x: int)
    ensures Hash31(xs + [x]) == Wrap32(31 * Hash31(xs) + x)
  {
    assert (xs + [x])[..|xs|] == xs;
  }

  /** The first code point above the Basic Multilingual Plane. */
  const SUPPLEMENTARY_BASE := 0x1_0000

  /** A high (leading) and a low (trailing) UTF-16 surrogate. */
  predicate IsHighSurrogate(u: int) { 0xD800 <= u < 0xDC00 }
  predicate IsLowSurrogate(u: int) { 0xDC00 <= u < 0xE000 }

  /** The UTF-16 code units of one character: the character itself within
      the Basic Multilingual Plane, a surrogate pair above it. */
  function Utf16(c: char): (r: seq<int>)
    ensures (c as int) < SUPPLEMENTARY_BASE ==> r == [c as int]
    ensures (c as int) >= SUPPLEMENTARY_BASE ==>
      && |r| == 2 && IsHighSurrogate(r[0]) && IsLowSurrogate(r[1])
      && SUPPLEMENTARY_BASE + (r[0] - 0xD800) * 0x400 + (r[1] - 0xDC00) == c as int
  {
    var x := c as int;
    if x < SUPPLEMENTARY_BASE then [x]
    else [0xD800 + (x - SUPPLEMENTARY_BASE) / 0x400, 0xDC00 + (x - SUPPLEMENTARY_BASE) % 0x400]
  }

  /** The UTF-16 code units of a text, which is what Java's `String` holds:
      one unit per character of the Basic Multilingual Plane, a surrogate
      pair for every character above it. */
  function CharCodes(s: string): (r: seq<int>)
    ensures |s| <= |r| <= 2 * |s|
    ensures forall k | 0 <= k < |r| :: 0 <= r[k] < SUPPLEMENTARY_BASE
    ensures (forall i | 0 <= i < |s| :: (s[i] as int) < SUPPLEMENTARY_BASE) ==>
              |r| == |s| && forall i | 0 <= i < |s| :: r[i] == s[i] as int
  {
    if |s| == 0 then [] else Utf16(s[0]) + CharCodes(s[1..])
  }

  /** Reads UTF-16 code units back as characters; `None` for a lone
      surrogate or a value outside 16 bits. */
  function FromCharCodes(us: seq<int>): (r: Option<string>)
    decreases |us|
  {
    if |us| == 0 then Some([])
    else if IsHighSurrogate(us[0]) && |us| >= 2 && IsLowSurrogate(us[1]) then
      var x := SUPPLEMENTARY_BASE + (us[0] - 0xD800) * 0x400 + (us[1] - 0xDC00);
      match FromCharCodes(us[2..])
      case Some(rest) => Some([x as char] + rest)
      case None => None
    else if 0 <= us[0] < 0xD800 || 0xE000 <= us[0] < SUPPLEMENTARY_BASE then
      match FromCharCodes(us[1..])
      case Some(rest) => Some([us[0] as char] + rest)
      case None => None
    else None
  }

  /** The code units determine the text: reading them back gives it again. */
  lemma {:induction false} CharCodesRoundTrip(s: string)
    ensures FromCharCodes(CharCodes(s)) == Some(s)
  {
    if |s| > 0 {
      CharCodesRoundTrip(s[1..]);
      var us := CharCodes(s);
      var u := Utf16(s[0]);
      assert us == u + CharCodes(s[1..]);
      if (s[0] as int) < SUPPLEMENTARY_BASE {
        assert us[1..] == CharCodes(s[1..]);
      } else {
        assert us[2..] == CharCodes(s[1..]);
      }
      assert [s[0]] + s[1..] == s;
    }
  }

  /** A character above the Basic Multilingual Plane hashes as its two
      surrogates: U+1F600 is the pair D83D DE00, not the one code 0x1F600. */
  lemma SupplementaryHashesAsPair()
    ensures CharCodes("\U{1F600}") == [0xD83D, 0xDE00]
    ensures StringHash("\U{1F600}") == 31 * 0xD83D + 0xDE00
  {
    assert CharCodes("\U{1F600}") == Utf16('\U{1F600}') + CharCodes([]);
    Hash31Snoc([0xD83D], 0xDE00);
    Hash31Snoc([], 0xD83D);
    assert [0xD83D] + [0xDE00] == [0xD83D, 0xDE00];
    assert [] + [0xD83D] == [0xD83D];
  }

  /** `String.hashCode`. */
  function StringHash(s: string): int32 {
    Hash31(CharCodes(s))
  }
}

=== FILE: marshalled_value.dfy ===
/** A value held in its serialized form: its size, hash and equality are
    those of the bytes, and it externalizes itself as a length followed by
    the bytes.

    Serializing and deserializing objects is left to the caller: the
    constructor takes the bytes the object stream wrote, and `get` takes the
    decoder.  Java bytes are signed.
 */
module MarshalledValue {
  import opened Wrappers
  import opened JavaNum

  /** A Java `byte`. */
  type int8 = x: int | -128 <= x < 128

  /** The serialized form (null for none), the cached hash and its flag,
      and the buffer the constructor wrote to (null for none). */
  datatype Value = Value(form: Option<seq<int8>>, hash: int32, isHashComputed: bool, buffer: Option<seq<int8>>)

  /** `MarshalledValue()`, for externalization: nothing set. */
  function NewEmpty(): (r: Value)
    ensures r.form.None? && r.buffer.None? && !r.isHashComputed
  {
    Value(None, 0, false, None)
  }

  /** `MarshalledValue(obj)` as the source writes it: the object's bytes
      stay in the buffer and the serialized form is never set. */
  function NewOfAsWritten(bytes: seq<int8>): (r: Value)
    ensures r.buffer == Some(bytes) && r.form.None? && !r.isHashComputed
  {
    Value(None, 0, false, Some(bytes))
  }

  /** `MarshalledValue(obj)` with the serialized form taken from the
      buffer. */
  function NewOf(bytes: seq<int8>): (r: Value)
    ensures r.buffer == Some(bytes) && r.form == Some(bytes) && !r.isHashComputed
  {
    Value(Some(bytes), 0, false, Some(bytes))
  }

  /** `get()`: null without a serialized form, else what the decoder makes
      of the bytes. */
  function Get<T>(v: Value, decode: seq<int8> -> Result<T>): (r: Result<Option<T>>)
    ensures v.form.None? ==> r == Ok(None)
    ensures v.form.Some? ==> (r.Ok? <==> decode(v.form.value).Ok?)
    ensures v.form.Some? && r.Ok? ==> r.value == Some(decode(v.form.value).value)
  {
    match v.form
    case None => Ok(None)
    case Some(bytes) =>
      var obj :- decode(bytes);
      Ok(Some(obj))
  }

  /** `size()`: the length of the serialized form, zero without one. */
  function Size(v: Value): (r: nat)
    ensures r == 0 <==> v.form.None? || v.form == Some([])
    ensures v.form.Some? ==> r == |v.form.value|
  {
    match v.form
    case None => 0
    case Some(bytes) => |bytes|
  }

  /** The bytes as integers. */
  function Ints(bytes: seq<int8>): (r: seq<int>)
    ensures |r| == |bytes| && forall i | 0 <= i < |bytes| :: r[i] == bytes[i] as int
  {
    seq(|bytes|, i requires 0 <= i < |bytes| => bytes[i] as int)
  }

  /** `hashCode()`: `h = 31 * h + b` over the signed bytes in `int`
      arithmetic, recomputed whenever the flag is clear; without a
      serialized form the loop dereferences null. */
  method HashCode(v: Value) returns (r: Result<int32>, v': Value)
    ensures !v.isHashComputed ==> (r.Err? <==> v.form.None?)
    ensures r.Err? ==> r.error == NullPointer
    ensures !v.isHashComputed && r.Ok? ==> r.value == Wrap32(Poly31(Ints(v.form.value)))
    ensures v.isHashComputed ==> r == Ok(v.hash) && v' == v
    ensures v'.form == v.form && v'.isHashComputed == v.isHashComputed && v'.buffer == v.buffer
  {
    if v.isHashComputed {
      return Ok(v.hash), v;
    }
    if v.form.None? {
      return Err(NullPointer), v;
    }
    var bytes := v.form.value;
    var hash: int32 := 0;
    var i := 0;
    while i < |bytes|
      invariant 0 <= i <= |bytes|
      invariant hash == Hash31(Ints(bytes)[..i])
      decreases |bytes| - i
    {
      assert Ints(bytes)[..i + 1] == Ints(bytes)[..i] + [bytes[i] as int];
      Hash31Snoc(Ints(bytes)[..i], bytes[i] as int);
      hash := Wrap32(31 * hash + bytes[i]);
      i := i + 1;
    }
    assert Ints(bytes)[..i] == Ints(bytes);
    Hash31IsPoly(Ints(bytes));
    r := Ok(hash);
    v' := v.(hash := hash);
  }

  /** `equals(obj)`: another value whose serialized forms are both null or
      hold the same bytes. */
  predicate Equals(v: Value, obj: Option<Value>) {
    obj.Some? && v.form == obj.value.form
  }

  /** Equality is an equivalence on the serialized forms, and equal values
      with a form hash alike. */
  method EqualsMeaning(u: Value, v: Value, w: Value) returns (hu: Result<int32>, hv: Result<int32>)
    requires !u.isHashComputed && !v.isHashComputed
    ensures Equals(u, Some(u)) && !Equals(u, None)
    ensures Equals(u, Some(v)) <==> Equals(v, Some(u))
    ensures Equals(u, Some(v)) && Equals(v, Some(w)) ==> Equals(u, Some(w))
    ensures Equals(u, Some(v)) ==> hu == hv
    ensures Equals(u, Some(v)) <==>
              && (u.form.None? <==> v.form.None?)
              && Size(u) == Size(v)
              && (forall i | 0 <= i < Size(u) && u.form.Some? && v.form.Some? :: u.form.value[i] == v.form.value[i])
  {
    if u.form.Some? && v.form.Some? && Size(u) == Size(v) &&
       (forall i | 0 <= i < Size(u) :: u.form.value[i] == v.form.value[i]) {
      assert u.form.value == v.form.value;
    }
    var u', v';
    hu, u' := HashCode(u);
    hv, v' := HashCode(v);
  }

  /** `readExternal(in)`: reads a length and then that many bytes; a
      non-positive length leaves no serialized form, and too few bytes end
      the stream. */
  function ReadExternal(v: Value, length: int32, input: seq<int8>): (r: Result<Value>)
    ensures r.Err? <==> length > 0 && |input| < length
    ensures r.Err? ==> r.error == Checked
    ensures r.Ok? ==> !r.value.isHashComputed && r.value.buffer == v.buffer
    ensures r.Ok? && length <= 0 ==> r.value.form.None? && Size(r.value) == 0
    ensures r.Ok? && length > 0 ==> r.value.form == Some(input[..length]) && Size(r.value) == length as int
  {
    if length <= 0 then Ok(v.(form := None, isHashComputed := false))
    else if |input| < length then Err(Checked)
    else Ok(v.(form := Some(input[..length]), isHashComputed := false))
  }

  /** `writeExternal(out)`: the buffer's size and then its bytes; without a
      buffer it dereferences null. */
  function WriteExternal(v: Value): (r: Result<(int32, seq<int8>)>)
    requires v.buffer.Some? ==> |v.buffer.value| < TWO_31
    ensures r.Err? <==> v.buffer.None?
    ensures r.Err? ==> r.error == NullPointer
    ensures r.Ok? ==> r.value.0 as int == |r.value.1| && r.value.1 == v.buffer.value
  {
    match v.buffer
    case None => Err(NullPointer)
    case Some(bytes) => Ok((|bytes| as int32, bytes))
  }

  /** Externalizing and reading back: the copy holds the constructor's
      bytes.  An object stream always begins with its header, so the bytes
      are never empty. */
  function Transfer(v: Value): (r: Result<Value>)
    requires v.buffer.Some? ==> |v.buffer.value| < TWO_31
  {
    var (length, bytes) :- WriteExternal(v);
    ReadExternal(NewEmpty(), length, bytes)
  }

  /** With the form taken from the buffer, a value equals its transferred
      copy and hashes like it. */
  method TransferRoundTrip(bytes: seq<int8>) returns (h: Result<int32>, h': Result<int32>)
    requires 0 < |bytes| < TWO_31
    ensures Transfer(NewOf(bytes)).Ok?
    ensures Equals(NewOf(bytes), Some(Transfer(NewOf(bytes)).value))
    ensures h.Ok? && h == h'
  {
    var copy := Transfer(NewOf(bytes)).value;
    assert bytes[..|bytes|] == bytes;
    var v1, v2;
    h, v1 := HashCode(NewOf(bytes));
    h', v2 := HashCode(copy);
  }

  /** As written, a constructed value differs from its transferred copy,
      reads back as null, and equals every other constructed value. */
  lemma AsWrittenForgetsForm(a: seq<int8>, b: seq<int8>)
    requires 0 < |a| < TWO_31
    ensures Transfer(NewOfAsWritten(a)).Ok?
    ensures !Equals(NewOfAsWritten(a), Some(Transfer(NewOfAsWritten(a)).value))
    ensures Equals(NewOfAsWritten(a), Some(NewOfAsWritten(b)))
    ensures Get(NewOfAsWritten(a), (s: seq<int8>) => Ok(s)) == Ok(None)
  {
  }
}

=== FILE: object_model_builder.dfy ===
/** The SAX-to-object builder of the first binding layer.

    The builder turns start tags, end tags and text into calls on
    object-model factories.  It keeps two stacks: `all`, with one entry per
    open element, and `accepted`, with the objects the factories actually
    created; an element the factory declines is recorded in `all` as the
    `Ignored` sentinel only.  Namespace prefixes are resolved through one
    stack of URIs per prefix.

    The factories themselves are outside the model: `newRoot` and `newChild`
    are functions of their arguments, and `setValue` and `addChild`, which
    only act on the objects, are recorded as a trace of calls.
 */
module ObjectModel {
  import opened Wrappers
  import opened ContentModel
  import Text

  /** An object of the application's object model. */
  type Obj = nat

  /** A factory, by identity. */
  type FactoryId = nat

  /** An entry of the `all` stack. */
  datatype Entry = Ignored | Kept(obj: Obj)

  /** The factory methods that build objects. */
  datatype Factories = Factories(
    default: FactoryId,
    byNamespace: map<string, FactoryId>,
    /** `newRoot(parent, navigator, ns, local, attrs)`, `None` for null. */
    newRoot: (FactoryId, Option<Obj>, string, string, Attrs) -> Option<Obj>,
    /** `newChild(parent, navigator, ns, local, attrs)`, `None` for null. */
    newChild: (FactoryId, Option<Obj>, string, string, Attrs) -> Option<Obj>)

  /** The factory methods that only act on objects. */
  datatype Call =
    | SetValue(factory: FactoryId, element: Obj, ns: string, local: string, value: string)
    | AddChild(factory: FactoryId, parent: Obj, child: Obj, ns: string, local: string)

  /** The builder's fields: `root`, the two stacks (top last), the URI
      stacks of the prefixes (innermost first), the buffered text, and the
      factory calls made so far. */
  datatype Builder = Builder(
    root: Option<Obj>,
    all: seq<Entry>,
    accepted: seq<Obj>,
    prefixes: map<string, seq<string>>,
    value: string,
    calls: seq<Call>)

  function NewBuilder(): (b: Builder)
    ensures b.root == None && b.all == [] && b.accepted == [] && b.value == [] && b.calls == []
    ensures forall p :: ResolvePrefix(b, p) == None
  {
    Builder(None, [], [], map[], "", [])
  }

  /** The objects of `all`, without the sentinels. */
  function KeptOf(all: seq<Entry>): (r: seq<Obj>)
    ensures |r| <= |all|
  {
    if |all| == 0 then []
    else KeptOf(all[..|all| - 1]) + (if all[|all| - 1].Kept? then [all[|all| - 1].obj] else [])
  }

  /** `accepted` holds exactly the objects of `all`, in order. */
  predicate Consistent(b: Builder) {
    b.accepted == KeptOf(b.all)
  }

  // ---------------------------------------------------------------- factories

  /** `mapFactoryToNamespace(factory, ns)`. */
  function MapFactory(fs: Factories, f: FactoryId, ns: string): (r: Factories)
    ensures GetFactory(r, ns) == f
    ensures forall n | n != ns :: GetFactory(r, n) == GetFactory(fs, n)
  {
    fs.(byNamespace := fs.byNamespace[ns := f])
  }

  /** `getFactory(ns)`: the factory mapped to the namespace, else the default. */
  function GetFactory(fs: Factories, ns: string): (r: FactoryId)
    ensures r == fs.default || (ns in fs.byNamespace && r == fs.byNamespace[ns])
    ensures ns in fs.byNamespace ==> r == fs.byNamespace[ns]
  {
    if ns in fs.byNamespace then fs.byNamespace[ns] else fs.default
  }

  /** A factory mapped to no namespace is reached only as the default. */
  lemma UnmappedUsesDefault(fs: Factories, ns: string)
    requires ns !in fs.byNamespace
    ensures GetFactory(fs, ns) == fs.default
  {
  }

  // ---------------------------------------------------------------- prefixes

  /** `resolveNamespacePrefix(prefix)`: the innermost URI bound to the
      prefix, `None` for null. */
  function ResolvePrefix(b: Builder, prefix: string): (r: Option<string>)
    ensures r.Some? <==> prefix in b.prefixes && |b.prefixes[prefix]| > 0
    ensures r.Some? ==> r.value == b.prefixes[prefix][0]
  {
    if prefix in b.prefixes && |b.prefixes[prefix]| > 0 then Some(b.prefixes[prefix][0]) else None
  }

  /** `startPrefixMapping(prefix, uri)`: the URI goes in front of the
      prefix's stack. */
  function StartPrefixMapping(b: Builder, prefix: string, uri: string): (r: Builder)
    ensures r.prefixes.Keys == b.prefixes.Keys + {prefix}
    ensures ResolvePrefix(r, prefix) == Some(uri)
    ensures forall p | p != prefix :: ResolvePrefix(r, p) == ResolvePrefix(b, p)
    ensures r == b.(prefixes := r.prefixes)
  {
    var stack := if prefix in b.prefixes then b.prefixes[prefix] else [];
    b.(prefixes := b.prefixes[prefix := [uri] + stack])
  }

  /** `endPrefixMapping(prefix)`: drops the prefix's innermost URI; an
      unknown prefix is ignored, and an exhausted stack throws. */
  function EndPrefixMapping(b: Builder, prefix: string): (r: Result<Builder>)
    ensures r.Err? <==> prefix in b.prefixes && |b.prefixes[prefix]| == 0
    ensures r.Err? ==> r.error == NoSuchElement
    ensures prefix !in b.prefixes ==> r == Ok(b)
    ensures r.Ok? ==> r.value == b.(prefixes := r.value.prefixes) && r.value.prefixes.Keys == b.prefixes.Keys
    ensures r.Ok? && prefix in b.prefixes ==> r.value.prefixes[prefix] == b.prefixes[prefix][1..]
    ensures r.Ok? ==> forall p | p != prefix :: ResolvePrefix(r.value, p) == ResolvePrefix(b, p)
  {
    if prefix !in b.prefixes then Ok(b)
    else if |b.prefixes[prefix]| == 0 then Err(NoSuchElement)
    else Ok(b.(prefixes := b.prefixes[prefix := b.prefixes[prefix][1..]]))
  }

  /** Mappings nest: ending a mapping right after starting it resolves every
      prefix as before. */
  lemma PrefixMappingNests(b: Builder, prefix: string, uri: string)
    ensures var r := EndPrefixMapping(StartPrefixMapping(b, prefix, uri), prefix);
            r.Ok? && forall p :: ResolvePrefix(r.value, p) == ResolvePrefix(b, p)
  {
    var s := StartPrefixMapping(b, prefix, uri);
    var r := EndPrefixMapping(s, prefix);
    assert r.Ok?;
    forall p
      ensures ResolvePrefix(r.value, p) == ResolvePrefix(b, p)
    {
      if p == prefix {
        assert r.value.prefixes[prefix] == (if prefix in b.prefixes then b.prefixes[prefix] else []);
      }
    }
  }

  /** `resolveQName(value)` of a text of the form `[prefix:]local`. */
  function ResolveQName(b: Builder, value: string): (r: Result<QName>)
    ensures var ts := Text.Tokens(value, {':'});
            && (r.Ok? <==> |ts| == 1 || |ts| == 2)
            && (r.Err? ==> r.error == IllegalArgument)
            && (|ts| == 1 ==> r == Ok(QName("", value)))
            && (|ts| == 2 ==> r == Ok(QName(ResolvePrefix(b, ts[0]).GetOr(""), ts[1])))
  {
    var ts := Text.Tokens(value, {':'});
    if |ts| == 1 then Ok(QName("", value))
    else if |ts| != 2 then Err(IllegalArgument)
    else Ok(QName(ResolvePrefix(b, ts[0]).GetOr(""), ts[1]))
  }

  /** A prefixed name resolves its prefix through the innermost mapping. */
  lemma ResolvePrefixedName(b: Builder, prefix: string, local: string, uri: string)
    requires |prefix| > 0 && |local| > 0
    requires forall i | 0 <= i < |prefix| :: prefix[i] != ':'
    requires forall i | 0 <= i < |local| :: local[i] != ':'
    ensures ResolveQName(StartPrefixMapping(b, prefix, uri), prefix + ":" + local) == Ok(QName(uri, local))
  {
    var xs := [prefix, local];
    assert Text.Join(xs, ':') == prefix + ":" + local by {
      assert Text.Join(xs[1..], ':') == local;
    }
    Text.TokensOfJoin(xs, ':', {':'});
  }

  /** A name without a colon has no namespace. */
  lemma ResolveLocalName(b: Builder, local: string)
    requires |local| > 0
    requires forall i | 0 <= i < |local| :: local[i] != ':'
    ensures ResolveQName(b, local) == Ok(QName("", local))
  {
    Text.TokensOfJoin([local], ':', {':'});
  }

  // ---------------------------------------------------------------- elements

  /** `startElement(ns, local, qName, attrs)`: the first element of a build
      goes to `newRoot` and becomes the root, the others to `newChild`; both
      get the innermost accepted object as parent. */
  function StartElement(fs: Factories, b: Builder, ns: string, local: string, atts: Attrs): (r: Builder)
    ensures |r.all| == |b.all| + 1 && r.all[..|b.all|] == b.all
    ensures var parent := if |b.accepted| == 0 then None else Some(b.accepted[|b.accepted| - 1]);
            var f := GetFactory(fs, ns);
            var e := if b.root.None? then fs.newRoot(f, parent, ns, local, atts)
                     else fs.newChild(f, parent, ns, local, atts);
            && (e.None? ==> r.all[|b.all|] == Ignored && r.accepted == b.accepted)
            && (e.Some? ==> r.all[|b.all|] == Kept(e.value) && r.accepted == b.accepted + [e.value])
            && r.root == (if b.root.None? then e else b.root)
    ensures r.prefixes == b.prefixes && r.value == b.value && r.calls == b.calls
  {
    var parent := if |b.accepted| == 0 then None else Some(b.accepted[|b.accepted| - 1]);
    var f := GetFactory(fs, ns);
    var e := if b.root.None? then fs.newRoot(f, parent, ns, local, atts) else fs.newChild(f, parent, ns, local, atts);
    var b1 := if b.root.None? then b.(root := e) else b;
    match e
    case None => b1.(all := b.all + [Ignored])
    case Some(o) => b1.(all := b.all + [Kept(o)], accepted := b.accepted + [o])
  }

  /** `characters(ch, start, length)`: the text is buffered. */
  function Characters(b: Builder, text: string): (r: Builder)
    ensures |r.value| == |b.value| + |text|
    ensures r.value[..|b.value|] == b.value && r.value[|b.value|..] == text
    ensures r == b.(value := r.value)
  {
    b.(value := b.value + text)
  }

  /** The buffered text of a closing element goes, trimmed, to `setValue`
      on the innermost accepted object, and the buffer empties. */
  function FlushValue(fs: Factories, b: Builder, ns: string, local: string): (r: Result<Builder>)
    ensures r.Err? <==> |b.value| > 0 && |b.accepted| == 0
    ensures r.Err? ==> r.error == NoSuchElement
    ensures r.Ok? ==> r.value.value == "" && r.value.all == b.all && r.value.accepted == b.accepted
    ensures r.Ok? && |b.value| == 0 ==> r.value == b
    ensures r.Ok? && |b.value| > 0 ==>
      r.value.calls == b.calls + [SetValue(GetFactory(fs, ns), b.accepted[|b.accepted| - 1], ns, local, Text.Trim(b.value))]
  {
    if |b.value| == 0 then Ok(b)
    else if |b.accepted| == 0 then Err(NoSuchElement)
    else
      var call := SetValue(GetFactory(fs, ns), b.accepted[|b.accepted| - 1], ns, local, Text.Trim(b.value));
      Ok(b.(value := "", calls := b.calls + [call]))
  }

  /** `endElement(ns, local, qName)`: flushes the text, pops `all`, and for
      an accepted element pops `accepted` too and hands the object to
      `addChild` of its parent, when there is one. */
  function EndElement(fs: Factories, b: Builder, ns: string, local: string): (r: Result<Builder>)
    ensures |b.value| == 0 ==> (r.Err? <==> |b.all| == 0 || (b.all[|b.all| - 1].Kept? && |b.accepted| == 0))
    ensures r.Err? ==> r.error == NoSuchElement
    ensures r.Ok? ==> |b.all| > 0 && r.value.all == b.all[..|b.all| - 1] && r.value.value == ""
    ensures r.Ok? ==> r.value.root == b.root && r.value.prefixes == b.prefixes
    ensures r.Ok? && b.all[|b.all| - 1].Ignored? ==> r.value.accepted == b.accepted
    ensures r.Ok? && b.all[|b.all| - 1].Kept? ==>
      |b.accepted| > 0 && r.value.accepted == b.accepted[..|b.accepted| - 1]
  {
    var b1 :- FlushValue(fs, b, ns, local);
    if |b1.all| == 0 then Err(NoSuchElement)
    else
      var top := b1.all[|b1.all| - 1];
      var b2 := b1.(all := b1.all[..|b1.all| - 1]);
      if top.Ignored? then Ok(b2)
      else if |b2.accepted| == 0 then Err(NoSuchElement)
      else
        var child := b2.accepted[|b2.accepted| - 1];
        var rest := b2.accepted[..|b2.accepted| - 1];
        var calls := if |rest| == 0 then b2.calls
                     else b2.calls + [AddChild(GetFactory(fs, ns), rest[|rest| - 1], child, ns, local)];
        Ok(b2.(accepted := rest, calls := calls))
  }

  // ---------------------------------------------------------------- consistency

  lemma KeptOfPush(all: seq<Entry>, e: Entry)
    ensures KeptOf(all + [e]) == KeptOf(all) + (if e.Kept? then [e.obj] else [])
  {
    assert (all + [e])[..|all|] == all;
  }

  /** `startElement` keeps `accepted` equal to the objects of `all`. */
  lemma StartKeepsConsistent(fs: Factories, b: Builder, ns: string, local: string, atts: Attrs)
    requires Consistent(b)
    ensures Consistent(StartElement(fs, b, ns, local, atts))
  {
    var r := StartElement(fs, b, ns, local, atts);
    assert r.all == b.all + [r.all[|b.all|]];
    KeptOfPush(b.all, r.all[|b.all|]);
  }

  /** On a consistent builder, `endElement` fails only when nothing is open
      or when text is pending with nothing accepted, and it keeps the stacks
      consistent. */
  lemma EndKeepsConsistent(fs: Factories, b: Builder, ns: string, local: string)
    requires Consistent(b)
    ensures var r := EndElement(fs, b, ns, local);
            && (r.Err? <==> |b.all| == 0 || (|b.value| > 0 && |b.accepted| == 0))
            && (r.Ok? ==> Consistent(r.value))
  {
    if |b.all| > 0 {
      KeptOfPop(b.all);
    }
  }

  lemma KeptOfPop(all: seq<Entry>)
    requires |all| > 0
    ensures var e := all[|all| - 1];
            KeptOf(all) == KeptOf(all[..|all| - 1]) + (if e.Kept? then [e.obj] else [])
  {
    var n := |all| - 1;
    assert all[..n] + [all[n]] == all;
    KeptOfPush(all[..n], all[n]);
  }

  /** An element opened and closed with no text in between leaves the
      stacks as they were, and an accepted one is handed to its parent. */
  lemma StartThenEnd(fs: Factories, b: Builder, ns: string, local: string, atts: Attrs)
    requires Consistent(b) && b.value == ""
    ensures var s := StartElement(fs, b, ns, local, atts);
            var r := EndElement(fs, s, ns, local);
            && r.Ok? && r.value.all == b.all && r.value.accepted == b.accepted
            && r.value.root == s.root
            && (s.all[|b.all|].Kept? && |b.accepted| > 0 ==>
                  r.value.calls == b.calls + [AddChild(GetFactory(fs, ns), b.accepted[|b.accepted| - 1],
                                                       s.all[|b.all|].obj, ns, local)])
            && (s.all[|b.all|].Ignored? || |b.accepted| == 0 ==> r.value.calls == b.calls)
  {
    var s := StartElement(fs, b, ns, local, atts);
    StartKeepsConsistent(fs, b, ns, local, atts);
    assert s.all[..|s.all| - 1] == b.all;
    if s.all[|b.all|].Kept? {
      assert s.accepted[..|s.accepted| - 1] == b.accepted;
    }
  }

  // ---------------------------------------------------------------- build

  /** The SAX events a `Content` replays into the builder. */
  datatype SaxEvent =
    | StartPrefix(prefix: string, uri: string)
    | EndPrefix(prefix: string)
    | StartTag(ns: string, local: string, atts: Attrs)
    | EndTag(ns: string, local: string)
    | Text(text: string)

  /** One event, dispatched to the builder's handler of it. */
  function Step(fs: Factories, b: Builder, e: SaxEvent): (r: Result<Builder>)
    ensures r.Ok? ==> r.value.root == b.root || e.StartTag?
    ensures e.StartTag? || e.EndTag? || r.Err? || (r.value.all == b.all && r.value.accepted == b.accepted)
  {
    match e
    case StartPrefix(p, u) => Ok(StartPrefixMapping(b, p, u))
    case EndPrefix(p) => EndPrefixMapping(b, p)
    case StartTag(ns, l, atts) => Ok(StartElement(fs, b, ns, l, atts))
    case EndTag(ns, l) => EndElement(fs, b, ns, l)
    case Text(t) => Ok(Characters(b, t))
  }

  lemma StepKeepsConsistent(fs: Factories, b: Builder, e: SaxEvent)
    requires Consistent(b)
    ensures Step(fs, b, e).Ok? ==> Consistent(Step(fs, b, e).value)
  {
    match e
    case StartTag(ns, l, atts) => StartKeepsConsistent(fs, b, ns, l, atts);
    case EndTag(ns, l) => EndKeepsConsistent(fs, b, ns, l);
    case _ =>
  }

  /** `content.build(this)`: the events in order, up to the first failure. */
  function Run(fs: Factories, b: Builder, es: seq<SaxEvent>): Result<Builder>
    decreases |es|
  {
    if |es| == 0 then Ok(b)
    else
      var b1 :- Step(fs, b, es[0]);
      Run(fs, b1, es[1..])
  }

  /** Every event keeps `accepted` equal to the objects of `all`. */
  lemma {:induction false} RunKeepsConsistent(fs: Factories, b: Builder, es: seq<SaxEvent>)
    requires Consistent(b)
    ensures Run(fs, b, es).Ok? ==> Consistent(Run(fs, b, es).value)
    decreases |es|
  {
    if |es| > 0 {
      var s := Step(fs, b, es[0]);
      StepKeepsConsistent(fs, b, es[0]);
      if s.Ok? {
        RunKeepsConsistent(fs, s.value, es[1..]);
      }
    }
  }

  /** `build(defaultFactory, root, content)`: empties the stacks and the
      text, puts the given root object on both stacks for the duration of
      the content, and returns the root field.  The root field and the
      prefix stacks are kept from earlier builds. */
  function Build(fs: Factories, b: Builder, root: Option<Obj>, content: seq<SaxEvent>): (r: Result<(Builder, Option<Obj>)>)
    ensures r.Ok? ==> r.value.1 == r.value.0.root
    ensures r.Ok? && root.None? ==> Consistent(r.value.0)
  {
    var b0 := if root.Some? then b.(all := [Kept(root.value)], accepted := [root.value], value := "")
              else b.(all := [], accepted := [], value := "");
    assert Consistent(b0) by {
      if root.Some? {
        KeptOfPush([], Kept(root.value));
        assert b0.all == [] + [Kept(root.value)];
      }
    }
    RunKeepsConsistent(fs, b0, content);
    var b1 :- Run(fs, b0, content);
    if root.None? then Ok((b1, b1.root))
    else if |b1.all| == 0 || |b1.accepted| == 0 then Err(NoSuchElement)
    else
      var b2 := b1.(all := b1.all[..|b1.all| - 1], accepted := b1.accepted[..|b1.accepted| - 1]);
      Ok((b2, b2.root))
  }

  /** A document of one element with text, on a fresh builder: the default
      factory makes the root, receives the trimmed text, and the stacks end
      empty. */
  lemma BuildOneElement(fs: Factories, ns: string, local: string, atts: Attrs, text: string)
    requires ns !in fs.byNamespace && |text| > 0
    requires fs.newRoot(fs.default, None, ns, local, atts).Some?
    ensures var o := fs.newRoot(fs.default, None, ns, local, atts).value;
            var r := Build(fs, NewBuilder(), None, [StartTag(ns, local, atts), Text(text), EndTag(ns, local)]);
            && r.Ok? && r.value.1 == Some(o)
            && r.value.0.all == [] && r.value.0.accepted == []
            && r.value.0.calls == [SetValue(fs.default, o, ns, local, Text.Trim(text))]
  {
    var o := fs.newRoot(fs.default, None, ns, local, atts).value;
    var b0 := NewBuilder();
    var es := [StartTag(ns, local, atts), Text(text), EndTag(ns, local)];
    var b3 := OneElement(fs, ns, local, atts, text);
    assert b0.(all := [], accepted := [], value := "") == b0;
    assert es[1..] == [Text(text), EndTag(ns, local)];
    assert es[1..][1..] == [EndTag(ns, local)];
    assert es[1..][1..][1..] == [];
    RunThree(fs, b0, es[0], es[1], es[2]);
    assert Run(fs, b0, es) == Ok(b3);
  }

  /** The three events of a one-element document, step by step. */
  function OneElement(fs: Factories, ns: string, local: string, atts: Attrs, text: string): (r: Builder)
    requires ns !in fs.byNamespace && |text| > 0
    requires fs.newRoot(fs.default, None, ns, local, atts).Some?
    ensures var o := fs.newRoot(fs.default, None, ns, local, atts).value;
            && r.root == Some(o) && r.all == [] && r.accepted == []
            && r.calls == [SetValue(fs.default, o, ns, local, Text.Trim(text))]
    ensures var b1 := StartElement(fs, NewBuilder(), ns, local, atts);
            EndElement(fs, Characters(b1, text), ns, local) == Ok(r)
  {
    var b1 := StartElement(fs, NewBuilder(), ns, local, atts);
    var o := fs.newRoot(fs.default, None, ns, local, atts).value;
    assert b1 == Builder(Some(o), [Kept(o)], [o], map[], "", []);
    var b2 := Characters(b1, text);
    assert b2 == Builder(Some(o), [Kept(o)], [o], map[], text, []);
    var call := SetValue(fs.default, o, ns, local, Text.Trim(text));
    assert GetFactory(fs, ns) == fs.default;
    assert |b2.value| > 0 && b2.accepted[|b2.accepted| - 1] == o;
    assert b2.calls + [call] == [call];
    assert FlushValue(fs, b2, ns, local) == Ok(Builder(Some(o), [Kept(o)], [o], map[], "", [call]));
    var b3 := Builder(Some(o), [], [], map[], "", [call]);
    assert EndElement(fs, b2, ns, local) == Ok(b3);
    b3
  }

  lemma RunThree(fs: Factories, b: Builder, e0: SaxEvent, e1: SaxEvent, e2: SaxEvent)
    ensures Run(fs, b, [e0, e1, e2]) ==
      match Step(fs, b, e0)
      case Err(x) => Err(x)
      case Ok(b1) =>
        match Step(fs, b1, e1)
        case Err(x) => Err(x)
        case Ok(b2) => Step(fs, b2, e2)
  {
    var es := [e0, e1, e2];
    assert es[1..] == [e1, e2] && es[1..][1..] == [e2];
    var s0 := Step(fs, b, e0);
    if s0.Ok? {
      var s1 := Step(fs, s0.value, e1);
      if s1.Ok? {
        RunOne(fs, s1.value, e2);
      }
    }
  }

  lemma RunOne(fs: Factories, b: Builder, e: SaxEvent)
    ensures Run(fs, b, [e]) == Step(fs, b, e)
  {
    assert [e][1..] == [];
  }
}

=== FILE: property_group.dfy ===
/** A group of properties sharing a base name.

    Every name the group is asked about is turned into the full property
    name `basename + separator + name` and passed to the underlying
    property map.  The underlying map (`PropertyMap`, with its separator
    constant and its defaults) is not part of this model: it is a plain map
    of full names, and its separator a field of the group.  Bound-property
    listeners are kept per full property name.
 */
module PropertyGroup {
  import opened Wrappers

  type Value = nat

  /** A bound property listener, by identity. */
  type ListenerId = nat

  datatype Group = Group(
    basename: string,
    separator: string,
    props: map<string, Value>,
    boundListeners: map<string, seq<ListenerId>>)

  /** The constructor: a null base name throws. */
  function NewGroup(basename: Option<string>, separator: string, props: map<string, Value>): (r: Result<Group>)
    ensures r.Err? <==> basename.None?
    ensures r.Err? ==> r.error == NullArgument
    ensures r.Ok? ==> r.value.basename == basename.value && r.value.props == props
  {
    match basename
    case None => Err(NullArgument)
    case Some(b) => Ok(Group(b, separator, props, map[]))
  }

  /** `makePropertyName(suffix)`. */
  function MakePropertyName(g: Group, suffix: string): (r: string)
    ensures |r| == |g.basename| + |g.separator| + |suffix|
    ensures r[..|g.basename|] == g.basename && r[|g.basename| + |g.separator|..] == suffix
  {
    g.basename + g.separator + suffix
  }

  /** Different names of a group are different properties. */
  lemma MakePropertyNameInjective(g: Group, a: string, b: string)
    requires MakePropertyName(g, a) == MakePropertyName(g, b)
    ensures a == b
  {
    var n := |g.basename| + |g.separator|;
    assert a == MakePropertyName(g, a)[n..];
  }

  /** `containsKey(name)`: a null name throws. */
  function ContainsKey(g: Group, name: Option<string>): (r: Result<bool>)
    ensures r.Err? <==> name.None?
    ensures r.Err? ==> r.error == NullArgument
    ensures r.Ok? ==> (r.value <==> MakePropertyName(g, name.value) in g.props)
  {
    match name
    case None => Err(NullArgument)
    case Some(n) => Ok(MakePropertyName(g, n) in g.props)
  }

  /** `get(name)`: the value of the full property name, or null. */
  function Get(g: Group, name: Option<string>): (r: Result<Option<Value>>)
    ensures r.Err? <==> name.None?
    ensures r.Err? ==> r.error == NullArgument
    ensures r.Ok? ==> (r.value.Some? <==> MakePropertyName(g, name.value) in g.props)
    ensures r.Ok? && r.value.Some? ==> r.value.value == g.props[MakePropertyName(g, name.value)]
  {
    match name
    case None => Err(NullArgument)
    case Some(n) =>
      var key := MakePropertyName(g, n);
      Ok(if key in g.props then Some(g.props[key]) else None)
  }

  /** `put(name, value)`: sets the full property name and returns the value
      it had. */
  function Put(g: Group, name: Option<string>, value: Value): (r: Result<(Group, Option<Value>)>)
    ensures r.Err? <==> name.None?
    ensures r.Err? ==> r.error == NullArgument
    ensures r.Ok? ==> var (g', prev) := r.value;
                      && prev == Get(g, name).value
                      && g'.props == g.props[MakePropertyName(g, name.value) := value]
                      && g'.basename == g.basename && g'.separator == g.separator
                      && g'.boundListeners == g.boundListeners
  {
    var previous :- Get(g, name);
    Ok((g.(props := g.props[MakePropertyName(g, name.value) := value]), previous))
  }

  /** `remove(name)`: drops the full property name and returns the value it
      had. */
  function Remove(g: Group, name: Option<string>): (r: Result<(Group, Option<Value>)>)
    ensures r.Err? <==> name.None?
    ensures r.Err? ==> r.error == NullArgument
    ensures r.Ok? ==> var (g', prev) := r.value;
                      && prev == Get(g, name).value
                      && g'.props == g.props - {MakePropertyName(g, name.value)}
                      && g'.basename == g.basename && g'.separator == g.separator
                      && g'.boundListeners == g.boundListeners
  {
    var previous :- Get(g, name);
    Ok((g.(props := g.props - {MakePropertyName(g, name.value)}), previous))
  }

  /** A value put under a name is read back under that name, and no other
      name of the group changes. */
  lemma PutThenGet(g: Group, name: string, other: string, value: Value)
    ensures var g' := Put(g, Some(name), value).value.0;
            && Get(g', Some(name)) == Ok(Some(value))
            && ContainsKey(g', Some(name)) == Ok(true)
            && (other != name ==> Get(g', Some(other)) == Get(g, Some(other)))
  {
    if other != name && MakePropertyName(g, other) == MakePropertyName(g, name) {
      MakePropertyNameInjective(g, other, name);
    }
  }

  /** A removed name is gone, and no other name of the group changes. */
  lemma RemoveThenGet(g: Group, name: string, other: string)
    ensures var g' := Remove(g, Some(name)).value.0;
            && Get(g', Some(name)) == Ok(None)
            && (other != name ==> Get(g', Some(other)) == Get(g, Some(other)))
  {
    if other != name && MakePropertyName(g, other) == MakePropertyName(g, name) {
      MakePropertyNameInjective(g, other, name);
    }
  }

  // ---------------------------------------------------------------- entry set

  /** `isInGroup(entry)`: the key starts with the base name.  The separator
      is not checked. */
  predicate InGroup(g: Group, key: string) {
    |g.basename| <= |key| && key[..|g.basename|] == g.basename
  }

  /** The keys of the entry set, in the underlying map's iteration order. */
  function GroupKeys(g: Group, keys: seq<string>): (r: seq<string>)
    decreases |keys|
    ensures forall k | 0 <= k < |r| :: InGroup(g, r[k]) && r[k] in keys
    ensures forall k | 0 <= k < |keys| && InGroup(g, keys[k]) :: keys[k] in r
  {
    if |keys| == 0 then []
    else if InGroup(g, keys[0]) then [keys[0]] + GroupKeys(g, keys[1..])
    else GroupKeys(g, keys[1..])
  }

  /** `entrySet().size()`: counts the keys that start with the base name,
      visiting the underlying map's keys in the order `keys`. */
  method EntrySetSize(g: Group, keys: seq<string>) returns (count: nat)
    ensures count == |GroupKeys(g, keys)|
  {
    count := 0;
    var i := 0;
    while i < |keys|
      invariant 0 <= i <= |keys|
      invariant count + |GroupKeys(g, keys[i..])| == |GroupKeys(g, keys)|
      decreases |keys| - i
    {
      assert keys[i..][1..] == keys[i + 1..];
      if InGroup(g, keys[i]) {
        count := count + 1;
      }
      i := i + 1;
    }
  }

  /** Every property of the group is in its entry set, and so is a sibling
      whose name merely extends the base name. */
  lemma EntrySetHasSiblings(g: Group, name: string, sibling: string)
    ensures InGroup(g, MakePropertyName(g, name))
    ensures InGroup(g, g.basename + sibling)
  {
    assert (g.basename + sibling)[..|g.basename|] == g.basename;
  }

  /** The entry-set iterator: the underlying keys still to visit and the
      entry found by the last `hasNext`. */
  datatype EntryIter = EntryIter(rest: seq<string>, next: Option<string>)

  function NewEntryIter(keys: seq<string>): (it: EntryIter)
    ensures it.rest == keys && it.next.None?
  {
    EntryIter(keys, None)
  }

  /** `hasNext()`: true with a found entry pending; otherwise looks for the
      next key in the group. */
  function HasNext(g: Group, it: EntryIter): (r: (bool, EntryIter))
    decreases |it.rest|
    ensures r.0 <==> r.1.next.Some?
    ensures r.0 <==> it.next.Some? || |GroupKeys(g, it.rest)| > 0
    ensures it.next.Some? ==> r.1 == it
    ensures it.next.None? ==> GroupKeys(g, it.rest) ==
                                (if r.0 then [r.1.next.value] else []) + GroupKeys(g, r.1.rest)
  {
    if it.next.Some? then (true, it)
    else if |it.rest| == 0 then (false, it)
    else if InGroup(g, it.rest[0]) then (true, EntryIter(it.rest[1..], Some(it.rest[0])))
    else HasNext(g, EntryIter(it.rest[1..], None))
  }

  /** `next()`: the entry the last `hasNext` found; without one it throws. */
  function Next(it: EntryIter): (r: Result<(string, EntryIter)>)
    ensures r.Err? <==> it.next.None?
    ensures r.Err? ==> r.error == NoSuchElement
    ensures r.Ok? ==> r.value.0 == it.next.value && r.value.1 == it.(next := None)
  {
    match it.next
    case None => Err(NoSuchElement)
    case Some(key) => Ok((key, it.(next := None)))
  }

  /** `next()` on a new iterator throws; after a `hasNext()` that answered
      true it hands out the first key of the group. */
  lemma NextNeedsHasNext(g: Group, keys: seq<string>)
    ensures Next(NewEntryIter(keys)).Err?
    ensures var (found, it) := HasNext(g, NewEntryIter(keys));
            found ==> Next(it) == Ok((GroupKeys(g, keys)[0], it.(next := None)))
  {
  }

  // ---------------------------------------------------------------- listeners

  /** The listeners bound to the full property name `name`. */
  function ListenersOf(g: Group, name: string): seq<ListenerId> {
    if name in g.boundListeners then g.boundListeners[name] else []
  }

  /** No listener list holds a listener twice. */
  ghost predicate NoDuplicateListeners(g: Group) {
    forall name | name in g.boundListeners ::
      forall i, j | 0 <= i < j < |g.boundListeners[name]| :: g.boundListeners[name][i] != g.boundListeners[name][j]
  }

  /** `addPropertyListener(listener)` for a listener bound to the property
      `propertyName` of the group: adds it unless it is there, and answers
      whether `propertyBound` is called, which is when it was added. */
  function AddPropertyListener(g: Group, listener: ListenerId, propertyName: string): (r: (Group, bool))
    ensures var name := MakePropertyName(g, propertyName);
            && (r.1 <==> listener !in ListenersOf(g, name))
            && listener in ListenersOf(r.0, name)
            && ListenersOf(r.0, name) == ListenersOf(g, name) + (if r.1 then [listener] else [])
            && (forall other | other != name :: ListenersOf(r.0, other) == ListenersOf(g, other))
            && r.0.props == g.props && r.0.basename == g.basename && r.0.separator == g.separator
    ensures NoDuplicateListeners(g) ==> NoDuplicateListeners(r.0)
  {
    var name := MakePropertyName(g, propertyName);
    var list := ListenersOf(g, name);
    if listener in list then (g.(boundListeners := g.boundListeners[name := list]), false)
    else (g.(boundListeners := g.boundListeners[name := list + [listener]]), true)
  }

  /** The list without its first occurrence of `x` (`List.remove`). */
  function RemoveFirst(xs: seq<ListenerId>, x: ListenerId): (r: seq<ListenerId>)
    decreases |xs|
    ensures x in xs ==> |r| == |xs| - 1
    ensures x !in xs ==> r == xs
    ensures forall y | y in r :: y in xs
    ensures forall y | y in xs && y != x :: y in r
  {
    if |xs| == 0 then []
    else if xs[0] == x then xs[1..]
    else [xs[0]] + RemoveFirst(xs[1..], x)
  }

  /** `removePropertyListener(listener)`: answers whether the listener was
      bound, which is when `propertyUnbound` is called. */
  function RemovePropertyListener(g: Group, listener: ListenerId, propertyName: string): (r: (Group, bool))
    ensures var name := MakePropertyName(g, propertyName);
            && (r.1 <==> listener in ListenersOf(g, name))
            && ListenersOf(r.0, name) == RemoveFirst(ListenersOf(g, name), listener)
            && (forall other | other != name :: ListenersOf(r.0, other) == ListenersOf(g, other))
            && r.0.props == g.props && r.0.basename == g.basename
  {
    var name := MakePropertyName(g, propertyName);
    if name !in g.boundListeners then (g, false)
    else
      var list := g.boundListeners[name];
      (g.(boundListeners := g.boundListeners[name := RemoveFirst(list, listener)]), listener in list)
  }

  /** Without duplicates, the first occurrence is the only one. */
  lemma {:induction false} RemoveFirstOfDistinct(xs: seq<ListenerId>, x: ListenerId)
    requires forall i, j | 0 <= i < j < |xs| :: xs[i] != xs[j]
    ensures x !in RemoveFirst(xs, x)
    decreases |xs|
  {
    if |xs| > 0 && xs[0] != x {
      RemoveFirstOfDistinct(xs[1..], x);
    }
  }

  /** Adding a listener and removing it again unbinds it, and each of the
      two calls notifies exactly when the listener was not bound before. */
  lemma AddThenRemove(g: Group, listener: ListenerId, propertyName: string)
    requires NoDuplicateListeners(g)
    ensures var (g1, bound) := AddPropertyListener(g, listener, propertyName);
            var (g2, unbound) := RemovePropertyListener(g1, listener, propertyName);
            var name := MakePropertyName(g, propertyName);
            && unbound
            && listener !in ListenersOf(g2, name)
            && (bound <==> listener !in ListenersOf(g, name))
  {
    var (g1, bound) := AddPropertyListener(g, listener, propertyName);
    var name := MakePropertyName(g, propertyName);
    assert NoDuplicateListeners(g1);
    RemoveFirstOfDistinct(ListenersOf(g1, name), listener);
  }
}

=== FILE: string_array_editor.dfy ===
/** The property editor for string arrays.

    The text form separates elements by commas and line breaks; a backslash
    followed by a comma stands for a comma inside an element, and a
    backslash before anything else is an ordinary character.  Empty
    elements are dropped.  The array is written back with commas, escaping
    only the element that is a lone comma.
 */
module StringArrayEditor {
  import opened Wrappers
  import Text

  /** The characters that end an element. */
  predicate IsSeparator(c: char) {
    c == ',' || c == '\n' || c == '\r'
  }

  /** The element read so far, added unless it is empty. */
  function Flush(acc: seq<string>, tmp: string): (r: seq<string>)
    ensures |tmp| == 0 ==> r == acc
    ensures |tmp| > 0 ==> r == acc + [tmp]
  {
    if |tmp| > 0 then acc + [tmp] else acc
  }

  /** The scan of `parseList` over the unread text `rest`, with the element
      `tmp` read so far and the elements `acc` finished.  With `asWritten`
      the scan looks at the character after every backslash, even after a
      backslash that ends the text, and so fails there. */
  function Scan(rest: string, tmp: string, acc: seq<string>, asWritten: bool): (r: Result<seq<string>>)
    decreases |rest|
    ensures !asWritten ==> r.Ok?
    ensures r.Err? ==> r.error == IndexOutOfBounds
  {
    if |rest| == 0 then Ok(Flush(acc, tmp))
    else if rest[0] == '\\' then
      if asWritten && |rest| == 1 then Err(IndexOutOfBounds)
      else if |rest| > 1 && rest[1] == ',' then Scan(rest[2..], tmp + [','], acc, asWritten)
      else Scan(rest[1..], tmp + ['\\'], acc, asWritten)
    else if IsSeparator(rest[0]) then Scan(rest[1..], "", Flush(acc, tmp), asWritten)
    else Scan(rest[1..], tmp + [rest[0]], acc, asWritten)
  }

  /** `parseList(text)` as the source writes it: a text that ends in a
      backslash makes it read past the end. */
  function ParseListAsWritten(text: string): (r: Result<seq<string>>)
    ensures r.Err? <==> |text| > 0 && text[|text| - 1] == '\\'
    ensures r.Err? ==> r.error == IndexOutOfBounds
    ensures r.Ok? ==> r.value == ParseList(text)
  {
    ScanAsWritten(text, "", []);
    Scan(text, "", [], true)
  }

  /** `parseList(text)` with the look-ahead guarded, so that a final
      backslash is kept like any other. */
  function ParseList(text: string): (r: seq<string>)
    ensures forall k | 0 <= k < |r| :: |r[k]| > 0
    ensures forall k, i | 0 <= k < |r| && 0 <= i < |r[k]| :: r[k][i] != '\n' && r[k][i] != '\r'
  {
    ScanElements(text, "", []);
    Scan(text, "", [], false).value
  }

  /** Scanned elements are never empty and never hold a line break. */
  ghost predicate Clean(xs: seq<string>) {
    && (forall k | 0 <= k < |xs| :: |xs[k]| > 0)
    && (forall k, i | 0 <= k < |xs| && 0 <= i < |xs[k]| :: xs[k][i] != '\n' && xs[k][i] != '\r')
  }

  lemma {:induction false} ScanElements(rest: string, tmp: string, acc: seq<string>)
    requires Clean(acc) && forall i | 0 <= i < |tmp| :: tmp[i] != '\n' && tmp[i] != '\r'
    ensures Clean(Scan(rest, tmp, acc, false).value)
    decreases |rest|
  {
    if |rest| == 0 {
    } else if rest[0] == '\\' {
      if |rest| > 1 && rest[1] == ',' {
        ScanElements(rest[2..], tmp + [','], acc);
      } else {
        ScanElements(rest[1..], tmp + ['\\'], acc);
      }
    } else if IsSeparator(rest[0]) {
      ScanElements(rest[1..], "", Flush(acc, tmp));
    } else {
      ScanElements(rest[1..], tmp + [rest[0]], acc);
    }
  }

  /** The scan as written fails exactly when the text ends in a backslash,
      and otherwise agrees with the guarded one. */
  lemma {:induction false} ScanAsWritten(rest: string, tmp: string, acc: seq<string>)
    ensures Scan(rest, tmp, acc, true) ==
              if |rest| > 0 && rest[|rest| - 1] == '\\' then Err(IndexOutOfBounds)
              else Scan(rest, tmp, acc, false)
    decreases |rest|
  {
    if |rest| > 0 {
      if rest[0] == '\\' {
        if |rest| > 1 && rest[1] == ',' {
          ScanAsWritten(rest[2..], tmp + [','], acc);
          if |rest| > 2 {
            assert rest[2..][|rest| - 3] == rest[|rest| - 1];
          }
        } else if |rest| > 1 {
          ScanAsWritten(rest[1..], tmp + ['\\'], acc);
          assert rest[1..][|rest| - 2] == rest[|rest| - 1];
        }
      } else if IsSeparator(rest[0]) {
        ScanAsWritten(rest[1..], "", Flush(acc, tmp));
        if |rest| > 1 {
          assert rest[1..][|rest| - 2] == rest[|rest| - 1];
        }
      } else {
        ScanAsWritten(rest[1..], tmp + [rest[0]], acc);
        if |rest| > 1 {
          assert rest[1..][|rest| - 2] == rest[|rest| - 1];
        }
      }
    }
  }

  /** The look-ahead of line 43 reads past a final backslash. */
  lemma TrailingBackslashFails()
    ensures ParseListAsWritten("a\\") == Err(IndexOutOfBounds)
    ensures ParseList("a\\") == ["a\\"]
  {
    ScanAsWritten("a\\", "", []);
    var s := "a\\";
    assert s[0] == 'a' && s[1..] == "\\" && "" + ['a'] == "a";
    assert Scan(s, "", [], false) == Scan("\\", "a", [], false);
    var b := "\\";
    assert b[0] == '\\' && |b| == 1 && b[1..] == "" && "a" + ['\\'] == s;
    assert Scan(b, "a", [], false) == Scan("", s, [], false);
  }

  /** An element as `getAsText` writes it: a lone comma is escaped. */
  function Escape(s: string): (r: string)
  {
    if s == "," then "\\," else s
  }

  /** `getAsText()`: every element, escaped, followed by a comma, and the
      final comma removed; a null array gives the empty text. */
  function GetAsText(value: Option<seq<string>>): (r: string)
    ensures value.None? ==> r == ""
    ensures value.Some? ==> r == Text.Join(EscapeAll(value.value), ',')
  {
    match value
    case None => ""
    case Some(xs) =>
      GetAsTextJoins(xs);
      var text := Terminated(xs);
      if |text| > 0 then text[..|text| - 1] else text
  }

  /** Each escaped element followed by a comma. */
  function Terminated(xs: seq<string>): (r: string)
    decreases |xs|
    ensures |xs| > 0 ==> |r| > 0 && r[|r| - 1] == ','
    ensures |xs| == 0 ==> r == ""
  {
    if |xs| == 0 then "" else Terminated(xs[..|xs| - 1]) + Escape(xs[|xs| - 1]) + ","
  }

  function EscapeAll(xs: seq<string>): (r: seq<string>)
    ensures |r| == |xs| && forall k | 0 <= k < |xs| :: r[k] == Escape(xs[k])
  {
    seq(|xs|, k requires 0 <= k < |xs| => Escape(xs[k]))
  }

  /** The text is the escaped elements joined by commas. */
  lemma GetAsTextJoins(xs: seq<string>)
    ensures var text := Terminated(xs);
            (if |text| > 0 then text[..|text| - 1] else text) == Text.Join(EscapeAll(xs), ',')
  {
    TerminatedJoins(xs);
  }

  lemma {:induction false} TerminatedJoins(xs: seq<string>)
    ensures |xs| > 0 ==> Terminated(xs) == Text.Join(EscapeAll(xs), ',') + ","
    decreases |xs|
  {
    if |xs| > 1 {
      var p := xs[..|xs| - 1];
      TerminatedJoins(p);
      assert EscapeAll(p) == EscapeAll(xs)[..|xs| - 1];
      JoinSnoc(EscapeAll(p), Escape(xs[|xs| - 1]), ',');
      assert EscapeAll(p) + [Escape(xs[|xs| - 1])] == EscapeAll(xs);
    } else if |xs| == 1 {
      assert Terminated(xs) == Terminated([]) + Escape(xs[0]) + ",";
    }
  }

  /** Joining one more item appends the separator and the item. */
  lemma {:induction false} JoinSnoc(xs: seq<string>, x: string, sep: char)
    requires |xs| > 0
    ensures Text.Join(xs + [x], sep) == Text.Join(xs, sep) + [sep] + x
    decreases |xs|
  {
    if |xs| == 1 {
      assert (xs + [x])[1..] == [x];
    } else {
      assert (xs + [x])[1..] == xs[1..] + [x];
      JoinSnoc(xs[1..], x, sep);
    }
  }

  /** An element that is written and read back unchanged: a lone comma, or
      a non-empty text free of separators and backslashes. */
  predicate Writable(s: string) {
    s == "," || (|s| > 0 && forall i | 0 <= i < |s| :: !IsSeparator(s[i]) && s[i] != '\\')
  }

  /** Reading an element as written ends it, with the comma that follows
      when there is one. */
  lemma {:induction false} ScanPlain(p: string, rest: string, tmp: string, acc: seq<string>)
    requires forall i | 0 <= i < |p| :: !IsSeparator(p[i]) && p[i] != '\\'
    ensures Scan(p + rest, tmp, acc, false) == Scan(rest, tmp + p, acc, false)
    decreases |p|
  {
    if |p| > 0 {
      assert (p + rest)[0] == p[0] && (p + rest)[1..] == p[1..] + rest;
      ScanPlain(p[1..], rest, tmp + [p[0]], acc);
      assert tmp + [p[0]] + p[1..] == tmp + p;
    } else {
      assert p + rest == rest && tmp + p == tmp;
    }
  }

  lemma ScanElement(x: string, rest: string, acc: seq<string>)
    requires Writable(x)
    ensures Scan(Escape(x) + rest, "", acc, false) == Scan(rest, x, acc, false)
  {
    if x == "," {
      assert (Escape(x) + rest)[0] == '\\' && (Escape(x) + rest)[1] == ',';
      assert (Escape(x) + rest)[2..] == rest;
      assert "" + [','] == x;
    } else {
      ScanPlain(x, rest, "", acc);
      assert "" + x == x;
    }
  }

  lemma ScanLast(x: string, acc: seq<string>)
    requires Writable(x)
    ensures Scan(Escape(x), "", acc, false) == Ok(acc + [x])
  {
    ScanElement(x, "", acc);
    assert Escape(x) + "" == Escape(x);
  }

  /** Writing an array and reading it back gives the array, provided every
      element is writable. */
  lemma {:induction false} ParseListOfGetAsText(xs: seq<string>)
    requires forall k | 0 <= k < |xs| :: Writable(xs[k])
    ensures ParseList(GetAsText(Some(xs))) == xs
  {
    var text := GetAsText(Some(xs));
    assert text == Text.Join(EscapeAll(xs), ',');
    ScanJoin(xs, []);
    assert [] + xs == xs;
    assert ParseList(text) == Scan(text, "", [], false).value;
  }

  lemma {:induction false} ScanJoin(xs: seq<string>, acc: seq<string>)
    requires forall k | 0 <= k < |xs| :: Writable(xs[k])
    ensures Scan(Text.Join(EscapeAll(xs), ','), "", acc, false) == Ok(acc + xs)
    decreases |xs|
  {
    if |xs| <= 1 {
      ScanJoinShort(xs, acc);
    } else {
      var tail := Text.Join(EscapeAll(xs[1..]), ',');
      assert Writable(xs[0]);
      assert forall k | 0 <= k < |xs[1..]| :: Writable(xs[1..][k]) by {
        forall k | 0 <= k < |xs[1..]|
          ensures Writable(xs[1..][k])
        {
          assert xs[1..][k] == xs[k + 1];
        }
      }
      JoinFirst(xs);
      ScanElement(xs[0], [','] + tail, acc);
      ScanComma(tail, xs[0], acc);
      ScanJoin(xs[1..], acc + [xs[0]]);
      AppendFirst(acc, xs);
    }
  }

  lemma AppendFirst<T>(acc: seq<T>, xs: seq<T>)
    requires |xs| > 0
    ensures acc + [xs[0]] + xs[1..] == acc + xs
  {
    assert [xs[0]] + xs[1..] == xs;
  }

  /** The scan of no element or of one. */
  lemma ScanJoinShort(xs: seq<string>, acc: seq<string>)
    requires |xs| <= 1 && forall k | 0 <= k < |xs| :: Writable(xs[k])
    ensures Scan(Text.Join(EscapeAll(xs), ','), "", acc, false) == Ok(acc + xs)
  {
    var es := EscapeAll(xs);
    if |xs| == 0 {
      assert Text.Join(es, ',') == "";
      assert acc + xs == acc;
    } else {
      assert Text.Join(es, ',') == Escape(xs[0]);
      ScanLast(xs[0], acc);
      assert xs == [xs[0]];
    }
  }

  /** The first escaped element, a comma, and the rest joined. */
  lemma JoinFirst(xs: seq<string>)
    requires |xs| > 1
    ensures Text.Join(EscapeAll(xs), ',') == Escape(xs[0]) + ([','] + Text.Join(EscapeAll(xs[1..]), ','))
  {
    var es := EscapeAll(xs);
    assert es[1..] == EscapeAll(xs[1..]);
    assert Text.Join(es, ',') == es[0] + [','] + Text.Join(es[1..], ',');
  }

  /** A comma after a non-empty element finishes it. */
  lemma ScanComma(tail: string, x: string, acc: seq<string>)
    requires |x| > 0
    ensures Scan([','] + tail, x, acc, false) == Scan(tail, "", acc + [x], false)
  {
    assert ([','] + tail)[1..] == tail;
  }
}

=== FILE: sunday_handler.dfy ===
/** The SAX content handler that drives the content-model cursors.

    The handler keeps one stack of frames.  An element frame records the
    particle of an element being parsed (none for an element the schema does
    not bind) and the object built for it; a group frame records the cursor
    of a model group entered on the way to that element and the object the
    group's handler built.  A start tag positions cursors below the frame on
    top and pushes them with one element frame above; an end tag pops group
    frames back to the element frame, closes the element and hands its object
    to the parent.

    Handlers, interceptors, simple-type conversion, property replacement and
    schema resolution are outside the model: they are the functions of
    `Callbacks`, and the calls made for their side effects only are recorded
    as `Event`s.
 */
module SundayHandler {
  import opened Wrappers
  import opened ContentModel
  import ChoiceCursor

  /** The objects the handler passes around: null, the marker of an element
      with `xsi:nil` set, text taken as an element's value, and objects the
      handlers build. */
  datatype Obj = Null | Nil | Str(text: string) | Ref(id: nat)

  datatype Frame =
    | GroupFrame(cursor: Cursor, o: Obj)
    | ElementFrame(particle: Option<Particle>, o: Obj)

  /** The frame holds the particle of an element, the only kind of frame
      that collects character data. */
  predicate IsElementFrame(f: Frame) {
    f.ElementFrame? && f.particle.Some?
  }

  /** What `setParent` is told about the parent: its particle, its model
      group, or nothing. */
  datatype ParentRef = NoParent | ParentParticle(particle: Particle) | ParentGroup(group: GroupId)

  /** Calls into handlers and interceptors that return nothing. */
  datatype Event =
    | GroupSetParent(group: GroupId, parent: Obj, child: Obj, name: QName, parentRef: ParentRef)
    | TypeSetParent(element: ElementBinding, parent: Obj, child: Obj, name: QName, parentRef: ParentRef)
    | InterceptorAttributes(interceptor: InterceptorId, o: Obj, name: QName, atts: Attrs)
    | InterceptorCharacters(interceptor: InterceptorId, o: Obj, name: QName, data: Option<string>)
    | InterceptorEnd(interceptor: InterceptorId, o: Obj, name: QName)
    | InterceptorAdd(interceptor: InterceptorId, parent: Obj, child: Obj, name: QName)
    | SetValue(element: ElementBinding, o: Obj, value: Obj)

  /** A schema binding: its switches and its global elements. */
  datatype Schema = Schema(flags: SchemaFlags, globalElement: QName -> Option<Particle>)

  datatype Callbacks = Callbacks(
    content: Env,
    /** `getCurrentParticle()` of a sequence or all cursor. */
    otherCurrentParticle: Cursor -> Result<Particle>,
    /** `Util.getSchemaLocation(atts, namespaceURI)`. */
    schemaLocation: (Attrs, string) -> Option<string>,
    /** The particle handler of a model group: `startParticle` and `endParticle`. */
    groupStart: (GroupId, Obj, QName, Attrs) -> Obj,
    groupEnd: (GroupId, Obj, QName) -> Obj,
    /** The particle handler of an element's type: `startParticle` and `endParticle`. */
    typeStart: (ElementBinding, Obj, QName, Particle, Attrs) -> Obj,
    typeEnd: (ElementBinding, Obj, QName, Particle) -> Obj,
    /** `ElementInterceptor.startElement`. */
    interceptorStart: (InterceptorId, Obj, QName, TypeBinding) -> Obj,
    /** The simple-type binding: `unmarshal` and `unmarshalEmpty`. */
    unmarshal: (ElementBinding, string) -> Obj,
    unmarshalEmpty: ElementBinding -> Obj,
    /** `StringPropertyReplacer.replaceProperties`. */
    replaceProperties: string -> string)

  /** The fixed parts of a handler: the schema or the resolver it was built
      with, the model groups of the schema, and the outside code. */
  datatype Config = Config(
    schema: Option<Schema>,
    resolver: Option<(string, Option<string>) -> Option<Schema>>,
    arena: Arena,
    cb: Callbacks)

  /** The mutable part: the frame stack (top last), the character buffer, the
      root object and the calls made so far. */
  datatype HState = HState(stack: seq<Frame>, text: string, root: Obj, trace: seq<Event>)

  ghost predicate Good(cfg: Config) {
    Closed(cfg.arena) && SoundEnv(cfg.cb.content, cfg.arena)
  }

  /** Every cursor on the stack is a valid cursor of the arena. */
  ghost predicate FramesValid(arena: Arena, stack: seq<Frame>) {
    forall i | 0 <= i < |stack| :: stack[i].GroupFrame? ==> ValidCursor(arena, stack[i].cursor)
  }

  // ---------------------------------------------------------------------------
  // StackImpl

  function Push<T>(s: seq<T>, x: T): (r: seq<T>)
    ensures |r| == |s| + 1 && r[..|s|] == s && r[|s|] == x
  {
    s + [x]
  }

  /** `pop()`: the rest of the stack and the top element. */
  function Pop<T>(s: seq<T>): (r: Result<(seq<T>, T)>)
    ensures r.Ok? <==> |s| > 0
    ensures r.Err? ==> r.error == NoSuchElement
    ensures r.Ok? ==> r.value.0 + [r.value.1] == s
  {
    if |s| == 0 then Err(NoSuchElement) else Ok((s[..|s| - 1], s[|s| - 1]))
  }

  /** `peek()`: the top element. */
  function Peek<T>(s: seq<T>): (r: Result<T>)
    ensures r.Ok? <==> |s| > 0
    ensures r.Err? ==> r.error == NoSuchElement
    ensures r.Ok? ==> Pop(s) == Ok((s[..|s| - 1], r.value))
  {
    if |s| == 0 then Err(NoSuchElement) else Ok(s[|s| - 1])
  }

  /** `peek(i)`: the element `i` places below the top. */
  function PeekAt<T>(s: seq<T>, i: nat): (r: Result<T>)
    ensures r.Ok? <==> i < |s|
    ensures r.Err? ==> r.error == IndexOutOfBounds
    ensures i == 0 ==> r == Peek(s) || r == Err(IndexOutOfBounds)
  {
    if i < |s| then Ok(s[|s| - 1 - i]) else Err(IndexOutOfBounds)
  }

  /** The stack is last in, first out, and `peek(i)` counts from the top. */
  lemma StackIsLifo<T>(s: seq<T>, x: T, i: nat)
    ensures Pop(Push(s, x)) == Ok((s, x))
    ensures Peek(Push(s, x)) == Ok(x)
    ensures PeekAt(Push(s, x), i + 1) == PeekAt(s, i)
  {
    assert Push(s, x)[..|s|] == s;
  }

  // ---------------------------------------------------------------------------
  // Small steps

  /** The cast of a particle's term to an element binding. */
  function AsElement(p: Particle): (r: Result<ElementBinding>)
    ensures r.Ok? <==> p.term.ElementTerm?
    ensures r.Ok? ==> r.value == p.term.element
    ensures r.Err? ==> r.error == ClassCast
  {
    if p.term.ElementTerm? then Ok(p.term.element) else Err(ClassCast)
  }

  /** The model group of an element's complex type. */
  function TypeGroup(cfg: Config, el: ElementBinding): (r: Result<GroupId>)
    ensures r.Ok? ==> r.value in cfg.arena
    ensures el.typ.particle.None? ==> r == Err(Binding)
    ensures r.Ok? <==> el.typ.particle.Some? && el.typ.particle.value.term.GroupTerm? &&
                       el.typ.particle.value.term.group in cfg.arena
    ensures r.Ok? ==> r.value == el.typ.particle.value.term.group
  {
    match el.typ.particle
    case None => Err(Binding)
    case Some(tp) =>
      if !tp.term.GroupTerm? then Err(ClassCast)
      // an id outside the arena stands for no group of the schema
      else if tp.term.group !in cfg.arena then Err(IllegalState)
      else Ok(tp.term.group)
  }

  /** `cursor.getCurrentParticle()`. */
  function CurrentParticleOf(cfg: Config, c: Cursor): (r: Result<Particle>)
    requires ValidCursor(cfg.arena, c)
    ensures cfg.arena[c.group].kind == Choice ==>
      (r.Ok? <==> c.pos >= 0) && (r.Ok? ==> r.value == cfg.arena[c.group].particles[c.pos])
  {
    if cfg.arena[c.group].kind == Choice then ChoiceCursor.CurrentParticle(cfg.arena, c)
    else cfg.cb.otherCurrentParticle(c)
  }

  function IsChoiceFrame(cfg: Config, f: Frame): bool
    requires f.GroupFrame? ==> f.cursor.group in cfg.arena
  {
    f.GroupFrame? && cfg.arena[f.cursor.group].kind == Choice
  }

  /** The `xsi:nil` attribute says "true" or "1". */
  predicate NilSet(atts: Attrs) {
    "xsi:nil" in atts && (atts["xsi:nil"] == "1" || atts["xsi:nil"] == "true")
  }

  /** The element the name of a SAX event denotes: the raw name when the
      local name is empty, the namespace and local name otherwise. */
  function EventName(ns: string, local: string, raw: string): QName {
    if |local| == 0 then QName("", raw) else QName(ns, local)
  }

  // ---------------------------------------------------------------------------
  // characters

  /** `characters`: text is collected only below an element frame. */
  function Characters(s: HState, chars: string): (r: Result<HState>)
    ensures r.Ok? <==> |s.stack| > 0
    ensures r.Ok? ==> r.value.stack == s.stack && r.value.root == s.root && r.value.trace == s.trace
    ensures r.Ok? && IsElementFrame(s.stack[|s.stack| - 1]) ==> r.value.text == s.text + chars
    ensures r.Ok? && !IsElementFrame(s.stack[|s.stack| - 1]) ==> r.value.text == s.text
  {
    var top :- Peek(s.stack);
    if IsElementFrame(top) then Ok(s.(text := s.text + chars)) else Ok(s)
  }

  // ---------------------------------------------------------------------------
  // endParticle

  /** `endParticle(item, qName)`: ends the group of the frame `item` (already
      popped or still on top), tells the frame now on top about the group's
      object, and closes that frame too when it is the frame of a choice.
      The result carries the frame left on top. */
  function EndParticle(cfg: Config, s: HState, item: Frame, q: QName): (r: Result<(HState, Frame)>)
    requires Good(cfg) && FramesValid(cfg.arena, s.stack)
    requires item.GroupFrame? ==> ValidCursor(cfg.arena, item.cursor)
    decreases |s.stack|
    ensures !item.GroupFrame? ==> r == Err(NullPointer)
    ensures item.GroupFrame? && |s.stack| == 0 ==> r == Err(NoSuchElement)
    ensures r.Ok? ==>
      var s' := r.value.0;
      && 0 < |s'.stack| <= |s.stack| && s'.stack == s.stack[..|s'.stack|]
      && r.value.1 == s'.stack[|s'.stack| - 1]
      && s'.text == s.text && s'.root == s.root
      // only the frames of choices are closed on the way, and the one left on top is not one
      && (forall k | |s'.stack| <= k < |s.stack| :: IsChoiceFrame(cfg, s.stack[k]))
      && !IsChoiceFrame(cfg, r.value.1)
  {
    if !item.GroupFrame? then Err(NullPointer)
    else
      var g := item.cursor.group;
      var o := cfg.cb.groupEnd(g, item.o, q);
      var top :- Peek(s.stack);
      if top.ElementFrame? && top.particle.None? then Err(NullPointer)
      else
        var parentRef := if top.GroupFrame? then ParentGroup(top.cursor.group) else ParentParticle(top.particle.value);
        var s1 := if top.o != Null then s.(trace := s.trace + [GroupSetParent(g, top.o, o, q, parentRef)]) else s;
        if IsChoiceFrame(cfg, top) then
          EndParticle(cfg, s1.(stack := s.stack[..|s.stack| - 1]), top, q)
        else Ok((s1, top))
  }

  // ---------------------------------------------------------------------------
  // The private startElement and endElement

  /** The interceptors of element `el` from index `i` on: each builds the
      parent for the next and gets a frame of its own. */
  function InterceptorsStart(cfg: Config, s: HState, el: ElementBinding, p: Particle, parent: Obj,
                             atts: Attrs, i: nat): (r: (HState, Obj))
    requires i <= |el.interceptors|
    decreases |el.interceptors| - i
    ensures |r.0.stack| == |s.stack| + |el.interceptors| - i && r.0.stack[..|s.stack|] == s.stack
    ensures forall k | |s.stack| <= k < |r.0.stack| :: r.0.stack[k].ElementFrame? && r.0.stack[k].particle == Some(p)
    ensures r.0.text == s.text && r.0.root == s.root
  {
    if i == |el.interceptors| then (s, parent)
    else
      var id := el.interceptors[i];
      var parent' := cfg.cb.interceptorStart(id, parent, el.name, el.typ);
      var s' := s.(stack := Push(s.stack, ElementFrame(Some(p), parent')),
                   trace := s.trace + [InterceptorAttributes(id, parent', el.name, atts)]);
      InterceptorsStart(cfg, s', el, p, parent', atts, i + 1)
  }

  /** The private `startElement(parent, particle, atts)`: runs the
      interceptors, then builds the element's object, or takes the nil marker
      when `xsi:nil` is set. */
  function StartBound(cfg: Config, s: HState, parent: Obj, p: Particle, atts: Attrs): (r: Result<(HState, Obj)>)
    ensures r.Ok? <==> p.term.ElementTerm?
    ensures r.Ok? ==>
      && |r.value.0.stack| == |s.stack| + |p.term.element.interceptors|
      && r.value.0.stack[..|s.stack|] == s.stack
      && (forall k | |s.stack| <= k < |r.value.0.stack| :: IsElementFrame(r.value.0.stack[k]))
      && r.value.0.text == s.text && r.value.0.root == s.root
    // xsi:nil skips the type handler and yields the nil marker
    ensures r.Ok? && NilSet(atts) ==> r.value.1 == Nil
    ensures r.Ok? && !NilSet(atts) ==>
      var el := p.term.element;
      r.value.1 == cfg.cb.typeStart(el, InterceptorsStart(cfg, s, el, p, parent, atts, 0).1, el.name, p, atts)
  {
    var el :- AsElement(p);
    var (s1, parent') := InterceptorsStart(cfg, s, el, p, parent, atts, 0);
    var o := if NilSet(atts) then Nil else cfg.cb.typeStart(el, parent', el.name, p, atts);
    Ok((s1, o))
  }

  /** The calls made to the interceptors `ints` in reverse order, the `j`-th
      one with the object `j` frames below the top. */
  function InterceptorCalls(stack: seq<Frame>, ints: seq<InterceptorId>, j: nat,
                            call: (InterceptorId, Obj) -> Event): (r: Result<seq<Event>>)
    requires j <= |ints|
    decreases |ints| - j
    ensures r.Ok? <==> j == |ints| || |ints| <= |stack|
    ensures r.Ok? ==> |r.value| == |ints| - j
  {
    if j == |ints| then Ok([])
    else
      var f :- PeekAt(stack, j);
      var rest :- InterceptorCalls(stack, ints, j + 1, call);
      Ok([call(ints[|ints| - 1 - j], f.o)] + rest)
  }

  /** The character data of an element at its end: the text (with property
      references replaced when the schema asks for it), converted by the
      simple type, set on or taken as the element's object.  The buffer is
      emptied. */
  function EndText(cfg: Config, s: HState, o: Obj, el: ElementBinding): (r: Result<(HState, Obj)>)
    requires |s.text| > 0 || el.typ.hasSimpleType
    ensures !el.typ.hasSimpleType && el.schema.Some? && el.schema.value.strict ==> r == Err(Binding)
    ensures r.Err? ==> (!el.typ.hasSimpleType && el.schema.Some? && el.schema.value.strict) ||
                       |el.interceptors| > |s.stack|
    ensures r.Ok? ==> r.value.0.text == "" && r.value.0.stack == s.stack && r.value.0.root == s.root
    ensures r.Ok? && o != Null ==> r.value.1 == o
    // text without a simple type becomes the value of an element that has none
    ensures r.Ok? && !el.typ.hasSimpleType && o == Null ==>
      r.value.1 == Str(if el.schema.Some? && el.schema.value.replacePropertyRefs
                       then cfg.cb.replaceProperties(s.text) else s.text)
  {
    var data := if |s.text| == 0 then None
                else if el.schema.Some? && el.schema.value.replacePropertyRefs then Some(cfg.cb.replaceProperties(s.text))
                else Some(s.text);
    if !el.typ.hasSimpleType && el.schema.Some? && el.schema.value.strict then Err(Binding)
    else
      var unmarshalled :=
        if !el.typ.hasSimpleType then (if data.None? then Null else Str(data.value))
        else if data.None? then cfg.cb.unmarshalEmpty(el)
        else cfg.cb.unmarshal(el, data.value);
      var o' := if unmarshalled != Null && o == Null then unmarshalled else o;
      var setValue := if unmarshalled != Null && o != Null && el.typ.hasSimpleType then [SetValue(el, o, unmarshalled)] else [];
      var calls :- InterceptorCalls(s.stack, el.interceptors, 0,
                                    (id: InterceptorId, x: Obj) => InterceptorCharacters(id, x, el.name, data));
      Ok((s.(text := "", trace := s.trace + setValue + calls), o'))
  }

  /** The first element particle from the top of the stack down. */
  function ParentElementParticle(stack: seq<Frame>): (r: Option<Particle>)
    decreases |stack|
    ensures r.Some? ==> r.value.term.ElementTerm? && exists k | 0 <= k < |stack| :: stack[k] .ElementFrame? && stack[k].particle == r
    ensures r.None? ==> forall k | 0 <= k < |stack| :: stack[k].ElementFrame? && stack[k].particle.Some? ==>
                          !stack[k].particle.value.term.ElementTerm?
  {
    if |stack| == 0 then None
    else
      var top := stack[|stack| - 1];
      if top.ElementFrame? && top.particle.Some? && top.particle.value.term.ElementTerm? then top.particle
      else ParentElementParticle(stack[..|stack| - 1])
  }

  /** The object of a frame replaced. */
  function WithObj(f: Frame, o: Obj): Frame {
    match f
    case GroupFrame(c, _) => GroupFrame(c, o)
    case ElementFrame(p, _) => ElementFrame(p, o)
  }

  /** The value of a child promoted to its parents of any type: every frame
      from the top down to the first element frame takes `o`. */
  function Promote(stack: seq<Frame>, o: Obj): (r: seq<Frame>)
    decreases |stack|
    ensures |r| == |stack|
    ensures forall k | 0 <= k < |r| :: r[k] == stack[k] || r[k] == WithObj(stack[k], o)
    ensures forall k | 0 <= k < |r| :: r[k].GroupFrame? == stack[k].GroupFrame? &&
              (r[k].GroupFrame? ==> r[k].cursor == stack[k].cursor)
    // the top takes the value, and no frame below an element frame does
    ensures |r| > 0 ==> r[|r| - 1].o == o
    ensures forall k, j | 0 <= k < j < |stack| && IsElementFrame(stack[j]) :: r[k] == stack[k]
  {
    if |stack| == 0 then []
    else
      var top := stack[|stack| - 1];
      if IsElementFrame(top) then stack[..|stack| - 1] + [WithObj(top, o)]
      else Promote(stack[..|stack| - 1], o) + [WithObj(top, o)]
  }

  /** The interceptor frames popped from the top, the `i`-th interceptor
      from the end receiving the object built so far, which becomes the
      object of its frame. */
  function InterceptorsAdd(s: HState, ints: seq<InterceptorId>, o: Obj, name: QName, i: nat): (r: Result<(HState, Obj)>)
    requires i <= |ints|
    decreases i
    ensures r.Ok? <==> i <= |s.stack|
    ensures r.Ok? ==> r.value.0.stack == s.stack[..|s.stack| - i] && r.value.0.text == s.text && r.value.0.root == s.root
  {
    if i == 0 then Ok((s, o))
    else
      var t :- Pop(s.stack);
      var (rest, f) := t;
      InterceptorsAdd(s.(stack := rest, trace := s.trace + [InterceptorAdd(ints[i - 1], f.o, o, name)]), ints, f.o, name, i - 1)
  }

  /** Frames of `r` are the frames of `s` at the same height, with at most
      their objects changed. */
  ghost predicate SameShape(r: seq<Frame>, s: seq<Frame>) {
    |r| <= |s| && forall k | 0 <= k < |r| :: r[k] == WithObj(s[k], r[k].o)
  }

  /** The text part of the private `endElement`: a nil element drops its
      object and keeps the buffer; otherwise the buffer is settled when it
      holds text or the type is simple. */
  function SettleText(cfg: Config, s: HState, o: Obj, el: ElementBinding): (r: Result<(HState, Obj)>)
    ensures (o != Nil && |s.text| > 0 && !el.typ.hasSimpleType &&
             el.schema.Some? && el.schema.value.strict) ==> r == Err(Binding)
    ensures o == Nil ==> r == Ok((s, Null))
    ensures r.Ok? && o != Nil ==> r.value.0.text == ""
    ensures r.Ok? ==> r.value.0.stack == s.stack && r.value.0.root == s.root
  {
    if o == Nil then Ok((s, Null))
    else if |s.text| > 0 || el.typ.hasSimpleType then EndText(cfg, s, o, el)
    else Ok((s, o))
  }

  /** After the type handler ended an element with no interceptors: its
      object goes to the parent object, or, under a parent element whose type
      has a wildcard, replaces the objects of the frames down to it. */
  function GiveToParent(s: HState, el: ElementBinding, p: Particle, o: Obj): (r: HState)
    ensures SameShape(r.stack, s.stack) && |r.stack| == |s.stack| && r.root == s.root && r.text == s.text
  {
    var parent := if |s.stack| == 0 then Null else s.stack[|s.stack| - 1].o;
    var pp := ParentElementParticle(s.stack);
    var parentRef := if pp.Some? then ParentParticle(pp.value) else NoParent;
    if parent != Null then s.(trace := s.trace + [TypeSetParent(el, parent, o, el.name, parentRef)])
    else if pp.Some? && pp.value.term.element.typ.hasWildcard && |s.stack| > 0 then s.(stack := Promote(s.stack, o))
    else s
  }

  /** The private `endElement(o, particle)`: settles the element's text,
      ends it through its type handler and interceptors, and hands the
      result to its parent.  The second component is the element's final
      object, which becomes the root when the stack is empty. */
  function EndBound(cfg: Config, s: HState, o: Obj, p: Particle): (r: Result<(HState, Obj)>)
    requires FramesValid(cfg.arena, s.stack)
    ensures !p.term.ElementTerm? ==> r == Err(ClassCast)
    // text without a simple type is an error under a strict schema
    ensures (p.term.ElementTerm? && o != Nil && |s.text| > 0 && !p.term.element.typ.hasSimpleType &&
             p.term.element.schema.Some? && p.term.element.schema.value.strict) ==> r == Err(Binding)
    // the buffer is emptied, unless the element is nil
    ensures r.Ok? && o != Nil ==> r.value.0.text == ""
    ensures r.Ok? && o == Nil ==> r.value.0.text == s.text
    // the interceptor frames are popped, every other frame keeps its kind and cursor
    ensures r.Ok? ==>
      |r.value.0.stack| == |s.stack| - |p.term.element.interceptors| && SameShape(r.value.0.stack, s.stack)
    ensures r.Ok? ==> FramesValid(cfg.arena, r.value.0.stack)
    // the root is the object of the element that empties the stack
    ensures r.Ok? && |r.value.0.stack| == 0 ==> r.value.0.root == r.value.1
    ensures r.Ok? && |r.value.0.stack| > 0 ==> r.value.0.root == s.root
  {
    var el :- AsElement(p);
    var t1 :- SettleText(cfg, s, o, el);
    var (s1, o1) := t1;
    var o2 := cfg.cb.typeEnd(el, o1, el.name, p);
    var ends :- InterceptorCalls(s1.stack, el.interceptors, 0, (id: InterceptorId, x: Obj) => InterceptorEnd(id, x, el.name));
    var s2 := s1.(trace := s1.trace + ends);
    var t3 :- HandOver(s2, el, p, o2);
    var (s3, o3) := t3;
    Ok((if |s3.stack| == 0 then s3.(root := o3) else s3, o3))
  }

  /** The element's object goes to its parent: through the interceptors,
      popping their frames, or directly when it has none. */
  function HandOver(s: HState, el: ElementBinding, p: Particle, o: Obj): (r: Result<(HState, Obj)>)
    ensures r.Ok? <==> |el.interceptors| <= |s.stack|
    ensures r.Ok? ==>
      |r.value.0.stack| == |s.stack| - |el.interceptors| && SameShape(r.value.0.stack, s.stack) &&
      r.value.0.root == s.root && r.value.0.text == s.text
    ensures |el.interceptors| == 0 ==> r.Ok? && r.value.1 == o
  {
    if |el.interceptors| == 0 then Ok((GiveToParent(s, el, p, o), o))
    else InterceptorsAdd(s, el.interceptors, o, el.name, |el.interceptors|)
  }

  // ---------------------------------------------------------------------------
  // The public startElement

  /** Pushes a frame for each of `cs[k-1]`, ..., `cs[0]`, in that order, each
      with the object the group's handler builds under `parent`. */
  function PushCursors(cfg: Config, stack: seq<Frame>, cs: seq<Cursor>, k: nat, parent: Obj, q: QName,
                       atts: Attrs): (r: seq<Frame>)
    requires k <= |cs|
    ensures |r| == |stack| + k && r[..|stack|] == stack
    // the innermost cursor ends on top
    ensures forall j | |stack| <= j < |r| :: r[j].GroupFrame? && r[j].cursor == cs[|stack| + k - 1 - j]
    decreases k
  {
    if k == 0 then stack
    else
      var c := cs[k - 1];
      PushCursors(cfg, Push(stack, GroupFrame(c, cfg.cb.groupStart(c.group, parent, q, atts))), cs, k - 1, parent, q, atts)
  }

  lemma {:induction false} PushCursorsValid(cfg: Config, stack: seq<Frame>, cs: seq<Cursor>, k: nat, parent: Obj, q: QName, atts: Attrs)
    requires k <= |cs| && FramesValid(cfg.arena, stack) && AllValid(cfg.arena, cs)
    ensures FramesValid(cfg.arena, PushCursors(cfg, stack, cs, k, parent, q, atts))
    decreases k
  {
    if k > 0 {
      var c := cs[k - 1];
      var stack' := Push(stack, GroupFrame(c, cfg.cb.groupStart(c.group, parent, q, atts)));
      assert FramesValid(cfg.arena, stack');
      PushCursorsValid(cfg, stack', cs, k - 1, parent, q, atts);
    }
  }

  /** A start tag below an element frame: a fresh cursor of the element's
      type takes it, or it is an error. */
  function EnterElement(cfg: Config, s: HState, item: Frame, q: QName, atts: Attrs): (r: Result<(HState, Particle)>)
    requires Good(cfg) && FramesValid(cfg.arena, s.stack) && IsElementFrame(item)
    ensures item.particle.value.term.ElementTerm? && item.particle.value.term.element.typ.particle.None? ==>
      r == Err(Binding)
    // a tag the cursor of the element's type does not take is an error
    ensures item.particle.value.term.ElementTerm? && TypeGroup(cfg, item.particle.value.term.element).Ok? ==>
      var g := TypeGroup(cfg, item.particle.value.term.element).value;
      |ChoiceCursor.CursorStart(cfg.cb.content, cfg.arena, NewCursor(g), q, atts, {}, [], true).1| == 0 ==>
        r == Err(Binding)
    ensures r.Ok? ==> |r.value.0.stack| > |s.stack| && r.value.0.stack[..|s.stack|] == s.stack
    ensures r.Ok? ==> forall k | |s.stack| <= k < |r.value.0.stack| :: r.value.0.stack[k].GroupFrame?
    ensures r.Ok? ==> FramesValid(cfg.arena, r.value.0.stack) && r.value.0.text == s.text && r.value.0.root == s.root
  {
    var el :- AsElement(item.particle.value);
    var g :- TypeGroup(cfg, el);
    var (_, cursors) := ChoiceCursor.CursorStart(cfg.cb.content, cfg.arena, NewCursor(g), q, atts, {}, [], true);
    if |cursors| == 0 then Err(Binding)
    else
      ChoiceCursor.StartKeepsValid(cfg.cb.content, cfg.arena, NewCursor(g), q, atts, {}, [], true);
      var stack' := PushCursors(cfg, s.stack, cursors, |cursors|, item.o, q, atts);
      PushCursorsValid(cfg, s.stack, cursors, |cursors|, item.o, q, atts);
      var particle :- CurrentParticleOf(cfg, cursors[0]);
      Ok((s.(stack := stack'), particle))
  }

  /** A cursor that took a start tag and is on top: when the tag began another
      occurrence of the cursor's particle, the group is ended and started
      again on a frame of its own.  The result carries the frame on top. */
  function Reenter(cfg: Config, s: HState, before: nat, q: QName, atts: Attrs): (r: Result<(HState, Frame)>)
    requires Good(cfg) && FramesValid(cfg.arena, s.stack) && |s.stack| > 0
    requires s.stack[|s.stack| - 1].GroupFrame?
    ensures s.stack[|s.stack| - 1].cursor.occurrence <= before ==> r == Ok((s, s.stack[|s.stack| - 1]))
    ensures r.Ok? ==>
      && 0 < |r.value.0.stack| <= |s.stack| + 1 && r.value.1 == r.value.0.stack[|r.value.0.stack| - 1]
      && r.value.1.GroupFrame? && r.value.1.cursor == s.stack[|s.stack| - 1].cursor
      && r.value.0.stack[..|r.value.0.stack| - 1] == s.stack[..|r.value.0.stack| - 1]
      && FramesValid(cfg.arena, r.value.0.stack) && r.value.0.text == s.text && r.value.0.root == s.root
  {
    var item := s.stack[|s.stack| - 1];
    var c := item.cursor;
    if c.occurrence > before then
      var e :- EndParticle(cfg, s, item, q);
      var f := GroupFrame(c, cfg.cb.groupStart(c.group, e.1.o, q, atts));
      Ok((e.0.(stack := Push(e.0.stack, f)), f))
    else Ok((s, item))
  }

  /** The loop of the public `startElement` over the frames from the top: a
      group frame whose cursor takes the tag is advanced (and re-entered when
      the tag starts another occurrence of its current particle); one that
      does not is popped and ended; an element frame ends the search. */
  function SeekParticle(cfg: Config, s: HState, q: QName, atts: Attrs): (r: Result<(HState, Option<Particle>)>)
    requires Good(cfg) && FramesValid(cfg.arena, s.stack)
    decreases |s.stack|
    ensures r.Ok? ==> FramesValid(cfg.arena, r.value.0.stack) && r.value.0.text == s.text && r.value.0.root == s.root
    ensures |s.stack| > 0 && IsElementFrame(s.stack[|s.stack| - 1]) ==>
      r.Ok? == EnterElement(cfg, s, s.stack[|s.stack| - 1], q, atts).Ok?
  {
    if |s.stack| == 0 then Ok((s, None))
    else
      var item := s.stack[|s.stack| - 1];
      if IsElementFrame(item) then
        var t :- EnterElement(cfg, s, item, q, atts);
        Ok((t.0, Some(t.1)))
      else if item.ElementFrame? then Err(NullPointer)
      else
        var c := item.cursor;
        var (c', cursors) := ChoiceCursor.CursorStart(cfg.cb.content, cfg.arena, c, q, atts, {}, [], true);
        ChoiceCursor.StartKeepsValid(cfg.cb.content, cfg.arena, c, q, atts, {}, [], true);
        var item' := GroupFrame(c', item.o);
        var below := s.stack[..|s.stack| - 1];
        if |cursors| == 0 then
          var t :- EndParticle(cfg, s.(stack := below), item', q);
          SeekParticle(cfg, t.0, q, atts)
        else
          var t :- TakeTag(cfg, s.(stack := Push(below, item')), c.occurrence, cursors, q, atts);
          Ok((t.0, Some(t.1)))
  }

  /** The cursor on top took the start tag and returned `cursors`, the
      innermost first: the cursor is re-entered if need be, the nested
      cursors are pushed under it, and the innermost names the particle. */
  function TakeTag(cfg: Config, s: HState, before: nat, cursors: seq<Cursor>, q: QName, atts: Attrs)
    : (r: Result<(HState, Particle)>)
    requires Good(cfg) && FramesValid(cfg.arena, s.stack) && |s.stack| > 0
    requires s.stack[|s.stack| - 1].GroupFrame? && |cursors| > 0 && AllValid(cfg.arena, cursors)
    ensures r.Ok? ==> |r.value.0.stack| >= |cursors| && FramesValid(cfg.arena, r.value.0.stack)
    // the innermost cursor ends on top
    ensures r.Ok? ==> r.value.0.stack[|r.value.0.stack| - 1].GroupFrame?
    ensures r.Ok? && |cursors| > 1 ==> r.value.0.stack[|r.value.0.stack| - 1].cursor == cursors[0]
    ensures r.Ok? && |cursors| == 1 ==> r.value.0.stack[|r.value.0.stack| - 1].cursor == s.stack[|s.stack| - 1].cursor
    ensures r.Ok? ==> r.value.0.text == s.text && r.value.0.root == s.root
  {
    var t :- Reenter(cfg, s, before, q, atts);
    var (s2, top) := t;
    var stack' := PushCursors(cfg, s2.stack, cursors, |cursors| - 1, top.o, q, atts);
    PushCursorsValid(cfg, s2.stack, cursors, |cursors| - 1, top.o, q, atts);
    var particle :- CurrentParticleOf(cfg, cursors[0]);
    Ok((s2.(stack := stack'), particle))
  }

  /** The particle of a start tag and the schema switches that apply: from
      the schema, or the schema the resolver finds, for the root element;
      from the cursors on the stack otherwise. */
  function LocateParticle(cfg: Config, s: HState, ns: string, q: QName, atts: Attrs)
    : (r: Result<(HState, Option<Particle>, Option<SchemaFlags>)>)
    requires Good(cfg) && FramesValid(cfg.arena, s.stack)
    ensures |s.stack| == 0 && cfg.schema.None? && cfg.resolver.None? ==> r == Err(Binding)
    ensures |s.stack| == 0 && cfg.schema.Some? ==>
      r == Ok((s, cfg.schema.value.globalElement(q), Some(cfg.schema.value.flags)))
    ensures |s.stack| > 0 ==> r.Ok? == SeekParticle(cfg, s, q, atts).Ok?
    ensures r.Ok? ==> FramesValid(cfg.arena, r.value.0.stack) && r.value.0.text == s.text && r.value.0.root == s.root
  {
    if |s.stack| == 0 then
      if cfg.schema.Some? then Ok((s, cfg.schema.value.globalElement(q), Some(cfg.schema.value.flags)))
      else if cfg.resolver.Some? then
        var resolved := cfg.resolver.value(ns, cfg.cb.schemaLocation(atts, ns));
        if resolved.Some? then Ok((s, resolved.value.globalElement(q), Some(resolved.value.flags)))
        else Ok((s, None, None))
      else Err(Binding)
    else
      var u :- SeekParticle(cfg, s, q, atts);
      Ok((u.0, u.1, if cfg.schema.Some? then Some(cfg.schema.value.flags) else None))
  }

  /** A wildcard particle stands for the element the wildcard resolves `q`
      to, with default occurrence bounds; any other particle for itself. */
  function ResolveWildcard(cfg: Config, p: Particle, q: QName, atts: Attrs): (r: Result<Particle>)
    ensures !p.term.WildcardTerm? ==> r == Ok(p)
    ensures p.term.WildcardTerm? ==>
      var e := cfg.cb.content.wildcardElement(p.term.wildcard, q, atts);
      && (r.Ok? <==> e.Some?)
      && (r.Err? ==> r.error == Binding)
      && (r.Ok? ==> r.value.term == ElementTerm(e.value) && r.value.minOccurs == 1 && r.value.maxOccurs == 1)
  {
    if p.term.WildcardTerm? then
      match cfg.cb.content.wildcardElement(p.term.wildcard, q, atts)
      case None => Err(Binding)
      case Some(e) => Ok(Particle(ElementTerm(e), 1, 1, false))
    else Ok(p)
  }

  /** The public `startElement(namespaceURI, localName, qName, atts)`. */
  function StartElement(cfg: Config, s: HState, ns: string, local: string, raw: string, atts: Attrs): (r: Result<HState>)
    requires Good(cfg) && FramesValid(cfg.arena, s.stack)
    // a document needs a schema or a resolver
    ensures |s.stack| == 0 && cfg.schema.None? && cfg.resolver.None? ==> r == Err(Binding)
    // a child of an element whose type has no model group is an error
    ensures (|s.stack| > 0 && IsElementFrame(s.stack[|s.stack| - 1]) &&
             s.stack[|s.stack| - 1].particle.value.term.ElementTerm? &&
             s.stack[|s.stack| - 1].particle.value.term.element.typ.particle.None?) ==> r == Err(Binding)
    // every start tag ends by pushing one element frame
    ensures r.Ok? ==> |r.value.stack| > 0 && r.value.stack[|r.value.stack| - 1].ElementFrame?
    // an unbound element is an error under a strict schema
    ensures |s.stack| == 0 && cfg.schema.Some? && cfg.schema.value.flags.strict && r.Ok? ==>
      IsElementFrame(r.value.stack[|r.value.stack| - 1])
    ensures r.Ok? ==> FramesValid(cfg.arena, r.value.stack) && r.value.root == s.root
  {
    var q := EventName(ns, local, raw);
    var t :- LocateParticle(cfg, s, ns, q, atts);
    var (s1, particle, flags) := t;
    if particle.Some? then PushBound(cfg, s1, particle.value, q, atts)
    else PushUnbound(s1, flags)
  }

  /** A start tag with a particle: its element is started and gets a frame. */
  function PushBound(cfg: Config, s: HState, particle: Particle, q: QName, atts: Attrs): (r: Result<HState>)
    requires FramesValid(cfg.arena, s.stack)
    ensures r.Ok? ==>
      && |r.value.stack| > |s.stack| && r.value.stack[..|s.stack|] == s.stack
      && IsElementFrame(r.value.stack[|r.value.stack| - 1])
      && r.value.stack[|r.value.stack| - 1].particle.value.term.ElementTerm?
      && FramesValid(cfg.arena, r.value.stack) && r.value.root == s.root && r.value.text == s.text
    ensures particle.term.ElementTerm? ==> r.Ok?
  {
    var parent := if |s.stack| == 0 then Null else s.stack[|s.stack| - 1].o;
    var p :- ResolveWildcard(cfg, particle, q, atts);
    var u :- StartBound(cfg, s, parent, p, atts);
    Ok(u.0.(stack := Push(u.0.stack, ElementFrame(Some(p), u.1))))
  }

  /** A start tag without a particle: an error when the schema of the
      enclosing element (or else the document's) is strict, otherwise an
      element frame without a particle. */
  function PushUnbound(s: HState, flags: Option<SchemaFlags>): (r: Result<HState>)
    ensures r.Ok? ==> r.value.stack == Push(s.stack, ElementFrame(None, Null)) &&
                      r.value.root == s.root && r.value.text == s.text
    ensures (|s.stack| == 0 || !IsElementFrame(s.stack[|s.stack| - 1])) ==>
              (r.Ok? <==> !(flags.Some? && flags.value.strict))
    ensures (|s.stack| > 0 && IsElementFrame(s.stack[|s.stack| - 1]) &&
             s.stack[|s.stack| - 1].particle.value.term.ElementTerm? &&
             s.stack[|s.stack| - 1].particle.value.term.element.schema.Some?) ==>
              (r.Ok? <==> !s.stack[|s.stack| - 1].particle.value.term.element.schema.value.strict)
  {
    var parentElement :-
      if |s.stack| > 0 && IsElementFrame(s.stack[|s.stack| - 1]) then
        var e :- AsElement(s.stack[|s.stack| - 1].particle.value);
        Ok(Some(e))
      else Ok(None);
    var flags' := if parentElement.Some? && parentElement.value.schema.Some? then parentElement.value.schema else flags;
    if flags'.Some? && flags'.value.strict then Err(Binding)
    else Ok(s.(stack := Push(s.stack, ElementFrame(None, Null))))
  }

  // ---------------------------------------------------------------------------
  // The public endElement

  /** The loop of the public `endElement`: `item` has been popped; group
      frames are ended and popped until an element frame turns up. */
  function UnwindToElement(cfg: Config, s: HState, item: Frame, q: QName): (r: Result<(HState, Frame)>)
    requires Good(cfg) && FramesValid(cfg.arena, s.stack)
    requires item.GroupFrame? ==> ValidCursor(cfg.arena, item.cursor)
    decreases |s.stack|
    ensures r.Ok? ==> Unwound(cfg, s, item, r.value.0, r.value.1)
  {
    if IsElementFrame(item) || |s.stack| == 0 then
      assert s.stack[..|s.stack|] == s.stack;
      Ok((s, item))
    else
      var t :- EndParticle(cfg, s, item, q);
      var s1 := t.0;
      // the frame `endParticle` leaves on top is popped and examined next
      var n := |s1.stack| - 1;
      assert s1.stack[n] == s.stack[n];
      var u := UnwindToElement(cfg, s1.(stack := s1.stack[..n]), s1.stack[n], q);
      if u.Ok? then
        UnwindStep(cfg, s, item, s1, u.value.0, u.value.1);
        u
      else u
  }

  /** `UnwindToElement` left `sEnd` and the frame `found` after starting
      from `s` with `item` popped: the stack was cut back to a prefix, only
      group frames were removed, and `found` is an element frame unless the
      stack ran out. */
  ghost predicate Unwound(cfg: Config, s: HState, item: Frame, sEnd: HState, found: Frame) {
    && |sEnd.stack| <= |s.stack| && sEnd.stack == s.stack[..|sEnd.stack|]
    && FramesValid(cfg.arena, sEnd.stack)
    && (|sEnd.stack| < |s.stack| ==> found == s.stack[|sEnd.stack|])
    && (|sEnd.stack| == |s.stack| ==> found == item)
    && (IsElementFrame(found) || |sEnd.stack| == 0)
    && (|sEnd.stack| < |s.stack| ==> item.GroupFrame?)
    && (forall k | |sEnd.stack| < k < |s.stack| :: s.stack[k].GroupFrame?)
    && sEnd.text == s.text && sEnd.root == s.root
  }

  /** One round of the loop: the frames `endParticle` closed and the frame
      it left on top join the ones the rest of the loop removed. */
  lemma UnwindStep(cfg: Config, s: HState, item: Frame, s1: HState, sEnd: HState, found: Frame)
    requires Good(cfg) && FramesValid(cfg.arena, s.stack)
    requires item.GroupFrame?
    requires 0 < |s1.stack| <= |s.stack| && s1.stack == s.stack[..|s1.stack|]
    requires forall k | |s1.stack| <= k < |s.stack| :: IsChoiceFrame(cfg, s.stack[k])
    requires s1.text == s.text && s1.root == s.root
    requires Unwound(cfg, s1.(stack := s1.stack[..|s1.stack| - 1]), s1.stack[|s1.stack| - 1], sEnd, found)
    ensures Unwound(cfg, s, item, sEnd, found)
  {
    var n := |s1.stack| - 1;
    assert s1.stack[..n] == s.stack[..n];
    assert sEnd.stack == s.stack[..|sEnd.stack|];
  }

  /** The public `endElement(namespaceURI, localName, qName)`. */
  function EndElement(cfg: Config, s: HState, ns: string, local: string, raw: string): (r: Result<HState>)
    requires Good(cfg) && FramesValid(cfg.arena, s.stack)
    ensures |s.stack| == 0 ==> r == Err(NoSuchElement)
    // an end tag that does not match the element on top is an error
    ensures (|s.stack| > 0 && IsElementFrame(s.stack[|s.stack| - 1]) &&
             s.stack[|s.stack| - 1].particle.value.term.ElementTerm? &&
             s.stack[|s.stack| - 1].particle.value.term.element.name != QName(ns, local)) ==> r == Err(Binding)
    // the end tag closes an element frame, and only group frames lie above it
    ensures r.Ok? ==>
      exists k | 0 <= k < |s.stack| ::
        && IsElementFrame(s.stack[k])
        && s.stack[k].particle.value.term.ElementTerm?
        && s.stack[k].particle.value.term.element.name == QName(ns, local)
        && |r.value.stack| <= k
        && forall j | k < j < |s.stack| :: s.stack[j].GroupFrame?
    ensures r.Ok? ==> FramesValid(cfg.arena, r.value.stack)
  {
    var t :- Pop(s.stack);
    var (below, item) := t;
    var u :- UnwindToElement(cfg, s.(stack := below), item, EventName(ns, local, raw));
    var (s1, found) := u;
    CloseElement(cfg, s1, found, ns, local)
  }

  /** The element frame the end tag reached is checked against the tag,
      closed, and the choice enclosing it (if any) is closed too. */
  function CloseElement(cfg: Config, s1: HState, found: Frame, ns: string, local: string): (r: Result<HState>)
    requires Good(cfg) && FramesValid(cfg.arena, s1.stack)
    ensures (IsElementFrame(found) && found.particle.value.term.ElementTerm? &&
             found.particle.value.term.element.name != QName(ns, local)) ==> r == Err(Binding)
    ensures !IsElementFrame(found) ==> r == Err(Binding)
    ensures r.Ok? ==> IsElementFrame(found) && found.particle.value.term.ElementTerm? &&
                      found.particle.value.term.element.name == QName(ns, local)
    ensures r.Ok? ==> |r.value.stack| <= |s1.stack| && FramesValid(cfg.arena, r.value.stack)
  {
    if !IsElementFrame(found) then Err(Binding)
    else
      var el :- AsElement(found.particle.value);
      if el.name.local != local || el.name.ns != ns then Err(Binding)
      else
        var v :- EndBound(cfg, s1, found.o, found.particle.value);
        var s2 := v.0;
        if |s2.stack| == 0 then Ok(s2)
        else
          var top := s2.stack[|s2.stack| - 1];
          if top.ElementFrame? then Err(NullPointer)
          else if IsChoiceFrame(cfg, top) then
            var w :- EndParticle(cfg, s2.(stack := s2.stack[..|s2.stack| - 1]), top, el.name);
            Ok(w.0)
          else Ok(s2)
  }

  // ---------------------------------------------------------------------------
  // A child element of a choice

  /** Group `g` is a choice of elements without interceptors or simple types. */
  ghost predicate PlainChoice(arena: Arena, g: GroupId) {
    && g in arena && arena[g].kind == Choice
    && forall k | 0 <= k < |arena[g].particles| ::
         && arena[g].particles[k].term.ElementTerm?
         && arena[g].particles[k].term.element.interceptors == []
         && !arena[g].particles[k].term.element.typ.hasSimpleType
  }

  /** Pushing the frame of a single cursor. */
  lemma PushOneCursor(cfg: Config, stack: seq<Frame>, c: Cursor, parent: Obj, q: QName, atts: Attrs)
    ensures PushCursors(cfg, stack, [c], 1, parent, q, atts) ==
            stack + [GroupFrame(c, cfg.cb.groupStart(c.group, parent, q, atts))]
  {
    var stack' := Push(stack, GroupFrame(c, cfg.cb.groupStart(c.group, parent, q, atts)));
    assert PushCursors(cfg, stack', [c], 0, parent, q, atts) == stack';
  }

  /** Entering an element whose type is a choice of elements: the tag is
      taken by the choice's fresh cursor, which alone is pushed. */
  lemma {:induction false} EnterPlainChoice(cfg: Config, s: HState, top: Frame, g: GroupId, q: QName, atts: Attrs)
    requires Good(cfg) && FramesValid(cfg.arena, s.stack) && IsElementFrame(top)
    requires top.particle.value.term.ElementTerm? && top.particle.value.term.element.typ.particle.Some?
    requires top.particle.value.term.element.typ.particle.value.term == GroupTerm(g)
    requires PlainChoice(cfg.arena, g)
    ensures var cs := ChoiceCursor.CursorStart(cfg.cb.content, cfg.arena, NewCursor(g), q, atts, {}, [], true);
            var r := EnterElement(cfg, s, top, q, atts);
            && (|cs.1| == 0 ==> r == Err(Binding))
            && (|cs.1| > 0 ==>
                  && cs.1 == [cs.0] && 0 <= cs.0.pos < |cfg.arena[g].particles|
                  && r == Ok((s.(stack := s.stack + [GroupFrame(cs.0, cfg.cb.groupStart(g, top.o, q, atts))]),
                              cfg.arena[g].particles[cs.0.pos])))
  {
    var cs := ChoiceCursor.CursorStart(cfg.cb.content, cfg.arena, NewCursor(g), q, atts, {}, [], true);
    assert ChoiceCursor.ElementsOnly(cfg.arena, g);
    ChoiceCursor.FreshElementChoiceStart(cfg.cb.content, cfg.arena, g, q, atts);
    if |cs.1| > 0 {
      PushOneCursor(cfg, s.stack, cs.0, top.o, q, atts);
    }
  }

  /** Starting an element particle without interceptors pushes one element
      frame, holding the nil marker or the object the type handler builds. */
  lemma {:induction false} PushPlainElement(cfg: Config, s: HState, p: Particle, q: QName, atts: Attrs)
    requires FramesValid(cfg.arena, s.stack) && |s.stack| > 0
    requires p.term.ElementTerm? && p.term.element.interceptors == []
    ensures var el := p.term.element;
            var o := if NilSet(atts) then Nil else cfg.cb.typeStart(el, s.stack[|s.stack| - 1].o, el.name, p, atts);
            PushBound(cfg, s, p, q, atts) == Ok(s.(stack := s.stack + [ElementFrame(Some(p), o)]))
  {
    var el := p.term.element;
    assert InterceptorsStart(cfg, s, el, p, s.stack[|s.stack| - 1].o, atts, 0) == (s, s.stack[|s.stack| - 1].o);
  }

  /** Under an element frame, the start tag goes to that element's type. */
  lemma {:induction false} StartUnderElement(cfg: Config, s: HState, ns: string, local: string, raw: string, atts: Attrs)
    requires Good(cfg) && FramesValid(cfg.arena, s.stack) && |s.stack| > 0 && IsElementFrame(s.stack[|s.stack| - 1])
    ensures var q := EventName(ns, local, raw);
            var e := EnterElement(cfg, s, s.stack[|s.stack| - 1], q, atts);
            var r := StartElement(cfg, s, ns, local, raw, atts);
            && (e.Err? ==> r == Err(e.error))
            && (e.Ok? ==> r == PushBound(cfg, e.value.0, e.value.1, q, atts))
  {
    var q := EventName(ns, local, raw);
    var e := EnterElement(cfg, s, s.stack[|s.stack| - 1], q, atts);
    if e.Ok? {
      assert SeekParticle(cfg, s, q, atts) == Ok((e.value.0, Some(e.value.1)));
    }
  }

  /** The start tag under an element whose type is a choice of elements, in
      terms of what the choice's fresh cursor makes of it. */
  lemma {:induction false} StartInPlainChoice(cfg: Config, s: HState, below: seq<Frame>, pp: Particle, po: Obj, g: GroupId,
                                             ns: string, local: string, raw: string, atts: Attrs)
    requires Good(cfg) && FramesValid(cfg.arena, s.stack) && |local| > 0
    requires s.stack == below + [ElementFrame(Some(pp), po)]
    requires pp.term.ElementTerm? && pp.term.element.typ.particle.Some?
    requires pp.term.element.typ.particle.value.term == GroupTerm(g)
    requires PlainChoice(cfg.arena, g)
    ensures var q := QName(ns, local);
            var cs := ChoiceCursor.CursorStart(cfg.cb.content, cfg.arena, NewCursor(g), q, atts, {}, [], true);
            var r := StartElement(cfg, s, ns, local, raw, atts);
            && (|cs.1| == 0 ==> r.Err?)
            && (|cs.1| > 0 ==>
                  && 0 <= cs.0.pos < |cfg.arena[g].particles|
                  && var go := cfg.cb.groupStart(g, po, q, atts);
                     var p := cfg.arena[g].particles[cs.0.pos];
                     var o := if NilSet(atts) then Nil else cfg.cb.typeStart(p.term.element, go, p.term.element.name, p, atts);
                     r == Ok(s.(stack := s.stack + [GroupFrame(cs.0, go), ElementFrame(Some(p), o)])))
  {
    var q := QName(ns, local);
    assert EventName(ns, local, raw) == q;
    var top := s.stack[|s.stack| - 1];
    assert top == ElementFrame(Some(pp), po);
    var cs := ChoiceCursor.CursorStart(cfg.cb.content, cfg.arena, NewCursor(g), q, atts, {}, [], true);
    EnterPlainChoice(cfg, s, top, g, q, atts);
    if |cs.1| > 0 {
      var go := cfg.cb.groupStart(g, po, q, atts);
      var s1 := s.(stack := s.stack + [GroupFrame(cs.0, go)]);
      var p := cfg.arena[g].particles[cs.0.pos];
      StartPlainChild(cfg, s, ns, local, raw, atts, s1, p);
      var o := if NilSet(atts) then Nil else cfg.cb.typeStart(p.term.element, go, p.term.element.name, p, atts);
      AppendTwo(s.stack, GroupFrame(cs.0, go), ElementFrame(Some(p), o));
    } else {
      StartUnderElement(cfg, s, ns, local, raw, atts);
    }
  }

  lemma AppendTwo<T>(a: seq<T>, x: T, y: T)
    ensures a + [x] + [y] == a + [x, y]
  {
  }

  /** Under an element frame whose type took the tag with particle `p`, an
      element without interceptors, the tag pushes `p`'s element frame. */
  lemma StartPlainChild(cfg: Config, s: HState, ns: string, local: string, raw: string, atts: Attrs, s1: HState, p: Particle)
    requires Good(cfg) && FramesValid(cfg.arena, s.stack) && |s.stack| > 0 && IsElementFrame(s.stack[|s.stack| - 1])
    requires EnterElement(cfg, s, s.stack[|s.stack| - 1], EventName(ns, local, raw), atts) == Ok((s1, p))
    requires p.term.ElementTerm? && p.term.element.interceptors == []
    ensures var el := p.term.element;
            var o := if NilSet(atts) then Nil else cfg.cb.typeStart(el, s1.stack[|s1.stack| - 1].o, el.name, p, atts);
            StartElement(cfg, s, ns, local, raw, atts) == Ok(s1.(stack := s1.stack + [ElementFrame(Some(p), o)]))
  {
    StartUnderElement(cfg, s, ns, local, raw, atts);
    PushPlainElement(cfg, s1, p, EventName(ns, local, raw), atts);
  }

  /** A start tag inside an element whose type is a choice of elements is
      accepted exactly when the choice may start with it; it pushes the
      choice's cursor, positioned on the element named by the tag, and an
      element frame for that element. */
  lemma {:induction false} ChoiceChildStart(cfg: Config, s: HState, below: seq<Frame>, pp: Particle, po: Obj, g: GroupId,
                         ns: string, local: string, raw: string, atts: Attrs)
    requires Good(cfg) && FramesValid(cfg.arena, s.stack) && |local| > 0
    requires s.stack == below + [ElementFrame(Some(pp), po)]
    requires pp.term.ElementTerm? && pp.term.element.typ.particle.Some?
    requires pp.term.element.typ.particle.value.term == GroupTerm(g)
    requires PlainChoice(cfg.arena, g)
    ensures var r := StartElement(cfg, s, ns, local, raw, atts);
            && (r.Ok? <==> MayStartWith(cfg.cb.content, cfg.arena, g, QName(ns, local)) == Ok(true))
            && (r.Ok? ==>
                  && |r.value.stack| == |s.stack| + 2
                  && r.value.stack[..|s.stack|] == s.stack
                  && var c := r.value.stack[|s.stack|].cursor;
                     var p := r.value.stack[|s.stack| + 1].particle.value;
                  && r.value.stack[|s.stack|] == GroupFrame(c, r.value.stack[|s.stack|].o)
                  && r.value.stack[|s.stack| + 1] == ElementFrame(Some(p), r.value.stack[|s.stack| + 1].o)
                  && c.group == g && 0 <= c.pos < |cfg.arena[g].particles|
                  && p == cfg.arena[g].particles[c.pos] && ElementNamed(p, QName(ns, local))
                  && p.term.element.interceptors == [] && !p.term.element.typ.hasSimpleType
                  && FramesValid(cfg.arena, r.value.stack) && r.value.text == s.text && r.value.root == s.root)
  {
    var q := QName(ns, local);
    var cs := ChoiceCursor.CursorStart(cfg.cb.content, cfg.arena, NewCursor(g), q, atts, {}, [], true);
    assert ChoiceCursor.ElementsOnly(cfg.arena, g);
    ChoiceCursor.StartAgreesWithLookahead(cfg.cb.content, cfg.arena, g, q, atts, [], true);
    StartInPlainChoice(cfg, s, below, pp, po, g, ns, local, raw, atts);
    if |cs.1| > 0 {
      var r := StartElement(cfg, s, ns, local, raw, atts);
      var go := cfg.cb.groupStart(g, po, q, atts);
      var p := cfg.arena[g].particles[cs.0.pos];
      var o := if NilSet(atts) then Nil else cfg.cb.typeStart(p.term.element, go, p.term.element.name, p, atts);
      assert r.value.stack == s.stack + [GroupFrame(cs.0, go), ElementFrame(Some(p), o)];
      assert r.value.stack[..|s.stack|] == s.stack;
    }
  }

  /** Ending an element without interceptors or simple type, with no text
      collected, keeps every frame but possibly its object. */
  lemma {:induction false} EndPlainElement(cfg: Config, s: HState, o: Obj, p: Particle)
    requires FramesValid(cfg.arena, s.stack) && s.text == "" && |s.stack| > 0
    requires p.term.ElementTerm? && p.term.element.interceptors == [] && !p.term.element.typ.hasSimpleType
    ensures var r := EndBound(cfg, s, o, p);
            r.Ok? && |r.value.0.stack| == |s.stack| && SameShape(r.value.0.stack, s.stack) &&
            r.value.0.text == "" && r.value.0.root == s.root
  {
    var el := p.term.element;
    var st := SettleText(cfg, s, o, el);
    assert st.Ok? && st.value.0 == s;
    assert InterceptorCalls(s.stack, el.interceptors, 0, (id: InterceptorId, x: Obj) => InterceptorEnd(id, x, el.name)) == Ok([]);
  }

  /** After the element closed, the frames below it still read element,
      choice: the choice's frame on top, its parent's frame under it. */
  lemma ClosingFrames(cfg: Config, t: HState, below: seq<Frame>, pp: Particle, po: Obj, c: Cursor, go: Obj,
                      r: seq<Frame>)
    requires FramesValid(cfg.arena, t.stack)
    requires t.stack == below + [ElementFrame(Some(pp), po), GroupFrame(c, go)]
    requires |r| == |t.stack| && SameShape(r, t.stack)
    ensures r[|below| + 1] == GroupFrame(c, r[|below| + 1].o) && ValidCursor(cfg.arena, c)
    ensures IsElementFrame(r[|below|])
    ensures FramesValid(cfg.arena, r[..|below| + 1]) && SameShape(r[..|below| + 1], t.stack)
  {
    assert r[|below| + 1] == WithObj(t.stack[|below| + 1], r[|below| + 1].o);
    assert r[|below|] == WithObj(t.stack[|below|], r[|below|].o);
    assert ValidCursor(cfg.arena, t.stack[|below| + 1].cursor);
    forall k | 0 <= k < |below| + 1
      ensures r[k].GroupFrame? ==> ValidCursor(cfg.arena, r[k].cursor)
    {
      assert r[k] == WithObj(t.stack[k], r[k].o);
    }
  }

  /** Ending a group whose parent frame is an element frame closes nothing
      else: the stack is kept. */
  lemma EndParticleUnderElement(cfg: Config, s: HState, item: Frame, q: QName)
    requires Good(cfg) && FramesValid(cfg.arena, s.stack)
    requires item.GroupFrame? && ValidCursor(cfg.arena, item.cursor)
    requires |s.stack| > 0 && IsElementFrame(s.stack[|s.stack| - 1])
    ensures var r := EndParticle(cfg, s, item, q);
            r.Ok? && r.value.0.stack == s.stack && r.value.0.text == s.text && r.value.0.root == s.root
  {
  }

  /** The element frame reached by the end tag sits on a choice's frame,
      which sits on an element frame: both the element and the choice close. */
  lemma {:induction false} CloseChoiceChild(cfg: Config, t: HState, below: seq<Frame>, pp: Particle, po: Obj,
                                           c: Cursor, go: Obj, p: Particle, o: Obj, ns: string, local: string)
    requires Good(cfg) && FramesValid(cfg.arena, t.stack) && t.text == ""
    requires t.stack == below + [ElementFrame(Some(pp), po), GroupFrame(c, go)]
    requires c.group in cfg.arena && cfg.arena[c.group].kind == Choice
    requires p.term.ElementTerm? && p.term.element.name == QName(ns, local)
    requires p.term.element.interceptors == [] && !p.term.element.typ.hasSimpleType
    ensures var r := CloseElement(cfg, t, ElementFrame(Some(p), o), ns, local);
            && r.Ok? && |r.value.stack| == |below| + 1 && SameShape(r.value.stack, t.stack)
            && r.value.text == "" && r.value.root == t.root
  {
    var el := p.term.element;
    EndPlainElement(cfg, t, o, p);
    var s2 := EndBound(cfg, t, o, p).value.0;
    ClosingFrames(cfg, t, below, pp, po, c, go, s2.stack);
    var top := s2.stack[|below| + 1];
    var rest := s2.(stack := s2.stack[..|below| + 1]);
    EndParticleUnderElement(cfg, rest, top, el.name);
    var ep := EndParticle(cfg, rest, top, el.name);
    assert IsChoiceFrame(cfg, top);
    assert CloseElement(cfg, t, ElementFrame(Some(p), o), ns, local) == Ok(ep.value.0);
  }

  /** The end tag of an element without interceptors, directly inside a
      choice that is inside an element: the element and the choice are closed
      and the stack is back at the enclosing element frame, objects aside. */
  lemma {:induction false} ChoiceChildEnd(cfg: Config, t: HState, below: seq<Frame>, pp: Particle, po: Obj,
                                         c: Cursor, go: Obj, p: Particle, o: Obj,
                                         ns: string, local: string, raw: string)
    requires Good(cfg) && FramesValid(cfg.arena, t.stack) && t.text == ""
    requires t.stack == below + [ElementFrame(Some(pp), po)] + [GroupFrame(c, go), ElementFrame(Some(p), o)]
    requires c.group in cfg.arena && cfg.arena[c.group].kind == Choice
    requires p.term.ElementTerm? && p.term.element.name == QName(ns, local)
    requires p.term.element.interceptors == [] && !p.term.element.typ.hasSimpleType
    ensures var r := EndElement(cfg, t, ns, local, raw);
            && r.Ok? && |r.value.stack| == |below| + 1 && SameShape(r.value.stack, t.stack)
            && r.value.text == "" && r.value.root == t.root
  {
    var item := ElementFrame(Some(p), o);
    var t1 := t.(stack := below + [ElementFrame(Some(pp), po), GroupFrame(c, go)]);
    assert t.stack[..|t.stack| - 1] == t1.stack;
    assert FramesValid(cfg.arena, t1.stack);
    assert Pop(t.stack) == Ok((t1.stack, item));
    assert UnwindToElement(cfg, t1, item, EventName(ns, local, raw)) == Ok((t1, item));
    assert EndElement(cfg, t, ns, local, raw) == CloseElement(cfg, t1, item, ns, local);
    CloseChoiceChild(cfg, t1, below, pp, po, c, go, p, o, ns, local);
    var r := CloseElement(cfg, t1, item, ns, local);
    assert forall k | 0 <= k < |r.value.stack| :: t1.stack[k] == t.stack[k];
  }

  /** A child element of a choice, started and ended again inside its
      parent element, leaves the parent's frame on top. */
  lemma {:induction false} ChoiceChildRoundTrip(cfg: Config, s: HState, below: seq<Frame>, pp: Particle, po: Obj,
                                               g: GroupId, ns: string, local: string, raw: string, atts: Attrs)
    requires Good(cfg) && FramesValid(cfg.arena, s.stack) && |local| > 0 && s.text == ""
    requires s.stack == below + [ElementFrame(Some(pp), po)]
    requires pp.term.ElementTerm? && pp.term.element.typ.particle.Some?
    requires pp.term.element.typ.particle.value.term == GroupTerm(g)
    requires PlainChoice(cfg.arena, g)
    requires MayStartWith(cfg.cb.content, cfg.arena, g, QName(ns, local)) == Ok(true)
    ensures var r1 := StartElement(cfg, s, ns, local, raw, atts);
            && r1.Ok?
            && var r2 := EndElement(cfg, r1.value, ns, local, raw);
            && r2.Ok? && |r2.value.stack| == |s.stack| && SameShape(r2.value.stack, s.stack)
            && r2.value.text == "" && r2.value.root == s.root
  {
    ChoiceChildStart(cfg, s, below, pp, po, g, ns, local, raw, atts);
    var t := StartElement(cfg, s, ns, local, raw, atts).value;
    var n := |s.stack|;
    var c, go, p, o := t.stack[n].cursor, t.stack[n].o, t.stack[n + 1].particle.value, t.stack[n + 1].o;
    assert t.stack == s.stack + [GroupFrame(c, go), ElementFrame(Some(p), o)];
    ChoiceChildEnd(cfg, t, below, pp, po, c, go, p, o, ns, local, raw);
    var r2 := EndElement(cfg, t, ns, local, raw);
    assert t.stack[..|s.stack|] == s.stack;
    SameShapeOfPrefix(r2.value.stack, t.stack, s.stack);
  }

  /** Having the shape of a stack is having the shape of any stack that
      agrees with it up to the height in question. */
  lemma SameShapeOfPrefix(a: seq<Frame>, b: seq<Frame>, c: seq<Frame>)
    requires SameShape(a, b) && |a| <= |c| <= |b| && b[..|c|] == c
    ensures SameShape(a, c)
  {
    forall k | 0 <= k < |a| ensures a[k] == WithObj(c[k], a[k].o) {
      assert b[k] == b[..|c|][k];
    }
  }
}

=== FILE: tcl_stack.dfy ===
/** The stack of thread context class loaders (TCLs) of one thread.

    The thread's context class loader is a field of the state, as is the
    stack, whose top is its last element.  A class loader is an identity;
    null is `None`.  Logging is left out.
 */
module TclStack {
  import opened Wrappers

  type Loader = nat

  datatype State = State(tcl: Option<Loader>, stack: seq<Option<Loader>>)

  /** `push(cl)`: the current TCL goes on the stack and `cl` becomes the
      TCL; a null `cl` leaves the TCL as it was. */
  function Push(s: State, cl: Option<Loader>): (r: State)
    ensures |r.stack| == |s.stack| + 1
    ensures r.stack[..|s.stack|] == s.stack && r.stack[|s.stack|] == s.tcl
    ensures r.tcl == if cl.Some? then cl else s.tcl
  {
    State(if cl.Some? then cl else s.tcl, s.stack + [s.tcl])
  }

  /** `pop()`: the top of the stack becomes the TCL and the TCL from before
      is returned; on an empty stack nothing changes and the answer is
      null. */
  function Pop(s: State): (r: (State, Option<Loader>))
    ensures |s.stack| == 0 ==> r.0 == s && r.1.None?
    ensures |s.stack| > 0 ==> && r.1 == s.tcl
                              && r.0.tcl == s.stack[|s.stack| - 1]
                              && r.0.stack == s.stack[..|s.stack| - 1]
  {
    if |s.stack| == 0 then (s, None)
    else (State(s.stack[|s.stack| - 1], s.stack[..|s.stack| - 1]), s.tcl)
  }

  /** `size()`. */
  function Size(s: State): (r: nat)
    ensures r == |s.stack|
  {
    |s.stack|
  }

  /** `get(index)`: the class loader at `index`, counted from the bottom of
      the stack; outside the stack it throws. */
  function Get(s: State, index: int): (r: Result<Option<Loader>>)
    ensures r.Err? <==> !(0 <= index < |s.stack|)
    ensures r.Err? ==> r.error == IndexOutOfBounds
    ensures r.Ok? ==> r.value == s.stack[index]
  {
    if 0 <= index < |s.stack| then Ok(s.stack[index]) else Err(IndexOutOfBounds)
  }

  /** A push followed by a pop restores the TCL and the stack, and the pop
      answers the TCL the push set. */
  lemma PushThenPop(s: State, cl: Option<Loader>)
    ensures Pop(Push(s, cl)).0 == s
    ensures Pop(Push(s, cl)).1 == (if cl.Some? then cl else s.tcl)
  {
    assert (s.stack + [s.tcl])[..|s.stack|] == s.stack;
  }

  /** A push leaves the loaders already on the stack where they were. */
  lemma PushKeepsBelow(s: State, cl: Option<Loader>, index: int)
    requires 0 <= index < |s.stack|
    ensures Get(Push(s, cl), index) == Get(s, index)
    ensures Get(Push(s, cl), |s.stack|) == Ok(s.tcl)
  {
  }

  /** Pushes and pops applied in order: `Some(cl)` pushes `cl`, `None`
      pops. */
  function Run(s: State, ops: seq<Option<Option<Loader>>>): (r: State)
    decreases |ops|
  {
    if |ops| == 0 then s
    else
      var next := if ops[0].Some? then Push(s, ops[0].value) else Pop(s).0;
      Run(next, ops[1..])
  }

  /** A balanced bracketing of pushes and pops: each push closed by a later
      pop, and never a pop without its push. */
  predicate Balanced(ops: seq<Option<Option<Loader>>>)
  {
    Depth(ops) == 0 && NeverUnder(ops)
  }

  /** Pushes minus pops. */
  function Depth(ops: seq<Option<Option<Loader>>>): int
    decreases |ops|
  {
    if |ops| == 0 then 0 else Depth(ops[..|ops| - 1]) + (if ops[|ops| - 1].Some? then 1 else -1)
  }

  /** Pops never outnumber pushes. */
  predicate NeverUnder(ops: seq<Option<Option<Loader>>>)
  {
    forall k | 0 <= k <= |ops| :: Depth(ops[..k]) >= 0
  }

  /** While the pops never outnumber the pushes, running the operations
      leaves the original stack at the bottom with `Depth` loaders on it;
      the lowest of them is the original TCL, which is the TCL again
      whenever the depth is back to zero. */
  lemma {:induction false} RunKeepsBottom(s: State, ops: seq<Option<Option<Loader>>>)
    requires NeverUnder(ops) && Depth(ops) >= 0
    ensures |Run(s, ops).stack| == |s.stack| + Depth(ops)
    ensures Run(s, ops).stack[..|s.stack|] == s.stack
    ensures Depth(ops) == 0 ==> Run(s, ops).tcl == s.tcl
    ensures Depth(ops) > 0 ==> Run(s, ops).stack[|s.stack|] == s.tcl
    decreases |ops|
  {
    if |ops| > 0 {
      var last := ops[|ops| - 1];
      var init := ops[..|ops| - 1];
      assert forall k | 0 <= k <= |init| :: init[..k] == ops[..k];
      assert Depth(init) >= 0 by {
        assert Depth(ops[..|init|]) >= 0;
      }
      RunKeepsBottom(s, init);
      RunSnoc(s, init, last);
      assert init + [last] == ops;
      var mid := Run(s, init);
      if last.None? {
        assert |mid.stack| > |s.stack|;
        assert mid.stack[..|mid.stack| - 1][..|s.stack|] == mid.stack[..|s.stack|];
      } else {
        assert (mid.stack + [mid.tcl])[..|s.stack|] == mid.stack[..|s.stack|];
      }
    } else {
      assert s.stack[..|s.stack|] == s.stack;
    }
  }

  /** Running one more operation. */
  lemma {:induction false} RunSnoc(s: State, ops: seq<Option<Option<Loader>>>, op: Option<Option<Loader>>)
    ensures Run(s, ops + [op]) == (var mid := Run(s, ops); if op.Some? then Push(mid, op.value) else Pop(mid).0)
    decreases |ops|
  {
    if |ops| > 0 {
      var next := if ops[0].Some? then Push(s, ops[0].value) else Pop(s).0;
      assert (ops + [op])[1..] == ops[1..] + [op];
      RunSnoc(next, ops[1..], op);
    } else {
      assert (ops + [op])[1..] == [];
    }
  }

  /** A balanced run restores the stack; and so, because each push saves the
      TCL it replaces, it restores the TCL. */
  lemma {:induction false} BalancedRestores(s: State, ops: seq<Option<Option<Loader>>>)
    requires Balanced(ops)
    ensures Run(s, ops) == s
  {
    RunKeepsBottom(s, ops);
    assert Run(s, ops).stack == Run(s, ops).stack[..|s.stack|];
  }
}

=== FILE: text.dfy ===
/** The string operations of the Java library the utilities lean on:
    `String.trim`, `StringTokenizer` over a set of delimiter characters, and
    joining with a separator. */
module Text {

  /** `String.trim` removes every character up to and including the space. */
  predicate IsTrimmed(c: char) {
    c <= ' '
  }

  function TrimStart(s: string): (r: string)
    ensures |r| <= |s| && r == s[|s| - |r|..]
    ensures forall i | 0 <= i < |s| - |r| :: IsTrimmed(s[i])
    ensures |r| > 0 ==> !IsTrimmed(r[0])
  {
    if |s| > 0 && IsTrimmed(s[0]) then TrimStart(s[1..]) else s
  }

  function TrimEnd(s: string): (r: string)
    ensures |r| <= |s| && r == s[..|r|]
    ensures forall i | |r| <= i < |s| :: IsTrimmed(s[i])
    ensures |r| > 0 ==> !IsTrimmed(r[|r| - 1])
  {
    if |s| > 0 && IsTrimmed(s[|s| - 1]) then TrimEnd(s[..|s| - 1]) else s
  }

  /** Neither end of `r` is a character `Trim` would remove. */
  predicate BlankFreeEnds(r: string) {
    |r| > 0 ==> !IsTrimmed(r[0]) && !IsTrimmed(r[|r| - 1])
  }

  /** `String.trim`: the longest stretch of `s` that begins and ends with a
      character above the space, or the empty string. */
  function Trim(s: string): (r: string)
    ensures exists i, j | 0 <= i <= j <= |s| :: r == s[i..j] && TrimmedAround(s, i, j)
    ensures BlankFreeEnds(r)
  {
    var a := TrimStart(s);
    var r := TrimEnd(a);
    TrimIsSlice(s, a, r);
    r
  }

  /** What the two halves of `Trim` leave is a stretch of `s` with only
      trimmed characters around it. */
  lemma TrimIsSlice(s: string, a: string, r: string)
    requires |a| <= |s| && a == s[|s| - |a|..] && forall k | 0 <= k < |s| - |a| :: IsTrimmed(s[k])
    requires |r| <= |a| && r == a[..|r|] && forall k | |r| <= k < |a| :: IsTrimmed(a[k])
    ensures exists i, j | 0 <= i <= j <= |s| :: r == s[i..j] && TrimmedAround(s, i, j)
  {
    var i := |s| - |a|;
    var j := i + |r|;
    forall k | 0 <= k < |r|
      ensures r[k] == s[i..j][k]
    {
      assert r[k] == a[k] && a[k] == s[i + k];
    }
    assert r == s[i..j];
    forall k | j <= k < |s|
      ensures IsTrimmed(s[k])
    {
      assert s[k] == a[k - i];
    }
    assert TrimmedAround(s, i, j);
  }

  ghost predicate TrimmedAround(s: string, i: nat, j: nat)
    requires i <= j <= |s|
  {
    (forall k | 0 <= k < i :: IsTrimmed(s[k])) && (forall k | j <= k < |s| :: IsTrimmed(s[k]))
  }

  lemma TrimIsIdempotent(s: string)
    ensures Trim(Trim(s)) == Trim(s)
  {
    var t := Trim(s);
    if |t| > 0 {
      assert TrimStart(t) == t;
      assert TrimEnd(t) == t;
    }
  }

  /** `StringTokenizer(s, delims)`: the maximal runs of characters outside
      `delims`, in order; `pending` is the run read so far. */
  function TokensFrom(s: string, delims: set<char>, pending: string): (r: seq<string>)
    decreases |s|
    ensures forall k | 0 <= k < |r| :: |r[k]| > 0
    ensures (forall k | 0 <= k < |pending| :: pending[k] !in delims) ==>
              forall k, i | 0 <= k < |r| && 0 <= i < |r[k]| :: r[k][i] !in delims
  {
    if |s| == 0 then (if |pending| == 0 then [] else [pending])
    else if s[0] in delims then (if |pending| == 0 then [] else [pending]) + TokensFrom(s[1..], delims, "")
    else TokensFrom(s[1..], delims, pending + [s[0]])
  }

  function Tokens(s: string, delims: set<char>): (r: seq<string>)
    ensures forall k | 0 <= k < |r| :: |r[k]| > 0
    ensures forall k, i | 0 <= k < |r| && 0 <= i < |r[k]| :: r[k][i] !in delims
  {
    TokensFrom(s, delims, "")
  }

  /** The items of `xs` with `sep` between neighbours. */
  function Join(xs: seq<string>, sep: char): string
    decreases |xs|
  {
    if |xs| == 0 then "" else if |xs| == 1 then xs[0] else xs[0] + [sep] + Join(xs[1..], sep)
  }

  /** Text without a delimiter is one run of the tokenizer. */
  lemma {:induction false} TokensOfPlain(s: string, delims: set<char>, pending: string)
    requires forall i | 0 <= i < |s| :: s[i] !in delims
    ensures TokensFrom(s, delims, pending) == (if |pending + s| == 0 then [] else [pending + s])
    decreases |s|
  {
    if |s| > 0 {
      assert s[0] !in delims;
      assert TokensFrom(s, delims, pending) == TokensFrom(s[1..], delims, pending + [s[0]]);
      TokensOfPlain(s[1..], delims, pending + [s[0]]);
      assert pending + [s[0]] + s[1..] == pending + s;
    } else {
      assert pending + s == pending;
    }
  }

  /** A delimiter ends the pending run. */
  lemma {:induction false} TokensAfterRun(a: string, rest: string, delims: set<char>, pending: string)
    requires forall i | 0 <= i < |a| :: a[i] !in delims
    ensures TokensFrom(a + rest, delims, pending) == TokensFrom(rest, delims, pending + a)
    decreases |a|
  {
    if |a| > 0 {
      assert (a + rest)[0] == a[0] && a[0] !in delims;
      assert (a + rest)[1..] == a[1..] + rest;
      assert TokensFrom(a + rest, delims, pending) == TokensFrom(a[1..] + rest, delims, pending + [a[0]]);
      TokensAfterRun(a[1..], rest, delims, pending + [a[0]]);
      assert pending + [a[0]] + a[1..] == pending + a;
    } else {
      assert a + rest == rest && pending + a == pending;
    }
  }

  /** Joining tokens with a delimiter and tokenizing again gives the tokens
      back, as long as none is empty or contains a delimiter. */
  lemma {:induction false} TokensOfJoin(xs: seq<string>, sep: char, delims: set<char>)
    requires sep in delims
    requires forall k | 0 <= k < |xs| :: |xs[k]| > 0
    requires forall k, i | 0 <= k < |xs| && 0 <= i < |xs[k]| :: xs[k][i] !in delims
    ensures Tokens(Join(xs, sep), delims) == xs
    decreases |xs|
  {
    if |xs| == 1 {
      TokensOfPlain(xs[0], delims, "");
      assert "" + xs[0] == xs[0];
    } else if |xs| > 1 {
      var rest := [sep] + Join(xs[1..], sep);
      assert Join(xs, sep) == xs[0] + rest;
      TokensAfterRun(xs[0], rest, delims, "");
      assert "" + xs[0] == xs[0];
      assert rest[0] == sep && rest[1..] == Join(xs[1..], sep);
      TokensOfJoin(xs[1..], sep, delims);
      assert TokensFrom(rest, delims, xs[0]) == [xs[0]] + Tokens(Join(xs[1..], sep), delims);
    }
  }
}

=== FILE: timeout_queue.dfy ===
/** The priority queue of the timeout factory.

    Pending timeouts sit in a binary min-heap kept in an array from index 1
    (index 0 is never used): the children of slot n are slots 2n and 2n + 1,
    and no child fires earlier than its parent.  Every queued timeout knows
    its own slot through its `index` field; a timeout that is not queued has
    a negative index, and cancelled timeouts are kept on a free list for
    reuse.

    The model keeps the time and target of a queued timeout in its heap
    slot, and the `index` field of every timeout the factory has created in
    a map from timeout identities.  The worker thread that takes due
    timeouts off the heap is not modelled.
 */
module TimeoutQueue {
  import opened Wrappers
  import opened JavaNum

  /** A `TimeoutImpl`, by identity. */
  type NodeId = nat

  /** The index of a timeout that is done and may be reused. */
  const DONE: int := -1

  /** The index of a timeout whose target is being called. */
  const TIMEOUT: int := -2

  const INITIAL_CAPACITY: nat := 16

  /** A heap slot: null, or a timeout with the time it fires and its target. */
  datatype Slot = Empty | Full(id: NodeId, time: int64, target: nat)

  datatype Factory = Factory(
    cancelled: bool,
    q: seq<Slot>,
    size: nat,
    index: map<NodeId, int>,
    freeList: seq<NodeId>)

  // ---------------------------------------------------------------- invariants

  /** The layout part of `checkTree`: slots 1..size hold timeouts that know
      their slot, every other slot is null, and there is room for one more. */
  ghost predicate Shape(f: Factory) {
    && f.size < |f.q|
    && f.q[0].Empty?
    && (forall i | 1 <= i <= f.size :: f.q[i].Full? && f.q[i].id in f.index && f.index[f.q[i].id] == i)
    && (forall i | f.size < i < |f.q| :: f.q[i].Empty?)
  }

  /** `checkTree`: the layout, and no timeout fires before its parent. */
  ghost predicate Heap(f: Factory) {
    && Shape(f)
    && forall i | 2 <= i <= f.size :: f.q[i / 2].time <= f.q[i].time
  }

  /** The heap order holds everywhere except on the edges at slot `k`, and
      the parent of `k` fires no later than the children of `k`. */
  ghost predicate HeapExcept(f: Factory, k: nat) {
    && Shape(f)
    && 1 <= k <= f.size
    && (forall i | 2 <= i <= f.size && i != k && i / 2 != k :: f.q[i / 2].time <= f.q[i].time)
    && (k > 1 ==> forall i | 2 <= i <= f.size && i / 2 == k :: f.q[k / 2].time <= f.q[i].time)
  }

  /** Slot `k` fires no later than its children. */
  ghost predicate KidsOrdered(f: Factory, k: nat)
    requires Shape(f) && k <= f.size
  {
    forall i | 2 <= i <= f.size && i / 2 == k :: f.q[k].time <= f.q[i].time
  }

  /** Slot `k` fires no earlier than its parent. */
  ghost predicate ParentOrdered(f: Factory, k: nat)
    requires Shape(f) && 1 <= k <= f.size
  {
    k > 1 ==> f.q[k / 2].time <= f.q[k].time
  }

  /** Every timeout other than those in `xs` whose index is positive is
      queued at that index. */
  ghost predicate RegisteredBut(f: Factory, xs: set<NodeId>) {
    forall id | id in f.index && id !in xs && f.index[id] > 0 ::
      f.index[id] <= f.size < |f.q| && f.q[f.index[id]].Full? && f.q[f.index[id]].id == id
  }

  /** `checkFreeList`: every free timeout is done; none is listed twice. */
  ghost predicate FreeListOk(f: Factory) {
    && (forall k | 0 <= k < |f.freeList| :: f.freeList[k] in f.index && f.index[f.freeList[k]] == DONE)
    && (forall k, l | 0 <= k < l < |f.freeList| :: f.freeList[k] != f.freeList[l])
  }

  ghost predicate Valid(f: Factory) {
    Heap(f) && RegisteredBut(f, {}) && FreeListOk(f)
  }

  /** The queued timeouts. */
  function Contents(f: Factory): multiset<Slot>
    requires f.size < |f.q|
  {
    multiset(f.q[1..f.size + 1])
  }

  /** The heap order makes the root the earliest timeout. */
  lemma {:induction false} RootIsEarliest(f: Factory, i: nat)
    requires Heap(f) && 1 <= i <= f.size
    ensures f.q[1].time <= f.q[i].time
    decreases i
  {
    if i > 1 {
      RootIsEarliest(f, i / 2);
    }
  }

  function NewFactory(): (f: Factory)
    ensures Valid(f) && Contents(f) == multiset{} && |f.q| == INITIAL_CAPACITY && !f.cancelled
  {
    Factory(false, seq(INITIAL_CAPACITY, _ => Empty), 0, map[], [])
  }

  // ---------------------------------------------------------------- swap

  /** `swap(a, b)`: exchanges two queued timeouts and tells each its new slot. */
  function Swap(f: Factory, a: nat, b: nat): (r: Factory)
    requires 1 <= a <= f.size < |f.q| && 1 <= b <= f.size
    requires f.q[a].Full? && f.q[b].Full? && f.q[a].id in f.index && f.q[b].id in f.index
    ensures r.q == f.q[a := f.q[b]][b := f.q[a]]
    ensures r.index == f.index[f.q[b].id := a][f.q[a].id := b]
    ensures r.size == f.size && r.freeList == f.freeList && r.cancelled == f.cancelled
    ensures r.index.Keys == f.index.Keys
  {
    var ta := f.q[a];
    var tb := f.q[b];
    f.(q := f.q[a := tb][b := ta], index := f.index[tb.id := a][ta.id := b])
  }

  /** A swap keeps the layout, the queued timeouts, the free list, and the
      index of every timeout outside the two slots. */
  lemma SwapKeeps(f: Factory, a: nat, b: nat, xs: set<NodeId>)
    requires Shape(f) && 1 <= a <= f.size && 1 <= b <= f.size
    requires forall x | x in xs && x in f.index :: f.index[x] > f.size || f.index[x] <= 0
    ensures var r := Swap(f, a, b);
            && Shape(r)
            && Contents(r) == Contents(f)
            && (RegisteredBut(f, xs) ==> RegisteredBut(r, xs))
            && (FreeListOk(f) ==> FreeListOk(r))
            && (forall x | x in xs && x in f.index :: x in r.index && r.index[x] == f.index[x])
  {
    SwapShape(f, a, b);
    SwapContents(f, a, b);
    SwapRegistered(f, a, b, xs);
    SwapFree(f, a, b);
  }

  lemma SwapShape(f: Factory, a: nat, b: nat)
    requires Shape(f) && 1 <= a <= f.size && 1 <= b <= f.size
    ensures Shape(Swap(f, a, b))
  {
    var r := Swap(f, a, b);
    forall i | 1 <= i <= r.size
      ensures r.q[i].Full? && r.q[i].id in r.index && r.index[r.q[i].id] == i
    {
      if i != a && i != b {
        assert f.q[i].id != f.q[a].id && f.q[i].id != f.q[b].id;
      }
    }
  }

  lemma SwapContents(f: Factory, a: nat, b: nat)
    requires 1 <= a <= f.size < |f.q| && 1 <= b <= f.size
    requires f.q[a].Full? && f.q[b].Full? && f.q[a].id in f.index && f.q[b].id in f.index
    ensures Contents(Swap(f, a, b)) == Contents(f)
  {
    var r := Swap(f, a, b);
    ExchangedContents(f, r, a, b);
  }

  /** Exchanging two queued slots keeps the queued timeouts. */
  lemma ExchangedContents(f: Factory, r: Factory, a: nat, b: nat)
    requires 1 <= a <= f.size < |f.q| && 1 <= b <= f.size
    requires r.size == f.size && |r.q| == |f.q| && r.q[a] == f.q[b] && r.q[b] == f.q[a]
    requires forall i | 0 <= i < |f.q| && i != a && i != b :: r.q[i] == f.q[i]
    ensures Contents(r) == Contents(f)
  {
    var s := f.q[1..f.size + 1];
    var t := r.q[1..f.size + 1];
    forall k | 0 <= k < |s| && k != a - 1 && k != b - 1
      ensures t[k] == s[k]
    {
      assert t[k] == r.q[k + 1] && s[k] == f.q[k + 1];
    }
    MultisetExchange(s, t, a - 1, b - 1);
  }

  lemma MultisetSwap<T>(s: seq<T>, i: nat, j: nat)
    requires i < |s| && j < |s|
    ensures multiset(s[i := s[j]][j := s[i]]) == multiset(s)
  {
  }

  /** A sequence that differs from `s` only by exchanging two positions has
      the same multiset. */
  lemma MultisetExchange<T>(s: seq<T>, t: seq<T>, i: nat, j: nat)
    requires i < |s| && j < |s| && |t| == |s| && t[i] == s[j] && t[j] == s[i]
    requires forall k | 0 <= k < |s| && k != i && k != j :: t[k] == s[k]
    ensures multiset(t) == multiset(s)
  {
    assert t == s[i := s[j]][j := s[i]];
    MultisetSwap(s, i, j);
  }

  lemma SwapRegistered(f: Factory, a: nat, b: nat, xs: set<NodeId>)
    requires Shape(f) && 1 <= a <= f.size && 1 <= b <= f.size
    requires forall x | x in xs && x in f.index :: f.index[x] > f.size || f.index[x] <= 0
    ensures var r := Swap(f, a, b);
            && (RegisteredBut(f, xs) ==> RegisteredBut(r, xs))
            && (forall x | x in xs && x in f.index :: x in r.index && r.index[x] == f.index[x])
  {
    var r := Swap(f, a, b);
    forall x | x in xs && x in f.index
      ensures x != f.q[a].id && x != f.q[b].id
    {
    }
    if RegisteredBut(f, xs) {
      forall id | id in r.index && id !in xs && r.index[id] > 0
        ensures r.index[id] <= r.size < |r.q| && r.q[r.index[id]].Full? && r.q[r.index[id]].id == id
      {
        if id != f.q[a].id && id != f.q[b].id {
          assert r.index[id] == f.index[id];
        }
      }
    }
  }

  lemma SwapFree(f: Factory, a: nat, b: nat)
    requires Shape(f) && 1 <= a <= f.size && 1 <= b <= f.size
    ensures FreeListOk(f) ==> FreeListOk(Swap(f, a, b))
  {
    if FreeListOk(f) {
      forall k | 0 <= k < |f.freeList|
        ensures f.freeList[k] != f.q[a].id && f.freeList[k] != f.q[b].id
      {
      }
    }
  }

  /** What a sequence of swaps keeps of `f` in `r`, up to the timeouts `xs`
      that are off the heap. */
  ghost predicate Tracks(f: Factory, r: Factory, xs: set<NodeId>)
    requires f.size < |f.q|
  {
    && Shape(r) && r.size == f.size && |r.q| == |f.q| && Contents(r) == Contents(f)
    && r.index.Keys == f.index.Keys
    && r.freeList == f.freeList && r.cancelled == f.cancelled
    && (RegisteredBut(f, xs) ==> RegisteredBut(r, xs))
    && (forall x | x in xs && x in f.index :: x in r.index && r.index[x] == f.index[x])
    && (FreeListOk(f) ==> FreeListOk(r))
    && SignsKept(f, r)
  }

  /** No timeout off the heap changes its index, and no queued timeout
      leaves the heap. */
  ghost predicate SignsKept(f: Factory, r: Factory) {
    forall x | x in f.index ::
      x in r.index && (f.index[x] <= 0 ==> r.index[x] == f.index[x]) && (f.index[x] > 0 ==> r.index[x] > 0)
  }

  lemma SwapSigns(f: Factory, a: nat, b: nat)
    requires Shape(f) && 1 <= a <= f.size && 1 <= b <= f.size
    ensures SignsKept(f, Swap(f, a, b))
  {
  }

  lemma SignsTransitive(f: Factory, g: Factory, r: Factory)
    requires SignsKept(f, g) && SignsKept(g, r)
    ensures SignsKept(f, r)
  {
  }

  ghost predicate OffHeap(f: Factory, xs: set<NodeId>) {
    forall x | x in xs && x in f.index :: f.index[x] > f.size || f.index[x] <= 0
  }

  lemma SwapTracks(f: Factory, r: Factory, a: nat, b: nat, xs: set<NodeId>)
    requires f.size < |f.q| && OffHeap(f, xs) && Tracks(f, r, xs)
    requires 1 <= a <= r.size && 1 <= b <= r.size
    ensures Tracks(f, Swap(r, a, b), xs)
  {
    assert OffHeap(r, xs);
    SwapKeeps(r, a, b, xs);
    SwapSigns(r, a, b);
    SignsTransitive(f, r, Swap(r, a, b));
  }

  /** The order broken only at `k` and repaired on both sides is the heap. */
  lemma HeapRestored(f: Factory, k: nat)
    requires HeapExcept(f, k) && KidsOrdered(f, k) && ParentOrdered(f, k)
    ensures Heap(f)
  {
  }

  // ---------------------------------------------------------------- sifting

  /** One step up: the timeout at `k` changes places with its later parent. */
  lemma SwapUp(f: Factory, k: nat)
    requires HeapExcept(f, k) && KidsOrdered(f, k) && k > 1 && f.q[k / 2].time > f.q[k].time
    ensures var r := Swap(f, k / 2, k);
            && HeapExcept(r, k / 2) && KidsOrdered(r, k / 2) && r.q[k / 2] == f.q[k]
  {
    SwapShape(f, k / 2, k);
    SwapUpBelow(f, k);
    SwapUpAbove(f, k);
    SwapUpKids(f, k);
  }

  /** After the step up, every edge away from the parent slot is ordered. */
  lemma SwapUpBelow(f: Factory, k: nat)
    requires HeapExcept(f, k) && KidsOrdered(f, k) && k > 1 && f.q[k / 2].time > f.q[k].time
    ensures var r := Swap(f, k / 2, k);
            forall i | 2 <= i <= r.size && i != k / 2 && i / 2 != k / 2 :: r.q[i / 2].time <= r.q[i].time
  {
    var p := k / 2;
    var r := Swap(f, p, k);
    forall i | 2 <= i <= r.size && i != p && i / 2 != p
      ensures r.q[i / 2].time <= r.q[i].time
    {
      if i / 2 == k {
        assert r.q[i / 2] == f.q[p];
      }
    }
  }

  /** After the step up, the grandparent fires no later than the parent
      slot's children. */
  lemma SwapUpAbove(f: Factory, k: nat)
    requires HeapExcept(f, k) && KidsOrdered(f, k) && k > 1 && f.q[k / 2].time > f.q[k].time
    ensures var r := Swap(f, k / 2, k);
            k / 2 > 1 ==> forall i | 2 <= i <= r.size && i / 2 == k / 2 :: r.q[k / 2 / 2].time <= r.q[i].time
  {
    var p := k / 2;
    var r := Swap(f, p, k);
    if p > 1 {
      forall i | 2 <= i <= r.size && i / 2 == p
        ensures r.q[p / 2].time <= r.q[i].time
      {
        assert f.q[p / 2].time <= f.q[p].time;
      }
    }
  }

  /** After the step up, the moved timeout fires no later than its new
      children. */
  lemma SwapUpKids(f: Factory, k: nat)
    requires HeapExcept(f, k) && KidsOrdered(f, k) && k > 1 && f.q[k / 2].time > f.q[k].time
    ensures var r := Swap(f, k / 2, k);
            && r.q[k / 2] == f.q[k]
            && forall i | 2 <= i <= r.size && i / 2 == k / 2 :: r.q[k / 2].time <= r.q[i].time
  {
  }

  /** One step down: the timeout at `k` changes places with its earlier
      child `c`. */
  lemma SwapDown(f: Factory, k: nat, c: nat)
    requires HeapExcept(f, k) && ParentOrdered(f, k)
    requires 2 <= c <= f.size && c / 2 == k && f.q[c].time < f.q[k].time
    requires forall i | 2 <= i <= f.size && i / 2 == k :: f.q[c].time <= f.q[i].time
    ensures var r := Swap(f, k, c);
            && HeapExcept(r, c) && ParentOrdered(r, c) && r.q[c] == f.q[k]
  {
    var r := Swap(f, k, c);
    SwapShape(f, k, c);
    forall i | 2 <= i <= r.size && i != c && i / 2 != c
      ensures r.q[i / 2].time <= r.q[i].time
    {
      if i == k {
        assert r.q[i / 2] == f.q[k / 2];
      }
    }
  }

  /** `normalizeUp(index)`: moves the timeout at `k` up while its parent
      fires later; answers whether it moved. */
  method NormalizeUp(f: Factory, k: nat, ghost xs: set<NodeId>) returns (r: Factory, moved: bool)
    requires HeapExcept(f, k)
    requires k > 1 && f.q[k / 2].time > f.q[k].time ==> KidsOrdered(f, k)
    requires OffHeap(f, xs)
    ensures moved <==> k > 1 && f.q[k / 2].time > f.q[k].time
    ensures !moved ==> r == f
    ensures moved ==> Heap(r)
    ensures Tracks(f, r, xs)
  {
    r, moved := f, false;
    assert SignsKept(f, r);
    assert Tracks(f, r, xs);
    if k == 1 {
      return;
    }
    var t := f.q[k].time;
    var n := k;
    var p := n / 2;
    while r.q[p].time > t
      invariant HeapExcept(r, n) && r.q[n].time == t && n > 1 && p == n / 2
      invariant moved || r.q[p].time > t ==> KidsOrdered(r, n)
      invariant moved <==> n != k
      invariant moved ==> f.q[k / 2].time > f.q[k].time
      invariant !moved ==> r == f
      invariant Tracks(f, r, xs)
      decreases n
    {
      SwapUp(r, n);
      SwapTracks(f, r, p, n, xs);
      r := Swap(r, p, n);
      moved := true;
      if p == 1 {
        HeapRestored(r, p);
        break;
      }
      n := p;
      p := n / 2;
    }
    if moved && r.q[p].time <= t {
      HeapRestored(r, n);
    }
  }

  /** The child `removeNode` compares with: the right child when there is
      one and it fires strictly earlier, else the left. */
  function EarlierChild(f: Factory, n: nat): (c: nat)
    requires Shape(f) && 1 <= n && 2 * n <= f.size
    ensures c / 2 == n && 2 <= c <= f.size
    ensures forall i | 2 <= i <= f.size && i / 2 == n :: f.q[c].time <= f.q[i].time
  {
    if 2 * n + 1 <= f.size && f.q[2 * n + 1].time < f.q[2 * n].time then 2 * n + 1 else 2 * n
  }

  /** One step down keeps everything a swap keeps. */
  lemma DownStep(g: Factory, r: Factory, n: nat, c: nat, xs: set<NodeId>)
    requires HeapExcept(r, n) && ParentOrdered(r, n) && 2 * n <= r.size && c == EarlierChild(r, n)
    requires r.q[c].time < r.q[n].time
    requires g.size < |g.q| && OffHeap(g, xs) && Tracks(g, r, xs)
    ensures var r2 := Swap(r, n, c);
            && HeapExcept(r2, c) && ParentOrdered(r2, c) && r2.q[c].time == r.q[n].time
            && Tracks(g, r2, xs)
  {
    SwapDown(r, n, c);
    SwapTracks(g, r, n, c, xs);
  }

  /** The order repaired below `n` is the heap. */
  lemma DownDone(r: Factory, n: nat)
    requires HeapExcept(r, n) && ParentOrdered(r, n)
    requires 2 * n <= r.size ==> r.q[n].time <= r.q[EarlierChild(r, n)].time
    ensures Heap(r)
  {
    HeapRestored(r, n);
  }

  /** Moves the timeout at `k` down while a child fires earlier, swapping it
      with the earlier of its children (the left one on a tie). */
  method SiftDown(f: Factory, k: nat, ghost g: Factory, ghost xs: set<NodeId>) returns (r: Factory)
    requires HeapExcept(f, k) && ParentOrdered(f, k)
    requires g.size < |g.q| && OffHeap(g, xs) && Tracks(g, f, xs)
    ensures Heap(r) && Tracks(g, r, xs)
  {
    r := f;
    var n := k;
    var t := r.q[n].time;
    while 2 * n <= r.size
      invariant HeapExcept(r, n) && ParentOrdered(r, n) && r.q[n].time == t
      invariant Tracks(g, r, xs)
      decreases r.size - n
    {
      var c := EarlierChild(r, n);
      if t <= r.q[c].time {
        break;
      }
      DownStep(g, r, n, c, xs);
      r := Swap(r, n, c);
      n := c;
    }
    DownDone(r, n);
  }

  // ---------------------------------------------------------------- removal

  /** Clears the last queued slot.  The timeout that was there keeps its
      index, which now lies past the end of the heap. */
  function Shrink(g: Factory): (r: Factory)
    requires Shape(g) && g.size >= 1
    ensures r.size == g.size - 1 && r.q == g.q[g.size := Empty]
    ensures r.index == g.index && r.freeList == g.freeList && r.cancelled == g.cancelled
  {
    g.(size := g.size - 1, q := g.q[g.size := Empty])
  }

  lemma ShrinkKeeps(g: Factory)
    requires Shape(g) && g.size >= 1
    ensures var r := Shrink(g); var last := g.q[g.size];
            && Shape(r)
            && Contents(r) == Contents(g) - multiset{last}
            && OffHeap(r, {last.id})
            && (RegisteredBut(g, {}) ==> RegisteredBut(r, {last.id}))
            && (FreeListOk(g) ==> FreeListOk(r))
  {
    ShrinkShape(g);
    ShrinkContents(g);
    ShrinkRegistered(g);
  }

  lemma ShrinkShape(g: Factory)
    requires Shape(g) && g.size >= 1
    ensures Shape(Shrink(g)) && OffHeap(Shrink(g), {g.q[g.size].id})
  {
  }

  lemma ShrinkContents(g: Factory)
    requires Shape(g) && g.size >= 1
    ensures Contents(Shrink(g)) == Contents(g) - multiset{g.q[g.size]}
  {
    var r := Shrink(g);
    DroppedLast(g, r);
  }

  /** A factory that agrees with `g` below its last queued slot and stops
      before it queues what `g` queues, less that last timeout. */
  lemma DroppedLast(g: Factory, r: Factory)
    requires 1 <= g.size < |g.q| && r.size == g.size - 1 && |r.q| == |g.q|
    requires forall i | 0 <= i < g.size :: r.q[i] == g.q[i]
    ensures Contents(r) == Contents(g) - multiset{g.q[g.size]}
  {
    ClearLast(g.q, r.q, g.size);
  }

  /** Clearing the last slot of a slice drops its element from the slice's
      multiset. */
  lemma ClearLast<T>(q: seq<T>, r: seq<T>, n: nat)
    requires 1 <= n < |q| && |r| == |q|
    requires forall i | 0 <= i < n :: r[i] == q[i]
    ensures multiset(r[1..n]) == multiset(q[1..n + 1]) - multiset{q[n]}
  {
    assert q[1..n + 1] == q[1..n] + [q[n]];
    assert r[1..n] == q[1..n];
  }

  lemma ShrinkRegistered(g: Factory)
    requires Shape(g) && g.size >= 1
    ensures RegisteredBut(g, {}) ==> RegisteredBut(Shrink(g), {g.q[g.size].id})
  {
  }

  /** Putting the last timeout into slot `k` breaks the order at `k` only. */
  lemma RemoveSetup(f: Factory, k: nat)
    requires Heap(f) && 1 <= k < f.size
    ensures var g := Shrink(Swap(f, k, f.size));
            && HeapExcept(g, k)
            && (k > 1 && g.q[k / 2].time > g.q[k].time ==> KidsOrdered(g, k))
  {
    var s := Swap(f, k, f.size);
    SwapShape(f, k, f.size);
    var g := Shrink(s);
    ShrinkKeeps(s);
    forall i | 2 <= i <= g.size && i != k && i / 2 != k
      ensures g.q[i / 2].time <= g.q[i].time
    {
      assert g.q[i] == f.q[i] && g.q[i / 2] == f.q[i / 2];
    }
    if k > 1 {
      forall i | 2 <= i <= g.size && i / 2 == k
        ensures g.q[k / 2].time <= g.q[i].time
      {
        assert g.q[i] == f.q[i] && g.q[k / 2] == f.q[k / 2];
        assert f.q[k / 2].time <= f.q[k].time;
      }
    }
    if k > 1 && g.q[k / 2].time > g.q[k].time {
      forall i | 2 <= i <= g.size && i / 2 == k
        ensures g.q[k].time <= g.q[i].time
      {
        assert g.q[i] == f.q[i] && g.q[k / 2] == f.q[k / 2];
        assert f.q[k / 2].time <= f.q[k].time;
      }
    }
  }

  /** What removing the timeout `res` leaves of `f` in `r`, besides the heap
      order: the other timeouts, their slots, and the free list.  The
      removed timeout keeps the index of the last slot, now past the end. */
  ghost predicate RemovedFrom(f: Factory, r: Factory, res: Slot)
    requires f.size < |f.q| && res.Full?
  {
    && r.size == f.size - 1 && |r.q| == |f.q| && r.size < |r.q|
    && Contents(r) == Contents(f) - multiset{res}
    && res.id in r.index && r.index[res.id] == f.size && r.index.Keys == f.index.Keys
    && (RegisteredBut(f, {}) ==> RegisteredBut(r, {res.id}))
    && r.freeList == f.freeList && r.cancelled == f.cancelled
    && (FreeListOk(f) ==> FreeListOk(r))
    && SignsKept(f, r)
  }

  /** `removeNode(index)`: takes the timeout at slot `k` off the heap and
      returns it.  The last timeout fills the hole and moves up or down to
      its place. */
  method RemoveNode(f: Factory, k: nat) returns (r: Factory, res: Slot)
    requires Heap(f) && 1 <= k <= f.size
    ensures res == f.q[k] && res.Full?
    ensures Heap(r) && RemovedFrom(f, r, res)
  {
    res := f.q[k];
    if k == f.size {
      LastKeeps(f);
      r := Shrink(f);
      return;
    }
    var g := Shrink(Swap(f, k, f.size));
    RemoveSetup(f, k);
    HoleKeeps(f, k);
    var moved;
    r, moved := NormalizeUp(g, k, {res.id});
    if !moved {
      r := SiftDown(g, k, g, {res.id});
    }
    RemovedAfterHole(f, g, r, res);
  }

  lemma RemovedAfterHole(f: Factory, g: Factory, r: Factory, res: Slot)
    requires f.size < |f.q| && g.size < |g.q| && res.Full?
    requires RemovedFrom(f, g, res) && Tracks(g, r, {res.id})
    ensures RemovedFrom(f, r, res)
  {
    SignsTransitive(f, g, r);
  }

  /** Removing the last timeout keeps the heap. */
  lemma LastKeeps(f: Factory)
    requires Heap(f) && 1 <= f.size
    ensures Heap(Shrink(f)) && RemovedFrom(f, Shrink(f), f.q[f.size])
  {
    var g := Shrink(f);
    ShrinkKeeps(f);
    assert |g.q| == |f.q|;
    forall i | 2 <= i <= g.size
      ensures g.q[i / 2].time <= g.q[i].time
    {
      assert g.q[i] == f.q[i] && g.q[i / 2] == f.q[i / 2];
    }
  }

  /** Moving the last timeout into the hole at `k` removes the timeout there
      and keeps the rest. */
  lemma HoleKeeps(f: Factory, k: nat)
    requires Heap(f) && 1 <= k < f.size
    ensures var g := Shrink(Swap(f, k, f.size));
            OffHeap(g, {f.q[k].id}) && RemovedFrom(f, g, f.q[k])
  {
    var s := Swap(f, k, f.size);
    SwapKeeps(f, k, f.size, {});
    SwapSigns(f, k, f.size);
    ShrinkKeeps(s);
  }

  // ---------------------------------------------------------------- insertion

  /** The array `newTimeout` writes into: doubled when the new size would
      reach its length. */
  function Grown(f: Factory): (q: seq<Slot>)
    requires f.size < |f.q|
    ensures |q| == (if f.size + 1 == |f.q| then 2 * |f.q| else |f.q|) && f.size + 1 < |q|
    ensures q[..|f.q|] == f.q
    ensures forall i | |f.q| <= i < |q| :: q[i].Empty?
  {
    if f.size + 1 == |f.q| then f.q + seq(|f.q|, _ => Empty) else f.q
  }

  /** The timeout `id` written into the new last slot, with `rest` as the
      remaining free list. */
  function Place(f: Factory, id: NodeId, time: int64, target: nat, rest: seq<NodeId>): (g: Factory)
    requires f.size < |f.q|
    ensures g.size == f.size + 1 && g.size < |g.q| && g.q[g.size] == Full(id, time, target)
    ensures g.index == f.index[id := g.size] && g.freeList == rest && g.cancelled == f.cancelled
  {
    var s := f.size + 1;
    Factory(f.cancelled, Grown(f)[s := Full(id, time, target)], s, f.index[id := s], rest)
  }

  /** The timeout `id` is not queued: it is new, or done. */
  ghost predicate Unqueued(f: Factory, id: NodeId) {
    id in f.index ==> f.index[id] == DONE
  }

  lemma PlaceShape(f: Factory, id: NodeId, time: int64, target: nat, rest: seq<NodeId>)
    requires Shape(f) && Unqueued(f, id)
    ensures var g := Place(f, id, time, target, rest);
            && Shape(g)
            && (forall i | 1 <= i <= f.size :: g.q[i] == f.q[i] && g.q[i].id != id)
  {
    var g := Place(f, id, time, target, rest);
    var q := Grown(f);
    forall i | 1 <= i <= f.size
      ensures g.q[i] == f.q[i] && g.q[i].id != id
    {
      assert q[i] == q[..|f.q|][i];
    }
    forall i | g.size < i < |g.q|
      ensures g.q[i].Empty?
    {
      if i < |f.q| {
        assert q[i] == q[..|f.q|][i];
      }
    }
    assert g.q[0] == q[..|f.q|][0];
  }

  /** The new last timeout is the only one out of order. */
  lemma PlaceOrder(f: Factory, id: NodeId, time: int64, target: nat, rest: seq<NodeId>)
    requires Heap(f) && Unqueued(f, id)
    ensures var g := Place(f, id, time, target, rest);
            HeapExcept(g, g.size) && KidsOrdered(g, g.size)
  {
    PlaceShape(f, id, time, target, rest);
  }

  lemma PlaceContents(f: Factory, id: NodeId, time: int64, target: nat, rest: seq<NodeId>)
    requires Shape(f) && Unqueued(f, id)
    ensures Contents(Place(f, id, time, target, rest)) == Contents(f) + multiset{Full(id, time, target)}
  {
    var g := Place(f, id, time, target, rest);
    PlaceShape(f, id, time, target, rest);
    AppendedLast(f, g);
  }

  /** A factory that agrees with `f` on its queued slots and queues one slot
      more queues what `f` queues and that slot's timeout. */
  lemma AppendedLast(f: Factory, g: Factory)
    requires f.size < |f.q| && g.size == f.size + 1 && g.size < |g.q|
    requires forall i | 1 <= i <= f.size :: g.q[i] == f.q[i]
    ensures Contents(g) == Contents(f) + multiset{g.q[g.size]}
  {
    var n := f.size + 1;
    assert g.q[1..n] == f.q[1..n];
    assert g.q[1..n + 1] == g.q[1..n] + [g.q[n]];
  }

  lemma PlaceRegistered(f: Factory, id: NodeId, time: int64, target: nat, rest: seq<NodeId>)
    requires Shape(f) && Unqueued(f, id) && RegisteredBut(f, {})
    ensures RegisteredBut(Place(f, id, time, target, rest), {})
  {
    PlaceShape(f, id, time, target, rest);
  }

  lemma PlaceFree(f: Factory, id: NodeId, time: int64, target: nat, rest: seq<NodeId>)
    requires FreeListOk(f) && f.size < |f.q|
    requires if |f.freeList| > 0 then id == f.freeList[0] && rest == f.freeList[1..] else rest == []
    ensures FreeListOk(Place(f, id, time, target, rest))
  {
    var g := Place(f, id, time, target, rest);
    forall k | 0 <= k < |rest|
      ensures rest[k] in g.index && g.index[rest[k]] == DONE
    {
      assert rest[k] == f.freeList[k + 1];
    }
    forall k, l | 0 <= k < l < |rest|
      ensures rest[k] != rest[l]
    {
      assert rest[k] == f.freeList[k + 1] && rest[l] == f.freeList[l + 1];
    }
  }

  /** The queued timeout whose identity is new to the heap is the one added. */
  lemma SlotOfNew(f: Factory, r: Factory, x: Slot, j: nat)
    requires Shape(f) && Shape(r) && x.Full?
    requires Contents(r) == Contents(f) + multiset{x}
    requires forall i | 1 <= i <= f.size :: f.q[i].id != x.id
    requires 1 <= j <= r.size && r.q[j].id == x.id
    ensures r.q[j] == x
  {
    var y := r.q[j];
    assert y == r.q[1..r.size + 1][j - 1];
    assert y in Contents(r);
    forall z | z in Contents(f)
      ensures z.id != x.id
    {
      var i :| 0 <= i < f.size && f.q[1..f.size + 1][i] == z;
      assert f.q[i + 1] == z;
    }
  }

  /** `newTimeout(time, target)`: queues a timeout, reusing the head of the
      free list when there is one and the timeout `newId` otherwise. */
  method NewTimeout(f: Factory, time: int64, target: nat, newId: NodeId) returns (r: Factory, id: NodeId)
    requires Valid(f) && newId !in f.index
    ensures Valid(r) && r.size == f.size + 1 && r.cancelled == f.cancelled
    ensures |r.q| == (if f.size + 1 == |f.q| then 2 * |f.q| else |f.q|)
    ensures Contents(r) == Contents(f) + multiset{Full(id, time, target)}
    ensures |f.freeList| > 0 ==> id == f.freeList[0] && r.freeList == f.freeList[1..]
    ensures |f.freeList| == 0 ==> id == newId && r.freeList == []
    ensures id in r.index && 1 <= r.index[id] <= r.size && r.q[r.index[id]] == Full(id, time, target)
    ensures forall x | x in f.index && x != id :: x in r.index && (f.index[x] <= 0 ==> r.index[x] == f.index[x])
  {
    var rest: seq<NodeId>;
    if |f.freeList| > 0 {
      id := f.freeList[0];
      rest := f.freeList[1..];
    } else {
      id := newId;
      rest := [];
    }
    var g := Place(f, id, time, target, rest);
    PlaceShape(f, id, time, target, rest);
    PlaceOrder(f, id, time, target, rest);
    PlaceContents(f, id, time, target, rest);
    PlaceRegistered(f, id, time, target, rest);
    PlaceFree(f, id, time, target, rest);
    var moved;
    r, moved := NormalizeUp(g, g.size, {});
    if !moved {
      HeapRestored(g, g.size);
    }
    assert g.index[id] > 0;
    SlotOfNew(f, r, Full(id, time, target), r.index[id]);
  }

  // ---------------------------------------------------------------- the API

  /** `schedule(time, target)`: refuses a cancelled factory, a time that is
      not positive and a null target; otherwise queues a new timeout. */
  method Schedule(f: Factory, time: int64, target: Option<nat>, newId: NodeId) returns (res: Result<(Factory, NodeId)>)
    requires Valid(f) && newId !in f.index
    ensures res.Err? <==> f.cancelled || time <= 0 || target.None?
    ensures res.Err? ==> res.error == (if f.cancelled then IllegalState else IllegalArgument)
    ensures res.Ok? ==> var (r, id) := res.value;
                        && Valid(r) && r.size == f.size + 1
                        && Contents(r) == Contents(f) + multiset{Full(id, time, target.value)}
                        && id in r.index && 1 <= r.index[id] <= r.size
                        && r.q[r.index[id]] == Full(id, time, target.value)
  {
    if f.cancelled {
      return Err(IllegalState);
    }
    if time <= 0 {
      return Err(IllegalArgument);
    }
    if target.None? {
      return Err(IllegalArgument);
    }
    var r, id := NewTimeout(f, time, target.value, newId);
    return Ok((r, id));
  }

  /** `cancel()`: marks the factory cancelled; the queue stays as it is for
      the worker to clean up. */
  function Cancel(f: Factory): (r: Factory)
    ensures r.cancelled && r.q == f.q && r.size == f.size && r.index == f.index && r.freeList == f.freeList
    ensures Valid(f) ==> Valid(r)
  {
    f.(cancelled := true)
  }

  /** `dropTimeout(timeout)` (what `Timeout.cancel()` calls): takes a queued
      timeout off the heap, marks it done and pushes it on the free list;
      answers false, changing nothing, for a timeout that is done or
      firing. */
  method DropTimeout(f: Factory, id: NodeId) returns (r: Factory, dropped: bool)
    requires Valid(f) && id in f.index
    ensures dropped <==> f.index[id] > 0
    ensures !dropped ==> r == f
    ensures dropped ==> && f.q[f.index[id]].Full? && f.q[f.index[id]].id == id
                        && Valid(r) && r.size == f.size - 1
                        && Contents(r) == Contents(f) - multiset{f.q[f.index[id]]}
                        && id in r.index && r.index[id] == DONE && r.freeList == [id] + f.freeList
                        && r.cancelled == f.cancelled
  {
    if f.index[id] <= 0 {
      return f, false;
    }
    var g, res := RemoveNode(f, f.index[id]);
    r := Freed(g, id);
    DropKeeps(f, g, res);
    dropped := true;
  }

  /** The removed timeout `id` marked done and pushed on the free list. */
  function Freed(g: Factory, id: NodeId): (r: Factory)
    ensures r.q == g.q && r.size == g.size && r.cancelled == g.cancelled
    ensures r.index == g.index[id := DONE] && r.freeList == [id] + g.freeList
  {
    g.(index := g.index[id := DONE], freeList := [id] + g.freeList)
  }

  /** Marking the removed timeout done and freeing it keeps every invariant,
      and leaves the other timeouts queued. */
  lemma DropKeeps(f: Factory, g: Factory, res: Slot)
    requires Valid(f) && res.Full? && Heap(g) && RemovedFrom(f, g, res)
    ensures var r := Freed(g, res.id);
            && Valid(r) && r.size == f.size - 1
            && Contents(r) == Contents(f) - multiset{res}
            && res.id in r.index && r.index[res.id] == DONE && r.freeList == [res.id] + f.freeList
            && r.cancelled == f.cancelled
  {
    FreedHeap(g, res.id);
    FreedRegistered(g, res.id);
    FreedFree(g, res.id);
    FreedContents(g, res.id);
  }

  /** A timeout whose index lies past the end of the heap can be marked done
      without disturbing the heap. */
  lemma FreedHeap(g: Factory, id: NodeId)
    requires Heap(g) && id in g.index && g.index[id] > g.size
    ensures Heap(Freed(g, id))
  {
    var r := Freed(g, id);
    forall i | 1 <= i <= g.size
      ensures g.q[i].id != id && r.index[r.q[i].id] == i
    {
    }
  }

  lemma FreedRegistered(g: Factory, id: NodeId)
    requires RegisteredBut(g, {id})
    ensures RegisteredBut(Freed(g, id), {})
  {
  }

  lemma FreedFree(g: Factory, id: NodeId)
    requires FreeListOk(g) && id in g.index && g.index[id] > 0
    ensures FreeListOk(Freed(g, id))
  {
    var r := Freed(g, id);
    forall k | 0 <= k < |g.freeList|
      ensures g.freeList[k] != id && r.freeList[k + 1] == g.freeList[k]
    {
    }
  }

  lemma FreedContents(g: Factory, id: NodeId)
    requires g.size < |g.q|
    ensures Contents(Freed(g, id)) == Contents(g)
  {
  }

  /** Scheduling a timeout and dropping it again leaves the same timeouts
      queued. */
  method ScheduleThenDrop(f: Factory, time: int64, target: nat, newId: NodeId) returns (r: Factory)
    requires Valid(f) && newId !in f.index && !f.cancelled && time > 0
    ensures Valid(r) && r.size == f.size && Contents(r) == Contents(f)
  {
    var s := Schedule(f, time, Some(target), newId);
    var (g, id) := s.value;
    var dropped;
    r, dropped := DropTimeout(g, id);
    var x := Full(id, time, target);
    assert Contents(r) == Contents(f) + multiset{x} - multiset{x};
    AddThenRemove(Contents(f), x);
  }

  lemma AddThenRemove<T>(m: multiset<T>, x: T)
    ensures m + multiset{x} - multiset{x} == m
  {
  }
}

=== FILE: uid.dfy ===
/** A unique identifier made of a creation time and a counter value, and
    the factory that numbers identifiers with its own counter.

    The clock and the counter are inputs: the constructor that reads the
    system time and the shared counter takes both as arguments.  Which Java
    class an identifier is an instance of matters to `equals`, so it is a
    field of the value.
 */
module Uid {
  import opened Wrappers
  import opened JavaNum

  /** The runtime class of an identifier: `UID` itself or a subclass. */
  type ClassTag = nat

  const UID_CLASS: ClassTag := 0

  /** `Character.MAX_RADIX`. */
  const RADIX: nat := 36

  datatype Uid = Uid(cls: ClassTag, time: int64, id: int64)

  /** `UID()` and `UID(time, id)`: the shared counter's increment is the
      identity part. */
  function NewUid(time: int64, counterValue: int64): (r: Uid)
    ensures GetTime(r) == time && GetId(r) == counterValue && r.cls == UID_CLASS
  {
    Uid(UID_CLASS, time, counterValue)
  }

  /** `UID(uid)`: a copy. */
  function CopyUid(u: Uid): (r: Uid)
    ensures Equals(r, Some(u)) && Equals(u, Some(r))
    ensures GetTime(r) == GetTime(u) && GetId(r) == GetId(u)
  {
    Uid(u.cls, u.time, u.id)
  }

  function GetTime(u: Uid): int64 { u.time }

  function GetId(u: Uid): int64 { u.id }

  // ---------------------------------------------------------------- base 36

  /** The digit character of a value below 36. */
  function DigitChar(d: nat): (c: char)
    requires d < RADIX
    ensures DigitValue(c) == d
  {
    if d < 10 then ('0' as int + d) as char else ('a' as int + d - 10) as char
  }

  /** The value of a digit character, or -1. */
  function DigitValue(c: char): int {
    if '0' <= c <= '9' then c as int - '0' as int
    else if 'a' <= c <= 'z' then c as int - 'a' as int + 10
    else -1
  }

  predicate IsDigit(c: char) {
    DigitValue(c) >= 0
  }

  /** The base-36 digits of `n`, most significant first, without leading
      zeros. */
  function Digits(n: nat): (r: string)
    decreases n
    ensures |r| > 0 && forall i | 0 <= i < |r| :: IsDigit(r[i])
  {
    if n < RADIX then [DigitChar(n)] else Digits(n / RADIX) + [DigitChar(n % RADIX)]
  }

  /** The number a string of digits spells. */
  function DigitsValue(s: string): nat
    requires forall i | 0 <= i < |s| :: IsDigit(s[i])
    decreases |s|
  {
    if |s| == 0 then 0
    else
      assert IsDigit(s[|s| - 1]);
      DigitsValue(s[..|s| - 1]) * RADIX + DigitValue(s[|s| - 1])
  }

  /** `Long.toString(x, 36)`: a minus sign for a negative value, then the
      digits of the magnitude. */
  function LongToString(x: int64): (r: string)
    ensures |r| > 0
    ensures forall i | 0 < i < |r| :: IsDigit(r[i])
    ensures r[0] == '-' <==> x < 0
    ensures x >= 0 ==> IsDigit(r[0])
  {
    if x < 0 then "-" + Digits(-(x as int)) else Digits(x)
  }

  /** `Long.parseLong(s, 36)` over the unbounded integers. */
  function ParseLong(s: string): (r: Result<int>)
  {
    if |s| > 0 && s[0] == '-' then
      if |s| > 1 && forall i | 1 <= i < |s| :: IsDigit(s[i]) then Ok(-(DigitsValue(s[1..]) as int)) else Err(IllegalArgument)
    else if |s| > 0 && forall i | 0 <= i < |s| :: IsDigit(s[i]) then Ok(DigitsValue(s))
    else Err(IllegalArgument)
  }

  /** Reading the digits back gives the number. */
  lemma {:induction false} DigitsRoundTrip(n: nat)
    ensures DigitsValue(Digits(n)) == n
    decreases n
  {
    if n >= RADIX {
      var d := Digits(n);
      DigitsRoundTrip(n / RADIX);
      assert d[..|d| - 1] == Digits(n / RADIX);
    }
  }

  lemma LongRoundTrip(x: int64)
    ensures ParseLong(LongToString(x)) == Ok(x as int)
  {
    if x < 0 {
      DigitsRoundTrip(-(x as int));
      assert LongToString(x)[1..] == Digits(-(x as int));
    } else {
      DigitsRoundTrip(x);
    }
  }

  // ---------------------------------------------------------------- text form

  /** `toString()`: time and id in base 36, joined by a dash. */
  function ToString(u: Uid): (r: string)
    ensures |r| >= 3 && FirstDashFrom(r, 1) == |LongToString(u.time)| < |r|
  {
    var t := LongToString(u.time);
    DashAfterLong(t, LongToString(u.id));
    t + "-" + LongToString(u.id)
  }

  /** The position of the first dash at or after `i`, or the length. */
  function FirstDashFrom(s: string, i: nat): (r: nat)
    requires i <= |s|
    decreases |s| - i
    ensures i <= r <= |s|
    ensures r < |s| ==> s[r] == '-'
    ensures forall k | i <= k < r :: s[k] != '-'
  {
    if i == |s| || s[i] == '-' then i else FirstDashFrom(s, i + 1)
  }

  /** A text form read back into its time and id.  The time may begin with
      a minus sign, so the separator is the first dash after the first
      character. */
  function ParseUid(s: string): (r: Result<(int, int)>)
  {
    if |s| == 0 then Err(IllegalArgument)
    else
      var dash := FirstDashFrom(s, 1);
      if dash == |s| then Err(IllegalArgument)
      else
        var time :- ParseLong(s[..dash]);
        var id :- ParseLong(s[dash + 1..]);
        Ok((time, id))
  }

  /** In `t + "-" + rest`, the separator is the first dash after the first
      character. */
  lemma DashAfterLong(t: string, rest: string)
    requires |t| > 0 && forall i | 0 < i < |t| :: IsDigit(t[i])
    ensures FirstDashFrom(t + "-" + rest, 1) == |t|
  {
    var s := t + "-" + rest;
    DashSearch(s, 1, |t|);
  }

  lemma {:induction false} DashSearch(s: string, i: nat, j: nat)
    requires i <= j < |s| && s[j] == '-'
    requires forall k | i <= k < j :: IsDigit(s[k])
    ensures FirstDashFrom(s, i) == j
    decreases j - i
  {
    if i < j {
      assert IsDigit(s[i]);
      DashSearch(s, i + 1, j);
    }
  }

  /** The text form determines the time and the id. */
  lemma ToStringRoundTrip(u: Uid)
    ensures ParseUid(ToString(u)) == Ok((u.time as int, u.id as int))
  {
    var t := LongToString(u.time);
    var d := LongToString(u.id);
    var s := t + "-" + d;
    DashAfterLong(t, d);
    assert s[..|t|] == t && s[|t| + 1..] == d;
    LongRoundTrip(u.time);
    LongRoundTrip(u.id);
  }

  // ---------------------------------------------------------------- identity

  /** `hashCode()`: the upper 32 bits of `time ^ id`. */
  function HashCode(u: Uid): (r: int32)
    ensures u.time == u.id ==> r == 0
  {
    HighXor64(u.time, u.id)
  }

  /** `equals(obj)`: an identifier of the same class with the same time and
      id; null and other objects are unequal. */
  predicate Equals(u: Uid, obj: Option<Uid>) {
    obj.Some? && obj.value.cls == u.cls && obj.value.time == u.time && obj.value.id == u.id
  }

  /** Equality is an equivalence, agrees with the text form and the class,
      and equal identifiers hash alike. */
  lemma EqualsMeaning(u: Uid, v: Uid, w: Uid)
    ensures Equals(u, Some(u))
    ensures Equals(u, Some(v)) <==> Equals(v, Some(u))
    ensures Equals(u, Some(v)) && Equals(v, Some(w)) ==> Equals(u, Some(w))
    ensures Equals(u, Some(v)) ==> HashCode(u) == HashCode(v)
    ensures Equals(u, Some(v)) <==> u.cls == v.cls && ToString(u) == ToString(v)
    ensures !Equals(u, None)
  {
    if u.cls == v.cls && ToString(u) == ToString(v) {
      ToStringRoundTrip(u);
      ToStringRoundTrip(v);
    }
  }

  // ---------------------------------------------------------------- factory

  /** `UID.Factory`: its own counter, starting at zero. */
  datatype UidFactory = UidFactory(counter: int64)

  function NewFactory(): (f: UidFactory)
    ensures f.counter == 0
  {
    UidFactory(0)
  }

  /** `create()`: the counter's increment, wrapping as a `long` does, is the
      identity part of a new identifier stamped with `now`. */
  function Create(f: UidFactory, now: int64): (r: (Uid, UidFactory))
    ensures r.0.cls == UID_CLASS && r.0.time == now
    ensures r.0.id == r.1.counter
    ensures f.counter < TWO_63 - 1 ==> r.1.counter == f.counter + 1
    ensures f.counter == TWO_63 - 1 ==> r.1.counter == -TWO_63
  {
    var next := Wrap64(f.counter as int + 1);
    (NewUid(now, next), UidFactory(next))
  }

  /** The ids `n` successive calls hand out. */
  function CreateMany(f: UidFactory, times: seq<int64>): (r: (seq<Uid>, UidFactory))
    decreases |times|
    ensures |r.0| == |times|
  {
    if |times| == 0 then ([], f)
    else
      var (u, f1) := Create(f, times[0]);
      var (us, f2) := CreateMany(f1, times[1..]);
      ([u] + us, f2)
  }

  /** Short of overflow, successive calls of one factory number their
      identifiers 1, 2, 3, ... after its counter, so no two are equal. */
  lemma {:induction false} CreateNumbers(f: UidFactory, times: seq<int64>)
    requires 0 <= f.counter && f.counter + |times| < TWO_63
    ensures var (us, f') := CreateMany(f, times);
            && f'.counter == f.counter + |times|
            && (forall k | 0 <= k < |us| :: us[k].id == f.counter + k + 1 && us[k].time == times[k])
            && (forall j, k | 0 <= j < k < |us| :: !Equals(us[j], Some(us[k])))
    decreases |times|
  {
    if |times| > 0 {
      var (u, f1) := Create(f, times[0]);
      CreateNumbers(f1, times[1..]);
    }
  }
}

=== FILE: value_list.dfy ===
/** The initializer of value lists, which collect the constructor arguments
    of an immutable object while its element is read.

    Every required attribute or element is registered once, in order, and
    receives the next free index of the required-binding list; its name's
    hash is added to a checksum.  A value list counts as initialized when
    nothing is required or when its own state matches the checksum.

    The value list itself is outside the model: its state is an argument,
    and the initializer's effect on it is the call it makes.
 */
module ValueList {
  import opened Wrappers
  import CM = ContentModel
  import opened JavaNum

  /** A binding object of the schema, by identity. */
  datatype Binding = AttributeBinding(attr: nat) | ElementBinding(elem: nat)

  /** The value of an attribute or element. */
  type Value = nat

  datatype Initializer = Initializer(
    initializedState: int32,
    attrIndex: map<CM.QName, nat>,
    elemIndex: map<CM.QName, nat>,
    requiredBindings: seq<Binding>)

  function NewInitializer(): (r: Initializer)
    ensures r.requiredBindings == [] && r.attrIndex == map[] && r.elemIndex == map[]
  {
    Initializer(0, map[], map[], [])
  }

  /** `QName.hashCode()`: the exclusive or of the namespace's and the local
      part's string hashes. */
  function QNameHash(q: CM.QName): int32 {
    Xor32(StringHash(q.ns), StringHash(q.local))
  }

  /** Every registered name points into the required-binding list, at a
      binding of its own kind. */
  ghost predicate Indexed(v: Initializer) {
    && (forall q | q in v.attrIndex ::
          v.attrIndex[q] < |v.requiredBindings| && v.requiredBindings[v.attrIndex[q]].AttributeBinding?)
    && (forall q | q in v.elemIndex ::
          v.elemIndex[q] < |v.requiredBindings| && v.requiredBindings[v.elemIndex[q]].ElementBinding?)
  }

  /** `addRequiredAttribute(qName, binding)`: the name gets the next index. */
  function AddRequiredAttribute(v: Initializer, q: CM.QName, attr: nat): (r: Initializer)
    ensures r.attrIndex == v.attrIndex[q := |v.requiredBindings|] && r.elemIndex == v.elemIndex
    ensures r.requiredBindings == v.requiredBindings + [AttributeBinding(attr)]
    ensures r.initializedState == Wrap32(v.initializedState + Abs32(QNameHash(q)))
    ensures Indexed(v) ==> Indexed(r)
  {
    Initializer(
      Wrap32(v.initializedState + Abs32(QNameHash(q))),
      v.attrIndex[q := |v.requiredBindings|],
      v.elemIndex,
      v.requiredBindings + [AttributeBinding(attr)])
  }

  /** `addRequiredElement(qName, binding)`: the name gets the next index. */
  function AddRequiredElement(v: Initializer, q: CM.QName, elem: nat): (r: Initializer)
    ensures r.elemIndex == v.elemIndex[q := |v.requiredBindings|] && r.attrIndex == v.attrIndex
    ensures r.requiredBindings == v.requiredBindings + [ElementBinding(elem)]
    ensures r.initializedState == Wrap32(v.initializedState + Abs32(QNameHash(q)))
    ensures Indexed(v) ==> Indexed(r)
  {
    Initializer(
      Wrap32(v.initializedState + Abs32(QNameHash(q))),
      v.attrIndex,
      v.elemIndex[q := |v.requiredBindings|],
      v.requiredBindings + [ElementBinding(elem)])
  }

  /** Registering distinct element names one by one numbers them densely, in
      order. */
  function AddRequiredElements(v: Initializer, qs: seq<CM.QName>, elems: seq<nat>): Initializer
    requires |qs| == |elems|
    decreases |qs|
  {
    if |qs| == 0 then v else AddRequiredElements(AddRequiredElement(v, qs[0], elems[0]), qs[1..], elems[1..])
  }

  lemma DenseIndices(v: Initializer, qs: seq<CM.QName>, elems: seq<nat>)
    requires |qs| == |elems| && Distinct(qs)
    ensures var r := AddRequiredElements(v, qs, elems);
            && |r.requiredBindings| == |v.requiredBindings| + |qs|
            && r.requiredBindings[..|v.requiredBindings|] == v.requiredBindings
            && (forall i | 0 <= i < |qs| :: qs[i] in r.elemIndex && r.elemIndex[qs[i]] == |v.requiredBindings| + i)
            && (forall i | 0 <= i < |qs| :: r.requiredBindings[|v.requiredBindings| + i] == ElementBinding(elems[i]))
  {
    var r := AddRequiredElements(v, qs, elems);
    BindingsAppended(v, qs, elems);
    forall i | 0 <= i < |qs|
      ensures qs[i] in r.elemIndex && r.elemIndex[qs[i]] == |v.requiredBindings| + i
    {
      DenseAt(v, qs, elems, i);
    }
  }

  /** No name occurs twice. */
  ghost predicate Distinct(qs: seq<CM.QName>) {
    forall i, j | 0 <= i < j < |qs| :: qs[i] != qs[j]
  }

  /** An element binding for each of `elems`, in order. */
  function ElementBindings(elems: seq<nat>): (r: seq<Binding>)
    ensures |r| == |elems| && forall k | 0 <= k < |elems| :: r[k] == ElementBinding(elems[k])
  {
    seq(|elems|, k requires 0 <= k < |elems| => ElementBinding(elems[k]))
  }

  /** The required bindings grow by the registered elements' bindings. */
  lemma {:induction false} BindingsAppended(v: Initializer, qs: seq<CM.QName>, elems: seq<nat>)
    requires |qs| == |elems|
    ensures AddRequiredElements(v, qs, elems).requiredBindings == v.requiredBindings + ElementBindings(elems)
    decreases |qs|
  {
    if |qs| == 0 {
      assert ElementBindings(elems) == [];
    } else {
      var v1 := AddRequiredElement(v, qs[0], elems[0]);
      BindingsAppended(v1, qs[1..], elems[1..]);
      ConsBindings(elems);
      AppendAssoc(v.requiredBindings, ElementBinding(elems[0]), ElementBindings(elems[1..]));
    }
  }

  lemma ConsBindings(elems: seq<nat>)
    requires |elems| > 0
    ensures [ElementBinding(elems[0])] + ElementBindings(elems[1..]) == ElementBindings(elems)
  {
  }

  lemma AppendAssoc<T>(a: seq<T>, x: T, b: seq<T>)
    ensures a + [x] + b == a + ([x] + b)
  {
  }

  /** The `i`th distinct name registered gets the `i`th new index. */
  lemma {:induction false} DenseAt(v: Initializer, qs: seq<CM.QName>, elems: seq<nat>, i: nat)
    requires |qs| == |elems| && Distinct(qs) && i < |qs|
    ensures var r := AddRequiredElements(v, qs, elems);
            qs[i] in r.elemIndex && r.elemIndex[qs[i]] == |v.requiredBindings| + i
    decreases |qs|
  {
    var v1 := AddRequiredElement(v, qs[0], elems[0]);
    if i == 0 {
      forall k | 0 <= k < |qs| - 1
        ensures qs[1..][k] != qs[0]
      {
        assert qs[1..][k] == qs[k + 1];
      }
      RegisteredStays(v1, qs[1..], elems[1..], qs[0]);
    } else {
      assert Distinct(qs[1..]) by {
        forall a, b | 0 <= a < b < |qs| - 1
          ensures qs[1..][a] != qs[1..][b]
        {
          assert qs[1..][a] == qs[a + 1] && qs[1..][b] == qs[b + 1];
        }
      }
      DenseAt(v1, qs[1..], elems[1..], i - 1);
      assert qs[1..][i - 1] == qs[i];
    }
  }

  /** A name that is not registered again keeps its index. */
  lemma {:induction false} RegisteredStays(v: Initializer, qs: seq<CM.QName>, elems: seq<nat>, q: CM.QName)
    requires |qs| == |elems| && q in v.elemIndex
    requires forall k | 0 <= k < |qs| :: qs[k] != q
    decreases |qs|
    ensures var r := AddRequiredElements(v, qs, elems);
            q in r.elemIndex && r.elemIndex[q] == v.elemIndex[q]
  {
    if |qs| > 0 {
      RegisteredStays(AddRequiredElement(v, qs[0], elems[0]), qs[1..], elems[1..], q);
    }
  }

  /** The calls the initializer makes on a value list. */
  datatype ValueListCall =
    | SetNonRequiredValue(name: CM.QName, binding: Binding, value: Value)
    | SetRequiredValue(index: nat, hash: int32, value: Value)

  /** `isInitialized(valueList)`, for a value list in state `listState`. */
  predicate IsInitialized(v: Initializer, listState: int32) {
    |v.requiredBindings| == 0 || v.initializedState == listState
  }

  /** A list that requires nothing is initialized whatever its state. */
  lemma NothingRequiredIsInitialized(listState: int32)
    ensures IsInitialized(NewInitializer(), listState)
  {
  }

  /** The value of a name in `index`: to the non-required store when the
      name has no index, else to its required slot unless the list is
      already initialized. */
  function AddValue(v: Initializer, index: map<CM.QName, nat>, q: CM.QName, b: Binding, listState: int32,
                    x: Value): (r: Result<ValueListCall>)
    ensures q !in index ==> r == Ok(SetNonRequiredValue(q, b, x))
    ensures q in index ==> (r.Err? <==> IsInitialized(v, listState))
    ensures r.Err? ==> r.error == Binding
    ensures q in index && r.Ok? ==> r.value == SetRequiredValue(index[q], QNameHash(q), x)
  {
    if q !in index then Ok(SetNonRequiredValue(q, b, x))
    else if IsInitialized(v, listState) then Err(Binding)
    else Ok(SetRequiredValue(index[q], QNameHash(q), x))
  }

  /** `addAttributeValue(qName, binding, valueList, value)`. */
  function AddAttributeValue(v: Initializer, q: CM.QName, attr: nat, listState: int32, x: Value): (r: Result<ValueListCall>)
    ensures q !in v.attrIndex ==> r == Ok(SetNonRequiredValue(q, AttributeBinding(attr), x))
    ensures q in v.attrIndex ==> (r.Err? <==> IsInitialized(v, listState))
    ensures Indexed(v) && r.Ok? && r.value.SetRequiredValue? ==>
      r.value.index < |v.requiredBindings| && v.requiredBindings[r.value.index].AttributeBinding?
  {
    AddValue(v, v.attrIndex, q, AttributeBinding(attr), listState, x)
  }

  /** `addElementValue(qName, binding, valueList, value)`. */
  function AddElementValue(v: Initializer, q: CM.QName, elem: nat, listState: int32, x: Value): (r: Result<ValueListCall>)
    ensures q !in v.elemIndex ==> r == Ok(SetNonRequiredValue(q, ElementBinding(elem), x))
    ensures q in v.elemIndex ==> (r.Err? <==> IsInitialized(v, listState))
    ensures Indexed(v) && r.Ok? && r.value.SetRequiredValue? ==>
      r.value.index < |v.requiredBindings| && v.requiredBindings[r.value.index].ElementBinding?
  {
    AddValue(v, v.elemIndex, q, ElementBinding(elem), listState, x)
  }

  /** Where a getter reads: the non-required store by name, or a required
      slot by index. */
  datatype Slot = NonRequiredSlot(name: CM.QName) | RequiredSlot(index: nat)

  function Lookup(index: map<CM.QName, nat>, q: CM.QName): (r: Slot)
    ensures r.RequiredSlot? <==> q in index
    ensures r.RequiredSlot? ==> r.index == index[q]
    ensures r.NonRequiredSlot? ==> r.name == q
  {
    if q in index then RequiredSlot(index[q]) else NonRequiredSlot(q)
  }

  /** `getAttributeValue(qName, valueList)`. */
  function GetAttributeValue(v: Initializer, q: CM.QName): (r: Slot)
    ensures r == Lookup(v.attrIndex, q)
    ensures Indexed(v) && r.RequiredSlot? ==> r.index < |v.requiredBindings|
  {
    Lookup(v.attrIndex, q)
  }

  /** `getElementValue(qName, valueList)`. */
  function GetElementValue(v: Initializer, q: CM.QName): (r: Slot)
    ensures r == Lookup(v.elemIndex, q)
    ensures Indexed(v) && r.RequiredSlot? ==> r.index < |v.requiredBindings|
  {
    Lookup(v.elemIndex, q)
  }

  /** A value goes to the slot its getter reads: the required slot of the
      name's index, or the name's non-required entry. */
  lemma SetAndGetAgree(v: Initializer, q: CM.QName, elem: nat, listState: int32, x: Value)
    ensures var r := AddElementValue(v, q, elem, listState, x);
            var s := GetElementValue(v, q);
            r.Ok? ==> (r.value.SetRequiredValue? <==> s.RequiredSlot?)
                      && (s.RequiredSlot? ==> r.value.index == s.index)
                      && (s.NonRequiredSlot? ==> r.value.name == s.name)
  {
  }
}

=== FILE: wrappers.dfy ===
/** Failure-carrying values shared by every module of the model.

    The modelled code reports failure by throwing Java exceptions; each
    operation that can throw returns a `Result` whose `Err` case names the
    exception class that the code would raise.
 */
module Wrappers {

  datatype Option<+T> = None | Some(value: T) {
    function GetOr(default: T): T {
      match this
      case Some(v) => v
      case None => default
    }
  }

  /** The Java exception classes that the modelled code throws. */
  datatype Exc =
    | IllegalState            // java.lang.IllegalStateException
    | IllegalArgument         // java.lang.IllegalArgumentException
    | NullArgument            // org.jboss.util.NullArgumentException
    | NullPointer             // java.lang.NullPointerException
    | NoSuchElement           // java.util.NoSuchElementException
    | IndexOutOfBounds        // StringIndexOutOfBounds / ArrayIndexOutOfBounds
    | ClassCast               // java.lang.ClassCastException
    | Binding                 // org.jboss.xb.binding.JBossXBRuntimeException
    | Checked                 // java.lang.Exception (XmlHelper)
    | Runtime                 // java.lang.RuntimeException
    | StackOverflow           // unbounded recursion

  datatype Result<+T> = Ok(value: T) | Err(error: Exc) {
    predicate IsFailure() {
      Err?
    }

    function PropagateFailure<U>(): Result<U>
      requires Err?
    {
      Err(error)
    }

    function Extract(): T
      requires Ok?
    {
      value
    }
  }
}

=== FILE: xml_helper.dfy ===
/** Helpers over DOM elements: the direct children with a tag name, the
    unique or optional such child, and the text content of an element.

    A DOM node is a value here; only the kinds of node the helpers tell
    apart are distinguished.
 */
module XmlHelper {
  import opened Wrappers
  import Text

  datatype Node =
    | ElementNode(e: Element)
    | TextNode(value: string)
    | CDataNode(value: string)
    | CommentNode(value: string)
    | OtherNode(value: string)

  datatype Element = Element(tagName: string, children: seq<Node>)

  /** Whether `n` is an element child with the tag `tag`. */
  predicate IsTagged(n: Node, tag: string) {
    n.ElementNode? && n.e.tagName == tag
  }

  /** The elements among `ns` with the tag `tag`, in document order. */
  function Tagged(ns: seq<Node>, tag: string): (r: seq<Element>)
    decreases |ns|
    ensures |r| <= |ns|
    ensures forall k | 0 <= k < |r| :: r[k].tagName == tag && ElementNode(r[k]) in ns
    ensures forall k | 0 <= k < |ns| && IsTagged(ns[k], tag) :: ns[k].e in r
  {
    if |ns| == 0 then []
    else if IsTagged(ns[0], tag) then [ns[0].e] + Tagged(ns[1..], tag)
    else Tagged(ns[1..], tag)
  }

  /** Filtering commutes with concatenation, so the order of the children
      is kept. */
  lemma {:induction false} TaggedAppend(xs: seq<Node>, ys: seq<Node>, tag: string)
    ensures Tagged(xs + ys, tag) == Tagged(xs, tag) + Tagged(ys, tag)
    decreases |xs|
  {
    if |xs| > 0 {
      assert (xs + ys)[0] == xs[0] && (xs + ys)[1..] == xs[1..] + ys;
      TaggedAppend(xs[1..], ys, tag);
    } else {
      assert xs + ys == ys;
    }
  }

  /** `getChildrenByTagName(element, tagName)`: null for a null element. */
  function GetChildrenByTagName(element: Option<Element>, tag: string): (r: Option<seq<Element>>)
    ensures r.None? <==> element.None?
    ensures r.Some? ==> r.value == Tagged(element.value.children, tag)
  {
    match element
    case None => None
    case Some(el) => Some(Tagged(el.children, tag))
  }

  /** The matching children of a possibly null element. */
  function Matches(element: Option<Element>, tag: string): seq<Element> {
    GetChildrenByTagName(element, tag).GetOr([])
  }

  /** `getUniqueChild(element, tagName)`: the only matching child; no match
      or a second match throws. */
  function GetUniqueChild(element: Option<Element>, tag: string): (r: Result<Element>)
    ensures r.Ok? <==> |Matches(element, tag)| == 1
    ensures r.Ok? ==> r.value == Matches(element, tag)[0] && r.value.tagName == tag
    ensures r.Err? ==> r.error == Checked
  {
    var m := Matches(element, tag);
    if |m| == 0 then Err(Checked)
    else if |m| > 1 then Err(Checked)
    else Ok(m[0])
  }

  /** `getOptionalChild(element, tagName, defaultElement)`: the only
      matching child, or the default when nothing matches; a second match
      throws. */
  function GetOptionalChild(element: Option<Element>, tag: string, default: Option<Element>): (r: Result<Option<Element>>)
    ensures r.Err? <==> |Matches(element, tag)| > 1
    ensures r.Err? ==> r.error == Checked
    ensures |Matches(element, tag)| == 0 ==> r == Ok(default)
    ensures |Matches(element, tag)| == 1 ==> r == Ok(Some(Matches(element, tag)[0]))
  {
    var m := Matches(element, tag);
    if |m| == 0 then Ok(default)
    else if |m| > 1 then Err(Checked)
    else Ok(Some(m[0]))
  }

  /** The unique and the optional child agree whenever exactly one child
      matches, and the optional one falls back only where the unique one
      fails for lack of a match. */
  lemma UniqueAndOptional(element: Option<Element>, tag: string, default: Option<Element>)
    ensures GetUniqueChild(element, tag).Ok? ==>
              GetOptionalChild(element, tag, default) == Ok(Some(GetUniqueChild(element, tag).value))
    ensures GetUniqueChild(element, tag).Err? ==>
              GetOptionalChild(element, tag, default) in {Ok(default), Err(Checked)}
  {
  }

  /** Whether a node contributes to the content: text and CDATA do. */
  predicate IsText(n: Node) {
    n.TextNode? || n.CDataNode?
  }

  /** The text and CDATA values of `ns`, concatenated in order. */
  function TextOf(ns: seq<Node>): (r: string)
    decreases |ns|
  {
    if |ns| == 0 then ""
    else (if IsText(ns[0]) then ns[0].value else "") + TextOf(ns[1..])
  }

  /** Comments and other nodes add nothing to the content. */
  lemma {:induction false} TextOfAppend(xs: seq<Node>, ys: seq<Node>)
    ensures TextOf(xs + ys) == TextOf(xs) + TextOf(ys)
    decreases |xs|
  {
    if |xs| > 0 {
      assert (xs + ys)[0] == xs[0] && (xs + ys)[1..] == xs[1..] + ys;
      TextOfAppend(xs[1..], ys);
    } else {
      assert xs + ys == ys;
    }
  }

  lemma TextOfIgnores(xs: seq<Node>, n: Node, ys: seq<Node>)
    requires !IsText(n)
    ensures TextOf(xs + [n] + ys) == TextOf(xs + ys)
  {
    TextOfAppend(xs + [n], ys);
    TextOfAppend(xs, [n]);
    TextOfAppend(xs, ys);
    assert TextOf([n]) == "" + TextOf([]);
  }

  /** `getElementContent(element, defaultStr)`: the default for a null
      element, else its text and CDATA, trimmed. */
  function GetElementContent(element: Option<Element>, default: Option<string>): (r: Option<string>)
    ensures element.None? ==> r == default
    ensures element.Some? ==> r == Some(Text.Trim(TextOf(element.value.children)))
  {
    match element
    case None => default
    case Some(el) => Some(Text.Trim(TextOf(el.children)))
  }

  /** The content of an element has no blanks at its ends left to trim. */
  lemma ContentIsTrimmed(el: Element, default: Option<string>)
    ensures var r := GetElementContent(Some(el), default);
            r.Some? && Text.Trim(r.value) == r.value
  {
    Text.TrimIsIdempotent(TextOf(el.children));
  }

  /** A comment or another non-text child, wherever it sits among the
      children, leaves the content of the element as it was. */
  lemma ContentIgnoresNonText(tag: string, xs: seq<Node>, n: Node, ys: seq<Node>, default: Option<string>)
    requires !IsText(n)
    ensures GetElementContent(Some(Element(tag, xs + [n] + ys)), default) ==
            GetElementContent(Some(Element(tag, xs + ys)), default)
  {
    TextOfIgnores(xs, n, ys);
  }

  /** The content of an element is the content of its first children and
      the content of the rest, joined before trimming. */
  lemma ContentOfSplit(tag: string, xs: seq<Node>, ys: seq<Node>, default: Option<string>)
    ensures GetElementContent(Some(Element(tag, xs + ys)), default) ==
            Some(Text.Trim(TextOf(xs) + TextOf(ys)))
  {
    TextOfAppend(xs, ys);
  }

  /** `getUniqueChildContent(element, tagName)`: the trimmed text of the only
      matching child; no match or a second match throws. */
  function GetUniqueChildContent(element: Option<Element>, tag: string): (r: Result<string>)
    ensures r.Ok? <==> |Matches(element, tag)| == 1
    ensures r.Ok? ==> r.value == Text.Trim(TextOf(Matches(element, tag)[0].children))
    ensures r.Err? ==> r.error == Checked
  {
    var child :- GetUniqueChild(element, tag);
    Ok(GetElementContent(Some(child), None).value)
  }

  /** `getOptionalChildContent(element, tagName)`: the trimmed text of the
      optional child, null when there is none; a second match throws. */
  function GetOptionalChildContent(element: Option<Element>, tag: string): (r: Result<Option<string>>)
    ensures r.Err? <==> |Matches(element, tag)| > 1
    ensures r.Ok? ==> (r.value.Some? <==> |Matches(element, tag)| == 1)
    ensures r.Ok? && r.value.Some? ==> r.value.value == Text.Trim(TextOf(Matches(element, tag)[0].children))
  {
    var child :- GetOptionalChild(element, tag, None);
    Ok(GetElementContent(child, None))
  }

  /** `String.toLowerCase` on the letters A to Z. */
  function Lower(s: string): (r: string)
    ensures |r| == |s|
    ensures forall i | 0 <= i < |s| :: r[i] == LowerChar(s[i])
  {
    seq(|s|, i requires 0 <= i < |s| => LowerChar(s[i]))
  }

  function LowerChar(c: char): char {
    if 'A' <= c <= 'Z' then (c as int + 32) as char else c
  }

  /** `getOptionalChildBooleanContent(element, name)`: whether the optional
      child exists and reads "true" or "yes" in any case. */
  function GetOptionalChildBooleanContent(element: Option<Element>, name: string): (r: Result<bool>)
    ensures r.Err? <==> |Matches(element, name)| > 1
    ensures r.Ok? ==> (r.value <==> |Matches(element, name)| == 1 &&
                                     IsYes(Text.Trim(TextOf(Matches(element, name)[0].children))))
  {
    var child :- GetOptionalChild(element, name, None);
    if child.Some? then
      var content := GetElementContent(child, None).value;
      IsYesMeansLowered(content);
      var value := Lower(content);
      Ok(value == "true" || value == "yes")
    else Ok(false)
  }

  /** "true" or "yes", ignoring the case of each letter. */
  predicate IsYes(s: string) {
    CaseBlindEquals(s, "true") || CaseBlindEquals(s, "yes")
  }

  /** `s` spells the lower-case word `w`, each letter in either case. */
  predicate CaseBlindEquals(s: string, w: string) {
    |s| == |w| && forall i | 0 <= i < |s| :: s[i] == w[i] || (s[i] as int) + 32 == w[i] as int
  }

  lemma IsYesMeansLowered(s: string)
    ensures IsYes(s) <==> Lower(s) == "true" || Lower(s) == "yes"
  {
    LowerMatches(s, "true");
    LowerMatches(s, "yes");
  }

  /** Lower-casing equals a lower-case word exactly when the text spells it
      in any case. */
  lemma LowerMatches(s: string, w: string)
    requires forall i | 0 <= i < |w| :: 'a' <= w[i] <= 'z'
    ensures Lower(s) == w <==> CaseBlindEquals(s, w)
  {
    if CaseBlindEquals(s, w) {
      forall i | 0 <= i < |s|
        ensures Lower(s)[i] == w[i]
      {
      }
    }
    if Lower(s) == w {
      forall i | 0 <= i < |s|
        ensures s[i] == w[i] || (s[i] as int) + 32 == w[i] as int
      {
        assert LowerChar(s[i]) == w[i];
      }
    }
  }
}

=== FILE: xs_marshaller.dfy ===
/** The namespace and attribute bookkeeping of the schema-driven marshaller:
    the namespaces declared for the root element, kept by name, and the
    attributes added to it, in order.

    Java's null strings are `None`.  A namespace whose URI is null counts as
    undeclared wherever the source looks a URI up.
 */
module XsMarshaller {
  import opened Wrappers

  /** An entry of the SAX attribute list: URI, local name, qualified name,
      type and value. */
  datatype Attribute = Attribute(
    uri: Option<string>,
    localName: Option<string>,
    qName: string,
    attrType: string,
    value: Option<string>)

  datatype Marshaller = Marshaller(uriByNsName: map<string, Option<string>>, addedAttributes: seq<Attribute>)

  const XMLNS: string := "xmlns"

  function NewMarshaller(): (m: Marshaller)
    ensures m.uriByNsName == map[] && m.addedAttributes == []
  {
    Marshaller(map[], [])
  }

  /** A prefix is given when it is neither null nor empty. */
  predicate NonEmpty(s: Option<string>) {
    s.Some? && |s.value| > 0
  }

  /** The URI declared under `name`, null when there is none. */
  function UriOf(m: Marshaller, name: string): Option<string> {
    if name in m.uriByNsName then m.uriByNsName[name] else None
  }

  /** `getQName(prefix, localName)`: the local name alone without a prefix,
      else prefix, colon, local name. */
  function GetQName(prefix: Option<string>, localName: string): (r: string)
    ensures !NonEmpty(prefix) ==> r == localName
    ensures NonEmpty(prefix) ==> |r| == |prefix.value| + 1 + |localName| && r[|prefix.value|] == ':'
    ensures NonEmpty(prefix) ==> r[..|prefix.value|] == prefix.value && r[|prefix.value| + 1..] == localName
  {
    if !NonEmpty(prefix) then localName else prefix.value + ":" + localName
  }

  /** The prefix and local name of a qualified name: split at its first
      colon, if any. */
  function SplitQName(q: string): (r: (Option<string>, string))
  {
    if ':' in q then
      var i := FirstColon(q, 0);
      (Some(q[..i]), q[i + 1..])
    else (None, q)
  }

  function FirstColon(q: string, i: nat): (r: nat)
    requires i <= |q|
    requires ':' in q[i..]
    decreases |q| - i
    ensures i <= r < |q| && q[r] == ':'
    ensures forall k | i <= k < r :: q[k] != ':'
  {
    if q[i] == ':' then i else
      assert q[i..][1..] == q[i + 1..];
      FirstColon(q, i + 1)
  }

  predicate NoColon(s: string) {
    forall k | 0 <= k < |s| :: s[k] != ':'
  }

  /** A qualified name built from names without colons splits back into
      them; the empty prefix comes back as none. */
  lemma QNameRoundTrip(prefix: Option<string>, localName: string)
    requires prefix.Some? ==> NoColon(prefix.value)
    requires NoColon(localName)
    ensures SplitQName(GetQName(prefix, localName)) == (if NonEmpty(prefix) then prefix else None, localName)
  {
    var q := GetQName(prefix, localName);
    if NonEmpty(prefix) {
      var p := prefix.value;
      assert q[|p|] == ':';
      assert ':' in q;
      ColonAt(q, 0, |p|);
    } else {
      assert q == localName;
    }
  }

  lemma QNameSplitsBack(prefix: Option<string>, localName: string)
    ensures NoColon(localName) && (prefix.Some? ==> NoColon(prefix.value)) ==>
              SplitQName(GetQName(prefix, localName)) == (if NonEmpty(prefix) then prefix else None, localName)
  {
    if NoColon(localName) && (prefix.Some? ==> NoColon(prefix.value)) {
      QNameRoundTrip(prefix, localName);
    }
  }

  lemma {:induction false} ColonAt(q: string, i: nat, j: nat)
    requires i <= j < |q| && q[j] == ':'
    requires forall k | i <= k < j :: q[k] != ':'
    ensures ':' in q[i..] && FirstColon(q, i) == j
    decreases j - i
  {
    assert q[i..][j - i] == ':';
    if i < j {
      ColonAt(q, i + 1, j);
    }
  }

  /** The name a declaration is kept under: the given name, or `xmlns` for
      the default namespace. */
  function DeclaredName(name: Option<string>): (r: string)
    ensures NonEmpty(name) ==> r == name.value
    ensures !NonEmpty(name) ==> r == XMLNS
  {
    if NonEmpty(name) then name.value else XMLNS
  }

  /** `declareNamespace(name, uri)`: records the URI under the name and,
      unless a URI was already recorded there, adds the `xmlns` attribute
      for it. */
  function DeclareNamespace(m: Marshaller, name: Option<string>, uri: Option<string>): (r: Marshaller)
    ensures var key := DeclaredName(name);
            && r.uriByNsName == m.uriByNsName[key := uri]
            && (UriOf(m, key).Some? ==> r.addedAttributes == m.addedAttributes)
            && (UriOf(m, key).None? ==>
                  r.addedAttributes == m.addedAttributes + [Attribute(None, Some(key), GetQName(if NonEmpty(name) then Some(XMLNS) else None, key), "string", uri)])
  {
    var localName := DeclaredName(name);
    var qName := if NonEmpty(name) then GetQName(Some(XMLNS), localName) else localName;
    var prev := UriOf(m, localName);
    var m' := m.(uriByNsName := m.uriByNsName[localName := uri]);
    if prev.None? then m'.(addedAttributes := m.addedAttributes + [Attribute(None, Some(localName), qName, "string", uri)])
    else m'
  }

  /** The `xmlns` attribute of a named declaration is `xmlns:name`, of the
      default one plain `xmlns`. */
  lemma DeclarationQName(m: Marshaller, name: Option<string>, uri: Option<string>)
    requires UriOf(m, DeclaredName(name)).None?
    ensures var a := Last(DeclareNamespace(m, name, uri).addedAttributes);
            && a.value == uri
            && (NonEmpty(name) ==> a.qName == XMLNS + ":" + name.value)
            && (!NonEmpty(name) ==> a.qName == XMLNS)
  {
  }

  function Last(xs: seq<Attribute>): Attribute
    requires |xs| > 0
  {
    xs[|xs| - 1]
  }

  /** Declaring a name again only replaces its URI: no second attribute,
      and the attribute keeps the URI of the first declaration. */
  lemma RedeclareAddsNothing(m: Marshaller, name: Option<string>, uri1: string, uri2: Option<string>)
    ensures var m1 := DeclareNamespace(m, name, Some(uri1));
            var m2 := DeclareNamespace(m1, name, uri2);
            && m2.addedAttributes == m1.addedAttributes
            && UriOf(m2, DeclaredName(name)) == uri2
  {
  }

  /** `addAttribute(prefix, localName, type, value)` as the source writes
      it: the prefix is passed where the attribute's local name belongs. */
  function AddAttributeAsWritten(m: Marshaller, prefix: Option<string>, localName: string, attrType: string, value: Option<string>): (r: Result<Marshaller>)
    ensures r.Err? <==> NonEmpty(prefix) && UriOf(m, prefix.value).None?
    ensures r.Err? ==> r.error == IllegalState
    ensures r.Ok? ==> var a := AddAttribute(m, prefix, localName, attrType, value).value.addedAttributes;
                      r.value.addedAttributes == a[..|a| - 1] + [a[|a| - 1].(localName := prefix)]
  {
    var uri :- LookUpPrefix(m, prefix);
    Ok(m.(addedAttributes := m.addedAttributes + [Attribute(uri, prefix, GetQName(prefix, localName), attrType, value)]))
  }

  /** The URI an attribute prefix stands for: none without a prefix, an
      error for an undeclared one. */
  function LookUpPrefix(m: Marshaller, prefix: Option<string>): (r: Result<Option<string>>)
    ensures r.Err? <==> NonEmpty(prefix) && UriOf(m, prefix.value).None?
    ensures r.Err? ==> r.error == IllegalState
    ensures r.Ok? ==> r.value == if NonEmpty(prefix) then UriOf(m, prefix.value) else None
  {
    if NonEmpty(prefix) then
      var uri := UriOf(m, prefix.value);
      if uri.None? then Err(IllegalState) else Ok(uri)
    else Ok(None)
  }

  /** `addAttribute(prefix, localName, type, value)` with the local name in
      its place: an undeclared prefix throws, no prefix means no URI. */
  function AddAttribute(m: Marshaller, prefix: Option<string>, localName: string, attrType: string, value: Option<string>): (r: Result<Marshaller>)
    ensures r.Err? <==> NonEmpty(prefix) && UriOf(m, prefix.value).None?
    ensures r.Err? ==> r.error == IllegalState
    ensures r.Ok? ==> && r.value.uriByNsName == m.uriByNsName
                      && |r.value.addedAttributes| == |m.addedAttributes| + 1
                      && r.value.addedAttributes[..|m.addedAttributes|] == m.addedAttributes
    ensures r.Ok? ==> var a := Last(r.value.addedAttributes);
                      && a.uri == (if NonEmpty(prefix) then UriOf(m, prefix.value) else None)
                      && a.localName == Some(localName)
                      && a.qName == GetQName(prefix, localName)
                      && a.attrType == attrType && a.value == value
                      && (NoColon(localName) && (prefix.Some? ==> NoColon(prefix.value)) ==>
                            SplitQName(a.qName) == (if NonEmpty(prefix) then prefix else None, localName))
  {
    var uri :- LookUpPrefix(m, prefix);
    var q := GetQName(prefix, localName);
    QNameSplitsBack(prefix, localName);
    Ok(m.(addedAttributes := m.addedAttributes + [Attribute(uri, Some(localName), q, attrType, value)]))
  }

  /** The as-written attribute carries the prefix, not the local name. */
  lemma AsWrittenLosesLocalName()
    ensures var m := DeclareNamespace(NewMarshaller(), Some("p"), Some("urn:p"));
            && Last(AddAttributeAsWritten(m, Some("p"), "x", "CDATA", Some("1")).value.addedAttributes).localName == Some("p")
            && Last(AddAttribute(m, Some("p"), "x", "CDATA", Some("1")).value.addedAttributes).localName == Some("x")
  {
    var m := DeclareNamespace(NewMarshaller(), Some("p"), Some("urn:p"));
    assert UriOf(m, "p") == Some("urn:p");
  }

  /** The state a call leaves behind and the exception it threw, if any:
      a call that throws half-way keeps the changes it made before. */
  datatype Outcome = Outcome(state: Marshaller, thrown: Option<Exc>)

  /** `addAttribute(namespaceUri, prefix, localName, type, value)` as the
      source writes it: the prefix is declared, then the four-argument
      `addAttribute` as written adds the attribute.  A non-empty prefix with
      a null URI is declared and then throws, so the declaration stays. */
  function AddAttributeDeclaringAsWritten(m: Marshaller, uri: Option<string>, prefix: Option<string>, localName: string,
                                          attrType: string, value: Option<string>): (r: Outcome)
    ensures r.thrown.Some? <==> NonEmpty(prefix) && uri.None?
    ensures r.thrown.Some? ==> r.thrown.value == IllegalState && r.state == DeclareNamespace(m, prefix, uri)
    ensures r.thrown.None? ==>
      && UriOf(r.state, DeclaredName(prefix)) == uri
      && |r.state.addedAttributes| == |m.addedAttributes| + (if UriOf(m, DeclaredName(prefix)).None? then 2 else 1)
      && r.state.addedAttributes[..|m.addedAttributes|] == m.addedAttributes
      && var a := Last(r.state.addedAttributes);
         && a.uri == (if NonEmpty(prefix) then uri else None)
         && a.localName == prefix
         && a.qName == GetQName(prefix, localName)
         && a.attrType == attrType && a.value == value
  {
    var declared := DeclareNamespace(m, prefix, uri);
    match AddAttributeAsWritten(declared, prefix, localName, attrType, value)
    case Ok(m1) => Outcome(m1, None)
    case Err(e) => Outcome(declared, Some(e))
  }

  /** `addAttribute(namespaceUri, prefix, localName, type, value)` with the
      corrected four-argument call: it throws only when a prefix is declared
      with a null URI, after declaring it. */
  function AddAttributeDeclaring(m: Marshaller, uri: Option<string>, prefix: Option<string>, localName: string,
                                 attrType: string, value: Option<string>): (r: Outcome)
    ensures r.thrown.Some? <==> NonEmpty(prefix) && uri.None?
    ensures r.thrown.Some? ==> r.thrown.value == IllegalState && r.state == DeclareNamespace(m, prefix, uri)
    ensures r.thrown.None? ==>
      && UriOf(r.state, DeclaredName(prefix)) == uri
      && |r.state.addedAttributes| == |m.addedAttributes| + (if UriOf(m, DeclaredName(prefix)).None? then 2 else 1)
      && r.state.addedAttributes[..|m.addedAttributes|] == m.addedAttributes
      && var a := Last(r.state.addedAttributes);
         && a.uri == (if NonEmpty(prefix) then uri else None)
         && a.localName == Some(localName)
         && a.qName == GetQName(prefix, localName)
         && a.attrType == attrType && a.value == value
  {
    var declared := DeclareNamespace(m, prefix, uri);
    match AddAttribute(declared, prefix, localName, attrType, value)
    case Ok(m1) => Outcome(m1, None)
    case Err(e) => Outcome(declared, Some(e))
  }

  /** The two versions leave the same state and throw alike, except that the
      attribute as written carries the prefix where the local name belongs. */
  lemma DeclaringAsWrittenDiffers(m: Marshaller, uri: Option<string>, prefix: Option<string>, localName: string,
                                  attrType: string, value: Option<string>)
    ensures var w := AddAttributeDeclaringAsWritten(m, uri, prefix, localName, attrType, value);
            var c := AddAttributeDeclaring(m, uri, prefix, localName, attrType, value);
            && w.thrown == c.thrown
            && (w.thrown.Some? ==> w.state == c.state)
            && (w.thrown.None? ==>
                  var n := |c.state.addedAttributes|;
                  && w.state.uriByNsName == c.state.uriByNsName
                  && w.state.addedAttributes == c.state.addedAttributes[..n - 1] + [c.state.addedAttributes[n - 1].(localName := prefix)])
  {
  }
}
